=== FILE: README.md ===
# GK1 engine and racer: a verified model of the sequential core

GK1-Engine is a small OpenGL engine: a scene graph of transforms, cameras,
lights, meshes, materials and a tessellated terrain, with resource and
loader registries, Wavefront OBJ/MTL loaders and a polled input layer.
GK1-Racer is a racing demo built on an older copy of that engine, with a
chase camera, a fly camera and a Bullet ray-cast vehicle.

This project models the host-side logic of both in Dafny: the pose and
projection caches with their dirty flags, the scene-graph links and its
pre-order draw, the light buckets and their std140 records (section 7.6.2.2
of the OpenGL 4.6 core specification), the registries, the OBJ and MTL line
state machines with vertex de-duplication, texture-slot assignment, terrain
grid generation, input edge detection, the camera controllers and the
vehicle command dispatch. Each class whose fields the C++ updates in place
is a Dafny `class` with those fields; loops are `while`/`for` loops proved
against specification functions, and the properties the code promises are
stated as contracts and lemmas.

How the model stands in for what it cannot compute:

- `float` is `real`, without rounding; vectors are real triples (`Math.Vec3`).
- Matrices and quaternions are symbolic terms (`Math.Mat4`, `Math.Quat`):
  translation, rotation, scaling, perspective, orthographic and look-at are
  free constructors, composition simplifies only the identity laws, and term
  equality stands for glm's `==`.
- Numeric primitives (`exp`, `length`, `normalize`, rotating a vector by a
  quaternion, `glm::decompose`, the Euler basis, the look-at Euler angles,
  float division, whose result for a zero divisor `real` cannot hold)
  are fields of a `Math.Numerics` record passed as a parameter;
  `Numerics.Valid()` states the only facts the proofs use.
- Parsing numbers out of text (`istream >> float`, `>> uint32_t`) is the
  `Scan` record of functions passed to the loaders.
- GL calls are events appended to a `Gl.Gpu` log; loaded textures and
  shaders are opaque handles.
- The visiting order of a `std::unordered_map` is an `order` parameter
  required to list the keys once each (`Seqs.IsOrder`).
- `uint32_t` subtraction of 1 wraps 0 to 0xFFFFFFFF (`ObjFormat.Dec`).
- Inheritance (Camera from Transform, SpotLight from PointLight) is
  composition or a kind tag; members the C++ leaves uninitialised are
  constructor parameters standing for whatever they hold.

Where a header and its source file disagree, the model follows the source
file: the engine's `Transform.h` still declares Euler fields while
`Transform.cpp` keeps a quaternion; the racer's
`RacingCameraController.h:26` declares `UpdateTargetCameraPosition` while
the source file defines `UpdateIdealCameraPosition`.

The engine camera's `LookAt` (`Camera.cpp:96-100`) takes a third argument,
`altUp`, and forwards it to a three-argument `Transform::LookAt` that
`Transform.h:19` declares but whose body (`Transform.cpp:109` onwards) is
commented out. Both `Cameras.Camera.LookAt` and `Transforms.Transform.LookAt`
therefore follow the live two-argument `Transform::LookAt`
(`Transform.cpp:101-107`), and `altUp` is dropped.

## Model

| member | source | states |
|---|---|---|
| SceneGraph.SceneNode.constructor | GK1-Engine/src/Engine/Objects/SceneNode.cpp:3-6 | a new node holds the given object and has no parent and no children |
| SceneGraph.SceneNode.RemoveChild | GK1-Engine/src/Engine/Objects/SceneNode.cpp:17-24 | a listed child has its first occurrence erased and its parent cleared; an unlisted one changes nothing; afterwards the child is not listed and every parent/child link is still mutual |
| SceneGraph.SceneNode.AddChild | GK1-Engine/src/Engine/Objects/SceneNode.cpp:8-15 | re-parenting: the child leaves its old parent's list, appears exactly once at the end of this node's list and points back to this node; of the old parent only the child list changes; the tree stays consistently linked |
| SceneGraph.SceneNode.Attach | GK1-Engine/src/Engine/Objects/SceneNode.cpp:13-14 | a parentless child is appended once and points back to its new parent |
| SceneGraph.SceneNode.GetWorldMatrix | GK1-Engine/src/Engine/Objects/SceneNode.cpp:26-32 | the result is the parent's world matrix times the own model matrix when both a parent and an object exist, the identity otherwise |
| SceneGraph.SceneNode.DrawOwnObject | GK1-Engine/src/Engine/Objects/SceneNode.cpp:36-40 | the object receives the node's world matrix and exactly one draw of it is emitted |
| SceneGraph.SceneNode.Draw | GK1-Engine/src/Engine/Objects/SceneNode.cpp:34-45 | the emitted draws are the pre-order trace of the subtree: own object first, then each child's subtree in list order |
| SceneGraph.SceneNode.DrawChildren | GK1-Engine/src/Engine/Objects/SceneNode.cpp:42-44 | the children's subtrees are drawn in list order |
| SceneGraph.SceneNode.DrawChild | GK1-Engine/src/Engine/Objects/SceneNode.cpp:43 | one loop step extends the trace by the next child's subtree |
| SceneGraph.SetObjectWorld | GK1-Engine/src/Engine/Objects/SceneNode.cpp:38 | the object's world matrix becomes the given one and the tree snapshot is unchanged |
| SceneGraph.UnlinkKeepsLinked | GK1-Engine/src/Engine/Objects/SceneNode.cpp:19-22 | erasing a child and clearing its parent keeps every link mutual and leaves the child unlisted |
| SceneGraph.LinkKeepsLinked | GK1-Engine/src/Engine/Objects/SceneNode.cpp:13-14 | appending a parentless child keeps every link mutual and lists the child once |
| SceneGraph.WorldFuel | GK1-Engine/src/Engine/Objects/SceneNode.cpp:26-32 | the world matrix does not depend on how deep the recursion is allowed to go once it is defined |
| SceneGraph.SelfChildUnbounded | GK1-Engine/src/Engine/Objects/SceneNode.cpp:42-44 | a node that lists itself as a child has no finite draw depth |
| Scenes.Scene.constructor | GK1-Engine/src/Engine/Scene.cpp:3 | a scene starts with an object-less, childless root and no camera |
| Scenes.Scene.SetCamera | GK1-Engine/src/Engine/Scene.cpp:5-7 | the camera is replaced |
| Scenes.Scene.GetCamera | GK1-Engine/src/Engine/Scene.cpp:9-11 | returns the stored camera |
| Scenes.Scene.GetRoot | GK1-Engine/src/Engine/Scene.cpp:13-15 | returns the root, which has no object and no parent |
| Scenes.Scene.AddObject | GK1-Engine/src/Engine/Scene.cpp:28-37 | a fresh node for the object is appended under the given parent, or under the root when none is given |
| Scenes.Scene.Draw | GK1-Engine/src/Engine/Scene.cpp:17-26 | without a camera nothing is emitted; with one, the view/projection block is uploaded first and then the root's pre-order draw trace follows |
| Scenes.UploadCamera | GK1-Engine/src/Engine/Scene.cpp:20-23 | one camera block holding the camera's current view and projection matrices, in that order |
| Transforms.Transform.constructor | GK1-Engine/src/Engine/Transform.cpp:8-19 | the local and world poses are the identity pose, both matrices the identity, the cache marked stale |
| Transforms.Transform.GetModelMatrix | GK1-Engine/src/Engine/Transform.cpp:87-99 | the result is translation × rotation × scale of the current pose; a clean cache is returned untouched; afterwards the cache is clean and holds the result |
| Transforms.Transform.SetPosition | GK1-Engine/src/Engine/Transform.cpp:50-54 | position replaced, cache marked stale |
| Transforms.Transform.Move | GK1-Engine/src/Engine/Transform.cpp:56-60 | position offset by the argument, cache marked stale |
| Transforms.Transform.SetRotation | GK1-Engine/src/Engine/Transform.cpp:67-72 | orientation becomes the quaternion of the Euler angles, cache marked stale |
| Transforms.Transform.Rotate | GK1-Engine/src/Engine/Transform.cpp:74-80 | orientation is pre-multiplied by the delta quaternion, cache marked stale |
| Transforms.Transform.LookAt | GK1-Engine/src/Engine/Transform.cpp:101-107 | orientation becomes the look-at quaternion of the normalised direction to the target, cache marked stale |
| Transforms.Transform.SetScale | GK1-Engine/src/Engine/Transform.cpp:149-153 | scale replaced, cache marked stale |
| Transforms.Transform.Scale | GK1-Engine/src/Engine/Transform.cpp:155-159 | scale multiplied component-wise, cache marked stale |
| Transforms.Transform.SetOrientation | GK1-Engine/src/Engine/Transform.cpp:228-232 | orientation becomes the normalised quaternion, cache marked stale |
| Transforms.Transform.SetOrientationFromAxes | GK1-Engine/src/Engine/Transform.cpp:239-251 | orientation becomes the quaternion of the frame built from forward and up as given (not made orthonormal), cache marked stale |
| Transforms.Transform.SetModelMatrix | GK1-Engine/src/Engine/Transform.cpp:204-212 | an argument equal to the cached matrix changes nothing, even when the cache is stale; otherwise the matrix is stored and the local pose becomes its decomposition |
| Transforms.Transform.SetModelMatrixChecked | GK1-Engine/src/Engine/Transform.cpp:204-212 | corrected guard: afterwards the pose denotes the argument or is its decomposition |
| Transforms.Transform.SetWorldMatrix | GK1-Engine/src/Engine/Transform.cpp:219-226 | the world matrix becomes the argument; the world pose is its decomposition when it differed and is unchanged otherwise; world pose and matrix stay consistent |
| Transforms.Transform.ApplyTransformations | GK1-Engine/src/Engine/Transform.cpp:25-28 | the world matrix is the given parent transform times the local model matrix and the world pose is its decomposition |
| Transforms.StaleCacheSwallowsReset | GK1-Engine/src/Engine/Transform.cpp:206 | a moved fresh transform reset with the identity matrix keeps its offset: the equality guard compares against a stale cache |
| Transforms.CheckedResetApplies | GK1-Engine/src/Engine/Transform.cpp:204-212 | with the corrected guard the same reset yields the identity pose |
| Cameras.OrthoBounds | GK1-Engine/src/Engine/Objects/Camera.cpp:140-143 | the orthographic box is symmetric about the view axis, size × aspect wide and size high |
| Cameras.Camera.constructor | GK1-Engine/src/Engine/Objects/Camera.cpp:7-19 | 45 degrees, aspect 16/9, planes 0.1 and 1000, ortho size 50, perspective, identity matrices with both dirty flags set, over an identity transform |
| Cameras.Camera.GetViewMatrix | GK1-Engine/src/Engine/Objects/Camera.cpp:31-39 | the result is the view of the current pose; a clean cache is returned untouched; afterwards the view cache is clean |
| Cameras.Camera.GetProjectionMatrix | GK1-Engine/src/Engine/Objects/Camera.cpp:130-149 | the result is the perspective or the orthographic matrix according to the projection type; a clean cache is returned untouched; afterwards the cache is clean |
| Cameras.Camera.SetPerspective | GK1-Engine/src/Engine/Objects/Camera.cpp:41-49 | switches to perspective with the given parameters and marks the projection stale |
| Cameras.Camera.SetOrthographic | GK1-Engine/src/Engine/Objects/Camera.cpp:51-58 | switches to orthographic with the given size and planes and marks the projection stale |
| Cameras.Camera.SetFov | GK1-Engine/src/Engine/Objects/Camera.cpp:60-64 | field of view replaced, projection marked stale |
| Cameras.Camera.SetViewportSize | GK1-Engine/src/Engine/Objects/Camera.cpp:66-70 | any size is accepted, a zero height included; the aspect ratio is the float quotient width / height, which for a positive height times the height gives the width; projection marked stale |
| Cameras.Camera.SetPosition | GK1-Engine/src/Engine/Objects/Camera.cpp:72-76 | the transform's position is replaced and the view marked stale, so the view cache stays valid |
| Cameras.Camera.Move | GK1-Engine/src/Engine/Objects/Camera.cpp:78-82 | the position is offset and the view marked stale |
| Cameras.Camera.SetRotation | GK1-Engine/src/Engine/Objects/Camera.cpp:84-88 | orientation from Euler angles, view marked stale |
| Cameras.Camera.Rotate | GK1-Engine/src/Engine/Objects/Camera.cpp:90-94 | orientation pre-multiplied by the delta, view marked stale |
| Cameras.Camera.LookAt | GK1-Engine/src/Engine/Objects/Camera.cpp:96-100 | orientation faces the target as the two-argument Transform::LookAt computes it (`altUp` dropped), view marked stale |
| Cameras.Camera.SetScale | GK1-Engine/include/Engine/Objects/Camera.h:27 | a camera ignores SetScale: the scale is unchanged |
| Cameras.Camera.Scale | GK1-Engine/include/Engine/Objects/Camera.h:28 | a camera ignores Scale: the scale is unchanged |
| Lights.SpotExtendsPoint | GK1-Engine/include/Engine/Objects/Light/SpotLight.h:16-20 | a spot record equals the point record except for its direction, which holds the world forward axis and the focus exponent, where a point record holds zeros |
| Lights.Pack | GK1-Engine/include/Engine/Objects/Light/Light.h:23-28 | a record occupies exactly sixteen floats |
| Lights.PackRoundTrip | GK1-Engine/include/Engine/Objects/Light/Light.h:23-28 | packing a record into its four vec4 slots and reading them back gives the record, and every sixteen floats are the packing of the record read from them |
| Lights.PackFirst | GK1-Engine/src/Engine/Objects/Light/LightManager.cpp:60-66 | n packed records occupy sixteen floats each |
| Lights.PackFirstSlot | GK1-Engine/src/Engine/Objects/Light/LightManager.cpp:60-66 | slot i of the packed array holds, and decodes back to, the i-th record |
| Lights.Light.Point | GK1-Engine/include/Engine/Objects/Light/PointLight.h:12 | a point light holds the given properties and attenuation |
| Lights.Light.Spot | GK1-Engine/include/Engine/Objects/Light/SpotLight.h:7-10 | a spot light holds the given properties, attenuation and focus exponent |
| Lights.Light.Other | GK1-Engine/include/Engine/Objects/Light/Light.h:14 | a light of the base class holds the given properties |
| Lights.Light.SetProperties | GK1-Engine/include/Engine/Objects/Light/Light.h:17 | properties replaced |
| Lights.Light.SetAttenuation | GK1-Engine/include/Engine/Objects/Light/PointLight.h:14 | attenuation replaced |
| Lights.Light.SetFocus | GK1-Engine/include/Engine/Objects/Light/SpotLight.h:12 | the focus exponent is never below 1: an exponent of at least 1 is kept, a smaller one becomes 1 |
| Lights.Records | GK1-Engine/src/Engine/Objects/Light/LightManager.cpp:60-66 | one record per light, in bucket order, each the one FillLightData writes |
| LightManagers.LightManager.constructor | GK1-Engine/src/Engine/Objects/Light/LightManager.cpp:5-13 | both buckets empty; a buffer sized for four point records, four spot records and the counts is allocated and bound to binding point 1 |
| LightManagers.LightManager.AddLight | GK1-Engine/src/Engine/Objects/Light/LightManager.cpp:20-31 | a point or spot light is appended to the point bucket while it has room, anything else is dropped, and the spot bucket never changes; both buckets stay within capacity |
| LightManagers.LightManager.AddLightChecked | GK1-Engine/src/Engine/Objects/Light/LightManager.cpp:20-31 | corrected dispatch: spot lights go to the spot bucket and point lights to the point bucket, each while it has room |
| LightManagers.LightManager.RemoveLight | GK1-Engine/src/Engine/Objects/Light/LightManager.cpp:33-51 | a point or spot light has its first occurrence erased from the point bucket; the spot bucket never changes |
| LightManagers.LightManager.RemoveLightChecked | GK1-Engine/src/Engine/Objects/Light/LightManager.cpp:33-51 | corrected dispatch: each kind is erased from its own bucket |
| LightManagers.LightManager.UpdateLights | GK1-Engine/src/Engine/Objects/Light/LightManager.cpp:53-79 | one upload holding the packed point records, the packed spot records and the counts (points, spots, 0, 0), then a rebind to binding point 1 |
| LightManagers.LightManager.FillRecords | GK1-Engine/src/Engine/Objects/Light/LightManager.cpp:60-66 | the two loops pack each bucket's records in order |
| LightManagers.SpotLightLandsInPointBucket | GK1-Engine/src/Engine/Objects/Light/LightManager.cpp:21-23 | a spot light added to an empty manager ends up in the point bucket and the spot bucket stays empty |
| LightManagers.SpotLightLandsInSpotBucket | GK1-Engine/src/Engine/Objects/Light/LightManager.cpp:26-30 | with the corrected dispatch the same light ends up in the spot bucket |
| LightManagers.SameLightTwice | GK1-Engine/src/Engine/Objects/Light/LightManager.cpp:20-31 | adding one light twice lists it twice: there is no duplicate check |
| LightManagers.UploadedRecord | GK1-Engine/src/Engine/Objects/Light/LightManager.cpp:53-79 | the uploaded array holds sixteen floats per light and slot i decodes to light i's record |
| Resources.Resource.constructor | GK1-Engine/include/Engine/Resource/Resource.h:6 | a resource starts without a name |
| Resources.Resource.SetName | GK1-Engine/include/Engine/Resource/Resource.h:13-16 | the resource's name is replaced |
| Resources.Inserted | GK1-Engine/include/Engine/ResourceManager.h:22-30 | after insertion the name is stored under the type and maps to the resource |
| Resources.Erased | GK1-Engine/include/Engine/ResourceManager.h:95-102 | after erasure the name is no longer stored under the type |
| Resources.Lookup | GK1-Engine/include/Engine/ResourceManager.h:43-63 | succeeds exactly when the name is stored under the type, with the stored resource; an unknown type fails with the no-resources-of-type error, an unknown name with the not-found error |
| Resources.ResourceManager.constructor | GK1-Engine/include/Engine/ResourceManager.h:118 | the registry starts empty |
| Resources.ResourceManager.Add | GK1-Engine/include/Engine/ResourceManager.h:19-31 | a name already stored under the type fails with already-exists and changes nothing; otherwise the resource is stored |
| Resources.ResourceManager.Create | GK1-Engine/include/Engine/ResourceManager.h:33-41 | a fresh resource carrying the name is stored and returned, unless the name is taken, which fails with already-exists and changes nothing |
| Resources.ResourceManager.Load | GK1-Engine/include/Engine/ResourceManager.h:43-63 | the result is the lookup, with its two error cases |
| Resources.ResourceManager.TryLoad | GK1-Engine/include/Engine/ResourceManager.h:65-76 | the stored resource when the lookup succeeds, null whenever it fails |
| Resources.ResourceManager.Exists | GK1-Engine/include/Engine/ResourceManager.h:78-90 | true exactly when the name is stored under the type, that is, exactly when Load would succeed |
| Resources.ResourceManager.Remove | GK1-Engine/include/Engine/ResourceManager.h:92-103 | true exactly when the name was stored; afterwards it is not stored and nothing else changes |
| Resources.ResourceManager.ClearType | GK1-Engine/include/Engine/ResourceManager.h:105-110 | the type's whole map is dropped and the other types are kept |
| Resources.ResourceManager.ClearAll | GK1-Engine/include/Engine/ResourceManager.h:112-115 | the registry becomes empty |
| Resources.AddedLoads | GK1-Engine/include/Engine/ResourceManager.h:19-63 | after adding, loading that name under that type returns the added resource, and every other lookup keeps its outcome |
| Resources.SameNameDifferentTypes | GK1-Engine/include/Engine/ResourceManager.h:22-23 | the same name can be stored under two types, and each type returns its own resource |
| Resources.RemovedLoads | GK1-Engine/include/Engine/ResourceManager.h:92-103 | after removal, loading the name fails while other names and types load as before |
| Resources.ClearedLoads | GK1-Engine/include/Engine/ResourceManager.h:105-115 | after clearing a type, loading under it fails with no-resources-of-type, other types are unaffected, and an empty registry has no types |
| LoaderFactories.Loader.constructor | GK1-Engine/include/Engine/Loader/LoaderFactory.h:30 | a loader remembers the creator that made it |
| LoaderFactories.Segments | GK1-Engine/include/Engine/Loader/LoaderFactory.h:16-21 | the pieces getline yields with ';' as delimiter: none exactly for the empty string |
| LoaderFactories.Delimiter | GK1-Engine/include/Engine/Loader/LoaderFactory.h:18 | the position of the first ';', or the length when there is none |
| LoaderFactories.JoinSegments | GK1-Engine/include/Engine/Loader/LoaderFactory.h:16-21 | joining the pieces with ';' and adding back a dropped trailing delimiter gives the original string |
| LoaderFactories.SegmentsJoin | GK1-Engine/include/Engine/Loader/LoaderFactory.h:16-21 | splitting the ';'-join of pieces without ';' whose last piece is non-empty gives back the pieces |
| LoaderFactories.RegisterAllEffect | GK1-Engine/include/Engine/Loader/LoaderFactory.h:18-21 | after registration, every piece maps to the creator and every other extension keeps its creator |
| LoaderFactories.LoaderFactory.constructor | GK1-Engine/include/Engine/Loader/LoaderFactory.h:37-41 | the registry starts empty |
| LoaderFactories.LoaderFactory.RegisterLoader | GK1-Engine/include/Engine/Loader/LoaderFactory.h:13-22 | every ';'-separated piece of the extension list, in order, is mapped to the creator |
| LoaderFactories.LoaderFactory.CreateLoader | GK1-Engine/include/Engine/Loader/LoaderFactory.h:24-33 | an unregistered extension yields null; a registered one yields a fresh loader from its creator |
| LoaderFactories.Reregistered | GK1-Engine/include/Engine/Loader/LoaderFactory.h:20 | registering an extension again replaces its creator: the later registration wins |
| LoaderFactories.EmptyPieceKept | GK1-Engine/include/Engine/Loader/LoaderFactory.h:18-21 | a doubled ';' registers the empty extension |
| LoaderFactories.TrailingDelimiterDropped | GK1-Engine/include/Engine/Loader/LoaderFactory.h:18-21 | a trailing ';' adds no empty extension |
| ObjFormat.Dec | GK1-Engine/src/Engine/Loader/Model/OBJLoader.cpp:324-327 | the 1-based to 0-based conversion on uint32_t: positive indices drop by one, 0 wraps to 4294967295 |
| ObjFormat.FaceCorners | GK1-Engine/src/Engine/Loader/Model/OBJLoader.cpp:316-328 | one corner per word after the keyword, in order, each read from the word with '/' turned into spaces |
| ObjFormat.PositionsOf | GK1-Engine/src/Engine/Loader/Model/OBJLoader.cpp:325 | the position index of each corner, in order |
| ObjFormat.UvsOf | GK1-Engine/src/Engine/Loader/Model/OBJLoader.cpp:326 | the texture-coordinate index of each corner, in order |
| ObjFormat.NormalsOf | GK1-Engine/src/Engine/Loader/Model/OBJLoader.cpp:327 | the normal index of each corner, in order |
| ObjFormat.ParseFace | GK1-Engine/src/Engine/Loader/Model/OBJLoader.cpp:307-329 | the three index lists are extended by the face's corners, in order and by the same count |
| ObjFormat.UvAt | GK1-Engine/src/Engine/Loader/Model/OBJLoader.cpp:173 | a texture coordinate in range is read, one out of range gives (0, 0) |
| EngineObj.AddCorners | GK1-Engine/src/Engine/Loader/Model/OBJLoader.cpp:69-74 | a face extends the group's index lists in lockstep and keeps its material |
| EngineObj.SwitchGroup | GK1-Engine/src/Engine/Loader/Model/OBJLoader.cpp:75-86 | switching groups keeps the current group in the table |
| EngineObj.UseMaterial | GK1-Engine/src/Engine/Loader/Model/OBJLoader.cpp:103-114 | a material switch keeps the current group in the table |
| EngineObj.Step | GK1-Engine/src/Engine/Loader/Model/OBJLoader.cpp:55-115 | one line keeps the state well-formed: the current group exists and every group's lists are in lockstep |
| EngineObj.RunFirst | GK1-Engine/src/Engine/Loader/Model/OBJLoader.cpp:49-115 | the as-written line loop, folding Step: the state after any number of lines is well-formed |
| EngineObj.RunFirstChecked | GK1-Engine/src/Engine/Loader/Model/OBJLoader.cpp:49-115 | the same loop with the corrected `usemtl` (StepChecked), the corrected half of the `usemtl` finding; the state stays well-formed |
| EngineObj.UnknownLineIgnored | GK1-Engine/src/Engine/Loader/Model/OBJLoader.cpp:60-114 | a line with any other keyword changes nothing |
| EngineObj.GroupLine | GK1-Engine/src/Engine/Loader/Model/OBJLoader.cpp:75-86 | `g`/`o` without a name changes nothing; with a name it becomes current, and a new name gets an empty group with the current material while an existing one is kept as it is |
| EngineObj.MaterialLine | GK1-Engine/src/Engine/Loader/Model/OBJLoader.cpp:103-114 | `usemtl` sets the current material; a group with faces and a different material is continued in a group named group_material that is reset to empty; otherwise the current group takes the material |
| EngineObj.FaceLine | GK1-Engine/src/Engine/Loader/Model/OBJLoader.cpp:69-74 | `f` appends the face's corners to the current group only |
| EngineObj.UsemtlDropsFaces | GK1-Engine/src/Engine/Loader/Model/OBJLoader.cpp:109-111 | switching back to a material whose split group already holds faces erases those faces |
| EngineObj.UseMaterialChecked | GK1-Engine/src/Engine/Loader/Model/OBJLoader.cpp:103-114 | corrected material switch: keeps the state well-formed |
| EngineObj.MaterialLineChecked | GK1-Engine/src/Engine/Loader/Model/OBJLoader.cpp:103-114 | corrected `usemtl`: as before, but an existing split group is continued rather than reset |
| EngineObj.StepChecked | GK1-Engine/src/Engine/Loader/Model/OBJLoader.cpp:55-115 | the corrected line step keeps the state well-formed |
| EngineObj.StepCheckedKeepsFaces | GK1-Engine/src/Engine/Loader/Model/OBJLoader.cpp:55-115 | no corrected line step loses a face already gathered |
| EngineObj.RunKeepsFaces | GK1-Engine/src/Engine/Loader/Model/OBJLoader.cpp:55-115 | with the corrected step, every face gathered after m lines is still there after n ≥ m lines |
| EngineObj.DedupKeys | GK1-Engine/src/Engine/Loader/Model/OBJLoader.cpp:176-184 | the de-duplication table maps exactly the position indices seen so far, each to the number of distinct indices before its first occurrence |
| EngineObj.DedupIndices | GK1-Engine/src/Engine/Loader/Model/OBJLoader.cpp:186-187 | one index per corner, the table's entry for the corner's position index |
| EngineObj.DedupVertices | GK1-Engine/src/Engine/Loader/Model/OBJLoader.cpp:180-184 | one vertex per distinct position index, built from the first corner that used it |
| EngineObj.DedupByPosition | GK1-Engine/src/Engine/Loader/Model/OBJLoader.cpp:158-188 | every index points to a vertex with the corner's position and the first such corner's texture coordinate; two corners share a vertex exactly when they share a position index; every vertex is used |
| EngineObj.DedupCorners | GK1-Engine/src/Engine/Loader/Model/OBJLoader.cpp:158-188 | every index in range points to a vertex at the corner's position |
| EngineObj.DedupShared | GK1-Engine/src/Engine/Loader/Model/OBJLoader.cpp:177-186 | two corners share an index exactly when their position indices are equal |
| EngineObj.DedupAllUsed | GK1-Engine/src/Engine/Loader/Model/OBJLoader.cpp:180-187 | every vertex created is referenced by some index |
| EngineObj.FaceNormalBranchDead | GK1-Engine/src/Engine/Loader/Model/OBJLoader.cpp:190-207 | a group with a triangle always has normal indices, so the face-normal branch never runs, and without normals the other branch reads out of range |
| EngineObj.NoVnNoNormals | GK1-Engine/src/Engine/Loader/Model/OBJLoader.cpp:66-68 | a file without `vn` lines loads no normals |
| EngineObj.OnlyVnAddsNormals | GK1-Engine/src/Engine/Loader/Model/OBJLoader.cpp:66-68 | only a `vn` line changes the normals |
| EngineObj.NoVnUnprocessable | GK1-Engine/src/Engine/Loader/Model/OBJLoader.cpp:208-222 | a file without `vn` lines and with a triangle makes ProcessMeshData index the empty normal array |
| EngineObj.TriangleNormalChecked | GK1-Engine/src/Engine/Loader/Model/OBJLoader.cpp:190-223 | corrected normal choice: the face normal when no normals were loaded, otherwise the normal the source reads |
| EngineObj.NormalsFirst | GK1-Engine/src/Engine/Loader/Model/OBJLoader.cpp:190-223 | one normal per triangle, each the corrected choice |
| EngineObj.AddCorner | GK1-Engine/src/Engine/Loader/Model/OBJLoader.cpp:165-187 | one corner step extends the de-duplication by that corner |
| EngineObj.AddTriangleCorners | GK1-Engine/src/Engine/Loader/Model/OBJLoader.cpp:160-188 | the inner loop adds the triangle's three corners and returns their indices |
| EngineObj.TriangleCorners | GK1-Engine/src/Engine/Loader/Model/OBJLoader.cpp:160-188 | the triangle's three indices point to vertices at its corners' positions |
| EngineObj.AddTriangle | GK1-Engine/src/Engine/Loader/Model/OBJLoader.cpp:158-224 | one outer step adds a triangle's corners and its normal |
| EngineObj.ProcessMeshData | GK1-Engine/src/Engine/Loader/Model/OBJLoader.cpp:142-236 | the loops compute the de-duplicated vertices and indices and the per-triangle normals of the group; each normal is the one the source reads whenever that read is in range (the face normal otherwise, see "Left out") |
| EngineObj.LoadedSnoc | GK1-Engine/src/Engine/Loader/Model/OBJLoader.cpp:87-102 | each `mtllib` appends that library's materials after the earlier ones |
| EngineObj.MaterialNames | GK1-Engine/src/Engine/Loader/Model/OBJLoader.cpp:128 | the name of each material, in order |
| EngineObj.FirstMaterial | GK1-Engine/src/Engine/Loader/Model/OBJLoader.cpp:125-132 | null exactly when no material has the name; otherwise the first material with it |
| EngineObj.FacedFirst | GK1-Engine/src/Engine/Loader/Model/OBJLoader.cpp:118-119 | only groups with faces are processed |
| EngineObj.FacedFirstExact | GK1-Engine/src/Engine/Loader/Model/OBJLoader.cpp:118-119 | every visited group with faces is processed, once, and nothing else is |
| EngineObj.GroupMesh | GK1-Engine/src/Engine/Loader/Model/OBJLoader.cpp:121-133 | a group's mesh is named after it, has one index per corner, and gets the first material with its material's name, or null for no material |
| EngineObj.MeshesFirstStep | GK1-Engine/src/Engine/Loader/Model/OBJLoader.cpp:118-136 | one iteration appends the mesh of a group with faces, nothing for one without |
| EngineObj.LoadedMeshesAreGroupsWithFaces | GK1-Engine/src/Engine/Loader/Model/OBJLoader.cpp:118-136 | whatever order the groups are visited in, the meshes are exactly the groups with faces, one each, with distinct names |
| EngineObj.FindMaterial | GK1-Engine/src/Engine/Loader/Model/OBJLoader.cpp:125-132 | the search returns the first material with the name |
| EngineObj.ObjLoader.constructor | GK1-Engine/include/Engine/Loader/Model/OBJLoader.h:46 | a loader starts with no materials |
| EngineObj.ObjLoader.ApplyLine | GK1-Engine/src/Engine/Loader/Model/OBJLoader.cpp:56-114 | one line advances the state as the as-written Step does (a split `usemtl` always installs an empty `<group>_<material>` group), and an `mtllib` line appends the library's materials to the loader |
| EngineObj.ObjLoader.ReadLines | GK1-Engine/src/Engine/Loader/Model/OBJLoader.cpp:54-115 | the line loop computes the as-written state of the whole file (RunFirst, faces lost to a repeated split included) and the loader gains the materials of its libraries in order |
| EngineObj.ObjLoader.ProcessGroups | GK1-Engine/src/Engine/Loader/Model/OBJLoader.cpp:117-136 | the group loop yields the meshes of the groups with faces in visiting order |
| EngineObj.ObjLoader.ProcessGroup | GK1-Engine/src/Engine/Loader/Model/OBJLoader.cpp:118-136 | one group iteration |
| EngineObj.ObjLoader.LoadOBJ | GK1-Engine/src/Engine/Loader/Model/OBJLoader.cpp:34-140 | a file that cannot be opened fails with "Failed to open file: " + path and loads no materials; otherwise it succeeds with one mesh per group with faces of the as-written run |
| EngineObj.ObjLoader.Load | GK1-Engine/src/Engine/Loader/Model/OBJLoader.cpp:12-32 | null exactly when the file cannot be opened; otherwise a fresh model with one mesh per mesh data of the as-written LoadOBJ, a fresh default material standing in for a missing one |
| EngineObj.BuildModel | GK1-Engine/src/Engine/Loader/Model/OBJLoader.cpp:22-29 | one mesh per mesh data, in order, each with a fresh default material when the data has none |
| EngineObj.AddBuilt | GK1-Engine/src/Engine/Loader/Model/OBJLoader.cpp:23-28 | one mesh built from its data is appended |
| RacerObj.Read | GK1-Racer/src/engine/loader/model/OBJLoader.cpp:50-76 | a line fails exactly when its keyword is none of v, vt, vn, f and #, with the error "Invalid parameter: " + keyword; a successful line keeps the index lists in lockstep |
| RacerObj.ReadFirst | GK1-Racer/src/engine/loader/model/OBJLoader.cpp:47-77 | a successful read of any prefix keeps the index lists in lockstep |
| RacerObj.FirstUnknown | GK1-Racer/src/engine/loader/model/OBJLoader.cpp:70-76 | the position of the first line with an unknown keyword, or n when there is none |
| RacerObj.ReadFailsAtFirstUnknown | GK1-Racer/src/engine/loader/model/OBJLoader.cpp:47-77 | reading fails exactly when some line has an unknown keyword, and the error names the first such keyword |
| RacerObj.EmptyLineFails | GK1-Racer/src/engine/loader/model/OBJLoader.cpp:70-76 | a blank line is rejected: its empty keyword is unknown |
| RacerObj.ReadAfterFailure | GK1-Racer/src/engine/loader/model/OBJLoader.cpp:72-75 | once a line fails, the lines after it are not read |
| RacerObj.NormalAt | GK1-Racer/src/engine/loader/model/OBJLoader.cpp:95 | a normal index in range is read, one out of range gives (0, 1, 0) |
| RacerObj.DedupFirst | GK1-Racer/src/engine/loader/model/OBJLoader.cpp:83-112 | one index per corner, every index and table entry names a vertex |
| RacerObj.DedupKeysHold | GK1-Racer/src/engine/loader/model/OBJLoader.cpp:98-108 | each (position, uv, normal) triple in the table maps to the vertex built from it |
| RacerObj.DedupKeysInjective | GK1-Racer/src/engine/loader/model/OBJLoader.cpp:103-108 | different triples map to different vertices |
| RacerObj.DedupIndicesKeyed | GK1-Racer/src/engine/loader/model/OBJLoader.cpp:111 | each corner's index is the table entry of its triple |
| RacerObj.DedupByTriple | GK1-Racer/src/engine/loader/model/OBJLoader.cpp:83-112 | every index points to the vertex built from the corner's triple; two corners share a vertex exactly when their triples are equal; every vertex is used |
| RacerObj.DedupAllUsed | GK1-Racer/src/engine/loader/model/OBJLoader.cpp:103-111 | every vertex created is referenced by some index |
| RacerObj.TangentsFirst | GK1-Racer/src/engine/loader/model/OBJLoader.cpp:123-150 | the tangent loop keeps the vertex count |
| RacerObj.WriteTriangle | GK1-Racer/src/engine/loader/model/OBJLoader.cpp:148-149 | one triangle's frame write keeps the vertex count |
| RacerObj.WriteTriangleAt | GK1-Racer/src/engine/loader/model/OBJLoader.cpp:148-149 | the triangle's corners get its tangent and bitangent, the other vertices are untouched |
| RacerObj.LastUse | GK1-Racer/src/engine/loader/model/OBJLoader.cpp:123-150 | the last triangle before t that uses a vertex, or -1 |
| RacerObj.TangentsKeepSurface | GK1-Racer/src/engine/loader/model/OBJLoader.cpp:123-150 | the tangent pass changes only tangents and bitangents |
| RacerObj.TriangleFrameSurface | GK1-Racer/src/engine/loader/model/OBJLoader.cpp:125-146 | a triangle's frame depends only on positions and texture coordinates |
| RacerObj.LastTriangleWins | GK1-Racer/src/engine/loader/model/OBJLoader.cpp:148-149 | a shared vertex keeps the frame of the last triangle that uses it: frames are overwritten, not accumulated |
| RacerObj.UsedVertexFramed | GK1-Racer/src/engine/loader/model/OBJLoader.cpp:123-150 | every vertex a corner uses is framed by a triangle at or after that corner's |
| RacerObj.CalculateTangents | GK1-Racer/src/engine/loader/model/OBJLoader.cpp:121-151 | the loop computes the frame pass over all triangles |
| RacerObj.FrameTriangle | GK1-Racer/src/engine/loader/model/OBJLoader.cpp:125-149 | one iteration writes the frame of the vertices as they stand |
| RacerObj.Build | GK1-Racer/src/engine/loader/model/OBJLoader.cpp:79-115 | one index per corner, each naming a vertex |
| RacerObj.BuiltVertexFramed | GK1-Racer/src/engine/loader/model/OBJLoader.cpp:114-115 | every vertex of the result carries the frame of the last triangle using it |
| RacerObj.Deduplicate | GK1-Racer/src/engine/loader/model/OBJLoader.cpp:79-112 | the loop computes the triple de-duplication |
| RacerObj.ReadLines | GK1-Racer/src/engine/loader/model/OBJLoader.cpp:47-77 | the line loop computes the read of the whole file, stopping at the first unknown keyword |
| RacerObj.ReadLine | GK1-Racer/src/engine/loader/model/OBJLoader.cpp:50-76 | one loop iteration |
| RacerObj.LoadOBJ | GK1-Racer/src/engine/loader/model/OBJLoader.cpp:30-119 | a file that cannot be opened fails with "Failed to open file: " + path; a bad keyword fails with its error; otherwise the de-duplicated, framed mesh |
| RacerObj.Model.constructor | GK1-Racer/src/engine/resource/Model.cpp:7-9 | a model starts without mesh components |
| RacerObj.Model.AddMeshComponent | GK1-Racer/src/engine/resource/Model.cpp:50-53 | the component is appended |
| RacerObj.Load | GK1-Racer/src/engine/loader/model/OBJLoader.cpp:8-28 | null exactly when LoadOBJ fails; otherwise a fresh model with one component holding the mesh and a fresh default material |
| MtlLoader.TextureKind | GK1-Engine/src/Engine/Loader/MTLLoader.cpp:87-134 | both map_Kn and norm name the normal map, and nothing else does |
| MtlLoader.TexturePath | GK1-Engine/src/Engine/Loader/MTLLoader.cpp:160-168 | an absolute texture path is kept as it is, and a file without a directory part leaves the path unchanged |
| MtlLoader.AddTo | GK1-Engine/src/Engine/Resource/Material.cpp:73-76 | the texture is appended to its type's list and the other types are unchanged |
| MtlLoader.Flushed | GK1-Engine/src/Engine/Loader/MTLLoader.cpp:58-59 | storing the pending properties keeps the set of materials |
| MtlLoader.Step | GK1-Engine/src/Engine/Loader/MTLLoader.cpp:48-135 | one line keeps the state well-formed: once a material is started it is in the table |
| MtlLoader.RunFirst | GK1-Engine/src/Engine/Loader/MTLLoader.cpp:43-135 | the state after any number of lines is well-formed |
| MtlLoader.SkippedLineIgnored | GK1-Engine/src/Engine/Loader/MTLLoader.cpp:49 | an empty line or one starting with '#' changes nothing |
| MtlLoader.BeforeFirstMaterial | GK1-Engine/src/Engine/Loader/MTLLoader.cpp:67-70 | lines before the first `newmtl` are ignored |
| MtlLoader.NewMaterialLine | GK1-Engine/src/Engine/Loader/MTLLoader.cpp:56-66 | `newmtl` stores the pending properties in the previous material, starts a fresh material with default properties under the name (replacing one of the same name), and leaves the others unchanged |
| MtlLoader.PropertyLine | GK1-Engine/src/Engine/Loader/MTLLoader.cpp:71-86 | Ka, Kd, Ks and Ns update only the matching pending property |
| MtlLoader.TextureLine | GK1-Engine/src/Engine/Loader/MTLLoader.cpp:87-134 | a texture line appends the texture loaded from the joined path to the current material's list of that type; an empty path or a failed load changes nothing |
| MtlLoader.ReadLine | GK1-Engine/src/Engine/Loader/MTLLoader.cpp:48-135 | one loop iteration over the material objects tracks Step |
| MtlLoader.StartMaterial | GK1-Engine/src/Engine/Loader/MTLLoader.cpp:56-66 | a fresh material object under the new name, default pending properties, the previous one flushed |
| MtlLoader.FlushCurrent | GK1-Engine/src/Engine/Loader/MTLLoader.cpp:58-59 | the current material receives the pending properties |
| MtlLoader.MirrorsStore | GK1-Engine/src/Engine/Loader/MTLLoader.cpp:65 | storing a material object and its entry under the same name keeps them in step |
| MtlLoader.AttachTexture | GK1-Engine/src/Engine/Loader/MTLLoader.cpp:95 | the texture is added to the current material only |
| MtlLoader.LoadMTL | GK1-Engine/src/Engine/Loader/MTLLoader.cpp:33-142 | a file that cannot be opened fails with "Failed to open MTL file: " + path; otherwise distinct fresh materials whose names, properties and textures are those the line state machine computes, the last one flushed |
| MtlLoader.Load | GK1-Engine/src/Engine/Loader/MTLLoader.cpp:8-31 | no materials for an unreadable file; otherwise every material of the file once, in map order, as LoadMTL built it |
| MtlLoader.InOrder | GK1-Engine/src/Engine/Loader/MTLLoader.cpp:25-28 | the table's materials in the given visiting order, without repeats |
| Materials.TypeBindings | GK1-Engine/src/Engine/Resource/Material.cpp:102-133 | the k-th texture of a type is bound to slot start + k and its sampler uniform gets suffix k |
| Materials.AssignFirst | GK1-Engine/src/Engine/Resource/Material.cpp:96-134 | the types visited so far produce one binding per stored texture |
| Materials.AssignFirstSlots | GK1-Engine/src/Engine/Resource/Material.cpp:96-134 | slots are consecutive from 0, and each binding is a stored texture of a visited type at its list position |
| Materials.AssignFirstDistinct | GK1-Engine/src/Engine/Resource/Material.cpp:96-134 | no texture position is bound twice |
| Materials.AssignFirstComplete | GK1-Engine/src/Engine/Resource/Material.cpp:96-134 | every stored texture of a visited type is bound |
| Materials.BindAssignsEveryTextureOnce | GK1-Engine/src/Engine/Resource/Material.cpp:96-134 | whatever order the hash map is iterated in, slots run 0, 1, 2, … and every stored texture is bound exactly once, with its type's counter as uniform suffix |
| Materials.TraceAppend | GK1-Engine/src/Engine/Resource/Material.cpp:98-134 | the event trace of consecutive bindings is the concatenation of their traces |
| Materials.Material.constructor | GK1-Engine/src/Engine/Resource/Material.cpp:49-52 | no name, the built-in default shader, no textures, default properties |
| Materials.Material.WithShader | GK1-Engine/src/Engine/Resource/Material.cpp:54-57 | as the default constructor, then the given shader replaces the built-in one |
| Materials.Material.SetShader | GK1-Engine/src/Engine/Resource/Material.cpp:63-66 | the shader is replaced |
| Materials.Material.SetProperties | GK1-Engine/src/Engine/Resource/Material.cpp:78-81 | the properties are replaced |
| Materials.Material.GetTextures | GK1-Engine/src/Engine/Resource/Material.cpp:158-166 | the stored list of a type, or the empty list for a type never set |
| Materials.Material.SetTextures | GK1-Engine/src/Engine/Resource/Material.cpp:68-71 | the type's list is replaced and other types are unchanged |
| Materials.Material.AddTexture | GK1-Engine/src/Engine/Resource/Material.cpp:73-76 | the texture is appended to its type's list, creating it when absent; other types are unchanged |
| Materials.Material.Bind | GK1-Engine/src/Engine/Resource/Material.cpp:83-135 | without a shader nothing happens; otherwise the program is used, the four properties are set, then every texture is bound in the assigned slot order |
| Materials.Material.Unbind | GK1-Engine/src/Engine/Resource/Material.cpp:137-156 | every texture is unbound in visiting order, then the program is reset only when a shader is set |
| Materials.EmitProperties | GK1-Engine/src/Engine/Resource/Material.cpp:87-93 | program use followed by the ambient, diffuse, specular and shininess uniforms |
| Materials.BindTextures | GK1-Engine/src/Engine/Resource/Material.cpp:96-134 | the outer loop emits the trace of the slot assignment |
| Materials.BindType | GK1-Engine/src/Engine/Resource/Material.cpp:98-134 | one outer iteration extends the trace by the next type's bindings and advances the slot by their count |
| Materials.UnbindTextures | GK1-Engine/src/Engine/Resource/Material.cpp:140-149 | the unbind loop emits one unbind per texture in visiting order |
| Materials.UnbindType | GK1-Engine/src/Engine/Resource/Material.cpp:140-149 | one outer iteration unbinds the next type's textures |
| Materials.BindList | GK1-Engine/src/Engine/Resource/Material.cpp:102-133 | one type's textures are bound to consecutive slots with suffixes from 0 |
| Materials.UnbindList | GK1-Engine/src/Engine/Resource/Material.cpp:144-147 | one type's textures are unbound in order |
| LegacyMaterials.PresentFirst | GK1-Engine/src/resource/Material.cpp:46-48 | at most one non-null texture per visited type |
| LegacyMaterials.PresentFirstExact | GK1-Engine/src/resource/Material.cpp:46-48 | exactly the non-null textures of the visited types are kept |
| LegacyMaterials.PresentFirstDistinct | GK1-Engine/src/resource/Material.cpp:46-48 | each type contributes at most one binding |
| LegacyMaterials.TraceSnoc | GK1-Engine/src/resource/Material.cpp:46-78 | binding one more texture extends the traces by its events at the next slot |
| LegacyMaterials.BindSkipsNullSlots | GK1-Engine/src/resource/Material.cpp:44-78 | the bound textures are exactly the non-null stored ones, one per type, with as many consecutive slots as there are non-null entries |
| LegacyMaterials.Material.constructor | GK1-Engine/src/resource/Material.cpp:4-6 | no shader, no textures, default properties |
| LegacyMaterials.Material.WithShader | GK1-Engine/src/resource/Material.cpp:8-11 | the given shader, no textures, default properties |
| LegacyMaterials.Material.SetShader | GK1-Engine/src/resource/Material.cpp:17-20 | the shader is replaced |
| LegacyMaterials.Material.SetProperties | GK1-Engine/src/resource/Material.cpp:27-30 | the properties are replaced |
| LegacyMaterials.Material.GetTexture | GK1-Engine/src/resource/Material.cpp:99-107 | a texture exactly when the type holds a non-null one, and that texture |
| LegacyMaterials.Material.SetTexture | GK1-Engine/src/resource/Material.cpp:22-25 | the type's texture is replaced, possibly by null; other types are unchanged |
| LegacyMaterials.Material.Bind | GK1-Engine/src/resource/Material.cpp:32-79 | without a shader nothing happens; otherwise properties are set and every non-null texture is bound to the next slot, with its type's unsuffixed sampler |
| LegacyMaterials.Material.Unbind | GK1-Engine/src/resource/Material.cpp:81-97 | every non-null texture is unbound, then the program is reset only when a shader is set |
| LegacyMaterials.BindSlots | GK1-Engine/src/resource/Material.cpp:45-78 | the loop emits the slot trace of the non-null textures |
| Materials.Material.SetName | GK1-Engine/include/Engine/Resource/Resource.h:13-16 | the inherited setter replaces the material's name |
| Models.Mesh.Copy | GK1-Engine/src/Engine/Objects/Model.cpp:54 | the copy holds the same name, geometry, material and bounds as the original |
| Models.MinFoldIsLowerBound | GK1-Engine/src/Engine/Objects/Model.cpp:74-88 | each component of the folded minimum is at most FLT_MAX and at most that component of every mesh's minimum, and is either FLT_MAX or one of them |
| Models.MaxFoldIsUpperBound | GK1-Engine/src/Engine/Objects/Model.cpp:90-104 | each component of the folded maximum is at least -FLT_MAX and at least that component of every mesh's maximum, and is either -FLT_MAX or one of them |
| Models.FirstNamed | GK1-Engine/src/Engine/Objects/Model.cpp:59-64 | the position of the first entry with the name, or the length when there is none |
| Models.FirstNamedAt | GK1-Engine/src/Engine/Objects/Model.cpp:59-64 | the first matching position is the one found |
| Models.Model.constructor | GK1-Engine/src/Engine/Objects/Model.cpp:7-9 | a model starts without meshes |
| Models.Model.AddMesh | GK1-Engine/src/Engine/Objects/Model.cpp:52-55 | a fresh copy of the mesh, not the mesh itself, is appended and the earlier meshes are kept |
| Models.Model.GetMesh | GK1-Engine/src/Engine/Objects/Model.cpp:57-72 | null exactly when no mesh has the name; otherwise the first mesh with that name |
| Models.Model.GetMinBounds | GK1-Engine/src/Engine/Objects/Model.cpp:74-88 | the loop computes the component-wise fold of the meshes' minima from FLT_MAX |
| Models.Model.GetMaxBounds | GK1-Engine/src/Engine/Objects/Model.cpp:90-104 | the loop computes the component-wise fold of the meshes' maxima from -FLT_MAX |
| Models.LoadFromFile | GK1-Engine/src/Engine/Objects/Model.cpp:15-36 | an extension without a registered loader yields nothing; otherwise the result is what the registered loader makes of the path |
| Models.Mesh.constructor | GK1-Engine/src/Engine/Objects/Mesh.cpp:3-5 | a mesh without geometry and without material |
| Models.Mesh.SetName | GK1-Engine/include/Engine/Resource/Resource.h:13-16 | the inherited setter replaces the mesh's name |
| Models.Mesh.SetGeometry | GK1-Engine/include/Engine/Objects/Mesh.h:21 | only the geometry changes |
| Models.Mesh.SetMaterial | GK1-Engine/include/Engine/Objects/Mesh.h:22 | only the material changes |
| Terrains.Spacing | GK1-Engine/src/Engine/Objects/Terrain.cpp:322 | the grid spacing 1/(gridSize-1) is positive and at most 1 for a grid of at least two vertices a side |
| Terrains.GridVertexAt | GK1-Engine/src/Engine/Objects/Terrain.cpp:326-335 | the vertex loop emits gridSize² vertices, row by row, vertex (x, z) at index z·gridSize + x |
| Terrains.GridIndices | GK1-Engine/src/Engine/Objects/Terrain.cpp:338-352 | the patch loop emits 4·(gridSize-1)² indices, every one of them a valid vertex index |
| Terrains.GridPatchAt | GK1-Engine/src/Engine/Objects/Terrain.cpp:342-350 | patch (x, z) occupies indices 4·(z·(gridSize-1)+x) .. +3 and holds topLeft, bottomLeft, topRight, bottomRight |
| Terrains.PatchCorners | GK1-Engine/src/Engine/Objects/Terrain.cpp:342-350 | the four indices of patch (x, z) name the grid vertices (x, z), (x, z+1), (x+1, z) and (x+1, z+1) |
| Terrains.SurfaceUvInUnitSquare | GK1-Engine/src/Engine/Objects/Terrain.cpp:332 | every grid vertex's texture coordinates lie in the unit square |
| Terrains.AppendGrid | GK1-Engine/src/Engine/Objects/Terrain.cpp:326-335 | the nested vertex loop appends exactly the row-major grid of cells |
| Terrains.AppendPatches | GK1-Engine/src/Engine/Objects/Terrain.cpp:338-352 | the nested patch loop appends exactly the grid's patch indices |
| Terrains.AppendPatchRow | GK1-Engine/src/Engine/Objects/Terrain.cpp:340-351 | one pass of the inner patch loop appends the patches of row z |
| Terrains.EmitDraw | GK1-Engine/src/Engine/Objects/Terrain.cpp:394-405 | the uniforms, the heightmap on unit 5, four-vertex patches and one draw of all indices, in this order |
| Terrains.Terrain.constructor | GK1-Engine/src/Engine/Objects/Terrain.cpp:252-273 | tessellation level 16, height scale 128, world scale 1, dirty, no geometry, a fresh material with the terrain shader, and its own fresh transform |
| Terrains.Terrain.SetHeightmap | GK1-Engine/include/Engine/Objects/Terrain.h:16 | the heightmap is replaced and the geometry marked dirty |
| Terrains.Terrain.SetTessellationLevel | GK1-Engine/include/Engine/Objects/Terrain.h:17 | only the tessellation level changes |
| Terrains.Terrain.SetHeightScale | GK1-Engine/include/Engine/Objects/Terrain.h:18 | only the height scale changes; the geometry is not marked dirty |
| Terrains.Terrain.SetWorldScale | GK1-Engine/include/Engine/Objects/Terrain.h:19 | the world scale is replaced and the geometry marked dirty |
| Terrains.Terrain.SetMaterial | GK1-Engine/include/Engine/Objects/Terrain.h:20 | only the material changes |
| Terrains.Terrain.GetMaterial | GK1-Engine/include/Engine/Objects/Terrain.h:21 | the current material |
| Terrains.Terrain.SetupGeometry | GK1-Engine/src/Engine/Objects/Terrain.cpp:317-352 | without a heightmap nothing changes; otherwise the grid's vertices and patch indices are appended to the ones already there |
| Terrains.StaleGrid | GK1-Engine/src/Engine/Objects/Terrain.cpp:326-352 | after a second SetupGeometry every index, including the second batch, still points into the first grid's vertices |
| Terrains.Terrain.SetupGeometryFresh | GK1-Engine/src/Engine/Objects/Terrain.cpp:317-352 | the corrected geometry build: the vertices and indices are exactly the current grid's |
| Terrains.Terrain.GenerateCollisionMesh | GK1-Engine/src/Engine/Objects/Terrain.cpp:280-315 | without a heightmap the buffers are unchanged; otherwise the collision grid's positions and the same patch indices are appended |
| Terrains.Terrain.Draw | GK1-Engine/src/Engine/Objects/Terrain.cpp:378-406 | without a heightmap nothing happens; a dirty terrain rebuilds its geometry once and is clean afterwards; then the material's Bind trace, its program, the world matrix as `model`, the terrain uniforms, the heightmap on unit 5 and one patch draw of the current index count |
| Inputs.ButtonsAreRange | GK1-Engine/src/Engine/Input.cpp:33 | the buttons Update polls are exactly GLFW_MOUSE_BUTTON_1 .. GLFW_MOUSE_BUTTON_LAST |
| Inputs.Held | GK1-Engine/src/Engine/Input.cpp:46 | a key counts as held exactly when the table has it and it is true; a missing key reads as released |
| Inputs.Touch | GK1-Engine/src/Engine/Input.cpp:67 | reading a missing entry through operator[] adds it as false and changes no value |
| Inputs.Poll | GK1-Engine/src/Engine/Input.cpp:28-30 | the re-polled table has exactly the tracked keys, each with its current device state |
| Inputs.PollBelowShape | GK1-Engine/src/Engine/Input.cpp:33-36 | the button loop so far sets every button below n to its device state and leaves other entries as they were |
| Inputs.PollButtonsShape | GK1-Engine/src/Engine/Input.cpp:33-36 | after the button loop every button has its device state and every other entry is unchanged |
| Inputs.EdgesExclusive | GK1-Engine/src/Engine/Input.cpp:44-59 | a key is never pressed and released in the same frame, a key held across frames is neither, and it is one of them exactly when its state changed |
| Inputs.PressedOncePerHold | GK1-Engine/src/Engine/Input.cpp:26-48 | a key seen down in one frame and still down in the next is not reported pressed again, and is reported released exactly when it was let go |
| Inputs.UpdateTracksSameKeys | GK1-Engine/src/Engine/Input.cpp:27-30 | Update only re-polls keys queried before: a key never queried stays untracked and reads as released |
| Inputs.PollTracked | GK1-Engine/src/Engine/Input.cpp:27-30 | the key loop computes Poll over the previously tracked keys |
| Inputs.PollEveryButton | GK1-Engine/src/Engine/Input.cpp:32-36 | the button loop computes PollButtons |
| Inputs.Input.constructor | GK1-Engine/src/Engine/Input.cpp:3-11 | empty state tables, cursor at the origin, no scroll |
| Inputs.Input.OnScroll | GK1-Engine/src/Engine/Input.cpp:18-23 | the scroll callback stores the vertical offset |
| Inputs.Input.Update | GK1-Engine/src/Engine/Input.cpp:26-42 | previous tables take the current ones, current keys are re-polled, all buttons polled, the cursor shifts into last, scroll reset to 0 |
| Inputs.Input.IsKeyDown | GK1-Engine/src/Engine/Input.cpp:50-53 | the key's device state, recorded in the current table |
| Inputs.Input.IsKeyPressed | GK1-Engine/src/Engine/Input.cpp:44-48 | down now and not held in the previous frame; records the key |
| Inputs.Input.IsKeyReleased | GK1-Engine/src/Engine/Input.cpp:55-59 | up now and held in the previous frame; records the key |
| Inputs.Input.IsKeyUp | GK1-Engine/src/Engine/Input.cpp:61-63 | not down; records the key |
| Inputs.Input.IsMouseButtonPressed | GK1-Engine/src/Engine/Input.cpp:65-68 | held in the current table and not in the previous one; operator[] adds missing entries, the previous one only when the first is held |
| Inputs.Input.IsMouseButtonReleased | GK1-Engine/src/Engine/Input.cpp:70-73 | not held now but held before, with the same insertion of missing entries |
| Inputs.Input.IsMouseButtonDown | GK1-Engine/src/Engine/Input.cpp:75-78 | the button's current entry, added as false when missing |
| Inputs.Input.IsMouseButtonUp | GK1-Engine/src/Engine/Input.cpp:80-83 | the negation of IsMouseButtonDown, with the same insertion |
| Inputs.Input.GetMousePosition | GK1-Engine/src/Engine/Input.cpp:85-89 | the current cursor position |
| Inputs.Input.GetMouseX | GK1-Engine/src/Engine/Input.cpp:91-94 | the current cursor x |
| Inputs.Input.GetMouseY | GK1-Engine/src/Engine/Input.cpp:96-99 | the current cursor y |
| Inputs.Input.GetMouseDelta | GK1-Engine/src/Engine/Input.cpp:101-105 | the cursor movement since the last Update |
| Inputs.Input.GetMouseScrollDelta | GK1-Engine/src/Engine/Input.cpp:107-110 | the scroll offset received since the last Update |
| LegacyInputs.RepollCleared | GK1-Engine/src/Input.cpp:13-18 | clearing the table and re-polling the previous keys gives Poll over those keys |
| LegacyInputs.LegacyInput.constructor | GK1-Engine/src/Input.cpp:3-5 | empty key tables |
| LegacyInputs.LegacyInput.Update | GK1-Engine/src/Input.cpp:11-19 | the previous table takes the current one, which is rebuilt with the same keys at their device state |
| LegacyInputs.LegacyInput.IsKeyDown | GK1-Engine/src/Input.cpp:27-30 | the key's device state, recorded in the current table |
| LegacyInputs.LegacyInput.IsKeyPressed | GK1-Engine/src/Input.cpp:21-25 | down now and not held in the previous frame; records the key |
| LegacyInputs.LegacyInput.IsKeyReleased | GK1-Engine/src/Input.cpp:32-36 | up now and held in the previous frame; records the key |
| LegacyInputs.LegacyInput.IsKeyUp | GK1-Engine/src/Input.cpp:38-40 | not down; records the key |
| RacingCameras.ExtraDistance | GK1-Racer/src/CameraController/RacingCameraController.cpp:50 | the extra follow distance is speed·velocityMultiplier capped at maxExtraDistance: never above either, always equal to one of them |
| RacingCameras.IdealDistanceBounds | GK1-Racer/src/CameraController/RacingCameraController.cpp:46-59 | with sane settings the extra distance lies in 0..maxExtraDistance and never shrinks as speed grows; the ideal position is the target moved back along forward by followDistance + extra and up by heightOffset |
| RacingCameras.FovRange | GK1-Racer/src/CameraController/RacingCameraController.cpp:40-43 | the field of view stays within minFOV..maxFOV, is minFOV at rest and maxFOV from 30 units per second on |
| RacingCameras.BlendInUnitInterval | GK1-Racer/src/CameraController/RacingCameraController.cpp:29 | the per-frame blend factor 1 - exp(-followStiffness·dt) lies in [0, 1) for a non-negative exponent |
| RacingCameras.Aim | GK1-Racer/src/CameraController/RacingCameraController.cpp:37-43 | the camera is placed at the position, turned towards the look-at point and given the field of view; its cached state stays consistent |
| RacingCameras.RacingCameraController.constructor | GK1-Racer/include/CameraController/RacingCameraController.h:29-37 | the member initialisers: target at the origin facing -Z with +Y up and at rest; camera not yet placed |
| RacingCameras.RacingCameraController.UpdateIdealCameraPosition | GK1-Racer/src/CameraController/RacingCameraController.cpp:46-59 | the ideal position for the stored target and its speed |
| RacingCameras.RacingCameraController.SetTarget | GK1-Racer/src/CameraController/RacingCameraController.cpp:8-22 | the target is stored with normalised axes; only the first call places the camera at the ideal position |
| RacingCameras.RacingCameraController.SetRacingSettings | GK1-Racer/include/CameraController/RacingCameraController.h:21 | the settings are replaced |
| RacingCameras.RacingCameraController.Ease | GK1-Racer/src/CameraController/RacingCameraController.cpp:29 | the camera moves by the blend factor towards the ideal position and, for a non-negative exponent, stays between the old and the ideal position |
| RacingCameras.RacingCameraController.Update | GK1-Racer/src/CameraController/RacingCameraController.cpp:24-44 | the ideal position is recomputed, the camera eased towards it, placed there, aimed at the look-ahead point, and its field of view set from the speed |
| InlineRacingCameras.Used | GK1-Racer/include/CameraController/RacingCameraController.cpp:44-92 | the settings the header-only controller reads are all its settings except rotationStiffness |
| InlineRacingCameras.RotationStiffnessUnread | GK1-Racer/include/CameraController/RacingCameraController.cpp:10 | rotationStiffness has no effect on the camera |
| InlineRacingCameras.DefaultsAreSane | GK1-Racer/include/CameraController/RacingCameraController.cpp:6-16 | the default settings are sane and keep the camera at most 8 units behind the car |
| InlineRacingCameras.InlineRacingCameraController.constructor | GK1-Racer/include/CameraController/RacingCameraController.cpp:18-21 | the member initialisers: target at the origin facing +Z with +Y up and at rest |
| InlineRacingCameras.InlineRacingCameraController.UpdateIdealCameraPosition | GK1-Racer/include/CameraController/RacingCameraController.cpp:76-92 | the ideal position for the stored target and its speed |
| InlineRacingCameras.InlineRacingCameraController.SetTarget | GK1-Racer/include/CameraController/RacingCameraController.cpp:23-37 | the target is stored with normalised axes; only the first call places the camera at the ideal position |
| InlineRacingCameras.InlineRacingCameraController.SetRacingSettings | GK1-Racer/include/CameraController/RacingCameraController.cpp:39-42 | the settings are replaced |
| InlineRacingCameras.InlineRacingCameraController.Ease | GK1-Racer/include/CameraController/RacingCameraController.cpp:44-55 | the camera moves by the blend factor towards the ideal position and stays between the two |
| InlineRacingCameras.InlineRacingCameraController.Update | GK1-Racer/include/CameraController/RacingCameraController.cpp:44-68 | as the other controller's frame update, over the settings it reads |
| FlyCameras.SpeedModifiers | GK1-Racer/src/CameraController/FlyCameraController.cpp:15-19 | Shift multiplies the speed by 10, Control halves it, both together give 5 times |
| FlyCameras.MoveBack | GK1-Racer/src/CameraController/FlyCameraController.cpp:20-31 | moving along an axis and then along its opposite returns to the start |
| FlyCameras.OppositeKeysCancel | GK1-Racer/src/CameraController/FlyCameraController.cpp:20-31 | W alone moves forward by the speed; W with S, A with D and Q with E cancel each other |
| FlyCameras.ClampPitch | GK1-Racer/src/CameraController/FlyCameraController.cpp:46-51 | the pitch ends within -89..89 degrees, unchanged when already within, at the nearest limit otherwise |
| FlyCameras.InvertYNegates | GK1-Racer/src/CameraController/FlyCameraController.cpp:38-40 | inverting Y negates the pitch change, as if the mouse moved the other way |
| FlyCameras.RecordedFly | GK1-Racer/src/CameraController/FlyCameraController.cpp:16-31 | the frame's key queries record the eight keys it reads at their device state and leave other entries alone |
| FlyCameras.MoveOnKey | GK1-Racer/src/CameraController/FlyCameraController.cpp:20-31 | one key query moves the camera by the offset exactly when the key is down |
| FlyCameras.FlyCameraController.constructor | GK1-Racer/src/CameraController/FlyCameraController.cpp:4-7 | the sensitivity, inversion and move speed from the settings; pitch and yaw start at 0 (the base controller's initialisers) |
| FlyCameras.FlyCameraController.Speed | GK1-Racer/src/CameraController/FlyCameraController.cpp:15-19 | the frame's speed, with the Shift and Control modifiers as queried |
| FlyCameras.FlyCameraController.Drive | GK1-Racer/src/CameraController/FlyCameraController.cpp:20-31 | the six movement keys, in order, move the camera along the axes read at the start of the frame |
| FlyCameras.FlyCameraController.Look | GK1-Racer/src/CameraController/FlyCameraController.cpp:33-53 | the mouse delta, scaled and optionally inverted, accumulates into pitch and yaw; the pitch is clamped and the camera turned to (-pitch, -yaw, 0) |
| FlyCameras.FlyCameraController.Update | GK1-Racer/src/CameraController/FlyCameraController.cpp:9-54 | the new position from the held keys and the frame-start axes, the pitch within ±89 degrees, the yaw accumulated, the camera's rotation from both |
| RacerTransforms.RacerTransform.constructor | GK1-Racer/src/engine/Transform.cpp:5-15 | position 0, rotation 0, scale 1, the default axes (forward -Z, right +X, up +Y), which are the axes of the zero rotation, and the matrix marked stale |
| RacerTransforms.RacerTransform.SetPosition | GK1-Racer/src/engine/Transform.cpp:21-25 | the position is replaced and the matrix marked stale |
| RacerTransforms.RacerTransform.Move | GK1-Racer/src/engine/Transform.cpp:27-31 | the offset is added to the position and the matrix marked stale |
| RacerTransforms.RacerTransform.GetPosition | GK1-Racer/src/engine/Transform.cpp:33-36 | the stored position |
| RacerTransforms.RacerTransform.UpdateState | GK1-Racer/src/engine/Transform.cpp:74-82 | the cached axes become those of the stored Euler angles |
| RacerTransforms.RacerTransform.SetRotation | GK1-Racer/src/engine/Transform.cpp:38-43 | the Euler angles are replaced, the axes recomputed for them and the matrix marked stale |
| RacerTransforms.RacerTransform.Rotate | GK1-Racer/src/engine/Transform.cpp:45-50 | the angles are added to the Euler angles, the axes recomputed and the matrix marked stale |
| RacerTransforms.RacerTransform.GetRotation | GK1-Racer/src/engine/Transform.cpp:52-55 | the stored Euler angles |
| RacerTransforms.RacerTransform.SetScale | GK1-Racer/src/engine/Transform.cpp:57-61 | the scale is replaced and the matrix marked stale |
| RacerTransforms.RacerTransform.Scale | GK1-Racer/src/engine/Transform.cpp:63-67 | the scale is multiplied component by component and the matrix marked stale |
| RacerTransforms.RacerTransform.GetScale | GK1-Racer/src/engine/Transform.cpp:69-72 | the stored scale |
| RacerTransforms.RacerTransform.GetModelMatrix | GK1-Racer/src/engine/Transform.cpp:84-99 | translation·rotation(YXZ)·scale of the current pose, recomputed only when stale, and the cache clean afterwards |
| RacerTransforms.RacerTransform.GetForward | GK1-Racer/src/engine/Transform.cpp:101-104 | the cached forward axis, which is the stored rotation's |
| RacerTransforms.RacerTransform.GetRight | GK1-Racer/src/engine/Transform.cpp:105-108 | the cached right axis, which is the stored rotation's |
| RacerTransforms.RacerTransform.GetUp | GK1-Racer/src/engine/Transform.cpp:109-112 | the cached up axis, which is the stored rotation's |
| RacerCameras.RacerCamera.constructor | GK1-Racer/src/engine/Camera.cpp:5-15 | 45 degrees, aspect 1, planes 0.1 and 1000, identity matrices marked stale, a fresh transform at rest |
| RacerCameras.RacerCamera.GetViewMatrix | GK1-Racer/src/engine/Camera.cpp:37-45 | the view of the current pose when stale, the cached matrix otherwise; clean afterwards |
| RacerCameras.RacerCamera.GetProjectionMatrix | GK1-Racer/src/engine/Camera.cpp:91-99 | a perspective from the stored parameters when stale, the cached matrix otherwise; clean afterwards |
| RacerCameras.RacerCamera.SetPosition | GK1-Racer/src/engine/Transform.cpp:21-25 | the inherited setter moves the camera without marking the view stale |
| RacerCameras.RacerCamera.Move | GK1-Racer/src/engine/Transform.cpp:27-31 | the inherited Move, likewise without marking the view stale |
| RacerCameras.RacerCamera.SetRotation | GK1-Racer/src/engine/Camera.cpp:21-25 | the inherited setter with the camera's UpdateState: axes recomputed and the view marked stale |
| RacerCameras.RacerCamera.Rotate | GK1-Racer/src/engine/Camera.cpp:21-25 | the inherited Rotate with the camera's UpdateState |
| RacerCameras.RacerCamera.LookAt | GK1-Racer/src/engine/Camera.cpp:27-35 | the negated look-at Euler angles become the rotation and the view is marked stale |
| RacerCameras.RacerCamera.SetPerspective | GK1-Racer/src/engine/Camera.cpp:47-55 | perspective mode with the four parameters and the projection marked stale |
| RacerCameras.RacerCamera.SetOrthographic | GK1-Racer/src/engine/Camera.cpp:57-64 | orthographic mode, the orthographic matrix stored, and the projection then marked stale |
| RacerCameras.RacerCamera.SetFov | GK1-Racer/src/engine/Camera.cpp:66-70 | the field of view is replaced and the projection marked stale |
| RacerCameras.RacerCamera.SetAspectRatio | GK1-Racer/src/engine/Camera.cpp:72-76 | the aspect ratio is replaced and the projection marked stale |
| RacerCameras.RacerCamera.GetFov | GK1-Racer/src/engine/Camera.cpp:78-81 | the stored field of view |
| RacerCameras.RacerCamera.GetNearPlane | GK1-Racer/src/engine/Camera.cpp:82-85 | the stored near plane |
| RacerCameras.RacerCamera.GetFarPlane | GK1-Racer/src/engine/Camera.cpp:86-89 | the stored far plane |
| RacerCameras.StaleViewAfterMove | GK1-Racer/src/engine/Camera.cpp:37-45 | moving a camera whose view was queried leaves the next query returning the old view, which differs from the current one |
| RacerCameras.RacerCamera.SetPositionChecked | GK1-Racer/src/engine/Camera.cpp:21-25 | the corrected setter also marks the view stale |
| RacerCameras.RacerCamera.MoveChecked | GK1-Racer/src/engine/Camera.cpp:21-25 | the corrected Move also marks the view stale |
| RacerCameras.CheckedMoveUpdatesView | GK1-Racer/src/engine/Camera.cpp:37-45 | with the corrected setter the next view query is the view of the new position |
| RacerCameras.OrthographicLost | GK1-Racer/src/engine/Camera.cpp:57-64 | SetOrthographic followed by a projection query yields the default perspective, never the orthographic matrix |
| RacerCameras.RacerCamera.SetOrthographicChecked | GK1-Racer/src/engine/Camera.cpp:57-64 | the corrected setter leaves the stored orthographic matrix as the clean projection |
| RacerCameras.CheckedOrthographicSticks | GK1-Racer/src/engine/Camera.cpp:91-99 | with the corrected setter the next projection query returns the orthographic matrix |
| Vehicles.FrontWheelsFirst | GK1-Racer/src/Physics/VehicleController.cpp:32-39 | of the four wheels the first two, attached at z = 1.5, are the front ones, and the rear pair is at z = -1.5 |
| Vehicles.VehicleController.constructor | GK1-Racer/src/Physics/VehicleController.cpp:4-53 | the chassis at rest at the start position, four wheels added in order with the given rest length and radius, each then tuned from the parameters, no inputs applied |
| Vehicles.VehicleController.ApplyEngineForce | GK1-Racer/src/Physics/VehicleController.cpp:91-95 | every wheel gets the engine force and nothing else changes |
| Vehicles.VehicleController.Steer | GK1-Racer/src/Physics/VehicleController.cpp:97-100 | the two front wheels get the steering angle; the rear wheels are untouched |
| Vehicles.VehicleController.Brake | GK1-Racer/src/Physics/VehicleController.cpp:102-106 | every wheel gets the brake force and nothing else changes |
| Vehicles.VehicleController.Update | GK1-Racer/src/Physics/VehicleController.cpp:55-89 | after the step the synced position is the chassis origin and the rotation the Euler angles of its orientation |
| Vehicles.VehicleController.GetVehicleVelocity | GK1-Racer/src/Physics/VehicleController.cpp:108-111 | the chassis's linear velocity |
| Vehicles.VehicleController.GetPosition | GK1-Racer/include/Physics/VehicleController.h:30 | the last synced position |
| Vehicles.VehicleController.GetRotation | GK1-Racer/include/Physics/VehicleController.h:31 | the last synced rotation |
| Vehicles.VehicleController.Flip | GK1-Racer/src/Physics/VehicleController.cpp:113-122 | the chassis upright, two units above the last synced position, at rest and awake; the wheels untouched |

## Left out

- GL resource plumbing: buffer, VAO, texture and shader creation and uploads (Mesh::Draw, Model::Draw, the GPU buffers of the engine meshes, the terrain's `glBufferData` and vertex attributes). Where a core operation depends on them they appear as `Gl.Gpu` events.
- The GLSL shader sources embedded in Terrain.cpp and Material.cpp: they are shader programs, not host logic.
- Floating-point computation as values: glm decompose, quaternion and Euler conversions, normalize, length, exp, and the perspective, orthographic and look-at matrices. These are symbolic terms or `Numerics` parameters, and no rounding is modelled.
- Engine OBJ loader: averaging and normalising the accumulated normals (OBJLoader.cpp:227-230) and the tangent computation (OBJLoader.cpp:238-287). They are floating-point numerics. The model keeps the normal each triangle contributes.
- Racer OBJ loader: the tangent formula itself (OBJLoader.cpp:125-146). Only which triangle's frame reaches each vertex is modelled.
- Texture::LoadFromFile and the MTL loader's texture loading: a `load` parameter returning an opaque handle or nothing.
- The MTL library load inside the engine OBJ loader: a `library` parameter. Creating a loader for an unregistered extension dereferences null, which is not modelled.
- Log output (`std::cerr`, Log.cpp): the model keeps only the returned values and error strings.
- Bullet internals: the rigid body, raycaster and vehicle construction, `updateVehicle`, and the quaternion-to-Euler conversion in VehicleController::Update. The stepped chassis and the Euler angles are parameters of `Vehicles.VehicleController.Update`. The library's default wheel tuning is the `defaults` parameter.
- VehicleController::GetBulletVehicle and GetChassisBody hand out objects of the physics library, so they have no counterpart.
- GLFW: Input::Init's window registration, `glfwGetKey`/`glfwGetMouseButton`/`glfwGetCursorPos`. A `Device` record of the current key, button and cursor state stands for them, and the scroll callback is `Inputs.Input.OnScroll`.
- Inputs.Input.Update: the visiting order of the key map is not modelled (keys are re-polled in an arbitrary order, which gives the same table).
- BaseCameraController::SetCamera and GetCamera: each controller's camera is a `const` field, so swapping cameras is not modelled.
- The header-only racing controller's mouse handlers are empty and have no counterpart. The racer's RacingCameraController.h declares an unused `m_currentOrientation`, which is not modelled.
- FlyCameras.FlyCameraController.Speed: the C++ speed is a `vec3` with three equal components, modelled as a single real.
- Engine Transform getters that only convert or return fields (GetPosition, GetRotation, GetScale, GetWorldPosition, GetWorldRotation), the axis getters GetForward/GetRight/GetUp (plain functions of the orientation), and the static `Transform::GetRotation(mat3)`. They have no logic beyond the numerics left out above.
- Engine Camera getters GetProjectionType, GetOrthographicSize, GetAspectRatio, GetFov, GetNearPlane and GetFarPlane: they return fields.
- Cameras.Camera.GetViewMatrix: Camera.cpp builds the view from `m_forward`/`m_up`, which the quaternion Transform no longer maintains. The model uses the orientation's forward and up axes.
- Terrains.Terrain.SetupGeometry and GenerateCollisionMesh require a grid of at least 2 vertices a side. With 1 the spacing divides by zero; with 0 the `uint32_t` bound `gridSize - 1` wraps. Indices are naturals, so the `uint32_t` wrap of grids beyond 65536 vertices a side is not modelled.
- Texture::GetPixel and the heightmap's pixel format: the sampled height is a function of the heightmap handle.
- Paths are modelled with '/' as the only separator (`Text.FileName`, `Text.ParentPath`, `Text.JoinPath`); `std::filesystem::path` on Windows also splits on '\\', which is not modelled.
- Geometry indices are naturals; the `uint32_t` cast of the vertex count in the loaders is not modelled.
- The scene graph's `AddChild` has no cycle check. `SceneGraph.SceneNode.GetWorldMatrix` and `Draw` require the tree to be acyclic, stated as a bound on its height.
- The engine OBJ loader's ProcessMeshData does not bounds-check position indices. `EngineObj.ProcessMeshData` therefore requires them in range (`EngineObj.Processable`).
- EngineObj.ProcessMeshData: where OBJLoader.cpp:208-222 reads `normals[normalIndices[i]]` past the end of the normals (every file without `vn` lines: the normals are empty, and each index is an indeterminate value, the uninitialised `vn`, minus one), the source reads outside the vector; the model gives the face normal there instead (`EngineObj.TriangleNormalChecked`, equal to the source's read whenever that read is in range). It also requires whole triangles, because for a face of four or more corners OBJLoader.cpp:158-168 reads `vertexIndices[i + 1]` and `[i + 2]` past the end.
- EngineObj.Processable: requires whole triangles (an index count divisible by 3) and positions in range; both exclude reads outside the vectors in the source, which are not modelled. `EngineObj.Loadable`, and so `EngineObj.ObjLoader.LoadOBJ` and `Load`, require it of every group.
- RacerObj.Loadable: requires positions in range (GK1-Racer OBJLoader.cpp:92 reads `temp_positions[posIndex]` unchecked), the three index lists in step (:88-90 read `uvIndices[i]` and `normalIndices[i]` unchecked; `RacerObj.ReadFirst` proves every successful read keeps them in step) and whole triangles (:125-127 read `indices[i + 1]` and `[i + 2]`). Reads outside the vectors are not modelled.
- RacerObj.Build, RacerObj.LoadOBJ and RacerObj.Load require `RacerObj.Loadable` of the lists read, for the reasons above.
- Terrains.Terrain.Draw: requires the material to have a shader, since Terrain.cpp:390-391 dereferences it; a shaderless material is a null dereference, not modelled.
- Cameras.Camera.SetViewportSize: the value of the aspect ratio for a zero height (an infinity, or NaN for 0/0) and what the projection makes of it are left to `Numerics.divide`, which is constrained only for non-zero divisors.
- Cameras.Camera.LookAt: the `altUp` argument is dropped. The three-argument `Transform::LookAt` it is forwarded to has its body commented out at Transform.cpp:109, so the model follows the two-argument one at Transform.cpp:101-107.

## Findings

| source | as written | input that shows it | evidently intended | confidence | as-written member | corrected member |
|---|---|---|---|---|---|---|
| GK1-Engine/src/Engine/Transform.cpp:204-212 | SetModelMatrix returns early when the matrix equals the cached model matrix, even while the cache is stale | a fresh transform, SetPosition((1,0,0)), then SetModelMatrix(identity): the cache still holds the identity from construction, so the reset is skipped and GetModelMatrix returns translate(1,0,0) | compare with the current local matrix, or always apply | not executed | Transforms.StaleCacheSwallowsReset | Transforms.Transform.SetModelMatrixChecked, Transforms.CheckedResetApplies |
| GK1-Engine/src/Engine/Objects/Light/LightManager.cpp:20-51 | the PointLight cast is tried first and SpotLight derives from PointLight, so spot lights go to the point bucket and the spot bucket never fills | AddLight of a new SpotLight on an empty manager: the point bucket holds it and the spot bucket stays empty | a spot light in the spot bucket, removed from there | not executed | LightManagers.LightManager.AddLight, LightManagers.SpotLightLandsInPointBucket | LightManagers.LightManager.AddLightChecked, LightManagers.SpotLightLandsInSpotBucket |
| GK1-Engine/src/Engine/Loader/Model/OBJLoader.cpp:190-222 | the face-normal branch runs only when a group has no normal indices, but ParseFace pushes a normal index for every corner, so the branch is dead; for a file without `vn` lines the normals are empty and each index, an indeterminate value (the uninitialised `vn`) minus one, reads past their end | an OBJ file with `v` lines and `f 1 2 3` and no `vn` line | use the face normal whenever a corner names no loaded normal | not executed | EngineObj.FaceNormalBranchDead, EngineObj.NoVnUnprocessable | EngineObj.TriangleNormalChecked |
| GK1-Engine/src/Engine/Loader/Model/OBJLoader.cpp:103-114 | a `usemtl` that splits the current group assigns a fresh empty group to `<group>_<material>`, even if that group already holds faces | `g a`, `usemtl m1`, `f 1 2 3`, `usemtl m2`, `f 1 2 3`, `g a`, `usemtl m2`: the faces gathered in `a_m2` are lost | reuse the existing `<group>_<material>` group | not executed | EngineObj.UsemtlDropsFaces | EngineObj.StepChecked, EngineObj.MaterialLineChecked, EngineObj.RunKeepsFaces |
| GK1-Engine/src/Engine/Objects/Terrain.cpp:317-352 | SetupGeometry appends to the vertex and index buffers without clearing them | SetHeightmap, Draw, SetWorldScale, Draw: the buffers hold two grids and all indices, including the second batch, still name the first grid's vertices | rebuild the buffers from empty | not executed | Terrains.Terrain.SetupGeometry, Terrains.StaleGrid | Terrains.Terrain.SetupGeometryFresh, Terrains.PatchCorners |
| GK1-Racer/src/engine/Camera.cpp:21-45 | only UpdateState marks the view stale, and SetPosition and Move do not call it | GetViewMatrix, SetPosition((0,0,5)), GetViewMatrix: the second query returns the view of the old position | a position change marks the view stale, as the engine's later camera does | not executed | RacerCameras.StaleViewAfterMove | RacerCameras.RacerCamera.SetPositionChecked, RacerCameras.RacerCamera.MoveChecked, RacerCameras.CheckedMoveUpdatesView |
| GK1-Racer/src/engine/Camera.cpp:57-64 | SetOrthographic stores the orthographic matrix but also marks the projection stale, and GetProjectionMatrix always rebuilds a perspective | SetOrthographic(-1, 1, -1, 1, 0.1, 100), then GetProjectionMatrix: the result is the perspective matrix | the orthographic matrix stays the current projection | not executed | RacerCameras.OrthographicLost | RacerCameras.RacerCamera.SetOrthographicChecked, RacerCameras.CheckedOrthographicSticks |

=== FILE: camera.dfy ===
/**
 * The engine's Camera: a Transform with a cached view matrix and a cached
 * projection matrix, each guarded by its own dirty flag.
 *
 * Camera derives from Transform in the engine; here it owns its Transform and
 * forwards the pose mutators that it overrides.
 */
module Cameras {
  import opened Math
  import opened Transforms

  datatype ProjectionType = PerspectiveProjection | OrthographicProjection

  /** Left, right, bottom and top planes of an orthographic view volume. */
  datatype OrthoBox = OrthoBox(left: real, right: real, bottom: real, top: real)

  /**
   * The orthographic box of a view volume `size` high with the given aspect
   * ratio: symmetric about the view axis, size*aspect wide and size high.
   */
  function OrthoBounds(size: real, aspect: real): (b: OrthoBox)
    ensures b.left == -b.right && b.bottom == -b.top
    ensures b.right - b.left == size * aspect && b.top - b.bottom == size
  {
    OrthoBox(-size * aspect * 0.5, size * aspect * 0.5, -size * 0.5, size * 0.5)
  }

  class Camera {
    const transform: Transform
    var fieldOfView: real
    var aspectRatio: real
    var nearPlane: real
    var farPlane: real
    var orthoSize: real
    var projectionType: ProjectionType
    var viewMatrix: Mat4
    var projectionMatrix: Mat4
    var viewChanged: bool
    var projectionChanged: bool

    /** The view matrix of the current pose: looking from the position along the forward axis. */
    function ViewOf(num: Numerics): Mat4
      reads transform`position, transform`orientation
    {
      Single(LookAtView(transform.position, Add(transform.position, transform.Forward(num)), transform.Up(num)))
    }

    /** The projection matrix of the current settings. */
    function ProjectionOf(): Mat4
      reads this`projectionType, this`fieldOfView, this`aspectRatio, this`nearPlane, this`farPlane, this`orthoSize
    {
      match projectionType
      case PerspectiveProjection =>
        Single(Perspective(fieldOfView, aspectRatio, nearPlane, farPlane))
      case OrthographicProjection =>
        var b := OrthoBounds(orthoSize, aspectRatio);
        Single(Orthographic(b.left, b.right, b.bottom, b.top, nearPlane, farPlane))
    }

    /** A clean projection cache holds the matrix of the current settings. */
    ghost predicate ProjectionValid()
      reads this
    {
      !projectionChanged ==> projectionMatrix == ProjectionOf()
    }

    /** Clean caches hold the matrices of the current pose and settings. */
    ghost predicate Valid(num: Numerics)
      reads this, transform
    {
      transform.Valid() && (!viewChanged ==> viewMatrix == ViewOf(num)) && ProjectionValid()
    }

    constructor ()
      ensures fresh(transform)
      ensures transform.LocalPose() == IdentityPose && transform.transformChanged
      ensures fieldOfView == 45.0 && aspectRatio == 16.0 / 9.0
      ensures nearPlane == 0.1 && farPlane == 1000.0 && orthoSize == 50.0
      ensures projectionType == PerspectiveProjection
      ensures viewMatrix == Identity && projectionMatrix == Identity
      ensures viewChanged && projectionChanged
      ensures forall num: Numerics :: Valid(num)
    {
      transform := new Transform();
      fieldOfView := 45.0;
      aspectRatio := 16.0 / 9.0;
      nearPlane := 0.1;
      farPlane := 1000.0;
      orthoSize := 50.0;
      viewMatrix := Identity;
      projectionMatrix := Identity;
      viewChanged := true;
      projectionChanged := true;
      projectionType := PerspectiveProjection;
    }

    /** Recomputes the view matrix only when the pose changed since the last query. */
    method GetViewMatrix(num: Numerics) returns (m: Mat4)
      requires Valid(num)
      modifies this`viewMatrix, this`viewChanged
      ensures m == ViewOf(num)
      ensures old(!viewChanged) ==> m == old(viewMatrix)
      ensures !viewChanged && viewMatrix == m
      ensures Valid(num)
    {
      if viewChanged {
        viewMatrix := ViewOf(num);
        viewChanged := false;
      }
      m := viewMatrix;
    }

    /** Recomputes the projection matrix only when a setting changed since the last query. */
    method GetProjectionMatrix() returns (m: Mat4)
      requires ProjectionValid()
      modifies this`projectionMatrix, this`projectionChanged
      ensures m == ProjectionOf()
      ensures old(!projectionChanged) ==> m == old(projectionMatrix)
      ensures !projectionChanged && projectionMatrix == m
      ensures ProjectionValid()
    {
      if projectionChanged {
        match projectionType {
          case PerspectiveProjection =>
            projectionMatrix := Single(Perspective(fieldOfView, aspectRatio, nearPlane, farPlane));
          case OrthographicProjection =>
            var left := -orthoSize * aspectRatio * 0.5;
            var right := orthoSize * aspectRatio * 0.5;
            var bottom := -orthoSize * 0.5;
            var top := orthoSize * 0.5;
            assert OrthoBounds(orthoSize, aspectRatio) == OrthoBox(left, right, bottom, top);
            projectionMatrix := Single(Orthographic(left, right, bottom, top, nearPlane, farPlane));
        }
        projectionChanged := false;
      }
      m := projectionMatrix;
    }

    method SetPerspective(fov: real, aspect: real, near: real, far: real)
      modifies this`projectionType, this`fieldOfView, this`aspectRatio, this`nearPlane, this`farPlane, this`projectionChanged
      ensures projectionType == PerspectiveProjection
      ensures fieldOfView == fov && aspectRatio == aspect && nearPlane == near && farPlane == far
      ensures projectionChanged
    {
      projectionType := PerspectiveProjection;
      fieldOfView := fov;
      aspectRatio := aspect;
      nearPlane := near;
      farPlane := far;
      projectionChanged := true;
    }

    method SetOrthographic(size: real, near: real, far: real)
      modifies this`projectionType, this`orthoSize, this`nearPlane, this`farPlane, this`projectionChanged
      ensures projectionType == OrthographicProjection
      ensures orthoSize == size && nearPlane == near && farPlane == far
      ensures projectionChanged
    {
      projectionType := OrthographicProjection;
      orthoSize := size;
      nearPlane := near;
      farPlane := far;
      projectionChanged := true;
    }

    method SetFov(fov: real)
      modifies this`fieldOfView, this`projectionChanged
      ensures fieldOfView == fov && projectionChanged
    {
      fieldOfView := fov;
      projectionChanged := true;
    }

    /**
     * Aspect ratio from a viewport in pixels, as a float division: a zero
     * height (a minimised window) is not rejected and gives the degenerate
     * float that `num.divide` stands for.
     */
    method SetViewportSize(num: Numerics, width: nat, height: nat)
      modifies this`aspectRatio, this`projectionChanged
      ensures aspectRatio == num.divide(width as real, height as real)
      ensures num.Valid() && height > 0 ==> aspectRatio * height as real == width as real
      ensures projectionChanged
    {
      aspectRatio := num.divide(width as real, height as real);
      projectionChanged := true;
    }

    method SetPosition(p: Vec3)
      modifies transform`position, transform`transformChanged, this`viewChanged
      ensures transform.position == p && transform.transformChanged
      ensures viewChanged
      ensures forall n: Numerics :: old(Valid(n)) ==> Valid(n)
    {
      transform.SetPosition(p);
      viewChanged := true;
    }

    method Move(offset: Vec3)
      modifies transform`position, transform`transformChanged, this`viewChanged
      ensures transform.position == Add(old(transform.position), offset) && transform.transformChanged
      ensures viewChanged
      ensures forall n: Numerics :: old(Valid(n)) ==> Valid(n)
    {
      transform.Move(offset);
      viewChanged := true;
    }

    method SetRotation(degrees: Vec3)
      modifies transform`orientation, transform`transformChanged, this`viewChanged
      ensures transform.orientation == EulerQuat(degrees) && transform.transformChanged
      ensures viewChanged
      ensures forall n: Numerics :: old(Valid(n)) ==> Valid(n)
    {
      transform.SetRotation(degrees);
      viewChanged := true;
    }

    method Rotate(degrees: Vec3)
      modifies transform`orientation, transform`transformChanged, this`viewChanged
      ensures transform.orientation == QuatProduct(EulerQuat(degrees), old(transform.orientation))
      ensures transform.transformChanged && viewChanged
      ensures forall n: Numerics :: old(Valid(n)) ==> Valid(n)
    {
      transform.Rotate(degrees);
      viewChanged := true;
    }

    method LookAt(target: Vec3, up: Vec3, num: Numerics)
      modifies transform`orientation, transform`transformChanged, this`viewChanged
      ensures transform.orientation == LookAtQuat(num.normalize(Sub(target, transform.position)), up)
      ensures transform.transformChanged && viewChanged
      ensures forall n: Numerics :: old(Valid(n)) ==> Valid(n)
    {
      transform.LookAt(target, up, num);
      viewChanged := true;
    }

    /** A camera ignores scaling. */
    method SetScale(s: Vec3)
      ensures transform.scale == old(transform.scale)
    {
    }

    /** A camera ignores scaling. */
    method Scale(factor: Vec3)
      ensures transform.scale == old(transform.scale)
    {
    }
  }
}

=== FILE: engine_obj.dfy ===
/**
 * The engine's Wavefront OBJ loader: a line loop that collects positions,
 * texture coordinates and normals, sorts faces into groups (split further by
 * material), and then turns each group with faces into an indexed mesh whose
 * vertices are shared by position index.
 */
module EngineObj {
  import opened Math
  import opened Text
  import opened Wrappers
  import opened Seqs
  import opened ObjFormat
  import opened Materials
  import opened Models

  /** The face indices gathered for one group, and the name of its material. */
  datatype TempMesh = TempMesh(vertexIndices: seq<U32>, uvIndices: seq<U32>, normalIndices: seq<U32>, material: string)

  const EmptyMesh: TempMesh := TempMesh([], [], [], "")

  /** The variables of the line loop; `libraries` are the MTL paths requested so far. */
  datatype ObjState = ObjState(
    positions: seq<Vec3>, uvs: seq<Vec2>, normals: seq<Vec3>,
    group: string, material: string, groups: map<string, TempMesh>,
    libraries: seq<string>)

  const DefaultGroup: string := "default"

  /** Before the first line: only the "default" group, no material. */
  const Initial: ObjState := ObjState([], [], [], DefaultGroup, "", map[DefaultGroup := EmptyMesh], [])

  /** The three index lists of a group always have the same length. */
  predicate Lockstep(m: TempMesh)
  {
    |m.uvIndices| == |m.vertexIndices| && |m.normalIndices| == |m.vertexIndices|
  }

  /** The current group exists and every group's index lists are in lockstep. */
  predicate Valid(st: ObjState)
  {
    st.group in st.groups && forall g :: g in st.groups ==> Lockstep(st.groups[g])
  }

  /** A face line's corners appended to a group. */
  function AddCorners(m: TempMesh, cs: seq<Corner>): (r: TempMesh)
    ensures Lockstep(m) ==> Lockstep(r)
    ensures r.material == m.material
    ensures r.vertexIndices == m.vertexIndices + PositionsOf(cs)
  {
    m.(vertexIndices := m.vertexIndices + PositionsOf(cs),
       uvIndices := m.uvIndices + UvsOf(cs),
       normalIndices := m.normalIndices + NormalsOf(cs))
  }

  /**
   * `g`/`o` with a name: switch to that group, creating it with the current
   * material when it is new. Without a name nothing changes.
   */
  function SwitchGroup(st: ObjState, name: string): (r: ObjState)
    requires Valid(st)
    ensures Valid(r)
  {
    if name == "" then st
    else if name in st.groups then st.(group := name)
    else st.(group := name, groups := st.groups[name := EmptyMesh.(material := st.material)])
  }

  /**
   * `usemtl`: when the current group already has faces under another material,
   * switch to a new empty group `<group>_<material>`; then give the current
   * group the material.
   */
  function UseMaterial(st: ObjState, m: string): (r: ObjState)
    requires Valid(st)
    ensures Valid(r)
  {
    var current := st.groups[st.group];
    if current.vertexIndices != [] && current.material != m then
      var name := st.group + "_" + m;
      st.(group := name, material := m, groups := st.groups[name := EmptyMesh.(material := m)])
    else
      st.(material := m, groups := st.groups[st.group := current.(material := m)])
  }

  /** The effect of one line of the file at `path` on the loop variables. */
  function Step(st: ObjState, line: string, path: string, scan: Scan): (r: ObjState)
    requires Valid(st)
    ensures Valid(r)
  {
    var kind := Kind(line);
    if kind == "v" then st.(positions := st.positions + [scan.vec3(line)])
    else if kind == "vt" then st.(uvs := st.uvs + [scan.vec2(line)])
    else if kind == "vn" then st.(normals := st.normals + [scan.vec3(line)])
    else if kind == "f" then
      st.(groups := st.groups[st.group := AddCorners(st.groups[st.group], FaceCorners(line, scan))])
    else if kind == "g" || kind == "o" then SwitchGroup(st, Word(line, 1, ""))
    else if kind == "mtllib" then
      st.(libraries := st.libraries + [JoinPath(ParentPath(path), Word(line, 1, ""))])
    else if kind == "usemtl" then UseMaterial(st, Word(line, 1, st.material))
    else st
  }

  /** The loop variables after the first `n` lines. */
  function RunFirst(lines: seq<string>, n: nat, path: string, scan: Scan): (st: ObjState)
    requires n <= |lines|
    ensures Valid(st)
  {
    if n == 0 then Initial else Step(RunFirst(lines, n - 1, path, scan), lines[n - 1], path, scan)
  }

  function Run(lines: seq<string>, path: string, scan: Scan): ObjState
  {
    RunFirst(lines, |lines|, path, scan)
  }

  /** A line whose first word is no OBJ keyword the loader knows leaves every variable as it was. */
  lemma UnknownLineIgnored(st: ObjState, line: string, path: string, scan: Scan)
    requires Valid(st)
    requires Kind(line) !in {"v", "vt", "vn", "f", "g", "o", "mtllib", "usemtl"}
    ensures Step(st, line, path, scan) == st
  {
  }

  /** A `g`/`o` line with a name makes that group current; an existing group keeps its faces and material. */
  lemma GroupLine(st: ObjState, line: string, path: string, scan: Scan)
    requires Valid(st)
    requires Kind(line) == "g" || Kind(line) == "o"
    ensures var r := Step(st, line, path, scan);
      var name := Word(line, 1, "");
      (name == "" ==> r == st) &&
      (name != "" ==>
        r.group == name && r.material == st.material &&
        (name in st.groups ==> r.groups == st.groups) &&
        (name !in st.groups ==> r.groups == st.groups[name := TempMesh([], [], [], st.material)]))
  {
  }

  /**
   * A `usemtl` line sets the current material (kept when the line names
   * none); a group that has faces under another material is left for a fresh
   * group `<group>_<material>`, which the line makes current.
   */
  lemma MaterialLine(st: ObjState, line: string, path: string, scan: Scan)
    requires Valid(st)
    requires Kind(line) == "usemtl"
    ensures var r := Step(st, line, path, scan);
      var m := Word(line, 1, st.material);
      var current := st.groups[st.group];
      r.material == m && r.groups[r.group].material == m &&
      (current.vertexIndices != [] && current.material != m ==>
        r.group == st.group + "_" + m && r.groups[r.group] == TempMesh([], [], [], m) &&
        r.groups == st.groups[r.group := TempMesh([], [], [], m)]) &&
      (current.vertexIndices == [] || current.material == m ==>
        r.group == st.group && r.groups == st.groups[st.group := current.(material := m)])
  {
  }

  /** A face line appends one corner per word to each index list of the current group and nothing else. */
  lemma FaceLine(st: ObjState, line: string, path: string, scan: Scan)
    requires Valid(st)
    requires Kind(line) == "f"
    ensures var r := Step(st, line, path, scan);
      var cs := FaceCorners(line, scan);
      r.group == st.group && r.groups.Keys == st.groups.Keys &&
      r.groups[st.group].vertexIndices == st.groups[st.group].vertexIndices + PositionsOf(cs) &&
      r.groups[st.group].uvIndices == st.groups[st.group].uvIndices + UvsOf(cs) &&
      r.groups[st.group].normalIndices == st.groups[st.group].normalIndices + NormalsOf(cs) &&
      forall g :: g in st.groups && g != st.group ==> r.groups[g] == st.groups[g]
  {
  }

  /**
   * A `usemtl` that splits a group whose `<group>_<material>` group already
   * exists replaces that group by an empty one: the faces gathered there are
   * lost. E.g. `g a`, `usemtl m1`, `f ..`, `usemtl m2`, `f ..`, `g a`,
   * `usemtl m2` empties `a_m2`.
   */
  lemma UsemtlDropsFaces(st: ObjState, line: string, path: string, scan: Scan)
    requires Valid(st)
    requires Kind(line) == "usemtl" && Word(line, 1, st.material) != st.groups[st.group].material
    requires st.groups[st.group].vertexIndices != []
    requires st.group + "_" + Word(line, 1, st.material) in st.groups
    requires st.groups[st.group + "_" + Word(line, 1, st.material)].vertexIndices != []
    ensures var r := Step(st, line, path, scan);
      r.groups[st.group + "_" + Word(line, 1, st.material)].vertexIndices == []
  {
  }

  /** `usemtl` that reuses an existing `<group>_<material>` group instead of emptying it. */
  function UseMaterialChecked(st: ObjState, m: string): (r: ObjState)
    requires Valid(st)
    ensures Valid(r)
  {
    var current := st.groups[st.group];
    if current.vertexIndices != [] && current.material != m then
      var name := st.group + "_" + m;
      var target := if name in st.groups then st.groups[name] else EmptyMesh;
      st.(group := name, material := m, groups := st.groups[name := target.(material := m)])
    else
      st.(material := m, groups := st.groups[st.group := current.(material := m)])
  }

  /**
   * The corrected `usemtl`: as before, except that a split into an existing
   * `<group>_<material>` group keeps that group's faces.
   */
  lemma MaterialLineChecked(st: ObjState, line: string, path: string, scan: Scan)
    requires Valid(st)
    requires Kind(line) == "usemtl"
    ensures var r := StepChecked(st, line, path, scan);
      var m := Word(line, 1, st.material);
      var current := st.groups[st.group];
      var name := st.group + "_" + m;
      r.material == m && r.groups[r.group].material == m && r.groups.Keys >= st.groups.Keys &&
      (current.vertexIndices != [] && current.material != m ==>
        r.group == name &&
        (name in st.groups ==> r.groups == st.groups[name := st.groups[name].(material := m)]) &&
        (name !in st.groups ==> r.groups == st.groups[name := TempMesh([], [], [], m)])) &&
      (current.vertexIndices == [] || current.material == m ==>
        r.group == st.group && r.groups == st.groups[st.group := current.(material := m)])
  {
  }

  /** Step with the corrected `usemtl`. */
  function StepChecked(st: ObjState, line: string, path: string, scan: Scan): (r: ObjState)
    requires Valid(st)
    ensures Valid(r)
  {
    if Kind(line) == "usemtl" then UseMaterialChecked(st, Word(line, 1, st.material))
    else Step(st, line, path, scan)
  }

  /** The loop variables after the first `n` lines, with the corrected `usemtl`. */
  function RunFirstChecked(lines: seq<string>, n: nat, path: string, scan: Scan): (st: ObjState)
    requires n <= |lines|
    ensures Valid(st)
  {
    if n == 0 then Initial else StepChecked(RunFirstChecked(lines, n - 1, path, scan), lines[n - 1], path, scan)
  }

  /** Every group of `before` is still in `after`, its face indices a prefix of the new ones. */
  predicate KeepsFaces(before: map<string, TempMesh>, after: map<string, TempMesh>)
  {
    forall g :: g in before ==> g in after && before[g].vertexIndices <= after[g].vertexIndices
  }

  /** With the corrected `usemtl` no line ever removes a group or a face index gathered in it. */
  lemma StepCheckedKeepsFaces(st: ObjState, line: string, path: string, scan: Scan)
    requires Valid(st)
    ensures KeepsFaces(st.groups, StepChecked(st, line, path, scan).groups)
  {
    var r := StepChecked(st, line, path, scan);
    var kind := Kind(line);
    if kind == "f" {
      var cs := FaceCorners(line, scan);
      forall g | g in st.groups
        ensures g in r.groups && st.groups[g].vertexIndices <= r.groups[g].vertexIndices
      {
        if g == st.group {
          assert r.groups[g].vertexIndices == st.groups[g].vertexIndices + PositionsOf(cs);
        }
      }
    } else if kind == "usemtl" {
      UseMaterialCheckedKeepsFaces(st, Word(line, 1, st.material));
    } else if kind == "g" || kind == "o" {
      assert r.groups.Keys >= st.groups.Keys;
      forall g | g in st.groups ensures r.groups[g] == st.groups[g] { }
    } else {
      assert r.groups == st.groups;
    }
  }

  /** With the corrected `usemtl`, no line of a whole file removes a group or a face index gathered before it. */
  lemma {:induction false} RunKeepsFaces(lines: seq<string>, m: nat, n: nat, path: string, scan: Scan)
    requires m <= n <= |lines|
    decreases n - m
    ensures KeepsFaces(RunFirstChecked(lines, m, path, scan).groups, RunFirstChecked(lines, n, path, scan).groups)
  {
    if m < n {
      var a, b := RunFirstChecked(lines, m, path, scan), RunFirstChecked(lines, m + 1, path, scan);
      StepCheckedKeepsFaces(a, lines[m], path, scan);
      RunKeepsFaces(lines, m + 1, n, path, scan);
      KeepsFacesTransitive(a.groups, b.groups, RunFirstChecked(lines, n, path, scan).groups);
    } else {
      KeepsFacesReflexive(RunFirstChecked(lines, m, path, scan).groups);
    }
  }

  lemma KeepsFacesReflexive(a: map<string, TempMesh>)
    ensures KeepsFaces(a, a)
  {
    forall g | g in a ensures a[g].vertexIndices[..|a[g].vertexIndices|] == a[g].vertexIndices { }
  }

  lemma KeepsFacesTransitive(a: map<string, TempMesh>, b: map<string, TempMesh>, c: map<string, TempMesh>)
    requires KeepsFaces(a, b)
    requires KeepsFaces(b, c)
    ensures KeepsFaces(a, c)
  {
    forall g | g in a ensures g in c && a[g].vertexIndices <= c[g].vertexIndices { }
  }

  lemma UseMaterialCheckedKeepsFaces(st: ObjState, m: string)
    requires Valid(st)
    ensures KeepsFaces(st.groups, UseMaterialChecked(st, m).groups)
  {
    var r := UseMaterialChecked(st, m);
    forall g | g in st.groups ensures g in r.groups && r.groups[g].vertexIndices == st.groups[g].vertexIndices { }
  }

  /** Every position index names a loaded position. */
  predicate InRange(vi: seq<U32>, positions: seq<Vec3>)
  {
    forall k :: 0 <= k < |vi| ==> vi[k] < |positions|
  }

  /** A new vertex: its position, the texture coordinate of the corner that created it, zero normal. */
  function NewVertex(positions: seq<Vec3>, uvs: seq<Vec2>, p: U32, uvIndex: U32): Vertex
    requires p < |positions|
  {
    Vertex(positions[p], Zero, UvAt(uvs, uvIndex), Zero, Zero)
  }

  /**
   * The de-duplication state: the map from position index to vertex index,
   * the position index of each vertex, the vertices and the index buffer.
   */
  datatype Dedup = Dedup(keys: map<U32, nat>, order: seq<U32>, vertices: seq<Vertex>, indices: seq<nat>)

  /** The de-duplication state after the first `n` face corners. */
  function DedupFirst(positions: seq<Vec3>, uvs: seq<Vec2>, vi: seq<U32>, ui: seq<U32>, n: nat): Dedup
    requires n <= |vi| <= |ui| && InRange(vi, positions)
  {
    if n == 0 then Dedup(map[], [], [], [])
    else
      var d := DedupFirst(positions, uvs, vi, ui, n - 1);
      var p := vi[n - 1];
      if p in d.keys then d.(indices := d.indices + [d.keys[p]])
      else Dedup(d.keys[p := |d.vertices|], d.order + [p],
                 d.vertices + [NewVertex(positions, uvs, p, ui[n - 1])], d.indices + [|d.vertices|])
  }

  /** The keys, the vertex order and the lengths after `n` corners. */
  ghost predicate KeysShape(vi: seq<U32>, n: nat, d: Dedup)
    requires n <= |vi|
  {
    |d.indices| == n && |d.order| == |d.vertices| &&
    (forall p :: p in d.keys <==> p in vi[..n]) &&
    (forall p :: p in d.keys ==> d.keys[p] < |d.order| && d.order[d.keys[p]] == p) &&
    (forall i :: 0 <= i < |d.order| ==> d.order[i] in d.keys && d.keys[d.order[i]] == i)
  }

  lemma {:induction false} DedupKeys(positions: seq<Vec3>, uvs: seq<Vec2>, vi: seq<U32>, ui: seq<U32>, n: nat)
    requires n <= |vi| <= |ui| && InRange(vi, positions)
    ensures KeysShape(vi, n, DedupFirst(positions, uvs, vi, ui, n))
  {
    if n > 0 {
      DedupKeys(positions, uvs, vi, ui, n - 1);
      var d := DedupFirst(positions, uvs, vi, ui, n - 1);
      var r := DedupFirst(positions, uvs, vi, ui, n);
      var p := vi[n - 1];
      assert vi[..n] == vi[..n - 1] + [p];
      if p !in d.keys {
        forall q | q in r.keys ensures r.keys[q] < |r.order| && r.order[r.keys[q]] == q {
          if q != p {
            assert r.order[d.keys[q]] == d.order[d.keys[q]];
          }
        }
        forall i | 0 <= i < |r.order| ensures r.order[i] in r.keys && r.keys[r.order[i]] == i {
          if i < |d.order| {
            assert r.order[i] == d.order[i];
          }
        }
      }
    }
  }

  /** Each corner's index is the vertex of its position index. */
  lemma {:induction false} DedupIndices(positions: seq<Vec3>, uvs: seq<Vec2>, vi: seq<U32>, ui: seq<U32>, n: nat)
    requires n <= |vi| <= |ui| && InRange(vi, positions)
    ensures var d := DedupFirst(positions, uvs, vi, ui, n);
      |d.indices| == n && forall k :: 0 <= k < n ==> vi[k] in d.keys && d.indices[k] == d.keys[vi[k]]
  {
    if n > 0 {
      DedupIndices(positions, uvs, vi, ui, n - 1);
      var d := DedupFirst(positions, uvs, vi, ui, n - 1);
      var r := DedupFirst(positions, uvs, vi, ui, n);
      var p := vi[n - 1];
      if p !in d.keys {
        forall k | 0 <= k < n - 1 ensures vi[k] in r.keys && r.indices[k] == r.keys[vi[k]] {
          assert vi[k] in d.keys && vi[k] != p;
          assert r.indices[k] == d.indices[k];
        }
      } else {
        assert r.keys == d.keys && r.indices == d.indices + [d.keys[p]];
      }
    }
  }

  /** Each vertex is built from the first corner that uses its position index. */
  lemma {:induction false} DedupVertices(positions: seq<Vec3>, uvs: seq<Vec2>, vi: seq<U32>, ui: seq<U32>, n: nat)
    requires n <= |vi| <= |ui| && InRange(vi, positions)
    ensures var d := DedupFirst(positions, uvs, vi, ui, n);
      |d.vertices| == |d.order| &&
      forall i :: 0 <= i < |d.order| ==>
        d.order[i] in vi && IndexOf(vi, d.order[i]) < n &&
        d.vertices[i] == NewVertex(positions, uvs, d.order[i], ui[IndexOf(vi, d.order[i])])
  {
    if n > 0 {
      DedupVertices(positions, uvs, vi, ui, n - 1);
      var d := DedupFirst(positions, uvs, vi, ui, n - 1);
      var p := vi[n - 1];
      var r := DedupFirst(positions, uvs, vi, ui, n);
      if p !in d.keys {
        DedupKeys(positions, uvs, vi, ui, n - 1);
        FirstAfterPrefix(vi, p, n - 1);
        forall i | 0 <= i < |r.order|
          ensures r.order[i] in vi && IndexOf(vi, r.order[i]) < n
          ensures r.vertices[i] == NewVertex(positions, uvs, r.order[i], ui[IndexOf(vi, r.order[i])])
        {
          if i < |d.order| {
            assert r.order[i] == d.order[i] && r.vertices[i] == d.vertices[i];
          }
        }
      } else {
        assert r.order == d.order && r.vertices == d.vertices;
      }
    }
  }

  /** A value first found at `i` has IndexOf `i`. */
  lemma FirstAfterPrefix<T>(s: seq<T>, x: T, i: nat)
    requires i < |s| && s[i] == x && x !in s[..i]
    ensures IndexOf(s, x) == i
  {
    forall j | 0 <= j < i ensures s[j] != x {
      assert s[..i][j] == s[j];
    }
    IndexOfAt(s, x, i);
  }

  /** IndexOf finds the first position holding a value. */
  lemma {:induction false} IndexOfAt<T>(s: seq<T>, x: T, i: nat)
    requires i < |s| && s[i] == x
    requires forall j :: 0 <= j < i ==> s[j] != x
    ensures IndexOf(s, x) == i
  {
    if i > 0 {
      IndexOfAt(s[1..], x, i - 1);
    }
  }

  /** Two corners get the same index exactly when they name the same position. */
  predicate SharedExactly(indices: seq<nat>, vi: seq<U32>)
    requires |indices| == |vi|
  {
    forall a, b :: 0 <= a < |vi| && 0 <= b < |vi| ==> (indices[a] == indices[b] <==> vi[a] == vi[b])
  }

  /** Every vertex is used by some corner. */
  predicate AllUsed(indices: seq<nat>, count: nat)
  {
    forall v :: 0 <= v < count ==> v in indices
  }

  /**
   * De-duplication by position index: one index per face corner, every index
   * names an existing vertex at that corner's position, two corners share a
   * vertex exactly when they share a position index, the first corner of a
   * position decides the vertex's texture coordinate, and every vertex is
   * used by some corner.
   */
  lemma DedupByPosition(positions: seq<Vec3>, uvs: seq<Vec2>, vi: seq<U32>, ui: seq<U32>)
    requires |vi| <= |ui| && InRange(vi, positions)
    ensures var d := DedupFirst(positions, uvs, vi, ui, |vi|);
      |d.indices| == |vi| &&
      (forall k :: 0 <= k < |vi| ==>
        d.indices[k] < |d.vertices| && d.vertices[d.indices[k]].position == positions[vi[k]] &&
        d.vertices[d.indices[k]].texCoords == UvAt(uvs, ui[IndexOf(vi, vi[k])])) &&
      SharedExactly(d.indices, vi) && AllUsed(d.indices, |d.vertices|)
  {
    DedupCorners(positions, uvs, vi, ui, |vi|);
    DedupShared(positions, uvs, vi, ui);
    DedupAllUsed(positions, uvs, vi, ui);
  }

  /** After `n` corners, each corner's index names a vertex at its position with its first corner's texture coordinate. */
  lemma DedupCorners(positions: seq<Vec3>, uvs: seq<Vec2>, vi: seq<U32>, ui: seq<U32>, n: nat)
    requires n <= |vi| <= |ui| && InRange(vi, positions)
    ensures var d := DedupFirst(positions, uvs, vi, ui, n);
      |d.indices| == n &&
      forall k :: 0 <= k < n ==>
        d.indices[k] < |d.vertices| && d.vertices[d.indices[k]].position == positions[vi[k]] &&
        d.vertices[d.indices[k]].texCoords == UvAt(uvs, ui[IndexOf(vi, vi[k])])
  {
    var d := DedupFirst(positions, uvs, vi, ui, n);
    DedupKeys(positions, uvs, vi, ui, n);
    DedupIndices(positions, uvs, vi, ui, n);
    DedupVertices(positions, uvs, vi, ui, n);
    forall k | 0 <= k < n
      ensures d.indices[k] < |d.vertices| && d.vertices[d.indices[k]].position == positions[vi[k]]
      ensures d.vertices[d.indices[k]].texCoords == UvAt(uvs, ui[IndexOf(vi, vi[k])])
    {
      assert d.order[d.indices[k]] == vi[k];
    }
  }

  lemma DedupShared(positions: seq<Vec3>, uvs: seq<Vec2>, vi: seq<U32>, ui: seq<U32>)
    requires |vi| <= |ui| && InRange(vi, positions)
    ensures var d := DedupFirst(positions, uvs, vi, ui, |vi|);
      |d.indices| == |vi| && SharedExactly(d.indices, vi)
  {
    var d := DedupFirst(positions, uvs, vi, ui, |vi|);
    DedupKeys(positions, uvs, vi, ui, |vi|);
    DedupIndices(positions, uvs, vi, ui, |vi|);
    forall a, b | 0 <= a < |vi| && 0 <= b < |vi| ensures d.indices[a] == d.indices[b] <==> vi[a] == vi[b] {
      assert d.order[d.keys[vi[a]]] == vi[a] && d.order[d.keys[vi[b]]] == vi[b];
    }
  }

  lemma DedupAllUsed(positions: seq<Vec3>, uvs: seq<Vec2>, vi: seq<U32>, ui: seq<U32>)
    requires |vi| <= |ui| && InRange(vi, positions)
    ensures var d := DedupFirst(positions, uvs, vi, ui, |vi|);
      AllUsed(d.indices, |d.vertices|)
  {
    var d := DedupFirst(positions, uvs, vi, ui, |vi|);
    DedupKeys(positions, uvs, vi, ui, |vi|);
    DedupIndices(positions, uvs, vi, ui, |vi|);
    DedupVertices(positions, uvs, vi, ui, |vi|);
    assert vi[..|vi|] == vi;
    forall v | 0 <= v < |d.vertices| ensures v in d.indices {
      var k := IndexOf(vi, d.order[v]);
      assert d.indices[k] == d.keys[d.order[v]] == v;
    }
  }

  /** The normalized normal of the triangle (p0, p1, p2). */
  function FaceNormal(num: Numerics, p0: Vec3, p1: Vec3, p2: Vec3): Vec3
  {
    num.normalize(Cross(Sub(p1, p0), Sub(p2, p0)))
  }

  /** The face normal of triangle `t` of a group. */
  function TriangleFace(num: Numerics, positions: seq<Vec3>, m: TempMesh, t: nat): Vec3
    requires 3 * t + 2 < |m.vertexIndices| && InRange(m.vertexIndices, positions)
  {
    var vi := m.vertexIndices;
    FaceNormal(num, positions[vi[3 * t]], positions[vi[3 * t + 1]], positions[vi[3 * t + 2]])
  }

  /** The normal index of each triangle's first corner names a loaded normal. */
  predicate NormalsReadable(m: TempMesh, normals: seq<Vec3>)
  {
    forall i :: 0 <= i < |m.normalIndices| && i % 3 == 0 ==> m.normalIndices[i] < |normals|
  }

  /**
   * The normal ProcessMeshData gives the three corners of triangle `t`: the
   * face normal when the group has no normal indices, otherwise the normal
   * its first corner names, read without a bounds check.
   */
  function TriangleNormal(num: Numerics, positions: seq<Vec3>, normals: seq<Vec3>, m: TempMesh, t: nat): Vec3
    requires Lockstep(m) && 3 * t + 2 < |m.vertexIndices| && InRange(m.vertexIndices, positions)
    requires NormalsReadable(m, normals)
  {
    if m.normalIndices == [] then TriangleFace(num, positions, m, t)
    else normals[m.normalIndices[3 * t]]
  }

  /**
   * The face-normal branch of ProcessMeshData is dead: a group with a triangle
   * always has normal indices, so a file without `vn` lines (whose face
   * corners leave `vn` unread, so each normal index is an indeterminate value,
   * the uninitialised `vn`, minus one) makes every triangle read past the end
   * of the empty normals, whatever that value is.
   */
  lemma FaceNormalBranchDead(normals: seq<Vec3>, m: TempMesh, t: nat)
    requires Lockstep(m) && 3 * t + 2 < |m.vertexIndices|
    ensures m.normalIndices != []
    ensures normals == [] ==> !NormalsReadable(m, normals)
  {
    if normals == [] {
      assert 0 < |m.normalIndices| && 0 % 3 == 0 && !(m.normalIndices[0] < |normals|);
    }
  }

  /** A file without `vn` lines loads no normals. */
  lemma {:induction false} NoVnNoNormals(lines: seq<string>, n: nat, path: string, scan: Scan)
    requires n <= |lines|
    requires forall k :: 0 <= k < |lines| ==> Kind(lines[k]) != "vn"
    ensures RunFirst(lines, n, path, scan).normals == []
  {
    if n > 0 {
      var before := RunFirst(lines, n - 1, path, scan);
      NoVnNoNormals(lines, n - 1, path, scan);
      OnlyVnAddsNormals(before, lines[n - 1], path, scan);
    }
  }

  /** Only a `vn` line changes the loaded normals. */
  lemma OnlyVnAddsNormals(st: ObjState, line: string, path: string, scan: Scan)
    requires Valid(st) && Kind(line) != "vn"
    ensures Step(st, line, path, scan).normals == st.normals
  {
  }

  /** Hence no group with a triangle of a file without `vn` lines can be processed as written. */
  lemma NoVnUnprocessable(lines: seq<string>, path: string, scan: Scan, g: string)
    requires forall k :: 0 <= k < |lines| ==> Kind(lines[k]) != "vn"
    requires g in Run(lines, path, scan).groups && |Run(lines, path, scan).groups[g].vertexIndices| >= 3
    ensures !NormalsReadable(Run(lines, path, scan).groups[g], Run(lines, path, scan).normals)
  {
    NoVnNoNormals(lines, |lines|, path, scan);
    FaceNormalBranchDead([], Run(lines, path, scan).groups[g], 0);
  }

  /**
   * The triangle normal with the face normal used whenever the first corner's
   * normal index names no loaded normal.
   */
  function TriangleNormalChecked(num: Numerics, positions: seq<Vec3>, normals: seq<Vec3>, m: TempMesh, t: nat): (r: Vec3)
    requires Lockstep(m) && 3 * t + 2 < |m.vertexIndices| && InRange(m.vertexIndices, positions)
    ensures NormalsReadable(m, normals) ==> r == TriangleNormal(num, positions, normals, m, t)
    ensures normals == [] ==> r == TriangleFace(num, positions, m, t)
  {
    if m.normalIndices == [] || m.normalIndices[3 * t] >= |normals| then TriangleFace(num, positions, m, t)
    else normals[m.normalIndices[3 * t]]
  }

  /** The normals of the first `n` triangles. */
  function NormalsFirst(num: Numerics, positions: seq<Vec3>, normals: seq<Vec3>, m: TempMesh, n: nat): (r: seq<Vec3>)
    requires Lockstep(m) && 3 * n <= |m.vertexIndices| && InRange(m.vertexIndices, positions)
    ensures |r| == n
    ensures forall t :: 0 <= t < n ==> r[t] == TriangleNormalChecked(num, positions, normals, m, t)
  {
    if n == 0 then [] else NormalsFirst(num, positions, normals, m, n - 1) + [TriangleNormalChecked(num, positions, normals, m, n - 1)]
  }

  /**
   * A processed group: its vertices and indices, the normal each triangle
   * contributes to its corners, and its material (null until one is found).
   */
  datatype MeshData = MeshData(name: string, vertices: seq<Vertex>, indices: seq<nat>, faceNormals: seq<Vec3>, material: Material?)

  /** What ProcessMeshData may be given: whole triangles whose position indices are in range. */
  predicate Processable(m: TempMesh, positions: seq<Vec3>)
  {
    Lockstep(m) && |m.vertexIndices| % 3 == 0 && InRange(m.vertexIndices, positions)
  }

  /** The mesh data of group `name`. */
  function MeshDataOf(num: Numerics, positions: seq<Vec3>, uvs: seq<Vec2>, normals: seq<Vec3>, m: TempMesh, name: string): MeshData
    requires Processable(m, positions)
  {
    var d := DedupFirst(positions, uvs, m.vertexIndices, m.uvIndices, |m.vertexIndices|);
    MeshData(name, d.vertices, d.indices, NormalsFirst(num, positions, normals, m, |m.vertexIndices| / 3), null)
  }

  /** One face corner: reuse the vertex of its position index, or append a new vertex and remember it. */
  method AddCorner(positions: seq<Vec3>, uvs: seq<Vec2>, vi: seq<U32>, ui: seq<U32>, k: nat,
                   keys: map<U32, nat>, vertices: seq<Vertex>, indices: seq<nat>, ghost order: seq<U32>)
    returns (keys': map<U32, nat>, vertices': seq<Vertex>, indices': seq<nat>, ghost order': seq<U32>)
    requires k < |vi| <= |ui| && InRange(vi, positions)
    requires Dedup(keys, order, vertices, indices) == DedupFirst(positions, uvs, vi, ui, k)
    ensures Dedup(keys', order', vertices', indices') == DedupFirst(positions, uvs, vi, ui, k + 1)
  {
    var posIndex := vi[k];
    var uvIndex := ui[k];
    var vertex := Vertex(positions[posIndex], Zero, UvAt(uvs, uvIndex), Zero, Zero);
    keys', vertices', order' := keys, vertices, order;
    if posIndex !in keys {
      keys' := keys[posIndex := |vertices|];
      vertices' := vertices + [vertex];
      order' := order + [posIndex];
    }
    indices' := indices + [keys'[posIndex]];
  }

  /** One index per corner. */
  lemma {:induction false} DedupLength(positions: seq<Vec3>, uvs: seq<Vec2>, vi: seq<U32>, ui: seq<U32>, n: nat)
    requires n <= |vi| <= |ui| && InRange(vi, positions)
    ensures |DedupFirst(positions, uvs, vi, ui, n).indices| == n
  {
    if n > 0 {
      DedupLength(positions, uvs, vi, ui, n - 1);
    }
  }

  /** The three corners of the triangle that starts at corner `i` name vertices at their positions. */
  lemma TriangleCorners(positions: seq<Vec3>, uvs: seq<Vec2>, vi: seq<U32>, ui: seq<U32>, i: nat)
    requires i + 3 <= |vi| <= |ui| && InRange(vi, positions)
    ensures var d := DedupFirst(positions, uvs, vi, ui, i + 3);
      |d.indices| == i + 3 &&
      d.indices[i] < |d.vertices| && d.vertices[d.indices[i]].position == positions[vi[i]] &&
      d.indices[i + 1] < |d.vertices| && d.vertices[d.indices[i + 1]].position == positions[vi[i + 1]] &&
      d.indices[i + 2] < |d.vertices| && d.vertices[d.indices[i + 2]].position == positions[vi[i + 2]]
  {
    DedupCorners(positions, uvs, vi, ui, i + 3);
  }

  /** The three corners of the triangle that starts at corner `i`, and the indices they get. */
  method AddTriangleCorners(positions: seq<Vec3>, uvs: seq<Vec2>, vi: seq<U32>, ui: seq<U32>, i: nat,
                            keys: map<U32, nat>, vertices: seq<Vertex>, indices: seq<nat>, ghost order: seq<U32>)
    returns (keys': map<U32, nat>, vertices': seq<Vertex>, indices': seq<nat>, tri: seq<nat>, ghost order': seq<U32>)
    requires i + 3 <= |vi| <= |ui| && InRange(vi, positions)
    requires Dedup(keys, order, vertices, indices) == DedupFirst(positions, uvs, vi, ui, i)
    ensures Dedup(keys', order', vertices', indices') == DedupFirst(positions, uvs, vi, ui, i + 3)
    ensures |indices'| == i + 3 && tri == indices'[i..]
  {
    keys', vertices', indices', order' := keys, vertices, indices, order;
    tri := [];
    DedupLength(positions, uvs, vi, ui, i);
    var k := i;
    while k < i + 3
      invariant i <= k <= i + 3
      invariant Dedup(keys', order', vertices', indices') == DedupFirst(positions, uvs, vi, ui, k)
      invariant |indices'| == k && tri == indices'[i..]
    {
      keys', vertices', indices', order' := AddCorner(positions, uvs, vi, ui, k, keys', vertices', indices', order');
      DedupLength(positions, uvs, vi, ui, k + 1);
      tri := tri + [indices'[k]];
      k := k + 1;
    }
  }

  /** Triangle `t`, starting at corner `i`: its three corners, then the normal it gives them. */
  method AddTriangle(num: Numerics, positions: seq<Vec3>, uvs: seq<Vec2>, normals: seq<Vec3>, m: TempMesh, i: nat, ghost t: nat,
                     keys: map<U32, nat>, vertices: seq<Vertex>, indices: seq<nat>, faceNormals: seq<Vec3>, ghost order: seq<U32>)
    returns (keys': map<U32, nat>, vertices': seq<Vertex>, indices': seq<nat>, faceNormals': seq<Vec3>, ghost order': seq<U32>)
    requires i == 3 * t
    requires Lockstep(m) && i + 2 < |m.vertexIndices| && InRange(m.vertexIndices, positions)
    requires Dedup(keys, order, vertices, indices) == DedupFirst(positions, uvs, m.vertexIndices, m.uvIndices, i)
    requires faceNormals == NormalsFirst(num, positions, normals, m, t)
    ensures Dedup(keys', order', vertices', indices') == DedupFirst(positions, uvs, m.vertexIndices, m.uvIndices, i + 3)
    ensures faceNormals' == NormalsFirst(num, positions, normals, m, t + 1)
  {
    var tri;
    keys', vertices', indices', tri, order' :=
      AddTriangleCorners(positions, uvs, m.vertexIndices, m.uvIndices, i, keys, vertices, indices, order);
    TriangleCorners(positions, uvs, m.vertexIndices, m.uvIndices, i);
    var normal: Vec3;
    if m.normalIndices == [] || m.normalIndices[i] >= |normals| {
      var v0, v1, v2 := vertices'[tri[0]], vertices'[tri[1]], vertices'[tri[2]];
      normal := FaceNormal(num, v0.position, v1.position, v2.position);
    } else {
      normal := normals[m.normalIndices[i]];
    }
    assert normal == TriangleNormalChecked(num, positions, normals, m, t);
    faceNormals' := faceNormals + [normal];
  }

  /**
   * ProcessMeshData: the group's vertices shared by position index, one index
   * per face corner, and one normal per triangle.
   */
  method ProcessMeshData(num: Numerics, positions: seq<Vec3>, uvs: seq<Vec2>, normals: seq<Vec3>, m: TempMesh, name: string)
    returns (data: MeshData)
    requires Processable(m, positions)
    ensures data == MeshDataOf(num, positions, uvs, normals, m, name)
  {
    var keys: map<U32, nat> := map[];
    ghost var order: seq<U32> := [];
    var vertices: seq<Vertex> := [];
    var indices: seq<nat> := [];
    var faceNormals: seq<Vec3> := [];
    var i := 0;
    while i < |m.vertexIndices|
      invariant i <= |m.vertexIndices| && i % 3 == 0
      invariant Dedup(keys, order, vertices, indices) == DedupFirst(positions, uvs, m.vertexIndices, m.uvIndices, i)
      invariant faceNormals == NormalsFirst(num, positions, normals, m, i / 3)
    {
      keys, vertices, indices, faceNormals, order :=
        AddTriangle(num, positions, uvs, normals, m, i, i / 3, keys, vertices, indices, faceNormals, order);
      i := i + 3;
    }
    data := MeshData(name, vertices, indices, faceNormals, null);
  }

  /** The materials the MTL libraries `paths[..n]` yield, in order (an empty result adds nothing). */
  function LoadedFirst(library: string -> seq<Material>, paths: seq<string>, n: nat): seq<Material>
    requires n <= |paths|
  {
    if n == 0 then [] else LoadedFirst(library, paths, n - 1) + library(paths[n - 1])
  }

  function Loaded(library: string -> seq<Material>, paths: seq<string>): seq<Material>
  {
    LoadedFirst(library, paths, |paths|)
  }

  /** LoadedFirst only looks at the first `n` paths. */
  lemma {:induction false} LoadedFirstAgree(library: string -> seq<Material>, a: seq<string>, b: seq<string>, n: nat)
    requires n <= |a| && n <= |b| && a[..n] == b[..n]
    ensures LoadedFirst(library, a, n) == LoadedFirst(library, b, n)
  {
    if n > 0 {
      assert a[..n - 1] == a[..n][..n - 1] && b[..n - 1] == b[..n][..n - 1];
      assert a[n - 1] == a[..n][n - 1] && b[n - 1] == b[..n][n - 1];
      LoadedFirstAgree(library, a, b, n - 1);
    }
  }

  /** A new `mtllib` path appends what its library yields. */
  lemma LoadedSnoc(library: string -> seq<Material>, paths: seq<string>, p: string)
    ensures Loaded(library, paths + [p]) == Loaded(library, paths) + library(p)
  {
    assert (paths + [p])[..|paths|] == paths[..|paths|];
    LoadedFirstAgree(library, paths + [p], paths, |paths|);
  }

  /** The names of the loaded materials, in order. */
  function MaterialNames(ms: seq<Material>): (names: seq<string>)
    reads set m | m in ms
    ensures |names| == |ms| && forall k :: 0 <= k < |ms| ==> names[k] == ms[k].name
  {
    seq(|ms|, k reads set m | m in ms requires 0 <= k < |ms| => ms[k].name)
  }

  /** The first loaded material called `name`, or null. */
  function FirstMaterial(ms: seq<Material>, names: seq<string>, name: string): (r: Material?)
    requires |names| == |ms|
    ensures r == null <==> name !in names
    ensures r != null ==> exists k :: 0 <= k < |ms| && r == ms[k] && names[k] == name && name !in names[..k]
  {
    var i := FirstNamed(names, name);
    if i < |ms| then
      assert name !in names[..i] by {
        forall k | 0 <= k < i ensures names[..i][k] != name { }
      }
      ms[i]
    else null
  }

  /** Every group may be handed to ProcessMeshData. */
  predicate Loadable(st: ObjState)
  {
    forall g :: g in st.groups ==> Processable(st.groups[g], st.positions)
  }

  /** The groups of `order[..n]` that have faces, in order. */
  function FacedFirst(st: ObjState, order: seq<string>, n: nat): (gs: seq<string>)
    requires n <= |order| && forall g :: g in order ==> g in st.groups
    ensures forall i :: 0 <= i < |gs| ==> gs[i] in st.groups && st.groups[gs[i]].vertexIndices != []
  {
    if n == 0 then []
    else FacedFirst(st, order, n - 1) + if st.groups[order[n - 1]].vertexIndices == [] then [] else [order[n - 1]]
  }

  /**
   * FacedFirst keeps exactly the groups of `order[..n]` that have faces, and
   * when the order visits each group once it keeps each at most once.
   */
  lemma {:induction false} FacedFirstExact(st: ObjState, order: seq<string>, n: nat)
    requires n <= |order| && forall g :: g in order ==> g in st.groups
    ensures forall g :: g in order[..n] && st.groups[g].vertexIndices != [] ==> g in FacedFirst(st, order, n)
    ensures forall g :: g in FacedFirst(st, order, n) ==> g in order[..n]
    ensures IsOrder(order, st.groups) ==>
      forall a, b :: 0 <= a < b < |FacedFirst(st, order, n)| ==> FacedFirst(st, order, n)[a] != FacedFirst(st, order, n)[b]
  {
    if n > 0 {
      FacedFirstExact(st, order, n - 1);
      assert order[..n] == order[..n - 1] + [order[n - 1]];
      if IsOrder(order, st.groups) {
        assert order[n - 1] !in order[..n - 1] by {
          forall j | 0 <= j < n - 1 ensures order[j] != order[n - 1] { }
        }
      }
    }
  }

  /** The mesh of group `g`, with the material its material name selects. */
  function GroupMesh(num: Numerics, st: ObjState, ms: seq<Material>, names: seq<string>, g: string): (data: MeshData)
    requires g in st.groups && Loadable(st) && |names| == |ms|
    ensures data.name == g && |data.indices| == |st.groups[g].vertexIndices|
    ensures data.material == if st.groups[g].material == "" then null else FirstMaterial(ms, names, st.groups[g].material)
  {
    var temp := st.groups[g];
    DedupLength(st.positions, st.uvs, temp.vertexIndices, temp.uvIndices, |temp.vertexIndices|);
    var data := MeshDataOf(num, st.positions, st.uvs, st.normals, temp, g);
    data.(material := if temp.material == "" then null else FirstMaterial(ms, names, temp.material))
  }

  /** The meshes of the groups `gs`, in order. */
  function MeshesOf(num: Numerics, st: ObjState, ms: seq<Material>, names: seq<string>, gs: seq<string>): seq<MeshData>
    requires (forall i :: 0 <= i < |gs| ==> gs[i] in st.groups) && Loadable(st) && |names| == |ms|
  {
    seq(|gs|, k requires 0 <= k < |gs| => GroupMesh(num, st, ms, names, gs[k]))
  }

  /** The meshes of the groups of `order[..n]` that have faces. */
  function MeshesFirst(num: Numerics, st: ObjState, order: seq<string>, ms: seq<Material>, names: seq<string>, n: nat): seq<MeshData>
    requires n <= |order| && (forall g :: g in order ==> g in st.groups) && Loadable(st) && |names| == |ms|
  {
    MeshesOf(num, st, ms, names, FacedFirst(st, order, n))
  }

  /** The group loop's step: a group with faces appends its mesh, any other adds nothing. */
  lemma MeshesFirstStep(num: Numerics, st: ObjState, order: seq<string>, ms: seq<Material>, names: seq<string>, n: nat)
    requires n < |order| && (forall g :: g in order ==> g in st.groups) && Loadable(st) && |names| == |ms|
    ensures MeshesFirst(num, st, order, ms, names, n + 1) ==
      MeshesFirst(num, st, order, ms, names, n) +
      if st.groups[order[n]].vertexIndices == [] then [] else [GroupMesh(num, st, ms, names, order[n])]
  {
    var gs := FacedFirst(st, order, n);
    if st.groups[order[n]].vertexIndices != [] {
      assert FacedFirst(st, order, n + 1) == gs + [order[n]];
      assert MeshesOf(num, st, ms, names, gs + [order[n]]) ==
        MeshesOf(num, st, ms, names, gs) + [GroupMesh(num, st, ms, names, order[n])];
    }
  }

  /** Each of `out` is the mesh of one of the groups with faces of `groups`. */
  ghost predicate FromGroups(num: Numerics, st: ObjState, ms: seq<Material>, names: seq<string>, groups: seq<string>, out: seq<MeshData>)
    requires Loadable(st) && |names| == |ms|
  {
    forall k :: 0 <= k < |out| ==>
      out[k].name in groups && out[k].name in st.groups && st.groups[out[k].name].vertexIndices != [] &&
      out[k] == GroupMesh(num, st, ms, names, out[k].name)
  }

  /** Each group with faces of `groups` has a mesh in `out`. */
  ghost predicate Covers(st: ObjState, groups: seq<string>, out: seq<MeshData>)
  {
    forall g :: g in groups && g in st.groups && st.groups[g].vertexIndices != [] ==>
      exists k :: 0 <= k < |out| && out[k].name == g
  }

  /** No two meshes have the same name. */
  ghost predicate NamesDistinct(out: seq<MeshData>)
  {
    forall a, b :: 0 <= a < b < |out| ==> out[a].name != out[b].name
  }

  /**
   * The meshes LoadOBJ returns are exactly the groups with faces: each mesh is
   * the mesh of such a group (one index per face corner, the material its
   * name selects), each such group gives a mesh, and no group gives two.
   */
  lemma LoadedMeshesAreGroupsWithFaces(num: Numerics, st: ObjState, order: seq<string>, ms: seq<Material>, names: seq<string>)
    requires IsOrder(order, st.groups) && Loadable(st) && |names| == |ms|
    ensures var out := MeshesFirst(num, st, order, ms, names, |order|);
      FromGroups(num, st, ms, names, order, out) && Covers(st, order, out) && NamesDistinct(out)
  {
    var gs := FacedFirst(st, order, |order|);
    var out := MeshesFirst(num, st, order, ms, names, |order|);
    FacedFirstExact(st, order, |order|);
    assert order[..|order|] == order;
    forall k | 0 <= k < |out|
      ensures out[k].name in order && out[k].name in st.groups && st.groups[out[k].name].vertexIndices != []
      ensures out[k] == GroupMesh(num, st, ms, names, out[k].name)
    {
      assert out[k] == GroupMesh(num, st, ms, names, gs[k]) && gs[k] in gs;
    }
    forall g | g in order && g in st.groups && st.groups[g].vertexIndices != []
      ensures exists k :: 0 <= k < |out| && out[k].name == g
    {
      var k :| 0 <= k < |gs| && gs[k] == g;
      assert out[k] == GroupMesh(num, st, ms, names, gs[k]);
    }
    forall a, b | 0 <= a < b < |out| ensures out[a].name != out[b].name {
      assert out[a] == GroupMesh(num, st, ms, names, gs[a]) && out[b] == GroupMesh(num, st, ms, names, gs[b]);
    }
  }

  /** The first material of the list called `name` (std::find_if). */
  method FindMaterial(ms: seq<Material>, name: string) returns (r: Material?)
    ensures r == FirstMaterial(ms, MaterialNames(ms), name)
  {
    var i := 0;
    while i < |ms|
      invariant 0 <= i <= |ms|
      invariant forall k :: 0 <= k < i ==> ms[k].name != name
    {
      if ms[i].name == name {
        FirstNamedAt(MaterialNames(ms), name, i);
        return ms[i];
      }
      i := i + 1;
    }
    return null;
  }

  /** The engine's OBJ loader; it keeps every material its MTL libraries yielded. */
  class ObjLoader {
    var materials: seq<Material>

    constructor ()
      ensures materials == []
    {
      materials := [];
    }

    /**
     * One line of the loop, with the variables as a record: the same effect
     * as Step, and an `mtllib` line appends what its library yields.
     */
    method ApplyLine(st: ObjState, lines: seq<string>, i: nat, path: string, scan: Scan, library: string -> seq<Material>, ghost start: seq<Material>)
      returns (st': ObjState)
      modifies this`materials
      requires i < |lines| && st == RunFirst(lines, i, path, scan) && materials == start + Loaded(library, st.libraries)
      ensures st' == RunFirst(lines, i + 1, path, scan) && materials == start + Loaded(library, st'.libraries)
    {
      var line := lines[i];
      var kind := Word(line, 0, "");
      if kind == "v" {
        st' := st.(positions := st.positions + [scan.vec3(line)]);
      } else if kind == "vt" {
        st' := st.(uvs := st.uvs + [scan.vec2(line)]);
      } else if kind == "vn" {
        st' := st.(normals := st.normals + [scan.vec3(line)]);
      } else if kind == "f" {
        var m := st.groups[st.group];
        var vs, uvs, ns := ParseFace(line, scan, m.vertexIndices, m.uvIndices, m.normalIndices);
        st' := st.(groups := st.groups[st.group := m.(vertexIndices := vs, uvIndices := uvs, normalIndices := ns)]);
      } else if kind == "g" || kind == "o" {
        var name := Word(line, 1, "");
        st' := st;
        if name != "" {
          st' := st'.(group := name);
          if name !in st.groups {
            st' := st'.(groups := st.groups[name := TempMesh([], [], [], st.material)]);
          }
        }
      } else if kind == "mtllib" {
        var mtlPath := JoinPath(ParentPath(path), Word(line, 1, ""));
        var loaded := library(mtlPath);
        if loaded != [] {
          materials := materials + loaded;
        }
        st' := st.(libraries := st.libraries + [mtlPath]);
        LoadedSnoc(library, st.libraries, mtlPath);
        AppendAssoc(start, Loaded(library, st.libraries), loaded);
      } else if kind == "usemtl" {
        var material := Word(line, 1, st.material);
        st' := st.(material := material);
        var current := st.groups[st.group];
        if current.vertexIndices != [] && current.material != material {
          var newGroupName := st.group + "_" + material;
          st' := st'.(group := newGroupName, groups := st.groups[newGroupName := EmptyMesh]);
        }
        st' := st'.(groups := st'.groups[st'.group := st'.groups[st'.group].(material := material)]);
      } else {
        st' := st;
      }
    }

    /**
     * OBJLoader::LoadOBJ: an error when the file does not open; otherwise the
     * meshes of the groups with faces, in the hash map's order, and the
     * loader's materials extended by those of every `mtllib` line.
     */
    method LoadOBJ(path: string, file: Option<seq<string>>, scan: Scan, num: Numerics,
                   library: string -> seq<Material>, order: seq<string>)
      returns (r: Result<seq<MeshData>, string>)
      modifies this`materials
      requires file.Some? ==> Loadable(Run(file.value, path, scan)) && IsOrder(order, Run(file.value, path, scan).groups)
      ensures file.None? ==> r == Failure("Failed to open file: " + path) && materials == old(materials)
      ensures file.Some? ==>
        var st := Run(file.value, path, scan);
        materials == old(materials) + Loaded(library, st.libraries) &&
        r == Ok(MeshesFirst(num, st, order, materials, MaterialNames(materials), |order|))
    {
      if file.None? {
        return Failure("Failed to open file: " + path);
      }
      var st := ReadLines(file.value, path, scan, library);
      var meshes := ProcessGroups(st, num, order);
      return Ok(meshes);
    }

    /** The line loop of LoadOBJ. */
    method ReadLines(lines: seq<string>, path: string, scan: Scan, library: string -> seq<Material>)
      returns (st: ObjState)
      modifies this`materials
      ensures st == Run(lines, path, scan) && materials == old(materials) + Loaded(library, st.libraries)
    {
      st := Initial;
      for i := 0 to |lines|
        invariant st == RunFirst(lines, i, path, scan)
        invariant materials == old(materials) + Loaded(library, st.libraries)
      {
        st := ApplyLine(st, lines, i, path, scan, library, old(materials));
      }
    }

    /** The group loop of LoadOBJ: each group with faces becomes a mesh, with its material looked up by name. */
    method ProcessGroups(st: ObjState, num: Numerics, order: seq<string>) returns (meshes: seq<MeshData>)
      requires Loadable(st) && forall g :: g in order ==> g in st.groups
      ensures meshes == MeshesFirst(num, st, order, materials, MaterialNames(materials), |order|)
    {
      meshes := [];
      for k := 0 to |order|
        invariant meshes == MeshesFirst(num, st, order, materials, MaterialNames(materials), k)
      {
        meshes := ProcessGroup(st, num, order, k, meshes);
      }
    }

    /** One group of the group loop. */
    method ProcessGroup(st: ObjState, num: Numerics, order: seq<string>, k: nat, meshes: seq<MeshData>)
      returns (meshes': seq<MeshData>)
      requires Loadable(st) && (forall g :: g in order ==> g in st.groups) && k < |order|
      requires meshes == MeshesFirst(num, st, order, materials, MaterialNames(materials), k)
      ensures meshes' == MeshesFirst(num, st, order, materials, MaterialNames(materials), k + 1)
    {
      MeshesFirstStep(num, st, order, materials, MaterialNames(materials), k);
      var groupName := order[k];
      var tempMesh := st.groups[groupName];
      meshes' := meshes;
      if tempMesh.vertexIndices != [] {
        var meshData := ProcessMeshData(num, st.positions, st.uvs, st.normals, tempMesh, groupName);
        if tempMesh.material != "" {
          var found := FindMaterial(materials, tempMesh.material);
          meshData := meshData.(material := found);
        }
        meshes' := meshes + [meshData];
      }
    }

    /**
     * OBJLoader::Load: null when the file does not open; otherwise a new model
     * with one mesh per processed group, holding the group's geometry and
     * name, and its material or else a new default material.
     */
    method Load(path: string, file: Option<seq<string>>, scan: Scan, num: Numerics,
                library: string -> seq<Material>, order: seq<string>, builtIn: Option<ShaderId>)
      returns (r: Model?)
      modifies this`materials
      requires file.Some? ==> Loadable(Run(file.value, path, scan)) && IsOrder(order, Run(file.value, path, scan).groups)
      ensures file.None? <==> r == null
      ensures file.None? ==> materials == old(materials)
      ensures r != null ==>
        var st := Run(file.value, path, scan);
        var data := MeshesFirst(num, st, order, materials, MaterialNames(materials), |order|);
        fresh(r) && materials == old(materials) + Loaded(library, st.libraries) &&
        |r.meshes| == |data| &&
        forall k :: 0 <= k < |data| ==>
          Built(r.meshes[k], data[k], builtIn) && (data[k].material == null ==> fresh(r.meshes[k].material))
    {
      var objData := LoadOBJ(path, file, scan, num, library, order);
      if objData.Failure? {
        return null;
      }
      r := BuildModel(objData.value, builtIn);
    }
  }

  /** The mesh loop of Load: one new mesh per MeshData, copied into a new model. */
  method BuildModel(meshes: seq<MeshData>, builtIn: Option<ShaderId>) returns (model: Model)
    ensures fresh(model) && |model.meshes| == |meshes|
    ensures forall k :: 0 <= k < |meshes| ==>
      Built(model.meshes[k], meshes[k], builtIn) && (meshes[k].material == null ==> fresh(model.meshes[k].material))
  {
    model := new Model();
    for k := 0 to |meshes|
      invariant fresh(model) && |model.meshes| == k
      invariant forall j :: 0 <= j < k ==>
        Built(model.meshes[j], meshes[j], builtIn) && (meshes[j].material == null ==> fresh(model.meshes[j].material))
    {
      AddBuilt(model, meshes[k], builtIn);
    }
  }

  /** One iteration of the mesh loop. */
  method AddBuilt(model: Model, data: MeshData, builtIn: Option<ShaderId>)
    modifies model`meshes
    ensures |model.meshes| == |old(model.meshes)| + 1 && model.meshes[..|old(model.meshes)|] == old(model.meshes)
    ensures var m := model.meshes[|model.meshes| - 1];
      fresh(m) && Built(m, data, builtIn) && (data.material == null ==> fresh(m.material))
  {
    var mesh := new Mesh();
    mesh.SetGeometry(Some(Geometry(data.vertices, data.indices)));
    var material := data.material;
    if material == null {
      material := new Material(builtIn);
    }
    mesh.SetMaterial(material);
    mesh.SetName(data.name);
    model.AddMesh(mesh);
  }

  /**
   * A mesh of the loaded model made from `data`: its name, its geometry, and
   * its material, or a default one (no name, the built-in shader, no
   * textures, default properties).
   */
  predicate Built(mesh: Mesh, data: MeshData, builtIn: Option<ShaderId>)
    reads mesh, if mesh.material != null then {mesh.material} else {}
  {
    mesh.name == data.name && mesh.geometry == Some(Geometry(data.vertices, data.indices)) && mesh.material != null &&
    (data.material != null ==> mesh.material == data.material) &&
    (data.material == null ==>
      mesh.material.name == "" && mesh.material.shader == builtIn &&
      mesh.material.textures == map[] && mesh.material.properties == DefaultProperties)
  }
}

=== FILE: fly_camera.dfy ===
/**
 * The free-flying debug camera: WASD/QE move it along its own axes, Shift
 * speeds it up and Ctrl slows it down, and the mouse turns it, with the pitch
 * kept short of straight up or down.
 */
module FlyCameras {
  import opened Math
  import opened Cameras
  import opened Inputs

  /** GLFW key codes the controller polls. */
  const KeyLeftShift: int := 340
  const KeyLeftControl: int := 341
  const KeyW: int := 87
  const KeyS: int := 83
  const KeyA: int := 65
  const KeyD: int := 68
  const KeyQ: int := 81
  const KeyE: int := 69

  /** The keys Update queries, in the order it queries them. */
  const FlyKeys: seq<int> := [KeyLeftShift, KeyLeftControl, KeyW, KeyS, KeyA, KeyD, KeyQ, KeyE]

  /** The pitch limit in degrees. */
  const PitchLimit: real := 89.0

  /** FlySettings: the base controller's mouse settings plus the move speed. */
  datatype FlySettings = FlySettings(mouseSensitivity: real, invertY: bool, moveSpeed: real)

  /** The member initialisers of FlySettings and its base Settings. */
  const DefaultFlySettings: FlySettings := FlySettings(0.1, false, 5.0)

  /** The distance moved this frame: moveSpeed * dt, times 10 with Shift, then times 0.5 with Ctrl. */
  function FlySpeed(moveSpeed: real, dt: real, shift: bool, ctrl: bool): real
  {
    var base := moveSpeed * dt;
    var fast := if shift then base * 10.0 else base;
    if ctrl then fast * 0.5 else fast
  }

  /** Shift and Ctrl together move five times as far as neither. */
  lemma SpeedModifiers(moveSpeed: real, dt: real)
    ensures FlySpeed(moveSpeed, dt, true, false) == 10.0 * FlySpeed(moveSpeed, dt, false, false)
    ensures FlySpeed(moveSpeed, dt, false, true) == 0.5 * FlySpeed(moveSpeed, dt, false, false)
    ensures FlySpeed(moveSpeed, dt, true, true) == 5.0 * FlySpeed(moveSpeed, dt, false, false)
  {
  }

  /** One conditional Move. */
  function MoveIf(p: Vec3, held: bool, offset: Vec3): Vec3
  {
    if held then Add(p, offset) else p
  }

  /** Which of the six movement keys are down, in query order. */
  datatype MoveKeys = MoveKeys(w: bool, s: bool, a: bool, d: bool, q: bool, e: bool)

  function MoveKeysOf(keys: int -> bool): MoveKeys
  {
    MoveKeys(keys(KeyW), keys(KeyS), keys(KeyA), keys(KeyD), keys(KeyQ), keys(KeyE))
  }

  /** The position after the six conditional moves along +-forward, +-right and +-up. */
  function FlyPosition(start: Vec3, k: MoveKeys, b: Basis, speed: real): Vec3
  {
    var p1 := MoveIf(start, k.w, Times(b.forward, speed));
    var p2 := MoveIf(p1, k.s, Times(Neg(b.forward), speed));
    var p3 := MoveIf(p2, k.a, Times(Neg(b.right), speed));
    var p4 := MoveIf(p3, k.d, Times(b.right, speed));
    var p5 := MoveIf(p4, k.q, Times(Neg(b.up), speed));
    MoveIf(p5, k.e, Times(b.up, speed))
  }

  /** A move along a vector followed by a move back along its negation, in either order, returns to the start. */
  lemma MoveBack(p: Vec3, v: Vec3, speed: real)
    ensures Add(Add(p, Times(v, speed)), Times(Neg(v), speed)) == p
    ensures Add(Add(p, Times(Neg(v), speed)), Times(v, speed)) == p
  {
    assert (-v.x) * speed == -(v.x * speed);
    assert (-v.y) * speed == -(v.y * speed);
    assert (-v.z) * speed == -(v.z * speed);
  }

  /**
   * Each movement key moves the camera by `speed` along its axis, and two
   * opposite keys held together cancel: the result is as if neither were held.
   */
  lemma OppositeKeysCancel(start: Vec3, k: MoveKeys, b: Basis, speed: real)
    ensures k == MoveKeys(true, false, false, false, false, false) ==>
      FlyPosition(start, k, b, speed) == Add(start, Times(b.forward, speed))
    ensures k.w && k.s ==> FlyPosition(start, k, b, speed) == FlyPosition(start, k.(w := false, s := false), b, speed)
    ensures k.a && k.d ==> FlyPosition(start, k, b, speed) == FlyPosition(start, k.(a := false, d := false), b, speed)
    ensures k.q && k.e ==> FlyPosition(start, k, b, speed) == FlyPosition(start, k.(q := false, e := false), b, speed)
  {
    MoveBack(start, b.forward, speed);
    var p2 := MoveIf(MoveIf(start, k.w, Times(b.forward, speed)), k.s, Times(Neg(b.forward), speed));
    MoveBack(p2, b.right, speed);
    var p4 := MoveIf(MoveIf(p2, k.a, Times(Neg(b.right), speed)), k.d, Times(b.right, speed));
    MoveBack(p4, b.up, speed);
  }

  /** The two pitch clamps of Update, applied in turn. */
  function ClampPitch(p: real): (r: real)
    ensures -PitchLimit <= r <= PitchLimit
    ensures -PitchLimit <= p <= PitchLimit ==> r == p
    ensures p > PitchLimit ==> r == PitchLimit
    ensures p < -PitchLimit ==> r == -PitchLimit
  {
    var upper := if p > PitchLimit then PitchLimit else p;
    if upper < -PitchLimit then -PitchLimit else upper
  }

  /** The vertical mouse delta scaled by the sensitivity, negated when invertY is set. */
  function PitchDelta(dy: real, sensitivity: real, invertY: bool): real
  {
    var scaled := dy * sensitivity;
    if invertY then scaled * -1.0 else scaled
  }

  /** invertY turns the camera the other way for the same mouse motion. */
  lemma InvertYNegates(dy: real, sensitivity: real)
    ensures PitchDelta(dy, sensitivity, true) == -PitchDelta(dy, sensitivity, false)
    ensures PitchDelta(dy, sensitivity, true) == PitchDelta(-dy, sensitivity, false)
  {
  }

  /** The key map after IsKeyDown has recorded the keys of FlyKeys in turn. */
  function RecordedFly(m: map<int, bool>, keys: int -> bool): (r: map<int, bool>)
    ensures r.Keys == m.Keys + set k | k in FlyKeys
    ensures forall k :: k in FlyKeys ==> r[k] == keys(k)
    ensures forall k :: k in m && k !in FlyKeys ==> r[k] == m[k]
  {
    m[KeyLeftShift := keys(KeyLeftShift)][KeyLeftControl := keys(KeyLeftControl)]
      [KeyW := keys(KeyW)][KeyS := keys(KeyS)][KeyA := keys(KeyA)][KeyD := keys(KeyD)][KeyQ := keys(KeyQ)][KeyE := keys(KeyE)]
  }

  /** IsKeyDown followed by Move when the key is down. */
  method MoveOnKey(camera: Camera, input: Input, dev: Device, key: int, offset: Vec3)
    modifies input`currentKeys, camera.transform`position, camera.transform`transformChanged, camera`viewChanged
    ensures input.currentKeys == old(input.currentKeys)[key := dev.keys(key)]
    ensures camera.transform.position == MoveIf(old(camera.transform.position), dev.keys(key), offset)
    ensures forall n: Numerics :: old(camera.Valid(n)) ==> camera.Valid(n)
  {
    var down := input.IsKeyDown(key, dev);
    if down {
      camera.Move(offset);
    }
  }

  class FlyCameraController {
    const camera: Camera
    var mouseSensitivity: real
    var invertY: bool
    var moveSpeed: real
    var pitch: real
    var yaw: real

    /** Copies the settings; pitch and yaw start at 0. */
    constructor (camera: Camera, settings: FlySettings)
      ensures this.camera == camera
      ensures mouseSensitivity == settings.mouseSensitivity && invertY == settings.invertY && moveSpeed == settings.moveSpeed
      ensures pitch == 0.0 && yaw == 0.0
    {
      this.camera := camera;
      mouseSensitivity := settings.mouseSensitivity;
      invertY := settings.invertY;
      moveSpeed := settings.moveSpeed;
      pitch, yaw := 0.0, 0.0;
    }

    /** The speed of Update: the two modifier keys are queried, Shift first. */
    method Speed(dt: real, input: Input, dev: Device) returns (speed: real)
      modifies input`currentKeys
      ensures input.currentKeys == old(input.currentKeys)[KeyLeftShift := dev.keys(KeyLeftShift)][KeyLeftControl := dev.keys(KeyLeftControl)]
      ensures speed == FlySpeed(moveSpeed, dt, dev.keys(KeyLeftShift), dev.keys(KeyLeftControl))
    {
      speed := moveSpeed * dt;
      var shift := input.IsKeyDown(KeyLeftShift, dev);
      if shift {
        speed := speed * 10.0;
      }
      var ctrl := input.IsKeyDown(KeyLeftControl, dev);
      if ctrl {
        speed := speed * 0.5;
      }
    }

    /** The six key queries and moves of Update, with the axes read before any of them. */
    method Drive(input: Input, dev: Device, b: Basis, speed: real)
      modifies input`currentKeys, camera.transform`position, camera.transform`transformChanged, camera`viewChanged
      ensures input.currentKeys == old(input.currentKeys)[KeyW := dev.keys(KeyW)][KeyS := dev.keys(KeyS)]
        [KeyA := dev.keys(KeyA)][KeyD := dev.keys(KeyD)][KeyQ := dev.keys(KeyQ)][KeyE := dev.keys(KeyE)]
      ensures camera.transform.position == FlyPosition(old(camera.transform.position), MoveKeysOf(dev.keys), b, speed)
      ensures forall n: Numerics :: old(camera.Valid(n)) ==> camera.Valid(n)
    {
      ghost var p0 := camera.transform.position;
      MoveOnKey(camera, input, dev, KeyW, Times(b.forward, speed));
      ghost var p1 := MoveIf(p0, dev.keys(KeyW), Times(b.forward, speed));
      assert camera.transform.position == p1;
      MoveOnKey(camera, input, dev, KeyS, Times(Neg(b.forward), speed));
      ghost var p2 := MoveIf(p1, dev.keys(KeyS), Times(Neg(b.forward), speed));
      assert camera.transform.position == p2;
      MoveOnKey(camera, input, dev, KeyA, Times(Neg(b.right), speed));
      ghost var p3 := MoveIf(p2, dev.keys(KeyA), Times(Neg(b.right), speed));
      assert camera.transform.position == p3;
      MoveOnKey(camera, input, dev, KeyD, Times(b.right, speed));
      ghost var p4 := MoveIf(p3, dev.keys(KeyD), Times(b.right, speed));
      assert camera.transform.position == p4;
      MoveOnKey(camera, input, dev, KeyQ, Times(Neg(b.up), speed));
      ghost var p5 := MoveIf(p4, dev.keys(KeyQ), Times(Neg(b.up), speed));
      assert camera.transform.position == p5;
      MoveOnKey(camera, input, dev, KeyE, Times(b.up, speed));
    }

    /** The mouse half of Update: accumulate, clamp the pitch, and set the camera's rotation. */
    method Look(input: Input)
      modifies this`pitch, this`yaw, camera.transform`orientation, camera.transform`transformChanged, camera`viewChanged
      ensures pitch == ClampPitch(old(pitch) + PitchDelta(input.currY - input.lastY, mouseSensitivity, invertY))
      ensures yaw == old(yaw) + (input.currX - input.lastX) * mouseSensitivity
      ensures camera.transform.orientation == EulerQuat(Vec3(-pitch, -yaw, 0.0))
      ensures forall n: Numerics :: old(camera.Valid(n)) ==> camera.Valid(n)
    {
      var dx, dy := input.GetMouseDelta();
      var scaledX := dx * mouseSensitivity;
      var scaledY := PitchDelta(dy, mouseSensitivity, invertY);
      pitch := pitch + scaledY;
      yaw := yaw + scaledX;
      if pitch > PitchLimit {
        pitch := PitchLimit;
      }
      if pitch < -PitchLimit {
        pitch := -PitchLimit;
      }
      camera.SetRotation(Vec3(-pitch, -yaw, 0.0));
    }

    /**
     * One frame: the camera moves along its axes as read at the start of the
     * frame by the speed the modifiers give, every queried key is recorded in
     * the input state, and the mouse delta turns it with the pitch clamped.
     */
    method Update(dt: real, input: Input, dev: Device, num: Numerics)
      modifies this`pitch, this`yaw, input`currentKeys
      modifies camera.transform`position, camera.transform`orientation, camera.transform`transformChanged, camera`viewChanged
      ensures input.currentKeys == RecordedFly(old(input.currentKeys), dev.keys)
      ensures var b := Basis(old(camera.transform.Forward(num)), old(camera.transform.Right(num)), old(camera.transform.Up(num)));
        camera.transform.position ==
          FlyPosition(old(camera.transform.position), MoveKeysOf(dev.keys), b,
            FlySpeed(moveSpeed, dt, dev.keys(KeyLeftShift), dev.keys(KeyLeftControl)))
      ensures pitch == ClampPitch(old(pitch) + PitchDelta(input.currY - input.lastY, mouseSensitivity, invertY))
      ensures -PitchLimit <= pitch <= PitchLimit
      ensures yaw == old(yaw) + (input.currX - input.lastX) * mouseSensitivity
      ensures camera.transform.orientation == EulerQuat(Vec3(-pitch, -yaw, 0.0))
      ensures forall n: Numerics :: old(camera.Valid(n)) ==> camera.Valid(n)
    {
      var b := Basis(camera.transform.Forward(num), camera.transform.Right(num), camera.transform.Up(num));
      var speed := Speed(dt, input, dev);
      Drive(input, dev, b, speed);
      Look(input);
    }
  }
}

=== FILE: gl.dfy ===
/** The GPU as a log of the calls the engine makes on it. */
module Gl {
  import opened Math

  datatype Event =
      /** glBufferSubData of the scene uniform block: view then projection, 128 bytes from offset 0. */
    | CameraBlock(view: Mat4, projection: Mat4)
      /** A scene object's own draw call, made with the world matrix it holds at that moment. */
    | DrawObject(obj: object, world: Mat4)
      /**
       * glBufferSubData of the light uniform block: the floats of the records
       * written to the point-light array and to the spot-light array, and the
       * counts vector. Array slots past the counts are not written.
       */
    | LightBlock(points: seq<real>, spots: seq<real>, counts: seq<int>)
      /** glBufferData of a uniform buffer of the given size in bytes. */
    | AllocateUniformBuffer(bytes: nat)
    | BindBufferBase(binding: nat)
    | UseProgram(program: nat)
    | UseNoProgram
    | SetVec3(name: string, v: Vec3)
    | SetFloat(name: string, f: real)
    | SetInt(name: string, i: int)
    | SetMat4(name: string, m: Mat4)
      /** Texture::Bind(slot): active texture unit `slot`, then bind. */
    | BindTexture(texture: nat, slot: nat)
    | UnbindTexture(texture: nat)
      /** glPatchParameteri(GL_PATCH_VERTICES, patchVertices), then glDrawElements(GL_PATCHES, count). */
    | DrawPatches(patchVertices: nat, count: nat)

  class Gpu {
    var events: seq<Event>

    constructor ()
      ensures events == []
    {
      events := [];
    }

    method Emit(e: Event)
      modifies this`events
      ensures events == old(events) + [e]
    {
      events := events + [e];
    }
  }
}

=== FILE: inline_racing_camera.dfy ===
/**
 * The header-only version of the racing chase camera. It behaves like the
 * other one, with stiffer-feeling defaults, a target that initially faces +Z,
 * and an extra rotationStiffness setting that nothing reads.
 */
module InlineRacingCameras {
  import opened Math
  import opened Cameras
  import opened RacingCameras

  /** RacingSettings of the header-only controller. */
  datatype InlineSettings = InlineSettings(
    followDistance: real,
    heightOffset: real,
    followStiffness: real,
    rotationStiffness: real,
    velocityMultiplier: real,
    maxExtraDistance: real,
    minFOV: real,
    maxFOV: real,
    lookAheadFactor: real)

  /** The member initialisers of this RacingSettings. */
  const DefaultInlineSettings: InlineSettings := InlineSettings(5.0, 2.0, 3.0, 5.0, 0.3, 3.0, 60.0, 75.0, 0.3)

  /** The target's initial forward axis, +Z. */
  const PlusZ: Vec3 := Vec3(0.0, 0.0, 1.0)

  /** The settings the frame update reads: all of them except rotationStiffness. */
  function Used(s: InlineSettings): (u: Settings)
    ensures u.followDistance == s.followDistance && u.heightOffset == s.heightOffset
    ensures u.followStiffness == s.followStiffness && u.velocityMultiplier == s.velocityMultiplier
    ensures u.maxExtraDistance == s.maxExtraDistance && u.minFOV == s.minFOV
    ensures u.maxFOV == s.maxFOV && u.lookAheadFactor == s.lookAheadFactor
  {
    Settings(s.followDistance, s.heightOffset, s.followStiffness, s.velocityMultiplier,
      s.maxExtraDistance, s.minFOV, s.maxFOV, s.lookAheadFactor)
  }

  /** Two settings that differ only in rotationStiffness drive the camera identically. */
  lemma RotationStiffnessUnread(s: InlineSettings, r: real)
    ensures Used(s.(rotationStiffness := r)) == Used(s)
  {
  }

  /** The defaults keep the camera between 5 and 8 units behind the car and the FOV within 60..75. */
  lemma DefaultsAreSane()
    ensures Sane(Used(DefaultInlineSettings))
    ensures Used(DefaultInlineSettings).followDistance + Used(DefaultInlineSettings).maxExtraDistance == 8.0
  {
  }

  class InlineRacingCameraController {
    const camera: Camera
    var settings: InlineSettings
    var targetPosition: Vec3
    var targetForward: Vec3
    var targetUp: Vec3
    var targetVelocity: Vec3
    var currentPosition: Vec3
    var idealPosition: Vec3
    var firstUpdate: bool

    /** The member initialisers: a target at the origin facing +Z with +Y up, at rest; nothing seeded yet. */
    constructor (camera: Camera, settings: InlineSettings)
      ensures this.camera == camera && this.settings == settings
      ensures targetPosition == Zero && targetForward == PlusZ && targetUp == UnitY && targetVelocity == Zero
      ensures currentPosition == Zero && idealPosition == Zero && firstUpdate
    {
      this.camera := camera;
      this.settings := settings;
      targetPosition, targetForward, targetUp, targetVelocity := Zero, PlusZ, UnitY, Zero;
      currentPosition, idealPosition := Zero, Zero;
      firstUpdate := true;
    }

    /** UpdateIdealCameraPosition: the ideal position for the stored target. */
    method UpdateIdealCameraPosition(num: Numerics)
      modifies this`idealPosition
      ensures idealPosition == IdealPosition(targetPosition, targetForward, targetUp, num.length(targetVelocity), Used(settings))
    {
      var speed := num.length(targetVelocity);
      var extraDistance := Min(speed * settings.velocityMultiplier, settings.maxExtraDistance);
      var totalDistance := settings.followDistance + extraDistance;
      var backwardOffset := Times(Neg(targetForward), totalDistance);
      var upOffset := Times(targetUp, settings.heightOffset);
      idealPosition := Add(Add(targetPosition, backwardOffset), upOffset);
    }

    /**
     * Stores the target with normalised axes; the first call also places the
     * camera at the ideal position, later calls leave it where it is.
     */
    method SetTarget(position: Vec3, forward: Vec3, up: Vec3, velocity: Vec3, num: Numerics)
      modifies this
      ensures targetPosition == position && targetVelocity == velocity
      ensures targetForward == num.normalize(forward) && targetUp == num.normalize(up)
      ensures settings == old(settings) && !firstUpdate
      ensures old(firstUpdate) ==>
        idealPosition == IdealPosition(position, num.normalize(forward), num.normalize(up), num.length(velocity), Used(settings)) &&
        currentPosition == idealPosition
      ensures !old(firstUpdate) ==> currentPosition == old(currentPosition) && idealPosition == old(idealPosition)
    {
      targetPosition := position;
      targetForward := num.normalize(forward);
      targetUp := num.normalize(up);
      targetVelocity := velocity;
      if firstUpdate {
        UpdateIdealCameraPosition(num);
        currentPosition := idealPosition;
        firstUpdate := false;
      }
    }

    /** Replaces every setting at once. */
    method SetRacingSettings(s: InlineSettings)
      modifies this`settings
      ensures settings == s
    {
      settings := s;
    }

    /** The position blend of Update: a step from the current towards the ideal position. */
    method Ease(dt: real, num: Numerics)
      modifies this`currentPosition
      ensures currentPosition == Mix(old(currentPosition), idealPosition, Blend(num, Used(settings), dt))
      ensures num.Valid() && settings.followStiffness * dt >= 0.0 ==>
        BetweenVec(old(currentPosition), idealPosition, currentPosition)
    {
      var t := Blend(num, Used(settings), dt);
      if num.Valid() && settings.followStiffness * dt >= 0.0 {
        BlendInUnitInterval(num, Used(settings), dt);
        MixBetween(currentPosition, idealPosition, t);
      }
      currentPosition := Mix(currentPosition, idealPosition, t);
    }

    /**
     * One frame, as in the other controller; every term is a function of
     * Used(settings), so rotationStiffness has no effect.
     */
    method Update(dt: real, num: Numerics)
      modifies this`idealPosition, this`currentPosition
      modifies camera.transform`position, camera.transform`orientation, camera.transform`transformChanged
      modifies camera`viewChanged, camera`fieldOfView, camera`projectionChanged
      ensures var speed := num.length(targetVelocity);
        idealPosition == IdealPosition(targetPosition, targetForward, targetUp, speed, Used(settings)) &&
        currentPosition == Mix(old(currentPosition), idealPosition, Blend(num, Used(settings), dt)) &&
        camera.transform.position == currentPosition &&
        camera.transform.orientation ==
          LookAtQuat(num.normalize(Sub(LookAtPoint(targetPosition, targetForward, speed, Used(settings)), currentPosition)), UnitY) &&
        camera.fieldOfView == TargetFov(speed, Used(settings))
      ensures num.Valid() && settings.followStiffness * dt >= 0.0 ==>
        BetweenVec(old(currentPosition), idealPosition, currentPosition)
      ensures forall n: Numerics :: old(camera.Valid(n)) ==> camera.Valid(n)
    {
      UpdateIdealCameraPosition(num);
      Ease(dt, num);

      var speed := num.length(targetVelocity);
      var lookAtPosition := LookAtPoint(targetPosition, targetForward, speed, Used(settings));
      var fov := TargetFov(speed, Used(settings));
      Aim(camera, currentPosition, lookAtPosition, fov, num);
      assert speed == num.length(targetVelocity);
    }
  }
}

=== FILE: input.dfy ===
/**
 * The engine's input snapshot: key and mouse-button states kept in hash maps,
 * copied to a "previous" snapshot once per frame, and the edge queries
 * (pressed, released) computed from the two snapshots.
 */
module Inputs {
  /**
   * What GLFW reports while a call runs: glfwGetKey == GLFW_PRESS per key,
   * glfwGetMouseButton == GLFW_PRESS per button, and glfwGetCursorPos.
   */
  datatype Device = Device(keys: int -> bool, buttons: int -> bool, cursorX: real, cursorY: real)

  /** GLFW_MOUSE_BUTTON_1 and GLFW_MOUSE_BUTTON_LAST. */
  const FirstButton: int := 0
  const LastButton: int := 7

  /** The buttons Update polls: GLFW_MOUSE_BUTTON_1 .. GLFW_MOUSE_BUTTON_LAST. */
  const Buttons: set<int> := {0, 1, 2, 3, 4, 5, 6, 7}

  lemma ButtonsAreRange(b: int)
    ensures b in Buttons <==> FirstButton <= b <= LastButton
  {
  }

  /** A state read from a map; a key the map does not hold reads as not pressed. */
  function Held(m: map<int, bool>, k: int): (b: bool)
    ensures b <==> k in m && m[k]
  {
    if k in m then m[k] else false
  }

  /** `m[k]` through operator[]: inserts k as not pressed when it is absent. */
  function Touch(m: map<int, bool>, k: int): (r: map<int, bool>)
    ensures r.Keys == m.Keys + {k}
    ensures forall j :: j in m ==> r[j] == m[j]
    ensures Held(r, k) == Held(m, k)
  {
    if k in m then m else m[k := false]
  }

  /** The keys of `tracked`, each with the state the device reports for it now. */
  function Poll(tracked: set<int>, keys: int -> bool): (m: map<int, bool>)
    ensures m.Keys == tracked
    ensures forall k :: k in tracked ==> m[k] == keys(k)
  {
    map k | k in tracked :: keys(k)
  }

  /** The button map after polling the buttons FirstButton .. n - 1 in turn. */
  function PollBelow(m: map<int, bool>, buttons: int -> bool, n: int): map<int, bool>
    decreases n - FirstButton
  {
    if n <= FirstButton then m else PollBelow(m, buttons, n - 1)[n - 1 := buttons(n - 1)]
  }

  /**
   * Polling buttons FirstButton .. n - 1 adds them to the map with the device's
   * states and leaves every other entry as it was.
   */
  lemma {:induction false} PollBelowShape(m: map<int, bool>, buttons: int -> bool, n: int, b: int)
    ensures FirstButton <= b < n ==> b in PollBelow(m, buttons, n) && PollBelow(m, buttons, n)[b] == buttons(b)
    ensures !(FirstButton <= b < n) ==> (b in PollBelow(m, buttons, n) <==> b in m)
    ensures !(FirstButton <= b < n) && b in m ==> PollBelow(m, buttons, n)[b] == m[b]
    decreases n - FirstButton
  {
    if n > FirstButton {
      PollBelowShape(m, buttons, n - 1, b);
    }
  }

  /** The button map after Update polls every button from 1 to LAST. */
  function PollButtons(m: map<int, bool>, buttons: int -> bool): map<int, bool>
  {
    PollBelow(m, buttons, LastButton + 1)
  }

  /** Update's button poll: every button of the range gets its device state, other entries stay. */
  lemma PollButtonsShape(m: map<int, bool>, buttons: int -> bool, b: int)
    ensures b in Buttons ==> b in PollButtons(m, buttons) && PollButtons(m, buttons)[b] == buttons(b)
    ensures b !in Buttons ==> (b in PollButtons(m, buttons) <==> b in m)
    ensures b !in Buttons && b in m ==> PollButtons(m, buttons)[b] == m[b]
  {
    PollBelowShape(m, buttons, LastButton + 1, b);
  }

  /** Down now and not down in the previous snapshot. */
  predicate Pressed(now: bool, previous: map<int, bool>, k: int)
  {
    now && !Held(previous, k)
  }

  /** Not down now and down in the previous snapshot. */
  predicate Released(now: bool, previous: map<int, bool>, k: int)
  {
    !now && Held(previous, k)
  }

  /** A key never reads as pressed and released at once, and a key down in both snapshots is neither. */
  lemma EdgesExclusive(now: bool, previous: map<int, bool>, k: int)
    ensures !(Pressed(now, previous, k) && Released(now, previous, k))
    ensures now && Held(previous, k) ==> !Pressed(now, previous, k) && !Released(now, previous, k)
    ensures Pressed(now, previous, k) || Released(now, previous, k) <==> now != Held(previous, k)
  {
  }

  /**
   * A key reported down by a query in one frame (`dev1`) reads, in the next
   * frame (`dev3`, after an Update), as not pressed, and as released exactly
   * when it is up by then: Update copied the queried state into the previous
   * snapshot.
   */
  lemma PressedOncePerHold(current: map<int, bool>, k: int, dev1: Device, dev3: Device)
    requires dev1.keys(k)
    ensures var previous := current[k := dev1.keys(k)];
      !Pressed(dev3.keys(k), previous, k) && (Released(dev3.keys(k), previous, k) <==> !dev3.keys(k))
  {
  }

  /** Update re-polls only keys already tracked: a key enters the maps only through a query. */
  lemma UpdateTracksSameKeys(current: map<int, bool>, dev: Device, k: int)
    requires k !in current
    ensures k !in Poll(current.Keys, dev.keys)
    ensures !Held(Poll(current.Keys, dev.keys), k)
  {
  }

  /** Some key of a non-empty set; the hash map's own visiting order is not modelled. */
  method Pick(s: set<int>) returns (k: int)
    requires s != {}
    ensures k in s
  {
    NonEmptyHasMember(s);
    k :| k in s;
  }

  lemma NonEmptyHasMember(s: set<int>)
    requires s != {}
    ensures exists k :: k in s
  {
    if forall k :: k !in s {
      assert false;
    }
  }

  /** The loop of Update over the tracked keys: each one polled again. */
  method PollTracked(tracked: map<int, bool>, dev: Device) returns (polled: map<int, bool>)
    ensures polled == Poll(tracked.Keys, dev.keys)
  {
    polled := tracked;
    var pending := tracked.Keys;
    while pending != {}
      invariant pending <= polled.Keys && polled.Keys == tracked.Keys
      invariant forall k :: k in polled && k !in pending ==> polled[k] == dev.keys(k)
      decreases pending
    {
      var key := Pick(pending);
      polled := polled[key := dev.keys(key)];
      pending := pending - {key};
    }
    forall k | k in polled
      ensures polled[k] == dev.keys(k)
    {
      assert k !in pending;
    }
  }

  /** The loop of Update over GLFW_MOUSE_BUTTON_1 .. GLFW_MOUSE_BUTTON_LAST. */
  method PollEveryButton(previous: map<int, bool>, dev: Device) returns (polled: map<int, bool>)
    ensures polled == PollButtons(previous, dev.buttons)
  {
    polled := previous;
    for button := FirstButton to LastButton + 1
      invariant polled == PollBelow(previous, dev.buttons, button)
    {
      polled := polled[button := dev.buttons(button)];
    }
  }

  /** The input state, a set of static members in the source. */
  class Input {
    var currentKeys: map<int, bool>
    var previousKeys: map<int, bool>
    var currentButtons: map<int, bool>
    var previousButtons: map<int, bool>
    var currX: real
    var currY: real
    var lastX: real
    var lastY: real
    var scroll: real

    /** The static initialisers: empty maps and zero coordinates and scroll. */
    constructor ()
      ensures currentKeys == map[] && previousKeys == map[] && currentButtons == map[] && previousButtons == map[]
      ensures currX == 0.0 && currY == 0.0 && lastX == 0.0 && lastY == 0.0 && scroll == 0.0
    {
      currentKeys, previousKeys, currentButtons, previousButtons := map[], map[], map[], map[];
      currX, currY, lastX, lastY, scroll := 0.0, 0.0, 0.0, 0.0, 0.0;
    }

    /** The scroll callback Init installs: the last vertical offset. */
    method OnScroll(yoffset: real)
      modifies this`scroll
      ensures scroll == yoffset
    {
      scroll := yoffset;
    }

    /**
     * Once per frame: the current maps become the previous ones, the tracked
     * keys and every mouse button are polled again, the cursor position moves
     * to last and is read anew, and the scroll delta is reset.
     */
    method Update(dev: Device)
      modifies this
      ensures previousKeys == old(currentKeys) && currentKeys == Poll(old(currentKeys).Keys, dev.keys)
      ensures previousButtons == old(currentButtons) && currentButtons == PollButtons(old(currentButtons), dev.buttons)
      ensures lastX == old(currX) && lastY == old(currY) && currX == dev.cursorX && currY == dev.cursorY
      ensures scroll == 0.0
    {
      previousKeys := currentKeys;
      currentKeys := PollTracked(previousKeys, dev);
      previousButtons := currentButtons;
      currentButtons := PollEveryButton(previousButtons, dev);
      lastX, lastY := currX, currY;
      currX, currY := dev.cursorX, dev.cursorY;
      scroll := 0.0;
    }

    /** Polls the key and records the result as its current state. */
    method IsKeyDown(key: int, dev: Device) returns (down: bool)
      modifies this`currentKeys
      ensures down == dev.keys(key) && currentKeys == old(currentKeys)[key := down]
    {
      currentKeys := currentKeys[key := dev.keys(key)];
      down := currentKeys[key];
    }

    /** Down now (polled and recorded) and not down in the previous snapshot. */
    method IsKeyPressed(key: int, dev: Device) returns (pressed: bool)
      modifies this`currentKeys
      ensures pressed <==> Pressed(dev.keys(key), previousKeys, key)
      ensures currentKeys == old(currentKeys)[key := dev.keys(key)]
    {
      var currentState := IsKeyDown(key, dev);
      var wasPressed := if key in previousKeys then previousKeys[key] else false;
      pressed := currentState && !wasPressed;
    }

    /** Not down now (polled and recorded) and down in the previous snapshot. */
    method IsKeyReleased(key: int, dev: Device) returns (released: bool)
      modifies this`currentKeys
      ensures released <==> Released(dev.keys(key), previousKeys, key)
      ensures currentKeys == old(currentKeys)[key := dev.keys(key)]
    {
      var currentState := IsKeyDown(key, dev);
      var wasPressed := if key in previousKeys then previousKeys[key] else false;
      released := !currentState && wasPressed;
    }

    /** The negation of IsKeyDown, which it calls. */
    method IsKeyUp(key: int, dev: Device) returns (up: bool)
      modifies this`currentKeys
      ensures up == !dev.keys(key) && currentKeys == old(currentKeys)[key := dev.keys(key)]
    {
      var down := IsKeyDown(key, dev);
      up := !down;
    }

    /**
     * The button edge from the two snapshots Update polled; operator[] adds
     * the button to the current map, and to the previous map only when the
     * current state is true and the right operand of && is evaluated.
     */
    method IsMouseButtonPressed(button: int) returns (pressed: bool)
      modifies this`currentButtons, this`previousButtons
      ensures pressed <==> Pressed(Held(old(currentButtons), button), old(previousButtons), button)
      ensures currentButtons == Touch(old(currentButtons), button)
      ensures previousButtons == if Held(old(currentButtons), button) then Touch(old(previousButtons), button) else old(previousButtons)
    {
      currentButtons := Touch(currentButtons, button);
      var now := currentButtons[button];
      if now {
        previousButtons := Touch(previousButtons, button);
        pressed := !previousButtons[button];
      } else {
        pressed := false;
      }
    }

    /** The reverse edge; the previous map is read only when the current state is false. */
    method IsMouseButtonReleased(button: int) returns (released: bool)
      modifies this`currentButtons, this`previousButtons
      ensures released <==> Released(Held(old(currentButtons), button), old(previousButtons), button)
      ensures currentButtons == Touch(old(currentButtons), button)
      ensures previousButtons == if Held(old(currentButtons), button) then old(previousButtons) else Touch(old(previousButtons), button)
    {
      currentButtons := Touch(currentButtons, button);
      var now := currentButtons[button];
      if !now {
        previousButtons := Touch(previousButtons, button);
        released := previousButtons[button];
      } else {
        released := false;
      }
    }

    method IsMouseButtonDown(button: int) returns (down: bool)
      modifies this`currentButtons
      ensures down == Held(old(currentButtons), button) && currentButtons == Touch(old(currentButtons), button)
    {
      currentButtons := Touch(currentButtons, button);
      down := currentButtons[button];
    }

    method IsMouseButtonUp(button: int) returns (up: bool)
      modifies this`currentButtons
      ensures up == !Held(old(currentButtons), button) && currentButtons == Touch(old(currentButtons), button)
    {
      currentButtons := Touch(currentButtons, button);
      up := !currentButtons[button];
    }

    method GetMousePosition() returns (x: real, y: real)
      ensures x == currX && y == currY
    {
      x, y := currX, currY;
    }

    /** The cursor position read by the last Update. */
    method GetMouseX() returns (x: real)
      ensures x == currX
    {
      x := currX;
    }

    method GetMouseY() returns (y: real)
      ensures y == currY
    {
      y := currY;
    }

    /** How far the cursor moved between the last two Updates. */
    method GetMouseDelta() returns (dx: real, dy: real)
      ensures dx == currX - lastX && dy == currY - lastY
    {
      dx, dy := currX - lastX, currY - lastY;
    }

    method GetMouseScrollDelta() returns (delta: real)
      ensures delta == scroll
    {
      delta := scroll;
    }
  }
}

=== FILE: legacy_input.dfy ===
/**
 * The engine's older, key-only input snapshot: Update copies the current key
 * map to the previous one, clears it and polls again only the keys the
 * previous map holds.
 */
module LegacyInputs {
  import opened Inputs

  /** Update's loop after `clear()`: each previously tracked key inserted with its polled state. */
  method RepollCleared(tracked: map<int, bool>, dev: Device) returns (polled: map<int, bool>)
    ensures polled == Poll(tracked.Keys, dev.keys)
  {
    polled := map[];
    var pending := tracked.Keys;
    while pending != {}
      invariant pending <= tracked.Keys
      invariant polled.Keys == tracked.Keys - pending
      invariant forall k :: k in polled ==> polled[k] == dev.keys(k)
      decreases pending
    {
      var key := Pick(pending);
      polled := polled[key := dev.keys(key)];
      pending := pending - {key};
    }
    var expected := Poll(tracked.Keys, dev.keys);
    assert polled.Keys == expected.Keys;
    assert forall k :: k in polled ==> polled[k] == expected[k];
  }

  class LegacyInput {
    var currentKeys: map<int, bool>
    var previousKeys: map<int, bool>

    /** The static initialisers: both maps empty. */
    constructor ()
      ensures currentKeys == map[] && previousKeys == map[]
    {
      currentKeys, previousKeys := map[], map[];
    }

    /**
     * The current map becomes the previous one and is rebuilt from the
     * device over exactly the keys it held.
     */
    method Update(dev: Device)
      modifies this
      ensures previousKeys == old(currentKeys)
      ensures currentKeys == Poll(old(currentKeys).Keys, dev.keys)
    {
      previousKeys := currentKeys;
      currentKeys := RepollCleared(previousKeys, dev);
    }

    /** Polls the key and records the result as its current state. */
    method IsKeyDown(key: int, dev: Device) returns (down: bool)
      modifies this`currentKeys
      ensures down == dev.keys(key) && currentKeys == old(currentKeys)[key := down]
    {
      currentKeys := currentKeys[key := dev.keys(key)];
      down := currentKeys[key];
    }

    /** Down now (polled and recorded) and not down in the previous snapshot. */
    method IsKeyPressed(key: int, dev: Device) returns (pressed: bool)
      modifies this`currentKeys
      ensures pressed <==> Pressed(dev.keys(key), previousKeys, key)
      ensures currentKeys == old(currentKeys)[key := dev.keys(key)]
    {
      var currentState := IsKeyDown(key, dev);
      var wasPressed := if key in previousKeys then previousKeys[key] else false;
      pressed := currentState && !wasPressed;
    }

    /** Not down now (polled and recorded) and down in the previous snapshot. */
    method IsKeyReleased(key: int, dev: Device) returns (released: bool)
      modifies this`currentKeys
      ensures released <==> Released(dev.keys(key), previousKeys, key)
      ensures currentKeys == old(currentKeys)[key := dev.keys(key)]
    {
      var currentState := IsKeyDown(key, dev);
      var wasPressed := if key in previousKeys then previousKeys[key] else false;
      released := !currentState && wasPressed;
    }

    /** The negation of IsKeyDown, which it calls. */
    method IsKeyUp(key: int, dev: Device) returns (up: bool)
      modifies this`currentKeys
      ensures up == !dev.keys(key) && currentKeys == old(currentKeys)[key := dev.keys(key)]
    {
      var down := IsKeyDown(key, dev);
      up := !down;
    }
  }
}

=== FILE: legacy_material.dfy ===
/**
 * The older Material: at most one texture per texture type, possibly null.
 * Binding gives the non-null textures consecutive texture units and points the
 * type's sampler uniform (no index suffix) at each.
 */
module LegacyMaterials {
  import opened Gl
  import opened Wrappers
  import opened Seqs
  import opened Materials

  /** Type -> texture slot, where a stored null pointer is `None`. */
  type TextureSlots = map<TextureType, Option<TextureId>>

  /** A non-null texture met while iterating the slots. */
  datatype Entry = Entry(kind: TextureType, texture: TextureId)

  /** The non-null textures of the first `n` types of `order`, in visiting order. */
  function PresentFirst(order: seq<TextureType>, table: TextureSlots, n: nat): (es: seq<Entry>)
    requires n <= |order| && forall t :: t in order ==> t in table
    ensures |es| <= n
  {
    if n == 0 then []
    else
      var t := order[n - 1];
      PresentFirst(order, table, n - 1) + (if table[t].Some? then [Entry(t, table[t].value)] else [])
  }

  function Present(order: seq<TextureType>, table: TextureSlots): seq<Entry>
    requires forall t :: t in order ==> t in table
  {
    PresentFirst(order, table, |order|)
  }

  /** A texture bound to `slot`, then its type's sampler pointed at that unit (a cubemap has none). */
  function EntryEvents(e: Entry, slot: nat): seq<Event>
  {
    [BindTexture(e.texture, slot)] +
    match MapUniform(e.kind)
    case Some(u) => [SetInt(u, slot)]
    case None => []
  }

  /** The calls binding the first `n` entries, the k-th on texture unit k. */
  function SlotTrace(es: seq<Entry>, n: nat): seq<Event>
    requires n <= |es|
  {
    if n == 0 then [] else SlotTrace(es, n - 1) + EntryEvents(es[n - 1], n - 1)
  }

  /** The calls unbinding the first `n` entries. */
  function ReleaseTrace(es: seq<Entry>, n: nat): seq<Event>
    requires n <= |es|
  {
    if n == 0 then [] else ReleaseTrace(es, n - 1) + [UnbindTexture(es[n - 1].texture)]
  }

  lemma {:induction false} TraceAgree(a: seq<Entry>, b: seq<Entry>, n: nat)
    requires n <= |a| && n <= |b| && a[..n] == b[..n]
    ensures SlotTrace(a, n) == SlotTrace(b, n) && ReleaseTrace(a, n) == ReleaseTrace(b, n)
  {
    if n > 0 {
      assert a[..n - 1] == a[..n][..n - 1] && b[..n - 1] == b[..n][..n - 1];
      assert a[n - 1] == a[..n][n - 1] && b[n - 1] == b[..n][n - 1];
      TraceAgree(a, b, n - 1);
    }
  }

  /** One more non-null texture adds its calls, on the next free unit. */
  lemma TraceSnoc(es: seq<Entry>, e: Entry)
    ensures SlotTrace(es + [e], |es| + 1) == SlotTrace(es, |es|) + EntryEvents(e, |es|)
    ensures ReleaseTrace(es + [e], |es| + 1) == ReleaseTrace(es, |es|) + [UnbindTexture(e.texture)]
  {
    assert (es + [e])[..|es|] == es[..|es|];
    TraceAgree(es + [e], es, |es|);
    assert (es + [e])[|es|] == e;
  }

  /**
   * The entries are exactly the non-null slots among the first `n` types:
   * each names its type's texture, and every non-null slot appears.
   */
  lemma {:induction false} PresentFirstExact(order: seq<TextureType>, table: TextureSlots, n: nat)
    requires n <= |order| && forall t :: t in order ==> t in table
    ensures forall k :: 0 <= k < |PresentFirst(order, table, n)| ==>
      var e := PresentFirst(order, table, n)[k];
      e.kind in order[..n] && table[e.kind] == Some(e.texture)
    ensures forall p :: 0 <= p < n && table[order[p]].Some? ==>
      Entry(order[p], table[order[p]].value) in PresentFirst(order, table, n)
  {
    if n > 0 {
      PresentFirstExact(order, table, n - 1);
      assert order[..n] == order[..n - 1] + [order[n - 1]];
    }
  }

  /** With each type visited once, no type is bound twice. */
  lemma {:induction false} PresentFirstDistinct(order: seq<TextureType>, table: TextureSlots, n: nat)
    requires n <= |order| && forall t :: t in order ==> t in table
    requires forall i, j :: 0 <= i < j < |order| ==> order[i] != order[j]
    ensures forall i, j :: 0 <= i < j < |PresentFirst(order, table, n)| ==>
      PresentFirst(order, table, n)[i].kind != PresentFirst(order, table, n)[j].kind
  {
    if n > 0 {
      var before := PresentFirst(order, table, n - 1);
      var all := PresentFirst(order, table, n);
      PresentFirstDistinct(order, table, n - 1);
      PresentFirstExact(order, table, n - 1);
      assert order[n - 1] !in order[..n - 1] by {
        forall i | 0 <= i < n - 1 ensures order[i] != order[n - 1] { }
      }
      forall i, j | 0 <= i < j < |all| ensures all[i].kind != all[j].kind {
        assert all[i] == before[i];
        if j < |before| {
          assert all[j] == before[j];
        } else {
          assert all[i].kind in order[..n - 1] && all[j].kind == order[n - 1];
        }
      }
    }
  }

  /**
   * Over a whole iteration order, the bound textures are exactly the non-null
   * slots, each type at most once, so they occupy units 0..m-1 for m non-null
   * textures and a null slot uses no unit.
   */
  lemma BindSkipsNullSlots(order: seq<TextureType>, table: TextureSlots)
    requires IsOrder(order, table)
    ensures forall k :: 0 <= k < |Present(order, table)| ==>
      Present(order, table)[k].kind in table &&
      table[Present(order, table)[k].kind] == Some(Present(order, table)[k].texture)
    ensures forall t :: t in table && table[t].Some? ==> Entry(t, table[t].value) in Present(order, table)
    ensures forall i, j :: 0 <= i < j < |Present(order, table)| ==>
      Present(order, table)[i].kind != Present(order, table)[j].kind
    ensures |Present(order, table)| == |set t | t in table && table[t].Some?|
  {
    var es := Present(order, table);
    PresentFirstExact(order, table, |order|);
    PresentFirstDistinct(order, table, |order|);
    forall t | t in table && table[t].Some? ensures Entry(t, table[t].value) in es {
      var p :| 0 <= p < |order| && order[p] == t;
    }
    var kinds := set k | 0 <= k < |es| :: es[k].kind;
    assert kinds == set t | t in table && table[t].Some? by {
      forall t | t in table && table[t].Some? ensures t in kinds {
        var k :| 0 <= k < |es| && es[k] == Entry(t, table[t].value);
      }
    }
    DistinctKinds(es);
  }

  /** Entries with pairwise different types have as many types as entries. */
  lemma {:induction false} DistinctKinds(es: seq<Entry>)
    requires forall i, j :: 0 <= i < j < |es| ==> es[i].kind != es[j].kind
    ensures |set k | 0 <= k < |es| :: es[k].kind| == |es|
  {
    if es != [] {
      var init := es[..|es| - 1];
      DistinctKinds(init);
      var a := set k | 0 <= k < |init| :: init[k].kind;
      var b := set k | 0 <= k < |es| :: es[k].kind;
      assert b == a + {es[|es| - 1].kind} by {
        forall t | t in b ensures t in a + {es[|es| - 1].kind} {
          var k :| 0 <= k < |es| && es[k].kind == t;
          if k < |es| - 1 { assert init[k] == es[k]; }
        }
        forall t | t in a ensures t in b {
          var k :| 0 <= k < |init| && init[k].kind == t;
          assert es[k] == init[k];
        }
      }
      assert es[|es| - 1].kind !in a by {
        forall k | 0 <= k < |init| ensures init[k].kind != es[|es| - 1].kind {
          assert init[k] == es[k];
        }
      }
    }
  }

  class Material {
    var shader: Option<ShaderId>
    var textures: TextureSlots
    var properties: Properties

    /** Material(): no shader, no textures, the default properties. */
    constructor ()
      ensures shader == None && textures == map[] && properties == DefaultProperties
    {
      shader := None;
      textures := map[];
      properties := DefaultProperties;
    }

    /** Material(shader): delegates to Material() and then sets the shader. */
    constructor WithShader(s: Option<ShaderId>)
      ensures shader == s && textures == map[] && properties == DefaultProperties
    {
      shader := None;
      textures := map[];
      properties := DefaultProperties;
      new;
      SetShader(s);
    }

    method SetShader(s: Option<ShaderId>)
      modifies this`shader
      ensures shader == s
    {
      shader := s;
    }

    method SetProperties(p: Properties)
      modifies this`properties
      ensures properties == p
    {
      properties := p;
    }

    /** The texture of `t`; null when the type was never set or was set to null. */
    function GetTexture(t: TextureType): (r: Option<TextureId>)
      reads this`textures
      ensures r.Some? <==> t in textures && textures[t].Some?
      ensures r.Some? ==> textures[t] == r
    {
      if t in textures then textures[t] else None
    }

    /** Stores `texture` as the only texture of `t`, replacing any earlier one. */
    method SetTexture(t: TextureType, texture: Option<TextureId>)
      modifies this`textures
      ensures textures == old(textures)[t := texture]
      ensures GetTexture(t) == texture
      ensures forall u :: u != t ==> GetTexture(u) == old(GetTexture(u))
    {
      textures := textures[t := texture];
    }

    /**
     * Without a shader nothing happens. Otherwise the program is made current,
     * the properties are uploaded and the non-null textures are bound on
     * consecutive units, `order` standing for the hash map's iteration order.
     */
    method Bind(gpu: Gpu, order: seq<TextureType>)
      requires IsOrder(order, textures)
      modifies gpu`events
      ensures shader.None? ==> gpu.events == old(gpu.events)
      ensures shader.Some? ==>
        gpu.events == old(gpu.events) + PropertyEvents(shader.value, properties) +
          SlotTrace(Present(order, textures), |Present(order, textures)|)
    {
      if shader.None? {
        return;
      }
      ghost var start := gpu.events;
      EmitProperties(gpu, shader.value, properties);
      BindSlots(gpu, order, textures);
      AppendAssoc(start, PropertyEvents(shader.value, properties),
        SlotTrace(Present(order, textures), |Present(order, textures)|));
    }

    /** Unbinds every non-null texture, then resets the program when there is a shader. */
    method Unbind(gpu: Gpu, order: seq<TextureType>)
      requires IsOrder(order, textures)
      modifies gpu`events
      ensures gpu.events == old(gpu.events) +
        ReleaseTrace(Present(order, textures), |Present(order, textures)|) +
        (if shader.Some? then [UseNoProgram] else [])
    {
      ghost var start := gpu.events;
      var i := 0;
      while i < |order|
        invariant 0 <= i <= |order|
        invariant gpu.events == start + ReleaseTrace(PresentFirst(order, textures, i), |PresentFirst(order, textures, i)|)
      {
        var texture := textures[order[i]];
        ghost var done := PresentFirst(order, textures, i);
        if texture.Some? {
          gpu.Emit(UnbindTexture(texture.value));
          assert PresentFirst(order, textures, i + 1) == done + [Entry(order[i], texture.value)];
          TraceSnoc(done, Entry(order[i], texture.value));
          AppendAssoc(start, ReleaseTrace(done, |done|), [UnbindTexture(texture.value)]);
        } else {
          assert PresentFirst(order, textures, i + 1) == done;
        }
        i := i + 1;
      }
      if shader.Some? {
        gpu.Emit(UseNoProgram);
      }
    }
  }

  /** The texture loop of the older Material::Bind. */
  method BindSlots(gpu: Gpu, order: seq<TextureType>, textures: TextureSlots)
    requires IsOrder(order, textures)
    modifies gpu`events
    ensures gpu.events == old(gpu.events) + SlotTrace(Present(order, textures), |Present(order, textures)|)
  {
    ghost var start := gpu.events;
    var textureSlot := 0;
    var i := 0;
    while i < |order|
      invariant 0 <= i <= |order|
      invariant textureSlot == |PresentFirst(order, textures, i)|
      invariant gpu.events == start + SlotTrace(PresentFirst(order, textures, i), textureSlot)
    {
      var kind := order[i];
      var texture := textures[kind];
      ghost var done := PresentFirst(order, textures, i);
      if texture.Some? {
        gpu.Emit(BindTexture(texture.value, textureSlot));
        var uniform := MapUniform(kind);
        if uniform.Some? {
          gpu.Emit(SetInt(uniform.value, textureSlot));
        }
        assert PresentFirst(order, textures, i + 1) == done + [Entry(kind, texture.value)];
        TraceSnoc(done, Entry(kind, texture.value));
        AppendAssoc(start, SlotTrace(done, |done|), EntryEvents(Entry(kind, texture.value), |done|));
        textureSlot := textureSlot + 1;
      } else {
        assert PresentFirst(order, textures, i + 1) == done;
      }
      i := i + 1;
    }
  }
}

=== FILE: light_manager.dfy ===
/**
 * The LightManager: a bucket of point lights and a bucket of spot lights, each
 * holding at most four lights, uploaded as one uniform block at binding 1.
 */
module LightManagers {
  import opened Math
  import opened Gl
  import opened Seqs
  import opened Lights

  class LightManager {
    var pointLights: seq<Light>
    var spotLights: seq<Light>

    /** Both buckets within capacity, each holding lights its cast accepts. */
    ghost predicate Valid()
      reads this
    {
      |pointLights| <= MaxPointLights && |spotLights| <= MaxSpotLights &&
      (forall i :: 0 <= i < |pointLights| ==> IsPointLike(pointLights[i].kind)) &&
      (forall i :: 0 <= i < |spotLights| ==> spotLights[i].kind == SpotLight)
    }

    /** Allocates the uniform block and binds it to binding point 1. */
    constructor (gpu: Gpu)
      modifies gpu`events
      ensures pointLights == [] && spotLights == []
      ensures gpu.events == old(gpu.events) + [AllocateUniformBuffer(LightBufferBytes)] + [BindBufferBase(1)]
      ensures Valid()
    {
      pointLights := [];
      spotLights := [];
      new;
      gpu.Emit(AllocateUniformBuffer(LightBufferBytes));
      gpu.Emit(BindBufferBase(1));
    }

    /**
     * Appends the light to the bucket its cast selects, unless that bucket is
     * full. The point cast is tried first and also accepts spot lights, so the
     * spot branch is never taken.
     */
    method AddLight(l: Light)
      requires Valid()
      modifies this`pointLights, this`spotLights
      ensures IsPointLike(l.kind) && |old(pointLights)| < MaxPointLights ==> pointLights == old(pointLights) + [l]
      ensures !(IsPointLike(l.kind) && |old(pointLights)| < MaxPointLights) ==> pointLights == old(pointLights)
      ensures spotLights == old(spotLights)
      ensures Valid()
    {
      if IsPointLike(l.kind) {
        if |pointLights| < MaxPointLights {
          pointLights := pointLights + [l];
        }
      } else if l.kind == SpotLight {
        // the spot cast: unreachable, a spot light already passed the point cast
        assert false;
      }
    }

    /** AddLight with the spot cast tried before the point cast. */
    method AddLightChecked(l: Light)
      requires Valid()
      modifies this`pointLights, this`spotLights
      ensures l.kind == SpotLight && |old(spotLights)| < MaxSpotLights ==> spotLights == old(spotLights) + [l]
      ensures l.kind == PointLight && |old(pointLights)| < MaxPointLights ==> pointLights == old(pointLights) + [l]
      ensures l.kind != SpotLight || |old(spotLights)| == MaxSpotLights ==> spotLights == old(spotLights)
      ensures l.kind != PointLight || |old(pointLights)| == MaxPointLights ==> pointLights == old(pointLights)
      ensures Valid()
    {
      if l.kind == SpotLight {
        if |spotLights| < MaxSpotLights {
          spotLights := spotLights + [l];
        }
      } else if l.kind == PointLight {
        if |pointLights| < MaxPointLights {
          pointLights := pointLights + [l];
        }
      }
    }

    /** Erases the first occurrence of the light from the bucket its cast selects. */
    method RemoveLight(l: Light)
      requires Valid()
      modifies this`pointLights, this`spotLights
      ensures IsPointLike(l.kind) ==> pointLights == RemoveFirst(old(pointLights), l)
      ensures !IsPointLike(l.kind) ==> pointLights == old(pointLights)
      ensures spotLights == old(spotLights)
      ensures Valid()
    {
      if IsPointLike(l.kind) {
        var i := IndexOf(pointLights, l);
        if i >= 0 {
          RemoveFirstAt(pointLights, l, i);
          pointLights := pointLights[..i] + pointLights[i + 1..];
        }
      } else if l.kind == SpotLight {
        // the spot cast: unreachable, as in AddLight
        assert false;
      }
    }

    /** RemoveLight with the spot cast tried before the point cast. */
    method RemoveLightChecked(l: Light)
      requires Valid()
      modifies this`pointLights, this`spotLights
      ensures l.kind == SpotLight ==> spotLights == RemoveFirst(old(spotLights), l)
      ensures l.kind != SpotLight ==> spotLights == old(spotLights)
      ensures l.kind == PointLight ==> pointLights == RemoveFirst(old(pointLights), l)
      ensures l.kind != PointLight ==> pointLights == old(pointLights)
      ensures Valid()
    {
      if l.kind == SpotLight {
        var i := IndexOf(spotLights, l);
        if i >= 0 {
          RemoveFirstAt(spotLights, l, i);
          spotLights := spotLights[..i] + spotLights[i + 1..];
        }
      } else if l.kind == PointLight {
        var i := IndexOf(pointLights, l);
        if i >= 0 {
          RemoveFirstAt(pointLights, l, i);
          pointLights := pointLights[..i] + pointLights[i + 1..];
        }
      }
    }

    /**
     * Fills the record of each light of each bucket, in bucket order, sets the
     * counts to (#point, #spot, 0, 0), uploads the block and binds it to 1.
     */
    method UpdateLights(gpu: Gpu, num: Numerics)
      requires Valid()
      modifies gpu`events
      ensures gpu.events == old(gpu.events) +
        [LightBlock(old(PackAll(Records(pointLights, num))), old(PackAll(Records(spotLights, num))),
                    [|pointLights|, |spotLights|, 0, 0])] +
        [BindBufferBase(1)]
    {
      var points, spots := FillRecords(num);
      gpu.Emit(LightBlock(points, spots, [|pointLights|, |spotLights|, 0, 0]));
      gpu.Emit(BindBufferBase(1));
    }

    /** The two loops of UpdateLights: the records of each bucket, written in bucket order. */
    method FillRecords(num: Numerics) returns (points: seq<real>, spots: seq<real>)
      ensures points == PackAll(Records(pointLights, num))
      ensures spots == PackAll(Records(spotLights, num))
    {
      ghost var pointRecords, spotRecords := Records(pointLights, num), Records(spotLights, num);
      points := [];
      var i := 0;
      while i < |pointLights|
        invariant 0 <= i <= |pointLights|
        invariant points == PackFirst(pointRecords, i)
      {
        points := points + Pack(pointLights[i].Record(num));
        i := i + 1;
      }
      spots := [];
      i := 0;
      while i < |spotLights|
        invariant 0 <= i <= |spotLights|
        invariant spots == PackFirst(spotRecords, i)
      {
        spots := spots + Pack(spotLights[i].Record(num));
        i := i + 1;
      }
    }
  }

  /** A spot light given to AddLight lands in the point bucket. */
  method SpotLightLandsInPointBucket(gpu: Gpu) returns (m: LightManager, l: Light)
    modifies gpu`events
    ensures l.kind == SpotLight
    ensures m.pointLights == [l] && m.spotLights == []
  {
    m := new LightManager(gpu);
    l := new Light.Spot(DefaultProperties, DefaultAttenuation, 1.0);
    m.AddLight(l);
  }

  /** With the checked dispatch, the same spot light lands in the spot bucket. */
  method SpotLightLandsInSpotBucket(gpu: Gpu) returns (m: LightManager, l: Light)
    modifies gpu`events
    ensures l.kind == SpotLight
    ensures m.pointLights == [] && m.spotLights == [l]
  {
    m := new LightManager(gpu);
    l := new Light.Spot(DefaultProperties, DefaultAttenuation, 1.0);
    m.AddLightChecked(l);
  }

  /** The same light added twice occupies two point slots. */
  method SameLightTwice(gpu: Gpu) returns (m: LightManager, l: Light)
    modifies gpu`events
    ensures m.pointLights == [l, l]
  {
    m := new LightManager(gpu);
    l := new Light.Point(DefaultProperties, DefaultAttenuation);
    m.AddLight(l);
    m.AddLight(l);
  }

  /** Slot `i` of an uploaded bucket holds the record of the bucket's `i`-th light. */
  lemma UploadedRecord(ls: seq<Light>, num: Numerics, i: nat)
    requires i < |ls|
    ensures |PackAll(Records(ls, num))| == RecordFloats * |ls|
    ensures Unpack(PackAll(Records(ls, num))[RecordFloats * i .. RecordFloats * (i + 1)]) == ls[i].Record(num)
  {
    PackFirstSlot(Records(ls, num), |ls|, i);
  }
}

=== FILE: lights.dfy ===
/**
 * Point and spot lights, their uniform-block records, and the LightManager
 * that keeps up to four lights per bucket and uploads their records.
 *
 * The engine's SpotLight derives from PointLight; here one Light class carries
 * a kind tag, and a light of the abstract base that is neither is `OtherLight`.
 * The pose a light reports is that of its Transform.
 */
module Lights {
  import opened Math
  import opened Transforms
  import opened Gl
  import opened Seqs

  datatype LightKind = PointLight | SpotLight | OtherLight

  /** Colour, intensity and radius of a light. */
  datatype Properties = Properties(color: Vec3, intensity: real, radius: real)

  const DefaultProperties: Properties := Properties(One, 1.0, 50.0)

  /** Constant, linear and quadratic attenuation factors. */
  datatype Attenuation = Attenuation(constant: real, linear: real, quadratic: real)

  const DefaultAttenuation: Attenuation := Attenuation(1.0, 0.09, 0.032)

  /** One light's record in the uniform block: four vec4 values, 64 bytes under std140. */
  datatype LightData = LightData(position: Vec4, direction: Vec4, color: Vec4, attenuation: Vec4)

  /** Floats in one record. */
  const RecordFloats: nat := 16

  const MaxPointLights: nat := 4
  const MaxSpotLights: nat := 4

  /** Bytes of the light uniform block: both record arrays followed by the counts ivec4. */
  const LightBufferBytes: nat := (MaxPointLights + MaxSpotLights) * RecordFloats * 4 + 16

  /** A light whose dynamic type converts to a point light: point and spot lights alike. */
  predicate IsPointLike(k: LightKind)
  {
    k == PointLight || k == SpotLight
  }

  /** The record of a point light at `position`. */
  function PointRecord(position: Vec3, props: Properties, attn: Attenuation): LightData
  {
    LightData(
      Vec4(position.x, position.y, position.z, 1.0),
      Vec4(0.0, 0.0, 0.0, 0.0),
      Vec4(props.color.x, props.color.y, props.color.z, props.intensity),
      Vec4(attn.constant, attn.linear, attn.quadratic, props.radius))
  }

  /** The record of a spot light: the point record with the direction replaced. */
  function SpotRecord(position: Vec3, forward: Vec3, focus: real, props: Properties, attn: Attenuation): LightData
  {
    PointRecord(position, props, attn).(direction := Vec4(forward.x, forward.y, forward.z, focus))
  }

  /** A spot record agrees with the point record everywhere but in the direction. */
  lemma SpotExtendsPoint(position: Vec3, forward: Vec3, focus: real, props: Properties, attn: Attenuation)
    ensures var s, p := SpotRecord(position, forward, focus, props, attn), PointRecord(position, props, attn);
      s.position == p.position && s.color == p.color && s.attenuation == p.attenuation &&
      s.direction == Vec4(forward.x, forward.y, forward.z, focus) && p.direction == Vec4(0.0, 0.0, 0.0, 0.0)
  {
  }

  function PackVec4(v: Vec4): seq<real> { [v.x, v.y, v.z, v.w] }

  /** The sixteen floats of a record in std140 order. */
  function Pack(d: LightData): (fs: seq<real>)
    ensures |fs| == RecordFloats
  {
    PackVec4(d.position) + PackVec4(d.direction) + PackVec4(d.color) + PackVec4(d.attenuation)
  }

  /** The record stored in sixteen floats. */
  function Unpack(fs: seq<real>): LightData
    requires |fs| == RecordFloats
  {
    LightData(
      Vec4(fs[0], fs[1], fs[2], fs[3]),
      Vec4(fs[4], fs[5], fs[6], fs[7]),
      Vec4(fs[8], fs[9], fs[10], fs[11]),
      Vec4(fs[12], fs[13], fs[14], fs[15]))
  }

  /** Packing loses nothing, and every block of sixteen floats is a record. */
  lemma PackRoundTrip(d: LightData, fs: seq<real>)
    ensures Unpack(Pack(d)) == d
    ensures |fs| == RecordFloats ==> Pack(Unpack(fs)) == fs
  {
    if |fs| == RecordFloats {
      assert Pack(Unpack(fs)) == fs;
    }
  }

  /** The first `n` records of `ds`, one after another. */
  function PackFirst(ds: seq<LightData>, n: nat): (fs: seq<real>)
    requires n <= |ds|
    ensures |fs| == RecordFloats * n
  {
    if n == 0 then [] else PackFirst(ds, n - 1) + Pack(ds[n - 1])
  }

  /** All records of `ds`, one after another. */
  function PackAll(ds: seq<LightData>): seq<real>
  {
    PackFirst(ds, |ds|)
  }

  /** Record `i` of a packed array occupies floats 16i to 16i+15, and unpacks to the record. */
  lemma {:induction false} PackFirstSlot(ds: seq<LightData>, n: nat, i: nat)
    requires i < n <= |ds|
    ensures PackFirst(ds, n)[RecordFloats * i .. RecordFloats * (i + 1)] == Pack(ds[i])
    ensures Unpack(PackFirst(ds, n)[RecordFloats * i .. RecordFloats * (i + 1)]) == ds[i]
    decreases n
  {
    var front := PackFirst(ds, n - 1);
    assert PackFirst(ds, n) == front + Pack(ds[n - 1]);
    if i < n - 1 {
      PackFirstSlot(ds, n - 1, i);
      assert PackFirst(ds, n)[RecordFloats * i .. RecordFloats * (i + 1)] == front[RecordFloats * i .. RecordFloats * (i + 1)];
    } else {
      assert PackFirst(ds, n)[RecordFloats * i .. RecordFloats * (i + 1)] == PackFirst(ds, n)[|front|..];
    }
    PackRoundTrip(ds[i], []);
  }

  class Light {
    const kind: LightKind
    /** The light's pose, as for any scene object. */
    const transform: Transform
    var properties: Properties
    var attenuation: Attenuation
    var focusExponent: real

    /** A point light with the given properties and attenuation. */
    constructor Point(props: Properties, attn: Attenuation)
      ensures kind == PointLight && fresh(transform)
      ensures properties == props && attenuation == attn
    {
      kind := PointLight;
      transform := new Transform();
      properties := props;
      attenuation := attn;
      focusExponent := 1.0;
    }

    /** A spot light; the focus exponent is stored as given, without the clamp SetFocus applies. */
    constructor Spot(props: Properties, attn: Attenuation, focus: real)
      ensures kind == SpotLight && fresh(transform)
      ensures properties == props && attenuation == attn && focusExponent == focus
    {
      kind := SpotLight;
      transform := new Transform();
      properties := props;
      attenuation := attn;
      focusExponent := focus;
    }

    /** A light of the abstract base kind, which has no record of its own. */
    constructor Other(props: Properties)
      ensures kind == OtherLight && fresh(transform)
      ensures properties == props
    {
      kind := OtherLight;
      transform := new Transform();
      properties := props;
      attenuation := DefaultAttenuation;
      focusExponent := 1.0;
    }

    method SetProperties(props: Properties)
      modifies this`properties
      ensures properties == props
    {
      properties := props;
    }

    method SetAttenuation(attn: Attenuation)
      modifies this`attenuation
      ensures attenuation == attn
    {
      attenuation := attn;
    }

    /** Stores the exponent, raised to 1 when it is smaller. */
    method SetFocus(exponent: real)
      modifies this`focusExponent
      ensures focusExponent >= 1.0
      ensures exponent >= 1.0 ==> focusExponent == exponent
      ensures exponent < 1.0 ==> focusExponent == 1.0
    {
      focusExponent := Max(exponent, 1.0);
    }

    /** The record FillLightData writes for this light, from its world pose. */
    function Record(num: Numerics): LightData
      reads this, transform`worldPosition, transform`worldOrientation
    {
      if kind == SpotLight then
        SpotRecord(transform.worldPosition, transform.WorldForward(num), focusExponent, properties, attenuation)
      else
        PointRecord(transform.worldPosition, properties, attenuation)
    }
  }

  /** The records of a bucket of lights, in bucket order. */
  function Records(ls: seq<Light>, num: Numerics): (ds: seq<LightData>)
    reads set l | l in ls, set l | l in ls :: l.transform
    ensures |ds| == |ls|
    ensures forall i :: 0 <= i < |ls| ==> ds[i] == ls[i].Record(num)
  {
    if ls == [] then [] else Records(ls[..|ls| - 1], num) + [ls[|ls| - 1].Record(num)]
  }
}

=== FILE: loader_factory.dfy ===
/**
 * The engine's LoaderFactory<T>: a registry from file extensions to loader
 * creators. Each instantiation of the template has its own static registry;
 * here each registry is one `LoaderFactory` object, and a creator is named by
 * an identifier.
 */
module LoaderFactories {
  import opened Seqs

  /** Identifies a registered creator (a std::function returning a new loader). */
  type CreatorId = nat

  /** A loader as produced by calling a creator. */
  class Loader {
    const creator: CreatorId

    constructor (c: CreatorId)
      ensures creator == c
    {
      creator := c;
    }
  }

  /**
   * The pieces std::getline(stream, piece, ';') yields in turn: text up to each
   * ';' (possibly empty), and the text after the last ';' only when it is
   * non-empty.
   */
  function Segments(s: string): (parts: seq<string>)
    ensures s == [] <==> parts == []
    decreases |s|
  {
    if s == [] then []
    else
      var i := Delimiter(s);
      if i == |s| then [s]
      else [s[..i]] + Segments(s[i + 1..])
  }

  /** The index of the first ';' in `s`, or |s| when there is none. */
  function Delimiter(s: string): (i: nat)
    ensures i <= |s|
    ensures i < |s| ==> s[i] == ';'
    ensures forall j :: 0 <= j < i ==> s[j] != ';'
  {
    if s == [] || s[0] == ';' then 0 else 1 + Delimiter(s[1..])
  }

  /** The pieces joined with ';' between them. */
  function Join(parts: seq<string>): string
  {
    if parts == [] then []
    else if |parts| == 1 then parts[0]
    else parts[0] + ";" + Join(parts[1..])
  }

  /** ";" when `s` ends with the delimiter, else nothing. */
  function Trailer(s: string): string
  {
    if s != [] && s[|s| - 1] == ';' then ";" else ""
  }

  lemma JoinCons(a: string, rest: seq<string>)
    requires rest != []
    ensures Join([a] + rest) == a + ";" + Join(rest)
  {
    var parts := [a] + rest;
    assert parts[0] == a && parts[1..] == rest;
  }

  /** Splitting loses only a trailing ';'. */
  lemma {:induction false} JoinSegments(s: string)
    ensures Join(Segments(s)) + Trailer(s) == s
    decreases |s|
  {
    if s != [] {
      var i := Delimiter(s);
      if i == |s| {
        assert s[|s| - 1] != ';';
        assert Segments(s) == [s];
      } else {
        var head, rest := s[..i], s[i + 1..];
        assert s == head + ";" + rest;
        assert Segments(s) == [head] + Segments(rest);
        if rest == [] {
          assert Join(Segments(s)) == head;
          assert Trailer(s) == ";";
        } else {
          JoinSegments(rest);
          JoinCons(head, Segments(rest));
          assert Trailer(s) == Trailer(rest);
          calc {
            Join(Segments(s)) + Trailer(s);
            head + ";" + Join(Segments(rest)) + Trailer(rest);
            { AppendAssoc(head + ";", Join(Segments(rest)), Trailer(rest)); }
            head + ";" + rest;
          }
        }
      }
    }
  }

  /** Pieces without ';' whose last piece is non-empty split back from their join. */
  lemma {:induction false} SegmentsJoin(parts: seq<string>)
    requires forall i :: 0 <= i < |parts| ==> ';' !in parts[i]
    requires parts != [] ==> parts[|parts| - 1] != []
    ensures Segments(Join(parts)) == parts
  {
    if |parts| == 1 {
      assert Delimiter(parts[0]) == |parts[0]|;
    } else if |parts| > 1 {
      var head, rest := parts[0], parts[1..];
      assert parts == [head] + rest;
      JoinCons(head, rest);
      var s := Join(parts);
      assert s == head + ";" + Join(rest);
      assert ';' !in head;
      assert forall j :: 0 <= j < |head| ==> s[j] == head[j] && head[j] in head;
      assert s[|head|] == ';';
      assert Delimiter(s) == |head|;
      assert s[..|head|] == head;
      assert s[|head| + 1..] == Join(rest);
      SegmentsJoin(rest);
    }
  }

  /** `registry` with the pieces mapped to `creator` one after the other. */
  function RegisterAll(registry: map<string, CreatorId>, pieces: seq<string>, creator: CreatorId): map<string, CreatorId>
    decreases |pieces|
  {
    if pieces == [] then registry
    else RegisterAll(registry[pieces[0] := creator], pieces[1..], creator)
  }

  /**
   * Registering adds exactly the pieces, maps each to the creator whatever it
   * was mapped to before, and leaves every other extension alone.
   */
  lemma {:induction false} RegisterAllEffect(registry: map<string, CreatorId>, pieces: seq<string>, creator: CreatorId)
    ensures RegisterAll(registry, pieces, creator).Keys == registry.Keys + set p | p in pieces
    ensures forall p :: p in pieces ==> RegisterAll(registry, pieces, creator)[p] == creator
    ensures forall e :: e in registry && e !in pieces ==> RegisterAll(registry, pieces, creator)[e] == registry[e]
    decreases |pieces|
  {
    if pieces != [] {
      var next := registry[pieces[0] := creator];
      RegisterAllEffect(next, pieces[1..], creator);
      assert forall p :: p in pieces <==> p == pieces[0] || p in pieces[1..];
    }
  }

  lemma RegisterCons(registry: map<string, CreatorId>, piece: string, pieces: seq<string>, creator: CreatorId)
    ensures RegisterAll(registry, [piece] + pieces, creator) == RegisterAll(registry[piece := creator], pieces, creator)
  {
    var all := [piece] + pieces;
    assert all[0] == piece && all[1..] == pieces;
  }

  class LoaderFactory {
    var registry: map<string, CreatorId>

    constructor ()
      ensures registry == map[]
    {
      registry := map[];
    }

    /** Registers `creator` under each ';'-separated extension of `extension`. */
    method RegisterLoader(extension: string, creator: CreatorId)
      modifies this`registry
      ensures registry == RegisterAll(old(registry), Segments(extension), creator)
    {
      var pos := 0;
      while pos < |extension|
        invariant 0 <= pos <= |extension|
        invariant RegisterAll(registry, Segments(extension[pos..]), creator) ==
                  RegisterAll(old(registry), Segments(extension), creator)
        decreases |extension| - pos
      {
        var end := pos;
        while end < |extension| && extension[end] != ';'
          invariant pos <= end <= |extension|
          invariant forall k :: pos <= k < end ==> extension[k] != ';'
          decreases |extension| - end
        {
          end := end + 1;
        }
        NextSegment(extension, pos, end);
        var next := if end < |extension| then end + 1 else |extension|;
        RegisterCons(registry, extension[pos..end], Segments(extension[next..]), creator);
        registry := registry[extension[pos..end] := creator];
        pos := next;
      }
    }

    /** A new loader from the creator registered for exactly `extension`, or null. */
    method CreateLoader(extension: string) returns (loader: Loader?)
      ensures extension !in registry ==> loader == null
      ensures extension in registry ==> loader != null && fresh(loader) && loader.creator == registry[extension]
    {
      if extension in registry {
        loader := new Loader(registry[extension]);
      } else {
        loader := null;
      }
    }
  }

  /** The piece getline reads from `pos` ends at `end`, the next ';' or the end of the text. */
  lemma NextSegment(s: string, pos: nat, end: nat)
    requires pos < |s| && pos <= end <= |s|
    requires forall k :: pos <= k < end ==> s[k] != ';'
    requires end < |s| ==> s[end] == ';'
    ensures end < |s| ==> Segments(s[pos..]) == [s[pos..end]] + Segments(s[end + 1..])
    ensures end == |s| ==> Segments(s[pos..]) == [s[pos..end]] && Segments(s[|s|..]) == []
  {
    var u := s[pos..];
    var i := Delimiter(u);
    if end < |s| {
      assert u[end - pos] == ';';
      assert i == end - pos;
      assert u[..i] == s[pos..end];
      assert u[i + 1..] == s[end + 1..];
    } else {
      assert forall k :: 0 <= k < |u| ==> u[k] != ';';
      assert i == |u|;
      assert u == s[pos..end];
    }
  }

  /** Registering overwrites: the last creator registered for a piece is the one used. */
  lemma Reregistered(registry: map<string, CreatorId>, a: string, b: string, c1: CreatorId, c2: CreatorId, e: string)
    requires e in Segments(b)
    ensures e in RegisterAll(RegisterAll(registry, Segments(a), c1), Segments(b), c2)
    ensures RegisterAll(RegisterAll(registry, Segments(a), c1), Segments(b), c2)[e] == c2
  {
    RegisterAllEffect(RegisterAll(registry, Segments(a), c1), Segments(b), c2);
  }

  /** getline keeps the text between two ';' even when it is empty. */
  lemma EmptyPieceKept(a: string, b: string)
    requires ';' !in a && ';' !in b && b != []
    ensures Segments(a + ";;" + b) == [a, "", b]
  {
    var s := a + ";;" + b;
    var n := |a|;
    assert forall k :: 0 <= k < n ==> s[k] == a[k];
    assert s[n] == ';' && s[n + 1] == ';';
    NextSegment(s, 0, n);
    NextSegment(s, n + 1, n + 1);
    assert forall k :: n + 2 <= k < |s| ==> s[k] == b[k - n - 2];
    NextSegment(s, n + 2, |s|);
    assert s[0..] == s && s[0..n] == a && s[n + 2..|s|] == b;
  }

  /** A trailing ';' yields no further piece, so a lone ';' yields one empty piece. */
  lemma TrailingDelimiterDropped(a: string)
    requires ';' !in a
    ensures Segments(a + ";") == [a]
  {
    var s := a + ";";
    assert forall k :: 0 <= k < |a| ==> s[k] == a[k];
    NextSegment(s, 0, |a|);
    assert s[0..] == s && s[0..|a|] == a && s[|a| + 1..] == [];
  }
}

=== FILE: materials.dfy ===
/**
 * The engine's Material: surface properties, a shader, and a list of textures
 * per texture type. Binding assigns consecutive texture units to all textures
 * and points the indexed sampler uniforms at them.
 */
module Materials {
  import opened Math
  import opened Gl
  import opened Wrappers
  import opened Text
  import opened Seqs

  datatype TextureType = Ambient | Diffuse | Specular | Shininess | Normal | Height | Cubemap

  /** A texture, by its GL texture name. */
  type TextureId = nat
  /** A shader, by its GL program name. */
  type ShaderId = nat

  datatype Properties = Properties(ambient: Vec3, diffuse: Vec3, specular: Vec3, shininess: real)

  /**
   * The default member initialisers of Material::Properties: white ambient,
   * diffuse and specular and shininess 32. They are taken from the racer's
   * resource/Material.h, lines 11-16; the engine's Material header is not
   * part of this model.
   */
  const DefaultProperties: Properties := Properties(One, One, One, 32.0)

  /** The sampler uniform of a texture type, before its index; a cubemap has none. */
  function MapUniform(t: TextureType): Option<string>
  {
    match t
    case Ambient => Some("material.ambientMap")
    case Diffuse => Some("material.diffuseMap")
    case Specular => Some("material.specularMap")
    case Shininess => Some("material.shininessMap")
    case Normal => Some("material.normalMap")
    case Height => Some("material.heightMap")
    case Cubemap => None
  }

  /** The program switch and property uniforms that start a bind. */
  function PropertyEvents(program: ShaderId, p: Properties): seq<Event>
  {
    [UseProgram(program),
     SetVec3("material.ambient", p.ambient),
     SetVec3("material.diffuse", p.diffuse),
     SetVec3("material.specular", p.specular),
     SetFloat("material.shininess", p.shininess)]
  }

  type TextureTable = map<TextureType, seq<TextureId>>

  /** Texture `index` of type `kind`, bound to texture unit `slot`. */
  datatype Binding = Binding(texture: TextureId, kind: TextureType, index: nat, slot: nat)

  /** Number of textures listed under the first `n` types of `order`. */
  function TextureCount(order: seq<TextureType>, table: TextureTable, n: nat): nat
    requires n <= |order| && forall t :: t in order ==> t in table
  {
    if n == 0 then 0 else TextureCount(order, table, n - 1) + |table[order[n - 1]]|
  }

  /** The textures of one type in list order, numbered from 0, on units from `slot`. */
  function TypeBindings(kind: TextureType, ts: seq<TextureId>, slot: nat): (bs: seq<Binding>)
    ensures |bs| == |ts|
    ensures forall k :: 0 <= k < |ts| ==> bs[k] == Binding(ts[k], kind, k, slot + k)
  {
    seq(|ts|, k requires 0 <= k < |ts| => Binding(ts[k], kind, k, slot + k))
  }

  /** The bindings made for the first `n` types of `order`. */
  function AssignFirst(order: seq<TextureType>, table: TextureTable, n: nat): (bs: seq<Binding>)
    requires n <= |order| && forall t :: t in order ==> t in table
    ensures |bs| == TextureCount(order, table, n)
  {
    if n == 0 then []
    else
      var t := order[n - 1];
      AssignFirst(order, table, n - 1) + TypeBindings(t, table[t], TextureCount(order, table, n - 1))
  }

  /** The bindings Bind makes when the types come in `order`. */
  function Assign(order: seq<TextureType>, table: TextureTable): seq<Binding>
    requires forall t :: t in order ==> t in table
  {
    AssignFirst(order, table, |order|)
  }

  /** A texture bound to its unit, then its indexed sampler uniform set to that unit. */
  function BindingEvents(b: Binding): seq<Event>
  {
    [BindTexture(b.texture, b.slot)] +
    match MapUniform(b.kind)
    case Some(u) => [SetInt(u + NatToString(b.index), b.slot)]
    case None => []
  }

  /** The calls that make the first `n` bindings of `bs`. */
  function BindPrefix(bs: seq<Binding>, n: nat): seq<Event>
    requires n <= |bs|
  {
    if n == 0 then [] else BindPrefix(bs, n - 1) + BindingEvents(bs[n - 1])
  }

  function BindTrace(bs: seq<Binding>): seq<Event>
  {
    BindPrefix(bs, |bs|)
  }

  /** The calls that unbind the textures of the first `n` bindings of `bs`. */
  function UnbindPrefix(bs: seq<Binding>, n: nat): seq<Event>
    requires n <= |bs|
  {
    if n == 0 then [] else UnbindPrefix(bs, n - 1) + [UnbindTexture(bs[n - 1].texture)]
  }

  function UnbindTrace(bs: seq<Binding>): seq<Event>
  {
    UnbindPrefix(bs, |bs|)
  }

  lemma {:induction false} PrefixAgree(a: seq<Binding>, b: seq<Binding>, n: nat)
    requires n <= |a| && n <= |b| && a[..n] == b[..n]
    ensures BindPrefix(a, n) == BindPrefix(b, n) && UnbindPrefix(a, n) == UnbindPrefix(b, n)
  {
    if n > 0 {
      assert a[..n - 1] == a[..n][..n - 1] && b[..n - 1] == b[..n][..n - 1];
      assert a[n - 1] == a[..n][n - 1] && b[n - 1] == b[..n][n - 1];
      PrefixAgree(a, b, n - 1);
    }
  }

  lemma {:induction false} BindPrefixAppend(a: seq<Binding>, b: seq<Binding>, n: nat)
    requires n <= |b|
    ensures BindPrefix(a + b, |a| + n) == BindTrace(a) + BindPrefix(b, n)
  {
    if n == 0 {
      assert (a + b)[..|a|] == a[..|a|];
      PrefixAgree(a + b, a, |a|);
    } else {
      BindPrefixAppend(a, b, n - 1);
      assert (a + b)[|a| + n - 1] == b[n - 1];
      AppendAssoc(BindTrace(a), BindPrefix(b, n - 1), BindingEvents(b[n - 1]));
    }
  }

  lemma {:induction false} UnbindPrefixAppend(a: seq<Binding>, b: seq<Binding>, n: nat)
    requires n <= |b|
    ensures UnbindPrefix(a + b, |a| + n) == UnbindTrace(a) + UnbindPrefix(b, n)
  {
    if n == 0 {
      assert (a + b)[..|a|] == a[..|a|];
      PrefixAgree(a + b, a, |a|);
    } else {
      UnbindPrefixAppend(a, b, n - 1);
      assert (a + b)[|a| + n - 1] == b[n - 1];
      AppendAssoc(UnbindTrace(a), UnbindPrefix(b, n - 1), [UnbindTexture(b[n - 1].texture)]);
    }
  }

  /** Binding (or unbinding) one list after another emits their calls one after the other. */
  lemma TraceAppend(a: seq<Binding>, b: seq<Binding>)
    ensures BindTrace(a + b) == BindTrace(a) + BindTrace(b)
    ensures UnbindTrace(a + b) == UnbindTrace(a) + UnbindTrace(b)
  {
    BindPrefixAppend(a, b, |b|);
    UnbindPrefixAppend(a, b, |b|);
  }

  /**
   * Bind gives the n textures the units 0..n-1 in turn, and each binding names
   * a texture that is listed at its index under one of the first `n` types.
   */
  lemma {:induction false} AssignFirstSlots(order: seq<TextureType>, table: TextureTable, n: nat)
    requires n <= |order| && forall t :: t in order ==> t in table
    ensures forall i :: 0 <= i < |AssignFirst(order, table, n)| ==> AssignFirst(order, table, n)[i].slot == i
    ensures forall i :: 0 <= i < |AssignFirst(order, table, n)| ==>
      var b := AssignFirst(order, table, n)[i];
      b.kind in order[..n] && b.index < |table[b.kind]| && b.texture == table[b.kind][b.index]
  {
    if n > 0 {
      AssignFirstSlots(order, table, n - 1);
      assert order[..n] == order[..n - 1] + [order[n - 1]];
    }
  }

  /** With every type visited once, no texture (type and index) is bound twice. */
  lemma {:induction false} AssignFirstDistinct(order: seq<TextureType>, table: TextureTable, n: nat)
    requires n <= |order| && forall u :: u in order ==> u in table
    requires forall i, j :: 0 <= i < j < |order| ==> order[i] != order[j]
    ensures forall i, j :: 0 <= i < j < |AssignFirst(order, table, n)| ==>
      (AssignFirst(order, table, n)[i].kind, AssignFirst(order, table, n)[i].index) !=
      (AssignFirst(order, table, n)[j].kind, AssignFirst(order, table, n)[j].index)
  {
    if n > 0 {
      var last := order[n - 1];
      var before := AssignFirst(order, table, n - 1);
      var all := AssignFirst(order, table, n);
      assert last !in order[..n - 1] by {
        forall i | 0 <= i < n - 1 ensures order[i] != last { }
      }
      AssignFirstSlots(order, table, n - 1);
      AssignFirstDistinct(order, table, n - 1);
      forall i, j | 0 <= i < j < |all|
        ensures (all[i].kind, all[i].index) != (all[j].kind, all[j].index)
      {
        if j < |before| {
          assert all[i] == before[i] && all[j] == before[j];
        } else if i < |before| {
          assert all[i] == before[i] && all[i].kind in order[..n - 1] && all[j].kind == last;
        } else {
          assert all[i].index == i - |before| && all[j].index == j - |before|;
        }
      }
    }
  }

  /** Every listed texture of the first `n` types is bound, at the unit equal to its position. */
  lemma {:induction false} AssignFirstComplete(order: seq<TextureType>, table: TextureTable, n: nat, t: TextureType, k: nat)
    requires n <= |order| && forall u :: u in order ==> u in table
    requires t in order[..n] && k < |table[t]|
    ensures exists i :: 0 <= i < |AssignFirst(order, table, n)| && AssignFirst(order, table, n)[i] == Binding(table[t][k], t, k, i)
  {
    var before := AssignFirst(order, table, n - 1);
    var all := AssignFirst(order, table, n);
    AssignFirstSlots(order, table, n);
    if t == order[n - 1] {
      assert all[|before| + k] == Binding(table[t][k], t, k, |before| + k);
    } else {
      assert t in order[..n - 1] by {
        assert order[..n] == order[..n - 1] + [order[n - 1]];
      }
      AssignFirstComplete(order, table, n - 1, t, k);
      var i :| 0 <= i < |before| && before[i] == Binding(table[t][k], t, k, i);
      assert all[i] == before[i];
    }
  }

  /**
   * Over a whole iteration order, Bind gives each of the n listed textures
   * exactly one unit, the units are 0..n-1 in turn, and the k-th texture of a
   * type gets the k-th sampler of that type.
   */
  lemma BindAssignsEveryTextureOnce(order: seq<TextureType>, table: TextureTable, t: TextureType, k: nat)
    requires IsOrder(order, table)
    requires t in table && k < |table[t]|
    ensures forall i :: 0 <= i < |Assign(order, table)| ==> Assign(order, table)[i].slot == i
    ensures exists i :: 0 <= i < |Assign(order, table)| && Assign(order, table)[i] == Binding(table[t][k], t, k, i)
    ensures forall i :: 0 <= i < |Assign(order, table)| && Assign(order, table)[i].kind == t && Assign(order, table)[i].index == k ==>
      Assign(order, table)[i] == Binding(table[t][k], t, k, i)
    ensures forall i, j :: 0 <= i < j < |Assign(order, table)| ==>
      (Assign(order, table)[i].kind, Assign(order, table)[i].index) != (Assign(order, table)[j].kind, Assign(order, table)[j].index)
  {
    assert order[..|order|] == order;
    AssignFirstSlots(order, table, |order|);
    AssignFirstDistinct(order, table, |order|);
    AssignFirstComplete(order, table, |order|, t, k);
  }

  /** std::unordered_map::operator[] on a counter map: a missing key counts 0. */
  function CountOf(m: map<TextureType, nat>, t: TextureType): nat
  {
    if t in m then m[t] else 0
  }

  class Material {
    var name: string
    var shader: Option<ShaderId>
    var textures: TextureTable
    var properties: Properties

    /** Material(): default properties and the built-in shader, absent when it failed to build. */
    constructor (builtIn: Option<ShaderId>)
      ensures name == "" && shader == builtIn && textures == map[] && properties == DefaultProperties
    {
      name := "";
      properties := DefaultProperties;
      textures := map[];
      shader := builtIn;
    }

    /** Material(shader): delegates to Material() and then replaces the shader. */
    constructor WithShader(builtIn: Option<ShaderId>, s: Option<ShaderId>)
      ensures name == "" && shader == s && textures == map[] && properties == DefaultProperties
    {
      name := "";
      properties := DefaultProperties;
      textures := map[];
      shader := builtIn;
      new;
      SetShader(s);
    }

    method SetShader(s: Option<ShaderId>)
      modifies this`shader
      ensures shader == s
    {
      shader := s;
    }

    method SetName(n: string)
      modifies this`name
      ensures name == n
    {
      name := n;
    }

    method SetProperties(p: Properties)
      modifies this`properties
      ensures properties == p
    {
      properties := p;
    }

    /** A copy of the list of `t`, empty when none was ever stored. */
    function GetTextures(t: TextureType): (ts: seq<TextureId>)
      reads this`textures
      ensures t in textures ==> ts == textures[t]
      ensures t !in textures ==> ts == []
    {
      if t in textures then textures[t] else []
    }

    /** Replaces the whole list of `t`; the other types keep theirs. */
    method SetTextures(t: TextureType, ts: seq<TextureId>)
      modifies this`textures
      ensures textures == old(textures)[t := ts]
      ensures GetTextures(t) == ts
      ensures forall u :: u != t ==> GetTextures(u) == old(GetTextures(u))
    {
      textures := textures[t := ts];
    }

    /** Appends to the list of `t`, creating it when absent; the other types keep theirs. */
    method AddTexture(t: TextureType, texture: TextureId)
      modifies this`textures
      ensures textures == old(textures)[t := old(GetTextures(t)) + [texture]]
      ensures GetTextures(t) == old(GetTextures(t)) + [texture]
      ensures forall u :: u != t ==> GetTextures(u) == old(GetTextures(u))
    {
      var list := if t in textures then textures[t] else [];
      textures := textures[t := list + [texture]];
    }

    /**
     * Without a shader nothing happens. Otherwise the program is made current,
     * the properties are uploaded, and the textures are bound as `Assign`
     * says, with `order` standing for the hash map's iteration order.
     */
    method Bind(gpu: Gpu, order: seq<TextureType>)
      requires IsOrder(order, textures)
      modifies gpu`events
      ensures shader.None? ==> gpu.events == old(gpu.events)
      ensures shader.Some? ==>
        gpu.events == old(gpu.events) + PropertyEvents(shader.value, properties) + BindTrace(Assign(order, textures))
    {
      if shader.None? {
        return;
      }
      ghost var start := gpu.events;
      EmitProperties(gpu, shader.value, properties);
      BindTextures(gpu, order, textures);
      AppendAssoc(start, PropertyEvents(shader.value, properties), BindTrace(Assign(order, textures)));
    }

    /** Every texture is unbound in the same order, then the program is reset when there is a shader. */
    method Unbind(gpu: Gpu, order: seq<TextureType>)
      requires IsOrder(order, textures)
      modifies gpu`events
      ensures gpu.events == old(gpu.events) + UnbindTrace(Assign(order, textures)) +
        (if shader.Some? then [UseNoProgram] else [])
    {
      UnbindTextures(gpu, order, textures);
      if shader.Some? {
        gpu.Emit(UseNoProgram);
      }
    }
  }

  /** The program switch and the property uniforms of Material::Bind. */
  method EmitProperties(gpu: Gpu, program: ShaderId, p: Properties)
    modifies gpu`events
    ensures gpu.events == old(gpu.events) + PropertyEvents(program, p)
  {
    gpu.Emit(UseProgram(program));
    gpu.Emit(SetVec3("material.ambient", p.ambient));
    gpu.Emit(SetVec3("material.diffuse", p.diffuse));
    gpu.Emit(SetVec3("material.specular", p.specular));
    gpu.Emit(SetFloat("material.shininess", p.shininess));
  }

  /** The texture loop of Material::Bind: every type's list, units counted across types. */
  method BindTextures(gpu: Gpu, order: seq<TextureType>, textures: TextureTable)
    requires IsOrder(order, textures)
    modifies gpu`events
    ensures gpu.events == old(gpu.events) + BindTrace(Assign(order, textures))
  {
    ghost var start := gpu.events;
    var textureSlot := 0;
    var textureCount: map<TextureType, nat> := map[];
    var i := 0;
    while i < |order|
      invariant 0 <= i <= |order|
      invariant textureSlot == TextureCount(order, textures, i)
      invariant gpu.events == start + BindTrace(AssignFirst(order, textures, i))
      invariant forall u :: u in textureCount ==> u in order[..i]
    {
      textureSlot, textureCount := BindType(gpu, order, textures, i, textureSlot, textureCount, start);
      i := i + 1;
    }
  }

  /** One pass of the texture loop of Material::Bind: the list of the `i`-th type. */
  method BindType(gpu: Gpu, order: seq<TextureType>, textures: TextureTable, i: nat,
                  slot: nat, counts: map<TextureType, nat>, ghost start: seq<Event>)
    returns (nextSlot: nat, nextCounts: map<TextureType, nat>)
    requires IsOrder(order, textures) && i < |order|
    requires slot == TextureCount(order, textures, i)
    requires gpu.events == start + BindTrace(AssignFirst(order, textures, i))
    requires forall u :: u in counts ==> u in order[..i]
    modifies gpu`events
    ensures nextSlot == TextureCount(order, textures, i + 1)
    ensures gpu.events == start + BindTrace(AssignFirst(order, textures, i + 1))
    ensures forall u :: u in nextCounts ==> u in order[..i + 1]
  {
    var kind := order[i];
    var list := textures[kind];
    OrderStep(order, textures, i);
    ghost var done := AssignFirst(order, textures, i);
    ghost var block := TypeBindings(kind, list, slot);
    nextSlot, nextCounts := BindList(gpu, kind, list, slot, counts);
    TraceAppend(done, block);
    AppendAssoc(start, BindTrace(done), BindTrace(block));
  }

  /** The texture loop of Material::Unbind. */
  method UnbindTextures(gpu: Gpu, order: seq<TextureType>, textures: TextureTable)
    requires IsOrder(order, textures)
    modifies gpu`events
    ensures gpu.events == old(gpu.events) + UnbindTrace(Assign(order, textures))
  {
    ghost var start := gpu.events;
    var i := 0;
    while i < |order|
      invariant 0 <= i <= |order|
      invariant gpu.events == start + UnbindTrace(AssignFirst(order, textures, i))
    {
      UnbindType(gpu, order, textures, i, start);
      i := i + 1;
    }
  }

  /** One pass of the texture loop of Material::Unbind: the list of the `i`-th type. */
  method UnbindType(gpu: Gpu, order: seq<TextureType>, textures: TextureTable, i: nat, ghost start: seq<Event>)
    requires IsOrder(order, textures) && i < |order|
    requires gpu.events == start + UnbindTrace(AssignFirst(order, textures, i))
    modifies gpu`events
    ensures gpu.events == start + UnbindTrace(AssignFirst(order, textures, i + 1))
  {
    var kind := order[i];
    var list := textures[kind];
    ghost var done := AssignFirst(order, textures, i);
    ghost var block := TypeBindings(kind, list, TextureCount(order, textures, i));
    UnbindList(gpu, kind, list, TextureCount(order, textures, i));
    TraceAppend(done, block);
    AppendAssoc(start, UnbindTrace(done), UnbindTrace(block));
  }

  /** The type visited next has not been visited before. */
  lemma OrderStep(order: seq<TextureType>, table: TextureTable, i: nat)
    requires IsOrder(order, table) && i < |order|
    ensures order[i] !in order[..i]
    ensures forall u :: u in order[..i] + [order[i]] ==> u in order[..i + 1]
  {
    forall j | 0 <= j < i ensures order[..i][j] != order[i] { }
    assert order[..i + 1] == order[..i] + [order[i]];
  }

  /**
   * The textures of one type, bound to consecutive units from `slot`, each
   * sampler uniform indexed by the type's running count.
   */
  method BindList(gpu: Gpu, kind: TextureType, list: seq<TextureId>, slot: nat, counts: map<TextureType, nat>)
    returns (nextSlot: nat, nextCounts: map<TextureType, nat>)
    requires CountOf(counts, kind) == 0
    modifies gpu`events
    ensures gpu.events == old(gpu.events) + BindTrace(TypeBindings(kind, list, slot))
    ensures nextSlot == slot + |list|
    ensures forall u :: u in nextCounts ==> u in counts || u == kind
  {
    ghost var block := TypeBindings(kind, list, slot);
    nextSlot, nextCounts := slot, counts;
    var j := 0;
    while j < |list|
      invariant 0 <= j <= |list|
      invariant nextSlot == slot + j
      invariant CountOf(nextCounts, kind) == j
      invariant forall u :: u in nextCounts ==> u in counts || u == kind
      invariant gpu.events == old(gpu.events) + BindPrefix(block, j)
    {
      gpu.Emit(BindTexture(list[j], nextSlot));
      var uniform := MapUniform(kind);
      if uniform.Some? {
        gpu.Emit(SetInt(uniform.value + NatToString(CountOf(nextCounts, kind)), nextSlot));
      }
      assert block[j] == Binding(list[j], kind, j, nextSlot);
      nextSlot := nextSlot + 1;
      nextCounts := nextCounts[kind := CountOf(nextCounts, kind) + 1];
      j := j + 1;
    }
  }

  method UnbindList(gpu: Gpu, kind: TextureType, list: seq<TextureId>, ghost slot: nat)
    modifies gpu`events
    ensures gpu.events == old(gpu.events) + UnbindTrace(TypeBindings(kind, list, slot))
  {
    ghost var block := TypeBindings(kind, list, slot);
    var j := 0;
    while j < |list|
      invariant 0 <= j <= |list|
      invariant gpu.events == old(gpu.events) + UnbindPrefix(block, j)
    {
      gpu.Emit(UnbindTexture(list[j]));
      j := j + 1;
    }
  }
}

=== FILE: math.dfy ===
/**
 * Vector, quaternion and matrix values shared by the engine model.
 *
 * Floats are modelled as `real`. Matrices and quaternions are kept symbolic:
 * a matrix is the ordered product of its factor matrices (a free monoid, so the
 * identity and associativity laws of matrix multiplication hold by
 * construction) and a quaternion is the term that built it. Two terms that are
 * equal denote equal matrices; the converse is not modelled.
 */
module Math {

  datatype Vec2 = Vec2(x: real, y: real)
  datatype Vec3 = Vec3(x: real, y: real, z: real)
  datatype Vec4 = Vec4(x: real, y: real, z: real, w: real)

  const Zero: Vec3 := Vec3(0.0, 0.0, 0.0)
  const One: Vec3 := Vec3(1.0, 1.0, 1.0)
  const UnitX: Vec3 := Vec3(1.0, 0.0, 0.0)
  const UnitY: Vec3 := Vec3(0.0, 1.0, 0.0)
  /** The engine's forward axis, -Z. */
  const MinusZ: Vec3 := Vec3(0.0, 0.0, -1.0)

  function Add(a: Vec3, b: Vec3): Vec3 { Vec3(a.x + b.x, a.y + b.y, a.z + b.z) }
  function Sub(a: Vec3, b: Vec3): Vec3 { Vec3(a.x - b.x, a.y - b.y, a.z - b.z) }
  function Neg(a: Vec3): Vec3 { Vec3(-a.x, -a.y, -a.z) }
  function Times(a: Vec3, s: real): Vec3 { Vec3(a.x * s, a.y * s, a.z * s) }
  function Cross(a: Vec3, b: Vec3): Vec3
  {
    Vec3(a.y * b.z - a.z * b.y, a.z * b.x - a.x * b.z, a.x * b.y - a.y * b.x)
  }

  /** Component-wise product (glm's `vec3 * vec3`). */
  function Mul(a: Vec3, b: Vec3): Vec3 { Vec3(a.x * b.x, a.y * b.y, a.z * b.z) }

  function Min(a: real, b: real): real { if a < b then a else b }
  function Max(a: real, b: real): real { if a < b then b else a }

  /** glm::clamp(x, lo, hi) = min(max(x, lo), hi). */
  function Clamp(x: real, lo: real, hi: real): (r: real)
    requires lo <= hi
    ensures lo <= r <= hi
    ensures lo <= x <= hi ==> r == x
  {
    Min(Max(x, lo), hi)
  }

  /** glm::mix on scalars: a * (1 - t) + b * t. */
  function MixReal(a: real, b: real, t: real): real { a * (1.0 - t) + b * t }

  /** glm::mix on vectors, component by component. */
  function Mix(a: Vec3, b: Vec3, t: real): Vec3
  {
    Vec3(MixReal(a.x, b.x, t), MixReal(a.y, b.y, t), MixReal(a.z, b.z, t))
  }

  /** `r` lies between `a` and `b` (in either order). */
  predicate BetweenReal(a: real, b: real, r: real)
  {
    (a <= r <= b) || (b <= r <= a)
  }

  /** `p` lies in the axis-aligned box spanned by `a` and `b`, so on the segment a..b for a mix. */
  predicate BetweenVec(a: Vec3, b: Vec3, p: Vec3)
  {
    BetweenReal(a.x, b.x, p.x) && BetweenReal(a.y, b.y, p.y) && BetweenReal(a.z, b.z, p.z)
  }

  lemma NonNegProduct(a: real, b: real)
    requires a >= 0.0 && b >= 0.0
    ensures a * b >= 0.0
  {
  }

  /** A blend factor in [0, 1] keeps a scalar mix between its ends. */
  lemma MixRealBetween(a: real, b: real, t: real)
    requires 0.0 <= t <= 1.0
    ensures BetweenReal(a, b, MixReal(a, b, t))
    ensures t == 0.0 ==> MixReal(a, b, t) == a
    ensures t == 1.0 ==> MixReal(a, b, t) == b
  {
    var d := b - a;
    assert MixReal(a, b, t) == a + d * t;
    if a <= b {
      NonNegProduct(d, t);
      NonNegProduct(d, 1.0 - t);
    } else {
      NonNegProduct(-d, t);
      NonNegProduct(-d, 1.0 - t);
    }
  }

  /** A blend factor in [0, 1] keeps a vector mix on the segment between its ends. */
  lemma MixBetween(a: Vec3, b: Vec3, t: real)
    requires 0.0 <= t <= 1.0
    ensures BetweenVec(a, b, Mix(a, b, t))
  {
    MixRealBetween(a.x, b.x, t);
    MixRealBetween(a.y, b.y, t);
    MixRealBetween(a.z, b.z, t);
  }

  /** A quaternion, as the term that built it. */
  datatype Quat =
    | IdentityQuat
      /** glm::quat(radians(euler)) for Euler angles given in degrees. */
    | EulerQuat(degrees: Vec3)
      /** Hamilton product `l * r`. */
    | QuatProduct(l: Quat, r: Quat)
    | Normalized(q: Quat)
      /** glm::quatLookAt(direction, up). */
    | LookAtQuat(direction: Vec3, up: Vec3)
      /** glm::quat_cast of the basis built from forward and up vectors. */
    | BasisQuat(forward: Vec3, up: Vec3)

  /** One factor of a matrix product. */
  datatype Factor =
    | Translation(offset: Vec3)
    | Rotation(q: Quat)
    | Scaling(factors: Vec3)
      /** glm::eulerAngleYXZ(radians(y), radians(x), radians(z)) for angles in degrees. */
    | EulerYXZ(degrees: Vec3)
      /** glm::perspective(radians(fov), aspect, near, far) with the field of view in degrees. */
    | Perspective(fovDegrees: real, aspect: real, near: real, far: real)
    | Orthographic(left: real, right: real, bottom: real, top: real, near: real, far: real)
    | LookAtView(eye: Vec3, center: Vec3, up: Vec3)
      /** A matrix that was produced outside the model (e.g. read back from a decomposition). */
    | Opaque(id: nat)

  /** A 4x4 matrix as the ordered product of its factors; the empty product is the identity. */
  datatype Mat4 = Mat4(factors: seq<Factor>)

  const Identity: Mat4 := Mat4([])

  function Single(f: Factor): Mat4 { Mat4([f]) }

  /** Matrix product `a * b`. */
  function Compose(a: Mat4, b: Mat4): Mat4
  {
    Mat4(a.factors + b.factors)
  }

  /** The identity is neutral and the product associative, as for real matrices. */
  lemma ComposeLaws(a: Mat4, b: Mat4, c: Mat4)
    ensures Compose(Identity, a) == a && Compose(a, Identity) == a
    ensures Compose(Compose(a, b), c) == Compose(a, Compose(b, c))
  {
    assert a.factors + [] == a.factors;
    assert (a.factors + b.factors) + c.factors == a.factors + (b.factors + c.factors);
  }

  /** translate(I, t) * mat4_cast(q) * scale(I, s): the model matrix of a pose. */
  function Trs(position: Vec3, orientation: Quat, scale: Vec3): Mat4
  {
    Compose(Compose(Single(Translation(position)), Single(Rotation(orientation))), Single(Scaling(scale)))
  }

  /** The model matrix of a pose is exactly its three factors, so it is never the identity. */
  lemma TrsFactors(position: Vec3, orientation: Quat, scale: Vec3)
    ensures Trs(position, orientation, scale).factors == [Translation(position), Rotation(orientation), Scaling(scale)]
    ensures Trs(position, orientation, scale) != Identity
  {
    assert [Translation(position)] + [Rotation(orientation)] + [Scaling(scale)] ==
      [Translation(position), Rotation(orientation), Scaling(scale)];
  }

  /** Scale, orientation and translation recovered from a matrix by glm::decompose. */
  datatype Pose = Pose(position: Vec3, orientation: Quat, scale: Vec3)

  const IdentityPose: Pose := Pose(Zero, IdentityQuat, One)

  /** Three orthogonal axes (forward, right, up). */
  datatype Basis = Basis(forward: Vec3, right: Vec3, up: Vec3)

  /**
   * The floating-point primitives the engine takes from glm and the C library,
   * supplied as functions. `Valid` collects the only facts about them that the
   * model relies on.
   */
  datatype Numerics = Numerics(
    exp: real -> real,
    length: Vec3 -> real,
    normalize: Vec3 -> Vec3,
    /** quat * vec3 */
    rotate: (Quat, Vec3) -> Vec3,
    decompose: Mat4 -> Pose,
    /** forward, right and up axes of the Euler angles (degrees), via eulerAngleYXZ */
    eulerBasis: Vec3 -> Basis,
    /** Euler angles (degrees) of the rotation looking from eye to target with an up vector */
    lookAtAngles: (Vec3, Vec3, Vec3) -> Vec3,
    /** float division; by zero it yields an infinity or NaN, which `real` does not hold */
    divide: (real, real) -> real)
  {
    ghost predicate Valid()
    {
      (forall x: real :: x <= 0.0 ==> 0.0 < exp(x) <= 1.0) &&
      (forall v: Vec3 :: length(v) >= 0.0) &&
      decompose(Identity) == IdentityPose &&
      eulerBasis(Zero) == Basis(MinusZ, UnitX, UnitY) &&
      (forall a: real, b: real :: b != 0.0 ==> divide(a, b) == a / b)
    }
  }
}

=== FILE: model.dfy ===
/**
 * The engine's Model: an ordered list of meshes, name lookup, bounding-box
 * folds over the meshes, and loading through the loader registered for a
 * file's extension.
 */
module Models {
  import opened Math
  import opened Text
  import opened ObjFormat
  import opened Materials
  import opened LoaderFactories
  import opened Wrappers

  /** Vertex and index data handed to a Geometry (uploaded to GL in the engine). */
  datatype Geometry = Geometry(vertices: seq<Vertex>, indices: seq<nat>)

  /** FLT_MAX, the largest finite single-precision float. */
  const FloatMax: real := 340282346638528859811704183484516925440.0

  /**
   * A mesh: a named geometry with a material. Mesh.h declares no bounds
   * accessors, so the bounds the model folds over are kept as fields.
   */
  class Mesh {
    var name: string
    var geometry: Option<Geometry>
    var material: Material?
    var minBounds: Vec3
    var maxBounds: Vec3

    /** Mesh(): no geometry and no material. */
    constructor ()
      ensures name == "" && geometry == None && material == null
      ensures minBounds == Zero && maxBounds == Zero
    {
      name := "";
      geometry := None;
      material := null;
      minBounds := Zero;
      maxBounds := Zero;
    }

    /** The copy constructor. */
    constructor Copy(other: Mesh)
      ensures name == other.name && geometry == other.geometry && material == other.material
      ensures minBounds == other.minBounds && maxBounds == other.maxBounds
    {
      name := other.name;
      geometry := other.geometry;
      material := other.material;
      minBounds := other.minBounds;
      maxBounds := other.maxBounds;
    }

    method SetName(n: string)
      modifies this`name
      ensures name == n
    {
      name := n;
    }

    method SetGeometry(g: Option<Geometry>)
      modifies this`geometry
      ensures geometry == g
    {
      geometry := g;
    }

    method SetMaterial(m: Material?)
      modifies this`material
      ensures material == m
    {
      material := m;
    }
  }

  /** Component-wise minimum of the boxes' minima, starting from FLT_MAX. */
  function MinFold(ms: seq<Vec3>): (r: Vec3)
  {
    if ms == [] then Vec3(FloatMax, FloatMax, FloatMax)
    else
      var acc := MinFold(ms[..|ms| - 1]);
      var m := ms[|ms| - 1];
      Vec3(if m.x < acc.x then m.x else acc.x,
           if m.y < acc.y then m.y else acc.y,
           if m.z < acc.z then m.z else acc.z)
  }

  /** Component-wise maximum of the boxes' maxima, starting from -FLT_MAX. */
  function MaxFold(ms: seq<Vec3>): (r: Vec3)
  {
    if ms == [] then Vec3(-FloatMax, -FloatMax, -FloatMax)
    else
      var acc := MaxFold(ms[..|ms| - 1]);
      var m := ms[|ms| - 1];
      Vec3(if m.x > acc.x then m.x else acc.x,
           if m.y > acc.y then m.y else acc.y,
           if m.z > acc.z then m.z else acc.z)
  }

  /**
   * The minimum corner lies below every mesh minimum and FLT_MAX, and each of
   * its components is FLT_MAX or the component of some mesh minimum.
   */
  lemma {:induction false} MinFoldIsLowerBound(ms: seq<Vec3>)
    ensures var r := MinFold(ms);
      r.x <= FloatMax && r.y <= FloatMax && r.z <= FloatMax &&
      (forall k :: 0 <= k < |ms| ==> r.x <= ms[k].x && r.y <= ms[k].y && r.z <= ms[k].z)
    ensures var r := MinFold(ms);
      (r.x == FloatMax || exists k :: 0 <= k < |ms| && r.x == ms[k].x) &&
      (r.y == FloatMax || exists k :: 0 <= k < |ms| && r.y == ms[k].y) &&
      (r.z == FloatMax || exists k :: 0 <= k < |ms| && r.z == ms[k].z)
  {
    if ms != [] {
      var init := ms[..|ms| - 1];
      MinFoldIsLowerBound(init);
      assert forall k :: 0 <= k < |init| ==> init[k] == ms[k];
    }
  }

  /**
   * The maximum corner lies above every mesh maximum and -FLT_MAX, and each of
   * its components is -FLT_MAX or the component of some mesh maximum.
   */
  lemma {:induction false} MaxFoldIsUpperBound(ms: seq<Vec3>)
    ensures var r := MaxFold(ms);
      r.x >= -FloatMax && r.y >= -FloatMax && r.z >= -FloatMax &&
      (forall k :: 0 <= k < |ms| ==> r.x >= ms[k].x && r.y >= ms[k].y && r.z >= ms[k].z)
    ensures var r := MaxFold(ms);
      (r.x == -FloatMax || exists k :: 0 <= k < |ms| && r.x == ms[k].x) &&
      (r.y == -FloatMax || exists k :: 0 <= k < |ms| && r.y == ms[k].y) &&
      (r.z == -FloatMax || exists k :: 0 <= k < |ms| && r.z == ms[k].z)
  {
    if ms != [] {
      var init := ms[..|ms| - 1];
      MaxFoldIsUpperBound(init);
      assert forall k :: 0 <= k < |init| ==> init[k] == ms[k];
    }
  }

  /** The index of the first mesh named `name`, or |names| when there is none. */
  function FirstNamed(names: seq<string>, name: string): (i: nat)
    ensures i <= |names|
    ensures i < |names| ==> names[i] == name
    ensures forall k :: 0 <= k < i ==> names[k] != name
  {
    if names == [] then 0
    else if names[0] == name then 0
    else 1 + FirstNamed(names[1..], name)
  }

  class Model {
    var meshes: seq<Mesh>

    constructor ()
      ensures meshes == []
    {
      meshes := [];
    }

    /** The names of the meshes, in order. */
    function Names(): (ns: seq<string>)
      reads this, set m | m in meshes
      ensures |ns| == |meshes| && forall k :: 0 <= k < |meshes| ==> ns[k] == meshes[k].name
    {
      seq(|meshes|, k reads this, meshes requires 0 <= k < |meshes| => meshes[k].name)
    }

    function Minima(): (ms: seq<Vec3>)
      reads this, set m | m in meshes
      ensures |ms| == |meshes| && forall k :: 0 <= k < |meshes| ==> ms[k] == meshes[k].minBounds
    {
      seq(|meshes|, k reads this, meshes requires 0 <= k < |meshes| => meshes[k].minBounds)
    }

    function Maxima(): (ms: seq<Vec3>)
      reads this, set m | m in meshes
      ensures |ms| == |meshes| && forall k :: 0 <= k < |meshes| ==> ms[k] == meshes[k].maxBounds
    {
      seq(|meshes|, k reads this, meshes requires 0 <= k < |meshes| => meshes[k].maxBounds)
    }

    /** Appends a new mesh holding a copy of `mesh`; the earlier meshes stay. */
    method AddMesh(mesh: Mesh)
      modifies this`meshes
      ensures |meshes| == |old(meshes)| + 1 && meshes[..|old(meshes)|] == old(meshes)
      ensures fresh(meshes[|meshes| - 1]) && meshes[|meshes| - 1] != mesh
      ensures var m := meshes[|meshes| - 1];
        m.name == mesh.name && m.geometry == mesh.geometry && m.material == mesh.material &&
        m.minBounds == mesh.minBounds && m.maxBounds == mesh.maxBounds
    {
      var copy := new Mesh.Copy(mesh);
      meshes := meshes + [copy];
    }

    /** The first mesh named `name`, or null when no mesh has that name. */
    method GetMesh(name: string) returns (r: Mesh?)
      ensures r == null <==> name !in Names()
      ensures r != null ==> FirstNamed(Names(), name) < |meshes| && r == meshes[FirstNamed(Names(), name)]
    {
      var i := 0;
      while i < |meshes|
        invariant 0 <= i <= |meshes|
        invariant forall k :: 0 <= k < i ==> meshes[k].name != name
      {
        if meshes[i].name == name {
          FirstNamedAt(Names(), name, i);
          return meshes[i];
        }
        i := i + 1;
      }
      return null;
    }

    /** The component-wise minimum over the meshes' minimum bounds, FLT_MAX when there are none. */
    method GetMinBounds() returns (r: Vec3)
      ensures r == MinFold(Minima())
    {
      ghost var ms := Minima();
      r := Vec3(FloatMax, FloatMax, FloatMax);
      var i := 0;
      while i < |meshes|
        invariant 0 <= i <= |meshes|
        invariant r == MinFold(ms[..i])
      {
        var m := meshes[i].minBounds;
        assert ms[..i + 1][..i] == ms[..i] && ms[i] == m;
        if m.x < r.x { r := r.(x := m.x); }
        if m.y < r.y { r := r.(y := m.y); }
        if m.z < r.z { r := r.(z := m.z); }
        i := i + 1;
      }
      assert ms[..i] == ms;
    }

    /** The component-wise maximum over the meshes' maximum bounds, -FLT_MAX when there are none. */
    method GetMaxBounds() returns (r: Vec3)
      ensures r == MaxFold(Maxima())
    {
      ghost var ms := Maxima();
      r := Vec3(-FloatMax, -FloatMax, -FloatMax);
      var i := 0;
      while i < |meshes|
        invariant 0 <= i <= |meshes|
        invariant r == MaxFold(ms[..i])
      {
        var m := meshes[i].maxBounds;
        assert ms[..i + 1][..i] == ms[..i] && ms[i] == m;
        if m.x > r.x { r := r.(x := m.x); }
        if m.y > r.y { r := r.(y := m.y); }
        if m.z > r.z { r := r.(z := m.z); }
        i := i + 1;
      }
      assert ms[..i] == ms;
    }
  }

  /** FirstNamed finds the first matching position. */
  lemma {:induction false} FirstNamedAt(names: seq<string>, name: string, i: nat)
    requires i < |names| && names[i] == name
    requires forall k :: 0 <= k < i ==> names[k] != name
    ensures FirstNamed(names, name) == i
  {
    if i > 0 {
      FirstNamedAt(names[1..], name, i - 1);
    }
  }

  /**
   * Model::LoadFromFile: null when no loader is registered for the path's
   * extension, otherwise whatever that loader's Load returns for the path.
   * `load` stands for the Load of the loader a creator makes.
   */
  method LoadFromFile<T>(path: string, factory: LoaderFactory, load: (CreatorId, string) -> Option<T>)
    returns (r: Option<T>)
    ensures Extension(path) !in factory.registry ==> r == None
    ensures Extension(path) in factory.registry ==> r == load(factory.registry[Extension(path)], path)
  {
    var extension := Extension(path);
    var loader := factory.CreateLoader(extension);
    if loader == null {
      return None;
    }
    r := load(loader.creator, path);
  }
}

=== FILE: mtl_loader.dfy ===
/**
 * The engine's MTL loader: a line loop with a "current material" whose
 * colours are buffered until the next `newmtl` or the end of the file, whose
 * textures are attached at once, and a result that lists the materials by name.
 */
module MtlLoader {
  import opened Math
  import opened Text
  import opened Wrappers
  import opened Seqs
  import opened Materials
  import opened ObjFormat

  /** What a material object holds: its properties and its texture lists. */
  datatype Entry = Entry(properties: Properties, textures: TextureTable)

  /**
   * The loop's variables as values: the materials by name, whether a material
   * is being parsed, the last name read, and the buffered properties. The
   * current material is always the one stored under `name`.
   */
  datatype MtlState = MtlState(entries: map<string, Entry>, started: bool, name: string, pending: Properties)

  const Initial := MtlState(map[], false, "", DefaultProperties)

  predicate Valid(st: MtlState)
  {
    st.started ==> st.name in st.entries
  }

  /** Empty lines and lines whose first character is '#' are skipped. */
  predicate Skipped(line: string)
  {
    line == [] || line[0] == '#'
  }

  /** The texture type a map keyword adds; both `map_Kn` and `norm` add a normal map. */
  function TextureKind(token: string): (k: Option<TextureType>)
    ensures k == Some(Normal) <==> token == "map_Kn" || token == "norm"
  {
    if token == "map_Ka" then Some(Ambient)
    else if token == "map_Kd" then Some(Diffuse)
    else if token == "map_Ks" then Some(Specular)
    else if token == "map_Kn" || token == "norm" then Some(Normal)
    else None
  }

  /** ParseTexture: the word after the keyword, relative to the MTL file's directory. */
  function TexturePath(line: string, mtlPath: string): (p: string)
    ensures var word := Word(line, 1, "");
      (word != [] && word[0] == '/' ==> p == word) && (ParentPath(mtlPath) == [] ==> p == word)
  {
    JoinPath(ParentPath(mtlPath), Word(line, 1, ""))
  }

  /** Appends a texture to the list of its type, creating the list when absent. */
  function AddTo(table: TextureTable, t: TextureType, texture: TextureId): (r: TextureTable)
    ensures r.Keys == table.Keys + {t}
    ensures r[t] == Listed(table, t) + [texture]
    ensures forall u :: u in table && u != t ==> r[u] == table[u]
  {
    table[t := Listed(table, t) + [texture]]
  }

  /** The list of type `t`, empty when the table has none (Material::GetTextures). */
  function Listed(table: TextureTable, t: TextureType): seq<TextureId>
  {
    if t in table then table[t] else []
  }

  /** The entries with the buffered properties written into the current material. */
  function Flushed(st: MtlState): (entries: map<string, Entry>)
    requires Valid(st)
    ensures entries.Keys == st.entries.Keys
  {
    if st.started then st.entries[st.name := st.entries[st.name].(properties := st.pending)] else st.entries
  }

  /**
   * One line of the file at `mtlPath`; `load` stands for Texture::LoadFromFile,
   * None when the texture cannot be loaded.
   */
  function Step(st: MtlState, line: string, mtlPath: string, scan: Scan, load: string -> Option<TextureId>): (r: MtlState)
    requires Valid(st)
    ensures Valid(r)
  {
    var token := Kind(line);
    if Skipped(line) then st
    else if token == "newmtl" then
      var name := Word(line, 1, st.name);
      MtlState(Flushed(st)[name := Entry(DefaultProperties, map[])], true, name, DefaultProperties)
    else if !st.started then st
    else if token == "Ka" then st.(pending := st.pending.(ambient := scan.vec3(line)))
    else if token == "Kd" then st.(pending := st.pending.(diffuse := scan.vec3(line)))
    else if token == "Ks" then st.(pending := st.pending.(specular := scan.vec3(line)))
    else if token == "Ns" then st.(pending := st.pending.(shininess := scan.float(line)))
    else if TextureKind(token).Some? then
      var path := TexturePath(line, mtlPath);
      if path == [] || load(path).None? then st
      else
        var e := st.entries[st.name];
        st.(entries := st.entries[st.name := e.(textures := AddTo(e.textures, TextureKind(token).value, load(path).value))])
    else st
  }

  /** The loop over the first `n` lines. */
  function RunFirst(lines: seq<string>, n: nat, mtlPath: string, scan: Scan, load: string -> Option<TextureId>): (st: MtlState)
    requires n <= |lines|
    ensures Valid(st)
  {
    if n == 0 then Initial else Step(RunFirst(lines, n - 1, mtlPath, scan, load), lines[n - 1], mtlPath, scan, load)
  }

  /** The materials once the whole file is read: the last material gets its buffered properties. */
  function Finish(lines: seq<string>, mtlPath: string, scan: Scan, load: string -> Option<TextureId>): map<string, Entry>
  {
    Flushed(RunFirst(lines, |lines|, mtlPath, scan, load))
  }

  /** Skipped lines change nothing. */
  lemma SkippedLineIgnored(st: MtlState, line: string, mtlPath: string, scan: Scan, load: string -> Option<TextureId>)
    requires Valid(st) && Skipped(line)
    ensures Step(st, line, mtlPath, scan, load) == st
  {
  }

  /** Until a `newmtl` line has been read, no line has any effect. */
  lemma {:induction false} BeforeFirstMaterial(lines: seq<string>, n: nat, mtlPath: string, scan: Scan,
                                               load: string -> Option<TextureId>)
    requires n <= |lines|
    requires forall k :: 0 <= k < n ==> Skipped(lines[k]) || Kind(lines[k]) != "newmtl"
    ensures RunFirst(lines, n, mtlPath, scan, load) == Initial
  {
    if n > 0 {
      BeforeFirstMaterial(lines, n - 1, mtlPath, scan, load);
    }
  }

  /**
   * `newmtl`: the previous material receives its buffered properties, and a
   * new material with default properties and no textures becomes current,
   * replacing any earlier material of the same name; the other materials stay.
   */
  lemma NewMaterialLine(st: MtlState, line: string, mtlPath: string, scan: Scan, load: string -> Option<TextureId>)
    requires Valid(st) && !Skipped(line) && Kind(line) == "newmtl"
    ensures var r := Step(st, line, mtlPath, scan, load);
      r.started && r.name == Word(line, 1, st.name) && r.pending == DefaultProperties &&
      r.entries[r.name] == Entry(DefaultProperties, map[]) &&
      r.entries.Keys == st.entries.Keys + {r.name} &&
      (st.started && st.name != r.name ==> r.entries[st.name] == st.entries[st.name].(properties := st.pending)) &&
      (forall n :: n in st.entries && n != r.name && (!st.started || n != st.name) ==> r.entries[n] == st.entries[n])
  {
  }

  /** Ka, Kd, Ks and Ns only change the buffered properties, and only of the current material. */
  lemma PropertyLine(st: MtlState, line: string, mtlPath: string, scan: Scan, load: string -> Option<TextureId>)
    requires Valid(st) && st.started && !Skipped(line)
    requires Kind(line) in {"Ka", "Kd", "Ks", "Ns"}
    ensures var r := Step(st, line, mtlPath, scan, load);
      r.entries == st.entries && r.name == st.name && r.started &&
      (Kind(line) == "Ka" ==> r.pending == st.pending.(ambient := scan.vec3(line))) &&
      (Kind(line) == "Kd" ==> r.pending == st.pending.(diffuse := scan.vec3(line))) &&
      (Kind(line) == "Ks" ==> r.pending == st.pending.(specular := scan.vec3(line))) &&
      (Kind(line) == "Ns" ==> r.pending == st.pending.(shininess := scan.float(line)))
  {
  }

  /**
   * A map line appends the texture loaded from the joined path to the current
   * material's list of that type, when the path is non-empty and the texture loads.
   */
  lemma TextureLine(st: MtlState, line: string, mtlPath: string, scan: Scan, load: string -> Option<TextureId>)
    requires Valid(st) && st.started && !Skipped(line) && TextureKind(Kind(line)).Some?
    ensures var r := Step(st, line, mtlPath, scan, load);
      var path := JoinPath(ParentPath(mtlPath), Word(line, 1, ""));
      var t := TextureKind(Kind(line)).value;
      r.pending == st.pending && r.name == st.name && r.entries.Keys == st.entries.Keys &&
      (forall n :: n in st.entries && n != st.name ==> r.entries[n] == st.entries[n]) &&
      r.entries[st.name].properties == st.entries[st.name].properties &&
      (path != [] && load(path).Some? ==>
        r.entries[st.name].textures[t] == Listed(st.entries[st.name].textures, t) + [load(path).value]) &&
      (path == [] || load(path).None? ==> r == st)
  {
  }

  /** The material objects show exactly the entries: name, textures and properties per key. */
  ghost predicate Mirrors(objs: map<string, Material>, entries: map<string, Entry>)
    reads objs.Values
  {
    objs.Keys == entries.Keys &&
    forall n :: n in objs ==>
      objs[n].name == n && objs[n].textures == entries[n].textures && objs[n].properties == entries[n].properties
  }

  /** No material object is stored under two names. */
  ghost predicate Distinct(objs: map<string, Material>)
  {
    forall a, b :: a in objs && b in objs && a != b ==> objs[a] != objs[b]
  }

  /** The loop's variables agree with the value state `st`. */
  ghost predicate Tracks(objs: map<string, Material>, current: Material?, name: string, pending: Properties, st: MtlState)
    reads objs.Values
  {
    Valid(st) && Mirrors(objs, st.entries) && Distinct(objs) && name == st.name && pending == st.pending &&
    (current == null <==> !st.started) && (st.started ==> current == objs[st.name])
  }

  /** One iteration of the loop in MTLLoader::LoadMTL. */
  method ReadLine(objs: map<string, Material>, current: Material?, name: string, pending: Properties, line: string,
                  mtlPath: string, scan: Scan, load: string -> Option<TextureId>, builtIn: Option<ShaderId>,
                  ghost st: MtlState)
    returns (objs': map<string, Material>, current': Material?, name': string, pending': Properties)
    requires Tracks(objs, current, name, pending, st)
    requires forall n :: n in objs ==> objs[n].shader == builtIn
    modifies current
    ensures Tracks(objs', current', name', pending', Step(st, line, mtlPath, scan, load))
    ensures forall n :: n in objs' ==> (n in objs && objs'[n] == objs[n]) || fresh(objs'[n])
    ensures forall n :: n in objs' ==> objs'[n].shader == builtIn
  {
    objs', current', name', pending' := objs, current, name, pending;
    if line == [] || line[0] == '#' {
      return;
    }
    var token := Kind(line);
    if token == "newmtl" {
      objs', current', name', pending' := StartMaterial(objs, current, name, pending, line, builtIn, st);
      NewMaterialLine(st, line, mtlPath, scan, load);
    } else if current == null {
    } else if token == "Ka" {
      pending' := pending.(ambient := scan.vec3(line));
    } else if token == "Kd" {
      pending' := pending.(diffuse := scan.vec3(line));
    } else if token == "Ks" {
      pending' := pending.(specular := scan.vec3(line));
    } else if token == "Ns" {
      pending' := pending.(shininess := scan.float(line));
    } else if TextureKind(token).Some? {
      var path := TexturePath(line, mtlPath);
      if path != [] {
        var texture := load(path);
        if texture.Some? {
          AttachTexture(objs, current, TextureKind(token).value, texture.value, st.entries, name);
        }
      }
    }
  }

  /** The `newmtl` branch: flush the current material, then store a new one under the line's name. */
  method StartMaterial(objs: map<string, Material>, current: Material?, name: string, pending: Properties,
                       line: string, builtIn: Option<ShaderId>, ghost st: MtlState)
    returns (objs': map<string, Material>, current': Material?, name': string, pending': Properties)
    requires Tracks(objs, current, name, pending, st)
    requires forall n :: n in objs ==> objs[n].shader == builtIn
    modifies current
    ensures name' == Word(line, 1, name) && pending' == DefaultProperties && current' != null && fresh(current')
    ensures objs' == objs[name' := current']
    ensures Mirrors(objs', Flushed(st)[name' := Entry(DefaultProperties, map[])]) && Distinct(objs')
    ensures forall n :: n in objs' ==> objs'[n].shader == builtIn
  {
    if current != null {
      FlushCurrent(objs, current, pending, st);
    }
    name' := Word(line, 1, name);
    var m := new Material(builtIn);
    m.SetName(name');
    MirrorsStore(objs, Flushed(st), name', m, Entry(DefaultProperties, map[]));
    objs' := objs[name' := m];
    current', pending' := m, m.properties;
  }

  /** SetProperties on the current material with the buffered properties. */
  method FlushCurrent(objs: map<string, Material>, current: Material, pending: Properties, ghost st: MtlState)
    requires Tracks(objs, current, st.name, pending, st)
    modifies current
    ensures Mirrors(objs, Flushed(st)) && current.shader == old(current.shader)
  {
    current.SetProperties(pending);
  }

  /** Storing an object that shows entry `e` under `name` keeps the objects and entries in step. */
  lemma MirrorsStore(objs: map<string, Material>, entries: map<string, Entry>, name: string, m: Material, e: Entry)
    requires Mirrors(objs, entries) && m.name == name && m.textures == e.textures && m.properties == e.properties
    ensures Mirrors(objs[name := m], entries[name := e])
  {
  }

  /** A map line whose texture loaded: the current material's list of that type grows by it. */
  method AttachTexture(objs: map<string, Material>, current: Material, t: TextureType, texture: TextureId,
                       ghost entries: map<string, Entry>, ghost name: string)
    requires Mirrors(objs, entries) && Distinct(objs) && name in objs && current == objs[name]
    modifies current
    ensures Mirrors(objs, entries[name := entries[name].(textures := AddTo(entries[name].textures, t, texture))])
    ensures current.shader == old(current.shader)
  {
    current.AddTexture(t, texture);
  }

  /**
   * MTLLoader::LoadMTL over the file's lines (None when the file cannot be
   * opened): the materials by name, each a new object whose name is its key
   * and whose textures and properties are those the lines give it.
   */
  method LoadMTL(path: string, file: Option<seq<string>>, scan: Scan, load: string -> Option<TextureId>,
                 builtIn: Option<ShaderId>)
    returns (r: Result<map<string, Material>, string>)
    ensures file.None? ==> r == Failure("Failed to open MTL file: " + path)
    ensures file.Some? ==> r.Ok? && Mirrors(r.value, Finish(file.value, path, scan, load)) && Distinct(r.value)
    ensures r.Ok? ==> forall n :: n in r.value ==> fresh(r.value[n]) && r.value[n].shader == builtIn
  {
    if file.None? {
      return Failure("Failed to open MTL file: " + path);
    }
    var lines := file.value;
    var objs: map<string, Material> := map[];
    var current: Material? := null;
    var name := "";
    var pending := DefaultProperties;
    for i := 0 to |lines|
      invariant Tracks(objs, current, name, pending, RunFirst(lines, i, path, scan, load))
      invariant forall n :: n in objs ==> fresh(objs[n]) && objs[n].shader == builtIn
    {
      objs, current, name, pending := ReadLine(objs, current, name, pending, lines[i], path, scan, load, builtIn,
                                               RunFirst(lines, i, path, scan, load));
    }
    if current != null {
      current.SetProperties(pending);
    }
    return Ok(objs);
  }

  /**
   * MTLLoader::Load: the materials in the table's iteration order `order`,
   * nothing when the file cannot be opened or names no material.
   */
  method Load(path: string, file: Option<seq<string>>, scan: Scan, load: string -> Option<TextureId>,
              builtIn: Option<ShaderId>, order: seq<string>)
    returns (ms: seq<Material>)
    requires file.Some? ==> IsOrder(order, Finish(file.value, path, scan, load))
    ensures file.None? ==> ms == []
    ensures file.Some? ==> |ms| == |order| == |Finish(file.value, path, scan, load)|
    ensures forall i, j :: 0 <= i < j < |ms| ==> ms[i] != ms[j]
    ensures file.Some? ==> forall i :: 0 <= i < |ms| ==>
      var e := Finish(file.value, path, scan, load)[order[i]];
      fresh(ms[i]) && ms[i].name == order[i] && ms[i].textures == e.textures && ms[i].properties == e.properties
  {
    var data := LoadMTL(path, file, scan, load, builtIn);
    if data.Failure? {
      return [];
    }
    if data.value == map[] {
      OrderLength(order, data.value);
      return [];
    }
    OrderLength(order, data.value);
    ms := InOrder(data.value, order);
  }

  /** The loop that pushes the table's values in the order the table visits its keys. */
  method InOrder(table: map<string, Material>, order: seq<string>) returns (ms: seq<Material>)
    requires IsOrder(order, table)
    ensures |ms| == |order|
    ensures forall i :: 0 <= i < |ms| ==> ms[i] == table[order[i]]
    ensures Distinct(table) ==> forall i, j :: 0 <= i < j < |ms| ==> ms[i] != ms[j]
  {
    ms := [];
    for i := 0 to |order|
      invariant |ms| == i
      invariant forall k :: 0 <= k < i ==> ms[k] == table[order[k]]
    {
      ms := ms + [table[order[i]]];
    }
  }
}

=== FILE: obj_format.dfy ===
/**
 * What the engine's two Wavefront OBJ loaders share: 32-bit face indices made
 * 0-based, face-line parsing, and the vertex record of a mesh.
 */
module ObjFormat {
  import opened Math
  import opened Text

  /** uint32_t. */
  type U32 = x: int | 0 <= x < 0x1_0000_0000

  /** `v - 1` on uint32_t: 0 wraps around to 4294967295. */
  function Dec(v: U32): (r: U32)
    ensures v > 0 ==> r == v - 1
    ensures v == 0 ==> r == 0xFFFF_FFFF
  {
    (v + 0xFFFF_FFFF) % 0x1_0000_0000
  }

  /**
   * The numbers the C++ streams read from text, supplied as functions:
   * `vec3`/`vec2`/`float` read the values after the first word of a line, and
   * `indices` reads `>> v >> vt >> vn` from one face word once its '/' are
   * spaces (a value the stream cannot read is whatever the variable held).
   */
  datatype Scan = Scan(
    vec3: string -> Vec3,
    vec2: string -> Vec2,
    float: string -> real,
    indices: string -> (U32, U32, U32))

  /** The first word of a line (`iss >> type`), empty when the line has none. */
  function Kind(line: string): string
  {
    Word(line, 0, "")
  }

  /** One face corner: 0-based position, texture-coordinate and normal indices. */
  datatype Corner = Corner(position: U32, uv: U32, normal: U32)

  function CornerOf(word: string, scan: Scan): Corner
  {
    var (v, vt, vn) := scan.indices(Replace(word, '/', ' '));
    Corner(Dec(v), Dec(vt), Dec(vn))
  }

  /** The corners of a face line, one per word after the keyword, in order. */
  function FaceCorners(line: string, scan: Scan): (cs: seq<Corner>)
    ensures Words(line) == [] ==> cs == []
    ensures Words(line) != [] ==> |cs| == |Words(line)| - 1
    ensures forall k :: 0 <= k < |cs| && k + 1 < |Words(line)| ==> cs[k] == CornerOf(Words(line)[k + 1], scan)
  {
    var ws := Words(line);
    if ws == [] then [] else seq(|ws| - 1, k requires 0 <= k < |ws| - 1 => CornerOf(ws[k + 1], scan))
  }

  function PositionsOf(cs: seq<Corner>): (r: seq<U32>)
    ensures |r| == |cs| && forall k :: 0 <= k < |cs| ==> r[k] == cs[k].position
  {
    seq(|cs|, k requires 0 <= k < |cs| => cs[k].position)
  }

  function UvsOf(cs: seq<Corner>): (r: seq<U32>)
    ensures |r| == |cs| && forall k :: 0 <= k < |cs| ==> r[k] == cs[k].uv
  {
    seq(|cs|, k requires 0 <= k < |cs| => cs[k].uv)
  }

  function NormalsOf(cs: seq<Corner>): (r: seq<U32>)
    ensures |r| == |cs| && forall k :: 0 <= k < |cs| ==> r[k] == cs[k].normal
  {
    seq(|cs|, k requires 0 <= k < |cs| => cs[k].normal)
  }

  /**
   * Appends, for every word after the keyword of a face line, its position,
   * texture-coordinate and normal index (each minus one, wrapping) to the three
   * lists, which therefore grow by the same amount.
   */
  method ParseFace(line: string, scan: Scan, vertexIndices: seq<U32>, uvIndices: seq<U32>, normalIndices: seq<U32>)
    returns (vs: seq<U32>, uvs: seq<U32>, ns: seq<U32>)
    ensures vs == vertexIndices + PositionsOf(FaceCorners(line, scan))
    ensures uvs == uvIndices + UvsOf(FaceCorners(line, scan))
    ensures ns == normalIndices + NormalsOf(FaceCorners(line, scan))
    ensures |vs| - |vertexIndices| == |uvs| - |uvIndices| == |ns| - |normalIndices|
  {
    var words := Words(line);
    ghost var cs := FaceCorners(line, scan);
    vs, uvs, ns := vertexIndices, uvIndices, normalIndices;
    if words == [] {
      return;
    }
    var k := 1;
    while k < |words|
      invariant 1 <= k <= |words|
      invariant vs == vertexIndices + PositionsOf(cs[..k - 1])
      invariant uvs == uvIndices + UvsOf(cs[..k - 1])
      invariant ns == normalIndices + NormalsOf(cs[..k - 1])
    {
      var word := Replace(words[k], '/', ' ');
      var (v, vt, vn) := scan.indices(word);
      assert cs[k - 1] == Corner(Dec(v), Dec(vt), Dec(vn));
      assert cs[..k] == cs[..k - 1] + [cs[k - 1]];
      vs := vs + [Dec(v)];
      uvs := uvs + [Dec(vt)];
      ns := ns + [Dec(vn)];
      k := k + 1;
    }
    assert cs[..k - 1] == cs;
  }

  /** A mesh vertex (Geometry::Vertex in the engine, Mesh::Vertex in the game). */
  datatype Vertex = Vertex(position: Vec3, normal: Vec3, texCoords: Vec2, tangent: Vec3, bitangent: Vec3)

  const Zero2: Vec2 := Vec2(0.0, 0.0)

  /** The texture coordinate at `i`, or (0, 0) when `i` is out of range. */
  function UvAt(uvs: seq<Vec2>, i: U32): (uv: Vec2)
    ensures i < |uvs| ==> uv == uvs[i]
    ensures i >= |uvs| ==> uv == Zero2
  {
    if i < |uvs| then uvs[i] else Zero2
  }
}

=== FILE: racer_camera.dfy ===
/**
 * The racing game's own Camera, a RacerTransform with a cached view matrix
 * and a cached projection matrix. Only a rotation change marks the view
 * stale, and the projection is always rebuilt as a perspective one.
 *
 * The camera derives from the transform in the game; here it owns its
 * transform, and the overridden UpdateState is the extra `viewChanged := true`
 * of the rotation mutators.
 */
module RacerCameras {
  import opened Math
  import opened RacerTransforms

  class RacerCamera {
    const transform: RacerTransform
    var fieldOfView: real
    var aspectRatio: real
    var nearPlane: real
    var farPlane: real
    var isOrtho: bool
    var viewMatrix: Mat4
    var projectionMatrix: Mat4
    var viewChanged: bool
    var projectionChanged: bool

    /** lookAt(position, position + forward, up) over the cached axes. */
    function ViewOf(): Mat4
      reads transform`position, transform`forward, transform`up
    {
      Single(LookAtView(transform.position, Add(transform.position, transform.forward), transform.up))
    }

    /** perspective(radians(fov), aspect, near, far). */
    function PerspectiveOf(): Mat4
      reads this`fieldOfView, this`aspectRatio, this`nearPlane, this`farPlane
    {
      Single(Perspective(fieldOfView, aspectRatio, nearPlane, farPlane))
    }

    /** A clean view cache holds the view of the current pose. */
    ghost predicate ViewValid()
      reads this`viewChanged, this`viewMatrix, transform`position, transform`forward, transform`up
    {
      !viewChanged ==> viewMatrix == ViewOf()
    }

    /**
     * 45 degrees, aspect 1, planes 0.1 and 1000, identity matrices marked
     * stale. m_isOrtho is never initialised: `unsetOrtho` stands for whatever
     * it holds, and nothing in the camera reads it.
     */
    constructor (unsetOrtho: bool)
      ensures fresh(transform)
      ensures transform.position == Zero && transform.rotation == Zero && transform.scale == One
      ensures Basis(transform.forward, transform.right, transform.up) == DefaultBasis
      ensures fieldOfView == 45.0 && aspectRatio == 1.0 && nearPlane == 0.1 && farPlane == 1000.0
      ensures isOrtho == unsetOrtho
      ensures viewMatrix == Identity && projectionMatrix == Identity
      ensures viewChanged && projectionChanged
      ensures ViewValid()
    {
      transform := new RacerTransform();
      fieldOfView := 45.0;
      aspectRatio := 1.0;
      nearPlane := 0.1;
      farPlane := 1000.0;
      isOrtho := unsetOrtho;
      viewMatrix := Identity;
      projectionMatrix := Identity;
      viewChanged := true;
      projectionChanged := true;
    }

    /** Recomputes the view matrix only when viewChanged is set. */
    method GetViewMatrix() returns (m: Mat4)
      modifies this`viewMatrix, this`viewChanged
      ensures old(viewChanged) ==> m == ViewOf()
      ensures old(!viewChanged) ==> m == old(viewMatrix)
      ensures !viewChanged && viewMatrix == m
      ensures old(ViewValid()) ==> m == ViewOf()
    {
      if viewChanged {
        viewMatrix := Single(LookAtView(transform.position, Add(transform.position, transform.forward), transform.up));
        viewChanged := false;
      }
      m := viewMatrix;
    }

    /** Recomputes the projection only when projectionChanged is set, always as a perspective. */
    method GetProjectionMatrix() returns (m: Mat4)
      modifies this`projectionMatrix, this`projectionChanged
      ensures old(projectionChanged) ==> m == PerspectiveOf()
      ensures old(!projectionChanged) ==> m == old(projectionMatrix)
      ensures !projectionChanged && projectionMatrix == m
    {
      if projectionChanged {
        projectionMatrix := Single(Perspective(fieldOfView, aspectRatio, nearPlane, farPlane));
        projectionChanged := false;
      }
      m := projectionMatrix;
    }

    /** The inherited SetPosition: the view cache is not marked stale. */
    method SetPosition(p: Vec3)
      modifies transform`position, transform`transformChanged
      ensures transform.position == p && transform.transformChanged
      ensures viewChanged == old(viewChanged) && viewMatrix == old(viewMatrix)
    {
      transform.SetPosition(p);
    }

    /** The inherited Move: the view cache is not marked stale. */
    method Move(offset: Vec3)
      modifies transform`position, transform`transformChanged
      ensures transform.position == Add(old(transform.position), offset) && transform.transformChanged
      ensures viewChanged == old(viewChanged) && viewMatrix == old(viewMatrix)
    {
      transform.Move(offset);
    }

    /** SetPosition that also marks the view stale, as the engine's later camera does. */
    method SetPositionChecked(p: Vec3)
      modifies transform`position, transform`transformChanged, this`viewChanged
      ensures transform.position == p && transform.transformChanged
      ensures viewChanged && ViewValid()
    {
      transform.SetPosition(p);
      viewChanged := true;
    }

    /** Move that also marks the view stale. */
    method MoveChecked(offset: Vec3)
      modifies transform`position, transform`transformChanged, this`viewChanged
      ensures transform.position == Add(old(transform.position), offset) && transform.transformChanged
      ensures viewChanged && ViewValid()
    {
      transform.Move(offset);
      viewChanged := true;
    }

    /** The inherited SetRotation with the camera's UpdateState: axes recomputed and the view marked stale. */
    method SetRotation(degrees: Vec3, num: Numerics)
      modifies transform`rotation, transform`forward, transform`right, transform`up, transform`transformChanged, this`viewChanged
      ensures transform.rotation == degrees && transform.transformChanged
      ensures transform.BasisValid(num) && viewChanged && ViewValid()
    {
      transform.SetRotation(degrees, num);
      viewChanged := true;
    }

    /** The inherited Rotate with the camera's UpdateState. */
    method Rotate(angles: Vec3, num: Numerics)
      modifies transform`rotation, transform`forward, transform`right, transform`up, transform`transformChanged, this`viewChanged
      ensures transform.rotation == Add(old(transform.rotation), angles) && transform.transformChanged
      ensures transform.BasisValid(num) && viewChanged && ViewValid()
    {
      transform.Rotate(angles, num);
      viewChanged := true;
    }

    /**
     * Turns the camera towards `target`: the Euler angles of the look-at
     * rotation, negated, go through SetRotation, so the view is marked stale.
     */
    method LookAt(target: Vec3, up: Vec3, num: Numerics)
      modifies transform`rotation, transform`forward, transform`right, transform`up, transform`transformChanged, this`viewChanged
      ensures transform.rotation == Neg(num.lookAtAngles(transform.position, target, up))
      ensures transform.BasisValid(num) && viewChanged && ViewValid()
    {
      var angles := num.lookAtAngles(transform.position, target, up);
      SetRotation(Neg(angles), num);
    }

    method SetPerspective(fov: real, aspect: real, near: real, far: real)
      modifies this`isOrtho, this`fieldOfView, this`aspectRatio, this`nearPlane, this`farPlane, this`projectionChanged
      ensures !isOrtho && fieldOfView == fov && aspectRatio == aspect && nearPlane == near && farPlane == far
      ensures projectionChanged
    {
      isOrtho := false;
      fieldOfView := fov;
      aspectRatio := aspect;
      nearPlane := near;
      farPlane := far;
      projectionChanged := true;
    }

    /** As written: stores the orthographic matrix and then marks the projection stale. */
    method SetOrthographic(left: real, right: real, bottom: real, top: real, near: real, far: real)
      modifies this`isOrtho, this`nearPlane, this`farPlane, this`projectionMatrix, this`projectionChanged
      ensures isOrtho && nearPlane == near && farPlane == far
      ensures projectionMatrix == Single(Orthographic(left, right, bottom, top, near, far))
      ensures projectionChanged
    {
      isOrtho := true;
      nearPlane := near;
      farPlane := far;
      projectionMatrix := Single(Orthographic(left, right, bottom, top, near, far));
      projectionChanged := true;
    }

    /** The corrected SetOrthographic: the stored matrix is the current projection, so the cache stays clean. */
    method SetOrthographicChecked(left: real, right: real, bottom: real, top: real, near: real, far: real)
      modifies this`isOrtho, this`nearPlane, this`farPlane, this`projectionMatrix, this`projectionChanged
      ensures isOrtho && nearPlane == near && farPlane == far
      ensures projectionMatrix == Single(Orthographic(left, right, bottom, top, near, far))
      ensures !projectionChanged
    {
      isOrtho := true;
      nearPlane := near;
      farPlane := far;
      projectionMatrix := Single(Orthographic(left, right, bottom, top, near, far));
      projectionChanged := false;
    }

    method SetFov(fov: real)
      modifies this`fieldOfView, this`projectionChanged
      ensures fieldOfView == fov && projectionChanged
    {
      fieldOfView := fov;
      projectionChanged := true;
    }

    method SetAspectRatio(aspect: real)
      modifies this`aspectRatio, this`projectionChanged
      ensures aspectRatio == aspect && projectionChanged
    {
      aspectRatio := aspect;
      projectionChanged := true;
    }

    method GetFov() returns (fov: real)
      ensures fov == fieldOfView
    {
      fov := fieldOfView;
    }

    method GetNearPlane() returns (near: real)
      ensures near == nearPlane
    {
      near := nearPlane;
    }

    method GetFarPlane() returns (far: real)
      ensures far == farPlane
    {
      far := farPlane;
    }
  }

  /**
   * Moving a camera whose view was already queried leaves the next view query
   * returning the view of the old position.
   */
  method StaleViewAfterMove() returns (before: Mat4, after: Mat4, current: Mat4)
    ensures after == before && after != current
  {
    var camera := new RacerCamera(false);
    before := camera.GetViewMatrix();
    camera.SetPosition(Vec3(0.0, 0.0, 5.0));
    after := camera.GetViewMatrix();
    current := camera.ViewOf();
  }

  /** With the checked mutators, the next view query always sees the current position. */
  method CheckedMoveUpdatesView(camera: RacerCamera, p: Vec3) returns (m: Mat4)
    modifies camera`viewMatrix, camera`viewChanged, camera.transform`position, camera.transform`transformChanged
    ensures camera.transform.position == p
    ensures m == Single(LookAtView(p, Add(p, camera.transform.forward), camera.transform.up))
  {
    camera.SetPositionChecked(p);
    m := camera.GetViewMatrix();
  }

  /** SetOrthographic followed by a projection query yields a perspective matrix, not the orthographic one. */
  method OrthographicLost(left: real, right: real, bottom: real, top: real, near: real, far: real) returns (m: Mat4)
    ensures m == Single(Perspective(45.0, 1.0, near, far))
    ensures m != Single(Orthographic(left, right, bottom, top, near, far))
  {
    var camera := new RacerCamera(false);
    camera.SetOrthographic(left, right, bottom, top, near, far);
    m := camera.GetProjectionMatrix();
  }

  /** With the corrected setter, the next projection query returns the orthographic matrix. */
  method CheckedOrthographicSticks(camera: RacerCamera, left: real, right: real, bottom: real, top: real, near: real, far: real)
    returns (m: Mat4)
    modifies camera
    ensures m == Single(Orthographic(left, right, bottom, top, near, far))
  {
    camera.SetOrthographicChecked(left, right, bottom, top, near, far);
    m := camera.GetProjectionMatrix();
  }
}

=== FILE: racer_obj.dfy ===
/**
 * The game's Wavefront OBJ loader: a strict line reader (any first word other
 * than v, vt, vn, f or # fails the whole load), one mesh whose vertices are
 * de-duplicated on the (position, texture coordinate, normal) index triple,
 * and per-triangle tangents where the last triangle touching a vertex wins.
 */
module RacerObj {
  import opened Math
  import opened Text
  import opened Wrappers
  import opened ObjFormat
  import Models
  import LegacyMaterials
  import Materials

  /** The loop's lists: what the v, vt and vn lines read, and the three face index lists. */
  datatype Lists = Lists(
    positions: seq<Vec3>, uvs: seq<Vec2>, normals: seq<Vec3>,
    vertexIndices: seq<U32>, uvIndices: seq<U32>, normalIndices: seq<U32>)

  const NoLists := Lists([], [], [], [], [], [])

  predicate Lockstep(l: Lists)
  {
    |l.vertexIndices| == |l.uvIndices| == |l.normalIndices|
  }

  /** The first words the loader accepts. */
  predicate Known(kind: string)
  {
    kind == "v" || kind == "vt" || kind == "vn" || kind == "f" || kind == "#"
  }

  /** One line: a list grows, a lone `#` changes nothing, any other first word fails. */
  function Read(l: Lists, line: string, scan: Scan): (r: Result<Lists, string>)
    ensures r.Failure? <==> !Known(Kind(line))
    ensures r.Failure? ==> r.error == "Invalid parameter: " + Kind(line)
    ensures Lockstep(l) && r.Ok? ==> Lockstep(r.value)
  {
    var kind := Kind(line);
    if kind == "v" then Ok(l.(positions := l.positions + [scan.vec3(line)]))
    else if kind == "vt" then Ok(l.(uvs := l.uvs + [scan.vec2(line)]))
    else if kind == "vn" then Ok(l.(normals := l.normals + [scan.vec3(line)]))
    else if kind == "f" then
      var cs := FaceCorners(line, scan);
      Ok(l.(vertexIndices := l.vertexIndices + PositionsOf(cs),
            uvIndices := l.uvIndices + UvsOf(cs),
            normalIndices := l.normalIndices + NormalsOf(cs)))
    else if kind == "#" then Ok(l)
    else Failure("Invalid parameter: " + kind)
  }

  /** The first `n` lines, stopping at the first line that fails. */
  function ReadFirst(lines: seq<string>, n: nat, scan: Scan): (r: Result<Lists, string>)
    requires n <= |lines|
    ensures r.Ok? ==> Lockstep(r.value)
  {
    if n == 0 then Ok(NoLists)
    else
      var prev := ReadFirst(lines, n - 1, scan);
      if prev.Failure? then prev else Read(prev.value, lines[n - 1], scan)
  }

  /** The index of the first of the first `n` lines with an unknown first word, or `n`. */
  function FirstUnknown(lines: seq<string>, n: nat): (i: nat)
    requires n <= |lines|
    ensures i <= n
    ensures i < n ==> !Known(Kind(lines[i]))
    ensures forall k :: 0 <= k < i ==> Known(Kind(lines[k]))
  {
    if n == 0 then 0
    else if FirstUnknown(lines, n - 1) < n - 1 then FirstUnknown(lines, n - 1)
    else if Known(Kind(lines[n - 1])) then n
    else n - 1
  }

  /**
   * Reading fails exactly when some line has an unknown first word (an empty
   * line or `#comment` included), and the error names the first such word.
   */
  lemma {:induction false} ReadFailsAtFirstUnknown(lines: seq<string>, n: nat, scan: Scan)
    requires n <= |lines|
    ensures ReadFirst(lines, n, scan).Failure? <==> FirstUnknown(lines, n) < n
    ensures ReadFirst(lines, n, scan).Failure? ==>
      ReadFirst(lines, n, scan).error == "Invalid parameter: " + Kind(lines[FirstUnknown(lines, n)])
  {
    if n > 0 {
      ReadFailsAtFirstUnknown(lines, n - 1, scan);
    }
  }

  /** A file with an empty line never loads. */
  lemma EmptyLineFails(lines: seq<string>, k: nat, scan: Scan)
    requires k < |lines| && lines[k] == ""
    ensures ReadFirst(lines, |lines|, scan) == Failure("Invalid parameter: " + Kind(lines[FirstUnknown(lines, |lines|)]))
    ensures FirstUnknown(lines, |lines|) <= k
  {
    assert Words("") == [];
    ReadFailsAtFirstUnknown(lines, |lines|, scan);
  }

  /** Every face entry names a loaded position (the loader does not check it). */
  predicate InRange(l: Lists)
  {
    forall k :: 0 <= k < |l.vertexIndices| ==> l.vertexIndices[k] < |l.positions|
  }

  /** The index triple of face entry `k`. */
  function CornerAt(l: Lists, k: nat): Corner
    requires Lockstep(l) && k < |l.vertexIndices|
  {
    Corner(l.vertexIndices[k], l.uvIndices[k], l.normalIndices[k])
  }

  /** The normal at `i`, or (0, 1, 0) when `i` is out of range. */
  function NormalAt(normals: seq<Vec3>, i: U32): (n: Vec3)
    ensures i < |normals| ==> n == normals[i]
    ensures i >= |normals| ==> n == UnitY
  {
    if i < |normals| then normals[i] else UnitY
  }

  /** The vertex a face entry with index triple `c` stands for, before tangents. */
  function CornerVertex(l: Lists, c: Corner): Vertex
    requires c.position < |l.positions|
  {
    Vertex(l.positions[c.position], NormalAt(l.normals, c.normal), UvAt(l.uvs, c.uv), Zero, Zero)
  }

  /** The de-duplication state: the map from index triple to vertex index, the vertices, the index buffer. */
  datatype Dedup = Dedup(keys: map<Corner, nat>, vertices: seq<Vertex>, indices: seq<nat>)

  /** De-duplication after the first `n` face entries. */
  function DedupFirst(l: Lists, n: nat): (d: Dedup)
    requires Lockstep(l) && InRange(l) && n <= |l.vertexIndices|
    ensures |d.indices| == n
    ensures forall k :: 0 <= k < n ==> d.indices[k] < |d.vertices|
    ensures forall c :: c in d.keys ==> d.keys[c] < |d.vertices|
  {
    if n == 0 then Dedup(map[], [], [])
    else
      var d := DedupFirst(l, n - 1);
      var c := CornerAt(l, n - 1);
      if c in d.keys then d.(indices := d.indices + [d.keys[c]])
      else d.(keys := d.keys[c := |d.vertices|], vertices := d.vertices + [CornerVertex(l, c)],
              indices := d.indices + [|d.vertices|])
  }

  /** Each key's vertex is the vertex of that triple. */
  ghost predicate KeysHold(l: Lists, d: Dedup)
  {
    forall c :: c in d.keys ==>
      c.position < |l.positions| && d.keys[c] < |d.vertices| && d.vertices[d.keys[c]] == CornerVertex(l, c)
  }

  /** Different triples are stored under different vertex indices. */
  ghost predicate KeysInjective(d: Dedup)
  {
    forall c1, c2 :: c1 in d.keys && c2 in d.keys && d.keys[c1] == d.keys[c2] ==> c1 == c2
  }

  /** Each face entry's index is the one stored under its triple. */
  ghost predicate IndicesKeyed(l: Lists, n: nat, d: Dedup)
    requires Lockstep(l) && n <= |l.vertexIndices| && |d.indices| == n
  {
    forall k :: 0 <= k < n ==> CornerAt(l, k) in d.keys && d.indices[k] == d.keys[CornerAt(l, k)]
  }

  lemma {:induction false} DedupKeysHold(l: Lists, n: nat)
    requires Lockstep(l) && InRange(l) && n <= |l.vertexIndices|
    ensures KeysHold(l, DedupFirst(l, n))
  {
    if n > 0 {
      DedupKeysHold(l, n - 1);
      var d, r := DedupFirst(l, n - 1), DedupFirst(l, n);
      var c := CornerAt(l, n - 1);
      if c !in d.keys {
        forall c' | c' in r.keys
          ensures c'.position < |l.positions| && r.keys[c'] < |r.vertices| && r.vertices[r.keys[c']] == CornerVertex(l, c')
        {
          if c' != c {
            assert r.vertices[r.keys[c']] == d.vertices[d.keys[c']];
          }
        }
      }
    }
  }

  lemma {:induction false} DedupKeysInjective(l: Lists, n: nat)
    requires Lockstep(l) && InRange(l) && n <= |l.vertexIndices|
    ensures KeysInjective(DedupFirst(l, n))
  {
    if n > 0 {
      DedupKeysInjective(l, n - 1);
    }
  }

  lemma {:induction false} DedupIndicesKeyed(l: Lists, n: nat)
    requires Lockstep(l) && InRange(l) && n <= |l.vertexIndices|
    ensures IndicesKeyed(l, n, DedupFirst(l, n))
  {
    if n > 0 {
      DedupIndicesKeyed(l, n - 1);
      var d, r := DedupFirst(l, n - 1), DedupFirst(l, n);
      forall k | 0 <= k < n ensures CornerAt(l, k) in r.keys && r.indices[k] == r.keys[CornerAt(l, k)]
      {
        if k < n - 1 {
          assert r.indices[k] == d.indices[k];
        }
      }
    }
  }

  /** Each face entry's vertex carries that entry's own position, texture coordinate and normal. */
  ghost predicate Draws(l: Lists, n: nat, d: Dedup)
    requires Lockstep(l) && InRange(l) && n <= |l.vertexIndices|
  {
    |d.indices| == n &&
    forall k :: 0 <= k < n ==>
      d.indices[k] < |d.vertices| && d.vertices[d.indices[k]] == CornerVertex(l, CornerAt(l, k))
  }

  /** Two face entries share a vertex exactly when their index triples are equal. */
  ghost predicate SharedExactly(l: Lists, n: nat, d: Dedup)
    requires Lockstep(l) && n <= |l.vertexIndices| && |d.indices| == n
  {
    forall j, k :: 0 <= j < n && 0 <= k < n ==> (d.indices[j] == d.indices[k] <==> CornerAt(l, j) == CornerAt(l, k))
  }

  /** Every vertex is the vertex of some face entry. */
  ghost predicate AllUsed(d: Dedup)
  {
    forall i :: 0 <= i < |d.vertices| ==> i in d.indices
  }

  /** De-duplication on the index triple: entries keep their data, equal triples share, all vertices are used. */
  lemma DedupByTriple(l: Lists, n: nat)
    requires Lockstep(l) && InRange(l) && n <= |l.vertexIndices|
    ensures Draws(l, n, DedupFirst(l, n))
    ensures SharedExactly(l, n, DedupFirst(l, n))
    ensures AllUsed(DedupFirst(l, n))
  {
    DedupKeysHold(l, n);
    DedupKeysInjective(l, n);
    DedupIndicesKeyed(l, n);
    DedupAllUsed(l, n);
  }

  lemma {:induction false} DedupAllUsed(l: Lists, n: nat)
    requires Lockstep(l) && InRange(l) && n <= |l.vertexIndices|
    ensures AllUsed(DedupFirst(l, n))
  {
    if n > 0 {
      DedupAllUsed(l, n - 1);
      var d, r := DedupFirst(l, n - 1), DedupFirst(l, n);
      assert r.indices == d.indices + [r.indices[n - 1]];
      forall i | 0 <= i < |r.vertices| ensures i in r.indices
      {
        if i < |d.vertices| {
          assert i in d.indices;
        }
      }
    }
  }

  /**
   * The tangent and bitangent computed for a triangle from its corners'
   * positions and texture coordinates (the floating-point formula is not modelled).
   */
  type Frame = (Vec3, Vec3, Vec3, Vec2, Vec2, Vec2) -> (Vec3, Vec3)

  /** Every index names a vertex. */
  predicate Indexes(vs: seq<Vertex>, idx: seq<nat>)
  {
    forall k :: 0 <= k < |idx| ==> idx[k] < |vs|
  }

  /** The frame of triangle `t`, from the vertices as they stand. */
  function TriangleFrame(vs: seq<Vertex>, idx: seq<nat>, t: nat, frame: Frame): (Vec3, Vec3)
    requires Indexes(vs, idx) && 3 * t + 2 < |idx|
  {
    var v0, v1, v2 := vs[idx[3 * t]], vs[idx[3 * t + 1]], vs[idx[3 * t + 2]];
    frame(v0.position, v1.position, v2.position, v0.texCoords, v1.texCoords, v2.texCoords)
  }

  function WithFrame(v: Vertex, f: (Vec3, Vec3)): Vertex
  {
    v.(tangent := f.0, bitangent := f.1)
  }

  /** Equal but for the tangent and bitangent. */
  predicate SameSurface(a: Vertex, b: Vertex)
  {
    a.position == b.position && a.normal == b.normal && a.texCoords == b.texCoords
  }

  /** The vertices after the first `t` triangles have written their frame to their three corners. */
  function TangentsFirst(vs: seq<Vertex>, idx: seq<nat>, t: nat, frame: Frame): (r: seq<Vertex>)
    requires Indexes(vs, idx) && 3 * t <= |idx|
    ensures |r| == |vs|
  {
    if t == 0 then vs
    else
      var prev := TangentsFirst(vs, idx, t - 1, frame);
      WriteTriangle(prev, idx, t - 1, TriangleFrame(prev, idx, t - 1, frame))
  }

  /** `v0.tangent = v1.tangent = v2.tangent = tangent`, and the same for the bitangent. */
  function WriteTriangle(vs: seq<Vertex>, idx: seq<nat>, t: nat, f: (Vec3, Vec3)): (r: seq<Vertex>)
    requires Indexes(vs, idx) && 3 * t + 2 < |idx|
    ensures |r| == |vs|
  {
    var i := 3 * t;
    vs[idx[i] := WithFrame(vs[idx[i]], f)]
      [idx[i + 1] := WithFrame(vs[idx[i + 1]], f)]
      [idx[i + 2] := WithFrame(vs[idx[i + 2]], f)]
  }

  /** A triangle's write gives each of its corners the frame and leaves every other vertex alone. */
  lemma WriteTriangleAt(vs: seq<Vertex>, idx: seq<nat>, t: nat, f: (Vec3, Vec3), j: nat)
    requires Indexes(vs, idx) && 3 * t + 2 < |idx| && j < |vs|
    ensures WriteTriangle(vs, idx, t, f)[j] == if InTriangle(idx, j, t) then WithFrame(vs[j], f) else vs[j]
  {
  }

  predicate InTriangle(idx: seq<nat>, j: nat, t: nat)
    requires 3 * t + 2 < |idx|
  {
    idx[3 * t] == j || idx[3 * t + 1] == j || idx[3 * t + 2] == j
  }

  /** The last of the first `t` triangles that has vertex `j` as a corner, or -1. */
  function LastUse(idx: seq<nat>, j: nat, t: nat): (u: int)
    requires 3 * t <= |idx|
    ensures -1 <= u < t
    ensures u >= 0 ==> InTriangle(idx, j, u)
    ensures forall s :: u < s < t ==> !InTriangle(idx, j, s)
  {
    if t == 0 then -1
    else if InTriangle(idx, j, t - 1) then t - 1
    else LastUse(idx, j, t - 1)
  }

  /** Writing tangents never changes a position, normal or texture coordinate. */
  lemma {:induction false} TangentsKeepSurface(vs: seq<Vertex>, idx: seq<nat>, t: nat, frame: Frame)
    requires Indexes(vs, idx) && 3 * t <= |idx|
    ensures forall j :: 0 <= j < |vs| ==> SameSurface(TangentsFirst(vs, idx, t, frame)[j], vs[j])
  {
    if t > 0 {
      TangentsKeepSurface(vs, idx, t - 1, frame);
      var prev := TangentsFirst(vs, idx, t - 1, frame);
      forall j | 0 <= j < |vs| ensures SameSurface(TangentsFirst(vs, idx, t, frame)[j], vs[j])
      {
        WriteTriangleAt(prev, idx, t - 1, TriangleFrame(prev, idx, t - 1, frame), j);
      }
    }
  }

  /** Tangents only depend on positions and texture coordinates, which they never change. */
  lemma TriangleFrameSurface(vs: seq<Vertex>, ws: seq<Vertex>, idx: seq<nat>, t: nat, frame: Frame)
    requires |vs| == |ws| && forall j :: 0 <= j < |vs| ==> SameSurface(ws[j], vs[j])
    requires Indexes(vs, idx) && 3 * t + 2 < |idx|
    ensures TriangleFrame(ws, idx, t, frame) == TriangleFrame(vs, idx, t, frame)
  {
    var a, b, c := idx[3 * t], idx[3 * t + 1], idx[3 * t + 2];
    assert SameSurface(ws[a], vs[a]) && SameSurface(ws[b], vs[b]) && SameSurface(ws[c], vs[c]);
  }

  /**
   * A vertex ends with the frame of the last triangle it is a corner of, and
   * is untouched when no triangle uses it.
   */
  lemma {:induction false} LastTriangleWins(vs: seq<Vertex>, idx: seq<nat>, t: nat, frame: Frame, j: nat)
    requires Indexes(vs, idx) && 3 * t <= |idx| && j < |vs|
    ensures var u := LastUse(idx, j, t);
      TangentsFirst(vs, idx, t, frame)[j] ==
        if u < 0 then vs[j] else WithFrame(vs[j], TriangleFrame(vs, idx, u, frame))
  {
    if t > 0 {
      LastTriangleWins(vs, idx, t - 1, frame, j);
      var prev := TangentsFirst(vs, idx, t - 1, frame);
      var f := TriangleFrame(prev, idx, t - 1, frame);
      TangentsKeepSurface(vs, idx, t - 1, frame);
      TriangleFrameSurface(vs, prev, idx, t - 1, frame);
      assert TangentsFirst(vs, idx, t, frame) == WriteTriangle(prev, idx, t - 1, f);
      WriteTriangleAt(prev, idx, t - 1, f, j);
      if InTriangle(idx, j, t - 1) {
        assert LastUse(idx, j, t) == t - 1;
        assert WithFrame(prev[j], f) == WithFrame(vs[j], f);
      } else {
        assert LastUse(idx, j, t) == LastUse(idx, j, t - 1);
      }
    }
  }

  /** When the index count is a multiple of 3, every used vertex gets a frame from some triangle. */
  lemma UsedVertexFramed(idx: seq<nat>, j: nat, k: nat)
    requires |idx| % 3 == 0 && k < |idx| && idx[k] == j
    ensures LastUse(idx, j, |idx| / 3) >= k / 3
  {
    assert InTriangle(idx, j, k / 3);
  }

  /**
   * CalculateTangents: for each triangle, in order, writes its tangent and
   * bitangent into its three corners.
   */
  method CalculateTangents(vertices: seq<Vertex>, indices: seq<nat>, frame: Frame) returns (r: seq<Vertex>)
    requires Indexes(vertices, indices) && |indices| % 3 == 0
    ensures r == TangentsFirst(vertices, indices, |indices| / 3, frame)
  {
    r := vertices;
    for t := 0 to |indices| / 3
      invariant |r| == |vertices|
      invariant r == TangentsFirst(vertices, indices, t, frame)
    {
      r := FrameTriangle(r, indices, t, frame);
    }
  }

  /** One iteration of CalculateTangents: triangle `t`'s frame, written to its corners. */
  method FrameTriangle(vertices: seq<Vertex>, indices: seq<nat>, t: nat, frame: Frame) returns (r: seq<Vertex>)
    requires Indexes(vertices, indices) && 3 * t + 2 < |indices|
    ensures r == WriteTriangle(vertices, indices, t, TriangleFrame(vertices, indices, t, frame))
  {
    var i := 3 * t;
    var v0, v1, v2 := vertices[indices[i]], vertices[indices[i + 1]], vertices[indices[i + 2]];
    var f := frame(v0.position, v1.position, v2.position, v0.texCoords, v1.texCoords, v2.texCoords);
    r := vertices[indices[i] := WithFrame(vertices[indices[i]], f)];
    r := r[indices[i + 1] := WithFrame(vertices[indices[i + 1]], f)];
    r := r[indices[i + 2] := WithFrame(vertices[indices[i + 2]], f)];
  }

  /** The vertices and indices LoadOBJ hands back. */
  datatype ObjData = ObjData(vertices: seq<Vertex>, indices: seq<nat>)

  /** What the loader needs of a file it has read: lockstep lists, positions in range, whole triangles. */
  predicate Loadable(l: Lists)
  {
    Lockstep(l) && InRange(l) && |l.vertexIndices| % 3 == 0
  }

  /** The data built from read lists: de-duplicated vertices with their tangents, and the index buffer. */
  function Build(l: Lists, frame: Frame): (data: ObjData)
    requires Loadable(l)
    ensures |data.indices| == |l.vertexIndices| && Indexes(data.vertices, data.indices)
  {
    var d := DedupFirst(l, |l.vertexIndices|);
    ObjData(TangentsFirst(d.vertices, d.indices, |d.indices| / 3, frame), d.indices)
  }

  /**
   * Every loaded vertex is a corner of some triangle, so each one ends with the
   * frame of the last triangle that uses it: none keeps its initial tangent.
   */
  lemma BuiltVertexFramed(l: Lists, frame: Frame, j: nat)
    requires Loadable(l) && j < |DedupFirst(l, |l.vertexIndices|).vertices|
    ensures var d := DedupFirst(l, |l.vertexIndices|);
      var u := LastUse(d.indices, j, |d.indices| / 3);
      u >= 0 && Build(l, frame).vertices[j] == WithFrame(d.vertices[j], TriangleFrame(d.vertices, d.indices, u, frame))
  {
    var d := DedupFirst(l, |l.vertexIndices|);
    DedupAllUsed(l, |l.vertexIndices|);
    assert j in d.indices;
    var k :| 0 <= k < |d.indices| && d.indices[k] == j;
    UsedVertexFramed(d.indices, j, k);
    LastTriangleWins(d.vertices, d.indices, |d.indices| / 3, frame, j);
  }

  /**
   * The dedup loop: one index per face entry, a new vertex for each triple
   * not seen before.
   */
  method Deduplicate(l: Lists) returns (vertices: seq<Vertex>, indices: seq<nat>)
    requires Lockstep(l) && InRange(l)
    ensures vertices == DedupFirst(l, |l.vertexIndices|).vertices
    ensures indices == DedupFirst(l, |l.vertexIndices|).indices
  {
    var uniqueVertices: map<Corner, nat> := map[];
    vertices, indices := [], [];
    for i := 0 to |l.vertexIndices|
      invariant Dedup(uniqueVertices, vertices, indices) == DedupFirst(l, i)
    {
      var posIndex, uvIndex, normalIndex := l.vertexIndices[i], l.uvIndices[i], l.normalIndices[i];
      var vertex := Vertex(l.positions[posIndex], NormalAt(l.normals, normalIndex), UvAt(l.uvs, uvIndex), Zero, Zero);
      var key := Corner(posIndex, uvIndex, normalIndex);
      if key !in uniqueVertices {
        uniqueVertices := uniqueVertices[key := |vertices|];
        vertices := vertices + [vertex];
      }
      indices := indices + [uniqueVertices[key]];
    }
  }

  /** The line loop: the lists the file's lines build, or the first unknown word's error. */
  method ReadLines(lines: seq<string>, scan: Scan) returns (r: Result<Lists, string>)
    ensures r == ReadFirst(lines, |lines|, scan)
  {
    var l := NoLists;
    for i := 0 to |lines|
      invariant ReadFirst(lines, i, scan) == Ok(l)
    {
      var next := ReadLine(l, lines[i], scan);
      if next.Failure? {
        ReadAfterFailure(lines, i + 1, scan);
        return next;
      }
      l := next.value;
    }
    return Ok(l);
  }

  /** One iteration of the line loop. */
  method ReadLine(l: Lists, line: string, scan: Scan) returns (r: Result<Lists, string>)
    ensures r == Read(l, line, scan)
  {
    var kind := Kind(line);
    if kind == "v" {
      r := Ok(l.(positions := l.positions + [scan.vec3(line)]));
    } else if kind == "vt" {
      r := Ok(l.(uvs := l.uvs + [scan.vec2(line)]));
    } else if kind == "vn" {
      r := Ok(l.(normals := l.normals + [scan.vec3(line)]));
    } else if kind == "f" {
      var vs, uvs, ns := ParseFace(line, scan, l.vertexIndices, l.uvIndices, l.normalIndices);
      r := Ok(l.(vertexIndices := vs, uvIndices := uvs, normalIndices := ns));
    } else if kind != "#" {
      r := Failure("Invalid parameter: " + kind);
    } else {
      r := Ok(l);
    }
  }

  /** Once a line has failed, the rest of the file does not matter. */
  lemma {:induction false} ReadAfterFailure(lines: seq<string>, n: nat, scan: Scan)
    requires 0 < n <= |lines| && ReadFirst(lines, n, scan).Failure?
    ensures ReadFirst(lines, |lines|, scan) == ReadFirst(lines, n, scan)
    decreases |lines| - n
  {
    if n < |lines| {
      ReadAfterFailure(lines, n + 1, scan);
    }
  }

  /**
   * LoadOBJ: the open error, the first unknown word's error, or the
   * de-duplicated vertices with tangents and the index buffer.
   */
  method LoadOBJ(path: string, file: Option<seq<string>>, scan: Scan, frame: Frame) returns (r: Result<ObjData, string>)
    requires file.Some? && ReadFirst(file.value, |file.value|, scan).Ok? ==>
      Loadable(ReadFirst(file.value, |file.value|, scan).value)
    ensures file.None? ==> r == Failure("Failed to open file: " + path)
    ensures file.Some? && ReadFirst(file.value, |file.value|, scan).Failure? ==>
      r == Failure(ReadFirst(file.value, |file.value|, scan).error)
    ensures file.Some? && ReadFirst(file.value, |file.value|, scan).Ok? ==>
      r == Ok(Build(ReadFirst(file.value, |file.value|, scan).value, frame))
  {
    if file.None? {
      return Failure("Failed to open file: " + path);
    }
    var read := ReadLines(file.value, scan);
    if read.Failure? {
      return Failure(read.error);
    }
    var l := read.value;
    var vertices, indices := Deduplicate(l);
    vertices := CalculateTangents(vertices, indices, frame);
    return Ok(ObjData(vertices, indices));
  }

  /** A mesh and the material it is drawn with. */
  datatype MeshComponent = MeshComponent(mesh: Models.Geometry, material: LegacyMaterials.Material?)

  /** The game's Model: a list of mesh components. */
  class Model {
    var meshes: seq<MeshComponent>

    constructor ()
      ensures meshes == []
    {
      meshes := [];
    }

    method AddMeshComponent(c: MeshComponent)
      modifies this`meshes
      ensures meshes == old(meshes) + [c]
    {
      meshes := meshes + [c];
    }
  }

  /**
   * OBJLoader::Load: null when LoadOBJ fails, otherwise a new model with one
   * component, the loaded data with a new default material.
   */
  method Load(path: string, file: Option<seq<string>>, scan: Scan, frame: Frame) returns (m: Model?)
    requires file.Some? && ReadFirst(file.value, |file.value|, scan).Ok? ==>
      Loadable(ReadFirst(file.value, |file.value|, scan).value)
    ensures m == null <==> file.None? || ReadFirst(file.value, |file.value|, scan).Failure?
    ensures m != null ==> fresh(m) && |m.meshes| == 1
    ensures m != null ==>
      var data := Build(ReadFirst(file.value, |file.value|, scan).value, frame);
      m.meshes[0].mesh == Models.Geometry(data.vertices, data.indices)
    ensures m != null ==>
      var material := m.meshes[0].material;
      material != null && fresh(material) &&
      material.shader == None && material.textures == map[] && material.properties == Materials.DefaultProperties
  {
    var model := new Model();
    var objData := LoadOBJ(path, file, scan, frame);
    if objData.Failure? {
      return null;
    }
    var material := new LegacyMaterials.Material();
    var component := MeshComponent(Models.Geometry(objData.value.vertices, objData.value.indices), material);
    model.AddMeshComponent(component);
    return model;
  }
}

=== FILE: racer_transform.dfy ===
/**
 * The racing game's own Transform: a pose kept as position, Euler angles in
 * degrees and scale, with the forward/right/up axes cached whenever the
 * rotation changes and the model matrix cached behind a dirty flag.
 */
module RacerTransforms {
  import opened Math

  /** The axes of the zero rotation: forward -Z, right +X, up +Y. */
  const DefaultBasis: Basis := Basis(MinusZ, UnitX, UnitY)

  class RacerTransform {
    var position: Vec3
    /** Euler angles in degrees (pitch about X, yaw about Y, roll about Z). */
    var rotation: Vec3
    var scale: Vec3
    var forward: Vec3
    var right: Vec3
    var up: Vec3
    var modelMatrix: Mat4
    var transformChanged: bool

    /** translate(position) * eulerAngleYXZ(rotation) * scale(scale). */
    function ModelOf(): Mat4
      reads this`position, this`rotation, this`scale
    {
      Compose(Compose(Single(Translation(position)), Single(EulerYXZ(rotation))), Single(Scaling(scale)))
    }

    /** The cached axes belong to the stored rotation. */
    ghost predicate BasisValid(num: Numerics)
      reads this`rotation, this`forward, this`right, this`up
    {
      Basis(forward, right, up) == num.eulerBasis(rotation)
    }

    /** A clean model-matrix cache holds the matrix of the current pose. */
    ghost predicate ModelValid()
      reads this`position, this`rotation, this`scale, this`modelMatrix, this`transformChanged
    {
      !transformChanged ==> modelMatrix == ModelOf()
    }

    /** Position 0, rotation 0, scale 1, the default axes, an identity matrix marked stale. */
    constructor ()
      ensures position == Zero && rotation == Zero && scale == One
      ensures Basis(forward, right, up) == DefaultBasis
      ensures modelMatrix == Identity && transformChanged
      ensures forall num: Numerics :: num.Valid() ==> BasisValid(num)
      ensures ModelValid()
    {
      position, rotation, scale := Zero, Zero, One;
      forward, right, up := MinusZ, UnitX, UnitY;
      modelMatrix := Identity;
      transformChanged := true;
    }

    method SetPosition(p: Vec3)
      modifies this`position, this`transformChanged
      ensures position == p && transformChanged
      ensures ModelValid()
    {
      position := p;
      transformChanged := true;
    }

    method Move(offset: Vec3)
      modifies this`position, this`transformChanged
      ensures position == Add(old(position), offset) && transformChanged
      ensures ModelValid()
    {
      position := Add(position, offset);
      transformChanged := true;
    }

    method GetPosition() returns (p: Vec3)
      ensures p == position
    {
      p := position;
    }

    /** Recomputes the cached axes from the Euler angles. */
    method UpdateState(num: Numerics)
      modifies this`forward, this`right, this`up
      ensures BasisValid(num)
    {
      var b := num.eulerBasis(rotation);
      forward, right, up := b.forward, b.right, b.up;
    }

    /** Replaces the Euler angles and recomputes the axes. */
    method SetRotation(degrees: Vec3, num: Numerics)
      modifies this`rotation, this`forward, this`right, this`up, this`transformChanged
      ensures rotation == degrees && transformChanged
      ensures ModelValid()
      ensures BasisValid(num)
    {
      rotation := degrees;
      UpdateState(num);
      transformChanged := true;
    }

    /** Adds to the Euler angles and recomputes the axes. */
    method Rotate(angles: Vec3, num: Numerics)
      modifies this`rotation, this`forward, this`right, this`up, this`transformChanged
      ensures rotation == Add(old(rotation), angles) && transformChanged
      ensures ModelValid()
      ensures BasisValid(num)
    {
      rotation := Add(rotation, angles);
      UpdateState(num);
      transformChanged := true;
    }

    method GetRotation() returns (r: Vec3)
      ensures r == rotation
    {
      r := rotation;
    }

    method SetScale(s: Vec3)
      modifies this`scale, this`transformChanged
      ensures scale == s && transformChanged
      ensures ModelValid()
    {
      scale := s;
      transformChanged := true;
    }

    /** Multiplies the scale component by component. */
    method Scale(factor: Vec3)
      modifies this`scale, this`transformChanged
      ensures scale == Mul(old(scale), factor) && transformChanged
      ensures ModelValid()
    {
      scale := Mul(scale, factor);
      transformChanged := true;
    }

    method GetScale() returns (s: Vec3)
      ensures s == scale
    {
      s := scale;
    }

    /** Recomputes the model matrix only when the pose changed since the last query. */
    method GetModelMatrix() returns (m: Mat4)
      requires ModelValid()
      modifies this`modelMatrix, this`transformChanged
      ensures m == ModelOf()
      ensures old(!transformChanged) ==> m == old(modelMatrix)
      ensures !transformChanged && modelMatrix == m
    {
      if transformChanged {
        var translation := Single(Translation(position));
        var rot := Single(EulerYXZ(rotation));
        var scaling := Single(Scaling(scale));
        modelMatrix := Compose(Compose(translation, rot), scaling);
        transformChanged := false;
      }
      m := modelMatrix;
    }

    /** The cached forward axis, which is the forward axis of the stored rotation. */
    method GetForward(num: Numerics) returns (f: Vec3)
      requires BasisValid(num)
      ensures f == forward && f == num.eulerBasis(rotation).forward
    {
      f := forward;
    }

    method GetRight(num: Numerics) returns (r: Vec3)
      requires BasisValid(num)
      ensures r == right && r == num.eulerBasis(rotation).right
    {
      r := right;
    }

    method GetUp(num: Numerics) returns (u: Vec3)
      requires BasisValid(num)
      ensures u == up && u == num.eulerBasis(rotation).up
    {
      u := up;
    }
  }
}

=== FILE: racing_camera.dfy ===
/**
 * The chase camera of the racing game: it follows a target (the car) from
 * behind and above, eases towards its ideal position, looks slightly ahead of
 * the car and widens the field of view with speed.
 */
module RacingCameras {
  import opened Math
  import opened Cameras

  /** The controller's tuning, one field per member of RacingSettings. */
  datatype Settings = Settings(
    followDistance: real,
    heightOffset: real,
    followStiffness: real,
    velocityMultiplier: real,
    maxExtraDistance: real,
    minFOV: real,
    maxFOV: real,
    lookAheadFactor: real)

  /** The member initialisers of RacingSettings. */
  const DefaultSettings: Settings := Settings(3.5, 2.0, 5.0, 0.05, 0.5, 60.0, 70.0, 0.5)

  /** The speed at which the field of view reaches its maximum. */
  const FastSpeed: real := 30.0

  /** Settings under which the speed-dependent terms behave: non-negative gains, ordered FOV range. */
  predicate Sane(s: Settings)
  {
    s.velocityMultiplier >= 0.0 && s.maxExtraDistance >= 0.0 && s.minFOV <= s.maxFOV
  }

  /** The extra distance the camera keeps at a speed: speed * velocityMultiplier, capped at maxExtraDistance. */
  function ExtraDistance(speed: real, s: Settings): (d: real)
    ensures d <= s.maxExtraDistance && d <= speed * s.velocityMultiplier
    ensures d == s.maxExtraDistance || d == speed * s.velocityMultiplier
  {
    Min(speed * s.velocityMultiplier, s.maxExtraDistance)
  }

  /** The ideal camera position: behind the target by the follow distance plus the extra distance, and heightOffset along its up axis. */
  function IdealPosition(target: Vec3, forward: Vec3, up: Vec3, speed: real, s: Settings): Vec3
  {
    var total := s.followDistance + ExtraDistance(speed, s);
    Add(Add(target, Times(Neg(forward), total)), Times(up, s.heightOffset))
  }

  /** The point the camera looks at: ahead of the target in proportion to its speed. */
  function LookAtPoint(target: Vec3, forward: Vec3, speed: real, s: Settings): Vec3
  {
    Add(target, Times(forward, speed * s.lookAheadFactor))
  }

  /** The field of view at a speed: minFOV at rest, maxFOV from FastSpeed on, linear in between. */
  function TargetFov(speed: real, s: Settings): real
  {
    MixReal(s.minFOV, s.maxFOV, Clamp(speed / FastSpeed, 0.0, 1.0))
  }

  /** The position blend factor for a frame, 1 - exp(-followStiffness * dt). */
  function Blend(num: Numerics, s: Settings, dt: real): real
  {
    1.0 - num.exp(-s.followStiffness * dt)
  }

  /**
   * The camera's distance behind the target lies between followDistance and
   * followDistance + maxExtraDistance, grows with speed, and the offset from
   * the target is exactly that distance backwards plus heightOffset upwards.
   */
  lemma IdealDistanceBounds(target: Vec3, forward: Vec3, up: Vec3, speed: real, faster: real, s: Settings)
    requires Sane(s) && 0.0 <= speed <= faster
    ensures 0.0 <= ExtraDistance(speed, s) <= s.maxExtraDistance
    ensures ExtraDistance(speed, s) <= ExtraDistance(faster, s)
    ensures Sub(IdealPosition(target, forward, up, speed, s), target) ==
      Add(Times(forward, -(s.followDistance + ExtraDistance(speed, s))), Times(up, s.heightOffset))
  {
    NonNegProduct(speed, s.velocityMultiplier);
    assert speed * s.velocityMultiplier <= faster * s.velocityMultiplier by {
      NonNegProduct(faster - speed, s.velocityMultiplier);
    }
  }

  /** The field of view stays within [minFOV, maxFOV], starts at minFOV and saturates at maxFOV. */
  lemma FovRange(speed: real, s: Settings)
    requires s.minFOV <= s.maxFOV
    ensures s.minFOV <= TargetFov(speed, s) <= s.maxFOV
    ensures speed <= 0.0 ==> TargetFov(speed, s) == s.minFOV
    ensures speed >= FastSpeed ==> TargetFov(speed, s) == s.maxFOV
  {
    var t := Clamp(speed / FastSpeed, 0.0, 1.0);
    MixRealBetween(s.minFOV, s.maxFOV, t);
  }

  /** With a non-negative stiffness * dt the blend factor lies in [0, 1): the camera never overshoots. */
  lemma BlendInUnitInterval(num: Numerics, s: Settings, dt: real)
    requires num.Valid() && s.followStiffness * dt >= 0.0
    ensures 0.0 <= Blend(num, s, dt) < 1.0
  {
    assert -s.followStiffness * dt == -(s.followStiffness * dt);
  }

  /** The camera calls at the end of Update: SetPosition, LookAt with the default up axis, SetFov. */
  method Aim(camera: Camera, position: Vec3, lookAt: Vec3, fov: real, num: Numerics)
    modifies camera.transform`position, camera.transform`orientation, camera.transform`transformChanged
    modifies camera`viewChanged, camera`fieldOfView, camera`projectionChanged
    ensures camera.transform.position == position
    ensures camera.transform.orientation == LookAtQuat(num.normalize(Sub(lookAt, position)), UnitY)
    ensures camera.fieldOfView == fov
    ensures forall n: Numerics :: old(camera.Valid(n)) ==> camera.Valid(n)
  {
    camera.SetPosition(position);
    camera.LookAt(lookAt, UnitY, num);
    camera.SetFov(fov);
  }

  class RacingCameraController {
    const camera: Camera
    var settings: Settings
    var targetPosition: Vec3
    var targetForward: Vec3
    var targetUp: Vec3
    var targetVelocity: Vec3
    var currentPosition: Vec3
    var idealPosition: Vec3
    var firstUpdate: bool

    /** The member initialisers: a target at the origin facing -Z with +Y up, at rest; nothing seeded yet. */
    constructor (camera: Camera, settings: Settings)
      ensures this.camera == camera && this.settings == settings
      ensures targetPosition == Zero && targetForward == MinusZ && targetUp == UnitY && targetVelocity == Zero
      ensures currentPosition == Zero && idealPosition == Zero && firstUpdate
    {
      this.camera := camera;
      this.settings := settings;
      targetPosition, targetForward, targetUp, targetVelocity := Zero, MinusZ, UnitY, Zero;
      currentPosition, idealPosition := Zero, Zero;
      firstUpdate := true;
    }

    /** UpdateIdealCameraPosition: the ideal position for the stored target. */
    method UpdateIdealCameraPosition(num: Numerics)
      modifies this`idealPosition
      ensures idealPosition == IdealPosition(targetPosition, targetForward, targetUp, num.length(targetVelocity), settings)
    {
      var speed := num.length(targetVelocity);
      var extraDistance := Min(speed * settings.velocityMultiplier, settings.maxExtraDistance);
      var totalDistance := settings.followDistance + extraDistance;
      var backwardOffset := Times(Neg(targetForward), totalDistance);
      var upOffset := Times(targetUp, settings.heightOffset);
      idealPosition := Add(Add(targetPosition, backwardOffset), upOffset);
    }

    /**
     * Stores the target with normalised axes; the first call also places the
     * camera at the ideal position, later calls leave it where it is.
     */
    method SetTarget(position: Vec3, forward: Vec3, up: Vec3, velocity: Vec3, num: Numerics)
      modifies this
      ensures targetPosition == position && targetVelocity == velocity
      ensures targetForward == num.normalize(forward) && targetUp == num.normalize(up)
      ensures settings == old(settings) && !firstUpdate
      ensures old(firstUpdate) ==>
        idealPosition == IdealPosition(position, num.normalize(forward), num.normalize(up), num.length(velocity), settings) &&
        currentPosition == idealPosition
      ensures !old(firstUpdate) ==> currentPosition == old(currentPosition) && idealPosition == old(idealPosition)
    {
      targetPosition := position;
      targetForward := num.normalize(forward);
      targetUp := num.normalize(up);
      targetVelocity := velocity;
      if firstUpdate {
        UpdateIdealCameraPosition(num);
        currentPosition := idealPosition;
        firstUpdate := false;
      }
    }

    /** Replaces the tuning. */
    method SetRacingSettings(s: Settings)
      modifies this`settings
      ensures settings == s
    {
      settings := s;
    }

    /** The position blend of Update: a step from the current towards the ideal position. */
    method Ease(dt: real, num: Numerics)
      modifies this`currentPosition
      ensures currentPosition == Mix(old(currentPosition), idealPosition, Blend(num, settings, dt))
      ensures num.Valid() && settings.followStiffness * dt >= 0.0 ==>
        BetweenVec(old(currentPosition), idealPosition, currentPosition)
    {
      var t := Blend(num, settings, dt);
      if num.Valid() && settings.followStiffness * dt >= 0.0 {
        BlendInUnitInterval(num, settings, dt);
        MixBetween(currentPosition, idealPosition, t);
      }
      currentPosition := Mix(currentPosition, idealPosition, t);
    }

    /**
     * One frame: the ideal position is recomputed, the camera eases towards it
     * (staying on the segment from where it was when the stiffness is
     * non-negative), is placed there looking at the look-ahead point, and its
     * field of view follows the target's speed.
     */
    method Update(dt: real, num: Numerics)
      modifies this`idealPosition, this`currentPosition
      modifies camera.transform`position, camera.transform`orientation, camera.transform`transformChanged
      modifies camera`viewChanged, camera`fieldOfView, camera`projectionChanged
      ensures var speed := num.length(targetVelocity);
        idealPosition == IdealPosition(targetPosition, targetForward, targetUp, speed, settings) &&
        currentPosition == Mix(old(currentPosition), idealPosition, Blend(num, settings, dt)) &&
        camera.transform.position == currentPosition &&
        camera.transform.orientation ==
          LookAtQuat(num.normalize(Sub(LookAtPoint(targetPosition, targetForward, speed, settings), currentPosition)), UnitY) &&
        camera.fieldOfView == TargetFov(speed, settings)
      ensures num.Valid() && settings.followStiffness * dt >= 0.0 ==>
        BetweenVec(old(currentPosition), idealPosition, currentPosition)
      ensures forall n: Numerics :: old(camera.Valid(n)) ==> camera.Valid(n)
    {
      UpdateIdealCameraPosition(num);
      Ease(dt, num);

      var speed := num.length(targetVelocity);
      var lookAtPosition := LookAtPoint(targetPosition, targetForward, speed, settings);
      var fov := TargetFov(speed, settings);
      Aim(camera, currentPosition, lookAtPosition, fov, num);
      assert speed == num.length(targetVelocity);
    }
  }
}

=== FILE: resource_manager.dfy ===
/**
 * The engine's ResourceManager: resources filed by their C++ type and then by
 * name. The type a template member is instantiated with becomes an explicit
 * `TypeId` argument, and each thrown exception becomes a `Failure`.
 */
module Resources {
  import opened Wrappers

  /** The std::type_index of a resource type, identified by the type's name. */
  type TypeId = string

  /** A named engine resource (textures, meshes, materials, shaders, ...). */
  class Resource {
    var name: string

    constructor ()
      ensures name == ""
    {
      name := "";
    }

    method SetName(n: string)
      modifies this`name
      ensures name == n
    {
      name := n;
    }
  }

  /** The exceptions the manager throws. */
  datatype ResourceError =
    | AlreadyExists(name: string)
    | NoResourcesOfType(t: TypeId)
    | NotFound(name: string)

  /** Type -> (name -> resource); a stored pointer may be null. */
  type Store = map<TypeId, map<string, Resource?>>

  ghost predicate Stored(store: Store, t: TypeId, name: string)
  {
    t in store && name in store[t]
  }

  /** The name map of `t`, created empty when absent (operator[] on the outer map). */
  function NamesOf(store: Store, t: TypeId): map<string, Resource?>
  {
    if t in store then store[t] else map[]
  }

  /** The store after `resource` is filed under (t, name). */
  function Inserted(store: Store, t: TypeId, name: string, resource: Resource?): (s: Store)
    ensures Stored(s, t, name) && s[t][name] == resource
  {
    store[t := NamesOf(store, t)[name := resource]]
  }

  /** The store after (t, name) is erased; other types keep their maps. */
  function Erased(store: Store, t: TypeId, name: string): (s: Store)
    ensures !Stored(s, t, name)
  {
    if t in store then store[t := store[t] - {name}] else store
  }

  /** What Load<T>(name) returns or throws on `store`. */
  function Lookup(store: Store, t: TypeId, name: string): (r: Result<Resource?, ResourceError>)
    ensures r.Ok? <==> Stored(store, t, name)
    ensures r.Ok? ==> r.value == store[t][name]
    ensures t !in store ==> r == Failure(NoResourcesOfType(t))
    ensures t in store && name !in store[t] ==> r == Failure(NotFound(name))
  {
    if t !in store then Failure(NoResourcesOfType(t))
    else if name !in store[t] then Failure(NotFound(name))
    else Ok(store[t][name])
  }

  class ResourceManager {
    var resources: Store

    constructor ()
      ensures resources == map[]
    {
      resources := map[];
    }

    /**
     * Files `resource` under (t, name), or fails when that name is taken for
     * `t`. Looking the type up creates its empty name map first, which is only
     * observable when the insertion follows.
     */
    method Add(t: TypeId, name: string, resource: Resource?) returns (r: Result<(), ResourceError>)
      modifies this`resources
      ensures old(Stored(resources, t, name)) ==> r == Failure(AlreadyExists(name)) && resources == old(resources)
      ensures !old(Stored(resources, t, name)) ==> r.Ok? && resources == Inserted(old(resources), t, name, resource)
    {
      var names := NamesOf(resources, t);
      resources := resources[t := names];
      if name in names {
        r := Failure(AlreadyExists(name));
        return;
      }
      resources := resources[t := names[name := resource]];
      r := Ok(());
    }

    /** Makes a new resource, names it and adds it; a taken name fails as in Add. */
    method Create(t: TypeId, name: string) returns (r: Result<Resource, ResourceError>)
      modifies this`resources
      ensures old(Stored(resources, t, name)) ==> r == Failure(AlreadyExists(name)) && resources == old(resources)
      ensures !old(Stored(resources, t, name)) ==>
        r.Ok? && fresh(r.value) && r.value.name == name && resources == Inserted(old(resources), t, name, r.value)
    {
      var resource := new Resource();
      resource.SetName(name);
      var added := Add(t, name, resource);
      if added.Failure? {
        return Failure(added.error);
      }
      r := Ok(resource);
    }

    method Load(t: TypeId, name: string) returns (r: Result<Resource?, ResourceError>)
      ensures r == Lookup(resources, t, name)
    {
      if t !in resources {
        return Failure(NoResourcesOfType(t));
      }
      var names := resources[t];
      if name !in names {
        return Failure(NotFound(name));
      }
      r := Ok(names[name]);
    }

    /** Load with every failure turned into null. */
    method TryLoad(t: TypeId, name: string) returns (r: Resource?)
      ensures Lookup(resources, t, name).Ok? ==> r == Lookup(resources, t, name).value
      ensures Lookup(resources, t, name).Failure? ==> r == null
    {
      var loaded := Load(t, name);
      r := if loaded.Ok? then loaded.value else null;
    }

    method Exists(t: TypeId, name: string) returns (b: bool)
      ensures b <==> Stored(resources, t, name)
      ensures b <==> Lookup(resources, t, name).Ok?
    {
      if t !in resources {
        return false;
      }
      b := name in resources[t];
    }

    /** Erases (t, name); true exactly when something was erased. */
    method Remove(t: TypeId, name: string) returns (b: bool)
      modifies this`resources
      ensures b <==> old(Stored(resources, t, name))
      ensures resources == Erased(old(resources), t, name)
    {
      if t in resources {
        b := name in resources[t];
        resources := resources[t := resources[t] - {name}];
        return;
      }
      b := false;
    }

    method ClearType(t: TypeId)
      modifies this`resources
      ensures resources == old(resources) - {t}
    {
      resources := resources - {t};
    }

    method ClearAll()
      modifies this`resources
      ensures resources == map[]
    {
      resources := map[];
    }
  }

  /**
   * Adding under (t, name) makes that entry load and leaves every other entry
   * loading exactly as before, whether it was present or not.
   */
  lemma AddedLoads(store: Store, t: TypeId, name: string, resource: Resource?, t2: TypeId, name2: string)
    ensures Lookup(Inserted(store, t, name, resource), t, name) == Ok(resource)
    ensures (t2, name2) != (t, name) ==>
      Lookup(Inserted(store, t, name, resource), t2, name2).Ok? == Lookup(store, t2, name2).Ok? &&
      (Lookup(store, t2, name2).Ok? ==> Lookup(Inserted(store, t, name, resource), t2, name2) == Lookup(store, t2, name2))
    ensures t2 != t ==> Lookup(Inserted(store, t, name, resource), t2, name2) == Lookup(store, t2, name2)
  {
    var s := Inserted(store, t, name, resource);
    if t2 == t && name2 != name {
      assert s[t] == NamesOf(store, t)[name := resource];
      assert name2 in s[t] <==> name2 in NamesOf(store, t);
    }
  }

  /** One name filed under two different types keeps both resources apart. */
  lemma SameNameDifferentTypes(store: Store, t1: TypeId, t2: TypeId, name: string, a: Resource?, b: Resource?)
    requires t1 != t2
    ensures Lookup(Inserted(Inserted(store, t1, name, a), t2, name, b), t1, name) == Ok(a)
    ensures Lookup(Inserted(Inserted(store, t1, name, a), t2, name, b), t2, name) == Ok(b)
    ensures Stored(Inserted(store, t1, name, a), t2, name) == Stored(store, t2, name)
  {
    AddedLoads(Inserted(store, t1, name, a), t2, name, b, t1, name);
    AddedLoads(store, t1, name, a, t2, name);
  }

  /** After Remove the entry no longer loads; other types load as before. */
  lemma RemovedLoads(store: Store, t: TypeId, name: string, t2: TypeId, name2: string)
    ensures Lookup(Erased(store, t, name), t, name).Failure?
    ensures t2 != t ==> Lookup(Erased(store, t, name), t2, name2) == Lookup(store, t2, name2)
    ensures name2 != name ==> Lookup(Erased(store, t, name), t2, name2) == Lookup(store, t2, name2)
  {
    if t in store && name2 != name && t2 == t {
      assert name2 in store[t] - {name} <==> name2 in store[t];
    }
  }

  /** After ClearType every Load of that type fails for want of a map; ClearAll fails every Load. */
  lemma ClearedLoads(store: Store, t: TypeId, name: string, t2: TypeId)
    ensures Lookup(store - {t}, t, name) == Failure(NoResourcesOfType(t))
    ensures t2 != t ==> Lookup(store - {t}, t2, name) == Lookup(store, t2, name)
    ensures Lookup(map[], t2, name) == Failure(NoResourcesOfType(t2))
  {
  }
}

=== FILE: scene.dfy ===
/**
 * The engine's Scene: a scene graph under a root node without an object, and
 * an optional camera whose view and projection are uploaded before the graph
 * is drawn.
 */
module Scenes {
  import opened Math
  import opened Transforms
  import opened Gl
  import opened Cameras
  import opened SceneGraph
  import opened Seqs

  /** Uploads the scene uniform block: the camera's view matrix, then its projection matrix. */
  method UploadCamera(camera: Camera, gpu: Gpu, num: Numerics,
                      ghost nodes: set<SceneNode>, ghost objs: set<Transform>, ghost g: Snapshot)
    requires camera.Valid(num) && Describes(g, nodes, objs) && AllValid(objs)
    modifies gpu`events, camera`viewMatrix, camera`viewChanged, camera`projectionMatrix, camera`projectionChanged
    ensures gpu.events == old(gpu.events) + [CameraBlock(old(camera.ViewOf(num)), old(camera.ProjectionOf()))]
    ensures camera.Valid(num) && Describes(g, nodes, objs) && AllValid(objs)
  {
    var view := camera.GetViewMatrix(num);
    var projection := camera.GetProjectionMatrix();
    gpu.Emit(CameraBlock(view, projection));
  }

  class Scene {
    const root: SceneNode
    var camera: Camera?
    /** The nodes created through this scene, the root among them. */
    ghost var nodes: set<SceneNode>
    /** The objects those nodes hold. */
    ghost var objs: set<Transform>

    ghost predicate Valid()
      reads this, nodes`children, nodes`parent
    {
      root in nodes && root.obj == null && root.parent == null && Linked(nodes) && Owns(nodes, objs)
    }

    /** A new scene: a root node without object, parent or children, and no camera. */
    constructor ()
      ensures fresh(root) && root.obj == null && root.children == []
      ensures camera == null && nodes == {root} && objs == {}
      ensures Valid()
    {
      root := new SceneNode(null);
      camera := null;
      nodes := {root};
      objs := {};
    }

    method SetCamera(c: Camera?)
      modifies this`camera
      ensures camera == c
    {
      camera := c;
    }

    /** The camera last given to SetCamera, or none. */
    method GetCamera() returns (c: Camera?)
      ensures c == camera
    {
      c := camera;
    }

    method GetRoot() returns (r: SceneNode)
      requires Valid()
      ensures r == root && r.obj == null && r.parent == null
    {
      r := root;
    }

    /** The camera, if any, as a set. */
    function CameraSet(): set<Camera>
      reads this`camera
    {
      if camera == null then {} else {camera}
    }

    /** The node a new object is attached to: the given parent, or the root. */
    function AttachPoint(parent: SceneNode?): SceneNode
    {
      if parent == null then root else parent
    }

    /**
     * Wraps `obj` in a fresh node and appends it to the children of `parent`,
     * or of the root when no parent is given.
     */
    method AddObject(obj: Transform?, parent: SceneNode?) returns (node: SceneNode)
      requires Valid() && (parent == null || parent in nodes)
      modifies this`nodes, this`objs, AttachPoint(parent)`children
      ensures fresh(node) && node.obj == obj && node.children == []
      ensures parent == null ==> node.parent == root && root.children == old(root.children) + [node]
      ensures parent != null ==> node.parent == parent && parent.children == old(parent.children) + [node]
      ensures nodes == old(nodes) + {node}
      ensures objs == if obj == null then old(objs) else old(objs) + {obj}
      ensures Valid()
    {
      node := new SceneNode(obj);
      LinkedAddDetached(nodes, node);
      nodes := nodes + {node};
      objs := if obj == null then objs else objs + {obj};
      var target := AttachPoint(parent);
      target.AddChild(node, nodes);
    }

    /**
     * Without a camera, draws nothing. Otherwise uploads the camera's view and
     * projection matrices, in that order, and then draws the graph from the
     * root.
     */
    method Draw(gpu: Gpu, num: Numerics, ghost h: nat)
      requires Valid() && AllValid(objs)
      requires camera != null ==> camera.Valid(num) && Bounded(Snap(nodes, objs), root, h)
      modifies gpu`events, CameraSet()`viewMatrix, CameraSet()`viewChanged, CameraSet()`projectionMatrix, CameraSet()`projectionChanged
      modifies objs`modelMatrix, objs`transformChanged
      modifies objs`worldMatrix, objs`worldPosition, objs`worldOrientation, objs`worldScale
      ensures camera == null ==> gpu.events == old(gpu.events)
      ensures camera != null ==>
        gpu.events == old(gpu.events) + [CameraBlock(old(camera.ViewOf(num)), old(camera.ProjectionOf()))] +
          old(DrawTrace(Snap(nodes, objs), root, h, 0))
      ensures Valid() && AllValid(objs)
    {
      if camera == null {
        return;
      }
      ghost var g := Snap(nodes, objs);
      SnapshotLinked(nodes);
      ghost var before := gpu.events;
      UploadCamera(camera, gpu, num, nodes, objs, g);
      ghost var block := gpu.events[|before|..];
      root.Draw(nodes, objs, g, h, 0, gpu, num);
      AppendAssoc(before, block, DrawTrace(g, root, h, 0));
      LinkedFromDescribes(g, nodes, objs);
    }
  }
}

=== FILE: scene_graph.dfy ===
/**
 * The scene graph: nodes that own an optional scene object, a list of child
 * nodes and a back pointer to their parent.
 *
 * The set `nodes` passed to the members is a ghost universe that is closed
 * under both links (`Linked`). The engine performs no cycle check when a
 * child is added, so acyclicity is not an invariant: the members that walk the
 * graph (world matrices, drawing) take it as a precondition instead, in the
 * form of a bound on the length of the parent chain (`WorldDefined`) and on
 * the height of the subtree (`Bounded`).
 */
module SceneGraph {
  import opened Math
  import opened Transforms
  import opened Gl
  import opened Seqs

  class SceneNode {
    var parent: SceneNode?
    const obj: Transform?
    var children: seq<SceneNode>

    constructor (obj: Transform?)
      ensures this.obj == obj && parent == null && children == []
    {
      this.obj := obj;
      parent := null;
      children := [];
    }

    /**
     * Erases the first occurrence of `child` from the children and clears its
     * parent link; does nothing when `child` is not a child.
     */
    method RemoveChild(child: SceneNode, ghost nodes: set<SceneNode>)
      requires Linked(nodes) && this in nodes
      modifies this`children, child`parent
      ensures child in old(children) ==> children == RemoveFirst(old(children), child) && child.parent == null
      ensures child !in old(children) ==> children == old(children) && child.parent == old(child.parent)
      ensures child !in children
      ensures Linked(nodes)
    {
      var i := IndexOf(children, child);
      if i >= 0 {
        var rest := children[..i] + children[i + 1..];
        ghost var ch, par := ChildrenOf(nodes), ParentOf(nodes);
        UnlinkPlan(nodes, this, child, i, rest);
        child.parent := null;
        children := rest;
        LinkedFromSnapshot(nodes, ch, par, this, child);
      }
    }

    /**
     * Makes `child` the last child of this node, first detaching it from its
     * previous parent. Re-adding a child moves it to the end of the list.
     */
    method AddChild(child: SceneNode, ghost nodes: set<SceneNode>)
      requires Linked(nodes) && this in nodes && child in nodes
      modifies this`children, child`parent, (if child.parent == null then {} else {child.parent})`children
      ensures child.parent == this
      ensures children == RemoveFirst(old(children), child) + [child]
      ensures old(child.parent) != null && old(child.parent) != this ==>
        old(child.parent).children == RemoveFirst(old(child.parent.children), child)
      ensures old(child.parent) != null && old(child.parent) != child ==>
        old(child.parent).parent == old(child.parent.parent)
      ensures multiset(children)[child] == 1
      ensures Linked(nodes)
    {
      if child.parent != null {
        child.parent.RemoveChild(child, nodes);
      }
      Attach(child, nodes);
    }

    /** The tail of AddChild: a detached node becomes the last child. */
    method Attach(child: SceneNode, ghost nodes: set<SceneNode>)
      requires Linked(nodes) && this in nodes && child in nodes && child.parent == null
      modifies this`children, child`parent
      ensures child.parent == this && children == old(children) + [child]
      ensures multiset(children)[child] == 1
      ensures Linked(nodes)
    {
      ghost var ch, par := ChildrenOf(nodes), ParentOf(nodes);
      SnapshotLinked(nodes);
      LinkKeepsLinked(nodes, ch, par, this, child);
      child.parent := this;
      children := children + [child];
      LinkedFromSnapshot(nodes, ch, par, this, child);
    }

    /**
     * The world matrix of this node. As in the engine, it asks each object on
     * the parent chain for its model matrix, which refreshes that object's
     * cache.
     */
    method GetWorldMatrix(ghost nodes: set<SceneNode>, ghost objs: set<Transform>, ghost g: Snapshot, ghost fuel: nat)
      returns (m: Mat4)
      requires Describes(g, nodes, objs) && WorldDefined(g, this, fuel)
      requires Owns(nodes, objs) && AllValid(objs)
      modifies objs`modelMatrix, objs`transformChanged
      ensures m == World(g, this, fuel)
      ensures AllValid(objs) && Describes(g, nodes, objs)
      decreases fuel
    {
      if parent != null && obj != null {
        var parentWorld := parent.GetWorldMatrix(nodes, objs, g, fuel - 1);
        assert obj in objs;
        var local := obj.GetModelMatrix();
        assert local == g.local[obj];
        m := Compose(parentWorld, local);
      } else {
        m := Identity;
      }
    }

    /** The first step of Draw: pushes the world matrix into the object and draws it. */
    method DrawOwnObject(ghost nodes: set<SceneNode>, ghost objs: set<Transform>, ghost g: Snapshot, ghost d: nat,
                         gpu: Gpu, num: Numerics)
      requires obj != null && Describes(g, nodes, objs) && WorldDefined(g, this, d)
      requires Owns(nodes, objs) && AllValid(objs)
      modifies gpu`events, objs`modelMatrix, objs`transformChanged
      modifies objs`worldMatrix, objs`worldPosition, objs`worldOrientation, objs`worldScale
      ensures gpu.events == old(gpu.events) + [DrawObject(obj, World(g, this, d))]
      ensures obj.worldMatrix == World(g, this, d)
      ensures AllValid(objs) && Describes(g, nodes, objs)
    {
      var w := GetWorldMatrix(nodes, objs, g, d);
      SetObjectWorld(obj, w, nodes, objs, g, num);
      gpu.Emit(DrawObject(obj, obj.worldMatrix));
    }

    /**
     * Sets the object's world matrix and draws it, then draws the children in
     * list order: a pre-order traversal of the subtree.
     */
    method Draw(ghost nodes: set<SceneNode>, ghost objs: set<Transform>, ghost g: Snapshot, ghost h: nat, ghost d: nat,
                gpu: Gpu, num: Numerics)
      requires Describes(g, nodes, objs) && PointsBack(g) && Bounded(g, this, h) && WorldDefined(g, this, d)
      requires Owns(nodes, objs) && AllValid(objs)
      modifies gpu`events, objs`modelMatrix, objs`transformChanged
      modifies objs`worldMatrix, objs`worldPosition, objs`worldOrientation, objs`worldScale
      ensures gpu.events == old(gpu.events) + DrawTrace(g, this, h, d)
      ensures AllValid(objs) && Describes(g, nodes, objs)
      decreases h, 1
    {
      ghost var before := gpu.events;
      if obj != null {
        DrawOwnObject(nodes, objs, g, d, gpu, num);
      }
      ghost var own := if obj != null then [DrawObject(obj, World(g, this, d))] else [];
      assert gpu.events == before + own;
      DrawChildren(nodes, objs, g, h, d, gpu, num);
      AppendAssoc(before, own, DrawFirst(g, children, |children|, h - 1, d + 1));
    }

    /** The second step of Draw: each child's subtree in list order. */
    method DrawChildren(ghost nodes: set<SceneNode>, ghost objs: set<Transform>, ghost g: Snapshot, ghost h: nat, ghost d: nat,
                        gpu: Gpu, num: Numerics)
      requires Describes(g, nodes, objs) && PointsBack(g) && Bounded(g, this, h) && WorldDefined(g, this, d)
      requires Owns(nodes, objs) && AllValid(objs)
      modifies gpu`events, objs`modelMatrix, objs`transformChanged
      modifies objs`worldMatrix, objs`worldPosition, objs`worldOrientation, objs`worldScale
      ensures gpu.events == old(gpu.events) + DrawFirst(g, children, |children|, h - 1, d + 1)
      ensures AllValid(objs) && Describes(g, nodes, objs)
      decreases h, 0, 1
    {
      ghost var own := gpu.events;
      var i := 0;
      while i < |children|
        invariant 0 <= i <= |children|
        invariant gpu.events == own + DrawFirst(g, children, i, h - 1, d + 1)
        invariant AllValid(objs) && Describes(g, nodes, objs)
      {
        DrawChild(nodes, objs, g, h, d, i, gpu, num, own);
        i := i + 1;
      }
    }

    /** One iteration of DrawChildren: the subtree of the `i`-th child. */
    method DrawChild(ghost nodes: set<SceneNode>, ghost objs: set<Transform>, ghost g: Snapshot, ghost h: nat, ghost d: nat,
                     i: nat, gpu: Gpu, num: Numerics, ghost own: seq<Event>)
      requires Describes(g, nodes, objs) && PointsBack(g) && Bounded(g, this, h) && WorldDefined(g, this, d)
      requires Owns(nodes, objs) && AllValid(objs) && i < |children|
      requires gpu.events == own + DrawFirst(g, children, i, h - 1, d + 1)
      modifies gpu`events, objs`modelMatrix, objs`transformChanged
      modifies objs`worldMatrix, objs`worldPosition, objs`worldOrientation, objs`worldScale
      ensures gpu.events == own + DrawFirst(g, children, i + 1, h - 1, d + 1)
      ensures AllValid(objs) && Describes(g, nodes, objs)
      decreases h, 0, 0
    {
      ChildDrawable(g, this, h, d, i);
      children[i].Draw(nodes, objs, g, h - 1, d + 1, gpu, num);
      AppendAssoc(own, DrawFirst(g, children, i, h - 1, d + 1), DrawTrace(g, children[i], h - 1, d + 1));
    }
  }

  /** Pushes a world matrix into one object; the links and the model-matrix caches are untouched. */
  method SetObjectWorld(o: Transform, w: Mat4, ghost nodes: set<SceneNode>, ghost objs: set<Transform>, ghost g: Snapshot,
                        num: Numerics)
    requires AllValid(objs) && Describes(g, nodes, objs)
    modifies o`worldMatrix, o`worldPosition, o`worldOrientation, o`worldScale
    ensures o.worldMatrix == w
    ensures AllValid(objs) && Describes(g, nodes, objs)
  {
    o.SetWorldMatrix(w, num);
  }

  /** Every object held by a node of `nodes` is in `objs`. */
  ghost predicate Owns(nodes: set<SceneNode>, objs: set<Transform>)
  {
    forall n :: n in nodes && n.obj != null ==> n.obj in objs
  }

  /** Each node's list of children. */
  ghost function ChildrenOf(nodes: set<SceneNode>): map<SceneNode, seq<SceneNode>>
    reads nodes`children
  {
    map n | n in nodes :: n.children
  }

  /** Each node's parent link. */
  ghost function ParentOf(nodes: set<SceneNode>): map<SceneNode, SceneNode?>
    reads nodes`parent
  {
    map n | n in nodes :: n.parent
  }

  /** Every child points back to the node that lists it. */
  ghost predicate ChildrenPointBack(nodes: set<SceneNode>)
    reads nodes`children, nodes`parent
  {
    forall n, c :: n in nodes && c in n.children ==> c in nodes && c.parent == n
  }

  /** Every node with a parent occurs exactly once in that parent's list. */
  ghost predicate ListedOnceByParent(nodes: set<SceneNode>)
    reads nodes`children, nodes`parent
  {
    forall n :: n in nodes && n.parent != null ==> n.parent in nodes && multiset(n.parent.children)[n] == 1
  }

  /**
   * The two links agree: children point back to their parent and a node is
   * listed once by its parent, so a node is a child of at most one node.
   */
  ghost predicate Linked(nodes: set<SceneNode>)
    reads nodes`children, nodes`parent
  {
    ChildrenPointBack(nodes) && ListedOnceByParent(nodes)
  }

  /** `Linked` is `LinkedIn` of the current links. */
  lemma SnapshotLinked(nodes: set<SceneNode>)
    ensures Linked(nodes) <==> LinkedIn(nodes, ChildrenOf(nodes), ParentOf(nodes))
  {
    var ch, par := ChildrenOf(nodes), ParentOf(nodes);
    if Linked(nodes) {
      forall n, c | n in nodes && n in ch && c in ch[n]
        ensures c in nodes && c in par && par[c] == n
      {
        assert c in n.children;
      }
    }
    if LinkedIn(nodes, ch, par) {
      forall n, c | n in nodes && c in n.children
        ensures c in nodes && c.parent == n
      {
        assert c in ch[n];
      }
      forall n | n in nodes && n.parent != null
        ensures n.parent in nodes && multiset(n.parent.children)[n] == 1
      {
        assert par[n] == n.parent;
      }
    }
  }

  /**
   * The graph is linked when the snapshot maps, updated at `p`'s list and at
   * `c`'s parent link, are linked and every other node kept its links.
   */
  lemma LinkedFromSnapshot(nodes: set<SceneNode>, ch: map<SceneNode, seq<SceneNode>>, par: map<SceneNode, SceneNode?>,
                           p: SceneNode, c: SceneNode)
    requires p in nodes && c in nodes && ch.Keys == nodes && par.Keys == nodes
    requires forall n :: n in nodes && n != p ==> n.children == ch[n]
    requires forall n :: n in nodes && n != c ==> n.parent == par[n]
    requires LinkedIn(nodes, ch[p := p.children], par[c := c.parent])
    ensures Linked(nodes)
  {
    assert ChildrenOf(nodes) == ch[p := p.children];
    assert ParentOf(nodes) == par[c := c.parent];
    SnapshotLinked(nodes);
  }

  /** `Linked`, stated on snapshots of the two links. */
  ghost predicate LinkedIn(nodes: set<SceneNode>, ch: map<SceneNode, seq<SceneNode>>, par: map<SceneNode, SceneNode?>)
  {
    (forall n :: n in nodes ==> n in ch && n in par) &&
    (forall n, c :: n in nodes && n in ch && c in ch[n] ==> c in nodes && c in par && par[c] == n) &&
    (forall n :: n in nodes && n in par && par[n] != null ==>
      par[n] in nodes && par[n] in ch && multiset(ch[par[n]])[n] == 1)
  }

  /** The links and local matrices that drawing reads, as values. */
  datatype Snapshot = Snapshot(
    children: map<SceneNode, seq<SceneNode>>,
    parent: map<SceneNode, SceneNode?>,
    local: map<Transform, Mat4>)

  /** The local matrix of each object. */
  ghost function LocalsOf(objs: set<Transform>): map<Transform, Mat4>
    reads objs`position, objs`orientation, objs`scale
  {
    map o | o in objs :: o.LocalMatrix()
  }

  /** The current links of `nodes` and local matrices of `objs`, as a snapshot. */
  ghost function Snap(nodes: set<SceneNode>, objs: set<Transform>): (g: Snapshot)
    reads nodes`children, nodes`parent, objs`position, objs`orientation, objs`scale
    ensures Describes(g, nodes, objs)
    ensures ChildrenPointBack(nodes) ==> PointsBack(g)
  {
    Snapshot(ChildrenOf(nodes), ParentOf(nodes), LocalsOf(objs))
  }

  /** A node outside the universe with no links can join it. */
  lemma LinkedAddDetached(nodes: set<SceneNode>, n: SceneNode)
    requires Linked(nodes) && n !in nodes && n.parent == null && n.children == []
    ensures Linked(nodes + {n})
  {
  }

  /** The links that a snapshot describes are linked when the snapshot's maps are. */
  lemma LinkedFromDescribes(g: Snapshot, nodes: set<SceneNode>, objs: set<Transform>)
    requires Describes(g, nodes, objs) && LinkedIn(nodes, g.children, g.parent)
    ensures Linked(nodes)
  {
    assert ChildrenOf(nodes) == g.children;
    assert ParentOf(nodes) == g.parent;
    SnapshotLinked(nodes);
  }

  /** `g` holds the current links of `nodes` and the current local matrices of `objs`. */
  ghost predicate Describes(g: Snapshot, nodes: set<SceneNode>, objs: set<Transform>)
    reads nodes`children, nodes`parent, objs`position, objs`orientation, objs`scale
  {
    g.children.Keys == nodes && g.parent.Keys == nodes && g.local.Keys == objs &&
    (forall n :: n in nodes ==> g.children[n] == n.children && g.parent[n] == n.parent) &&
    (forall o :: o in objs ==> g.local[o] == o.LocalMatrix())
  }

  /** Every child points back to the node that lists it. */
  ghost predicate PointsBack(g: Snapshot)
  {
    forall n, c :: n in g.children && c in g.children[n] ==> c in g.parent && g.parent[c] == n
  }

  /** Following parent links from `n` reaches a node without parent or object within `fuel` steps. */
  ghost predicate WorldDefined(g: Snapshot, n: SceneNode, fuel: nat)
    decreases fuel
  {
    n in g.parent && (g.parent[n] == null || n.obj == null || (fuel > 0 && WorldDefined(g, g.parent[n], fuel - 1)))
  }

  /** The subtree rooted at `n` has height at most `h`; in particular it has no cycle. */
  ghost predicate Bounded(g: Snapshot, n: SceneNode, h: nat)
    decreases h
  {
    n in g.children && h > 0 && forall c :: c in g.children[n] ==> Bounded(g, c, h - 1)
  }

  /** Every object's model-matrix cache is consistent with its pose. */
  ghost predicate AllValid(objs: set<Transform>)
    reads objs`modelMatrix, objs`transformChanged, objs`position, objs`orientation, objs`scale
  {
    forall o :: o in objs ==> o.Valid()
  }

  /**
   * The world matrix of a node: the parent's world matrix times the object's
   * model matrix, or the identity for a node without parent or object.
   */
  ghost function World(g: Snapshot, n: SceneNode, fuel: nat): Mat4
    decreases fuel
  {
    if n in g.parent && g.parent[n] != null && n.obj != null && n.obj in g.local && fuel > 0 then
      Compose(World(g, g.parent[n], fuel - 1), g.local[n.obj])
    else
      Identity
  }

  /** The draw calls of the subtree of `n`, in pre-order. */
  ghost function DrawTrace(g: Snapshot, n: SceneNode, h: nat, d: nat): seq<Event>
    decreases h, 0
  {
    if n !in g.children || h == 0 then []
    else
      (if n.obj != null then [DrawObject(n.obj, World(g, n, d))] else []) +
      DrawFirst(g, g.children[n], |g.children[n]|, h - 1, d + 1)
  }

  /** The draw calls of the subtrees of the first `i` nodes of `cs`, one after another. */
  ghost function DrawFirst(g: Snapshot, cs: seq<SceneNode>, i: nat, h: nat, d: nat): seq<Event>
    requires i <= |cs|
    decreases h, 1, i
  {
    if i == 0 then []
    else DrawFirst(g, cs, i - 1, h, d) + DrawTrace(g, cs[i - 1], h, d)
  }

  /** A child of a drawable node is drawable one level down, one step further from the root. */
  lemma ChildDrawable(g: Snapshot, n: SceneNode, h: nat, d: nat, i: nat)
    requires PointsBack(g) && Bounded(g, n, h) && WorldDefined(g, n, d)
    requires i < |g.children[n]|
    ensures Bounded(g, g.children[n][i], h - 1) && WorldDefined(g, g.children[n][i], d + 1)
  {
    var c := g.children[n][i];
    assert c in g.children[n];
  }

  /** Extra fuel does not change a world matrix whose parent chain is already covered. */
  lemma {:induction false} WorldFuel(g: Snapshot, n: SceneNode, fuel: nat, more: nat)
    requires WorldDefined(g, n, fuel) && fuel <= more
    ensures World(g, n, fuel) == World(g, n, more)
    decreases fuel
  {
    if g.parent[n] != null && n.obj != null {
      WorldFuel(g, g.parent[n], fuel - 1, more - 1);
    }
  }

  /** A node that is its own child has no bounded subtree, so it can never be drawn. */
  lemma {:induction false} SelfChildUnbounded(g: Snapshot, n: SceneNode, h: nat)
    requires n in g.children && n in g.children[n]
    ensures !Bounded(g, n, h)
    decreases h
  {
    if h > 0 {
      SelfChildUnbounded(g, n, h - 1);
    }
  }

  /** The links RemoveChild leaves behind, taken from the current ones, are linked. */
  lemma UnlinkPlan(nodes: set<SceneNode>, p: SceneNode, child: SceneNode, i: nat, rest: seq<SceneNode>)
    requires Linked(nodes) && p in nodes
    requires i < |p.children| && p.children[i] == child
    requires forall j :: 0 <= j < i ==> p.children[j] != child
    requires rest == p.children[..i] + p.children[i + 1..]
    ensures rest == RemoveFirst(p.children, child) && child !in rest
    ensures LinkedIn(nodes, ChildrenOf(nodes)[p := rest], ParentOf(nodes)[child := null])
  {
    RemoveFirstAt(p.children, child, i);
    SnapshotLinked(nodes);
    UnlinkKeepsLinked(nodes, ChildrenOf(nodes), ParentOf(nodes), p, child, rest);
  }

  /** Erasing `child` from `p`'s list and clearing its parent link keeps the graph linked. */
  lemma UnlinkKeepsLinked(nodes: set<SceneNode>, ch: map<SceneNode, seq<SceneNode>>, par: map<SceneNode, SceneNode?>,
                          p: SceneNode, child: SceneNode, after: seq<SceneNode>)
    requires LinkedIn(nodes, ch, par) && p in nodes && child in ch[p]
    requires after == RemoveFirst(ch[p], child)
    ensures LinkedIn(nodes, ch[p := after], par[child := null])
    ensures child !in after
  {
    assert par[child] == p && multiset(ch[p])[child] == 1;
    RemoveFirstMultiset(ch[p], child);
    assert multiset(after)[child] == 0;
    var ch', par' := ch[p := after], par[child := null];
    UnlinkKeepsChildLinks(nodes, ch, par, p, child, after, ch', par');
    UnlinkKeepsParentLinks(nodes, ch, par, p, child, after, ch', par');
  }

  /** After the erase every listed child still points back at its parent. */
  lemma UnlinkKeepsChildLinks(nodes: set<SceneNode>, ch: map<SceneNode, seq<SceneNode>>, par: map<SceneNode, SceneNode?>,
                              p: SceneNode, child: SceneNode, after: seq<SceneNode>,
                              ch': map<SceneNode, seq<SceneNode>>, par': map<SceneNode, SceneNode?>)
    requires LinkedIn(nodes, ch, par) && p in nodes && child in par && par[child] == p
    requires multiset(after) == multiset(ch[p]) - multiset{child} && multiset(after)[child] == 0
    requires ch' == ch[p := after] && par' == par[child := null]
    ensures forall n, c :: n in nodes && n in ch' && c in ch'[n] ==> c in nodes && c in par' && par'[c] == n
  {
    forall n, c | n in nodes && n in ch' && c in ch'[n]
      ensures c in nodes && c in par' && par'[c] == n
    {
      if n == p {
        assert multiset(after)[c] > 0;
        assert c in ch[p] && c != child;
      } else {
        assert c in ch[n];
        assert c != child;
      }
    }
  }

  /** After the erase every remaining parent link is still listed exactly once. */
  lemma UnlinkKeepsParentLinks(nodes: set<SceneNode>, ch: map<SceneNode, seq<SceneNode>>, par: map<SceneNode, SceneNode?>,
                               p: SceneNode, child: SceneNode, after: seq<SceneNode>,
                               ch': map<SceneNode, seq<SceneNode>>, par': map<SceneNode, SceneNode?>)
    requires LinkedIn(nodes, ch, par) && p in nodes && child in par && par[child] == p
    requires multiset(after) == multiset(ch[p]) - multiset{child}
    requires ch' == ch[p := after] && par' == par[child := null]
    ensures forall n :: n in nodes && n in par' && par'[n] != null ==>
      par'[n] in nodes && par'[n] in ch' && multiset(ch'[par'[n]])[n] == 1
  {
    forall n | n in nodes && n in par' && par'[n] != null
      ensures par'[n] in nodes && par'[n] in ch' && multiset(ch'[par'[n]])[n] == 1
    {
      assert n != child;
      if par[n] == p {
        assert multiset(after)[n] == multiset(ch[p])[n];
      }
    }
  }

  /** Appending a detached `child` to `p`'s list and pointing it at `p` keeps the graph linked. */
  lemma LinkKeepsLinked(nodes: set<SceneNode>, ch: map<SceneNode, seq<SceneNode>>, par: map<SceneNode, SceneNode?>,
                        p: SceneNode, child: SceneNode)
    requires LinkedIn(nodes, ch, par) && p in nodes && child in nodes && par[child] == null
    ensures LinkedIn(nodes, ch[p := ch[p] + [child]], par[child := p])
    ensures multiset(ch[p] + [child])[child] == 1
  {
    var before := ch[p];
    var ch', par' := ch[p := before + [child]], par[child := p];
    assert child !in before;
    assert multiset(ch'[p])[child] == 1;
    forall n, c | n in nodes && n in ch' && c in ch'[n]
      ensures c in nodes && c in par' && par'[c] == n
    {
      if c != child && n == p {
        assert c in before;
      }
    }
    forall n | n in nodes && n in par' && par'[n] != null
      ensures par'[n] in nodes && par'[n] in ch' && multiset(ch'[par'[n]])[n] == 1
    {
      if n != child && par[n] == p {
        assert multiset(ch'[p])[n] == multiset(before)[n];
      }
    }
  }
}

=== FILE: seqs.dfy ===
/** Sequence helpers shared by the containers of the model. */
module Seqs {

  /** `s` with its first occurrence of `x` erased (std::find followed by erase). */
  function RemoveFirst<T(==)>(s: seq<T>, x: T): (r: seq<T>)
    ensures x in s ==> |r| == |s| - 1
    ensures x !in s ==> r == s
  {
    if s == [] then []
    else if s[0] == x then s[1..]
    else [s[0]] + RemoveFirst(s[1..], x)
  }

  /** Erasing the first occurrence removes exactly one copy of `x` and nothing else. */
  lemma {:induction false} RemoveFirstMultiset<T>(s: seq<T>, x: T)
    ensures x in s ==> multiset(RemoveFirst(s, x)) == multiset(s) - multiset{x}
  {
    if s != [] {
      assert s == [s[0]] + s[1..];
      if s[0] != x {
        RemoveFirstMultiset(s[1..], x);
      }
    }
  }

  /** Erasing at the first matching index is RemoveFirst. */
  lemma {:induction false} RemoveFirstAt<T>(s: seq<T>, x: T, i: nat)
    requires i < |s| && s[i] == x
    requires forall j :: 0 <= j < i ==> s[j] != x
    ensures RemoveFirst(s, x) == s[..i] + s[i + 1..]
    decreases i
  {
    if i == 0 {
      assert s[..0] + s[1..] == s[1..];
    } else {
      var t := s[1..];
      assert s[0] != x;
      assert RemoveFirst(s, x) == [s[0]] + RemoveFirst(t, x);
      RemoveFirstAt(t, x, i - 1);
      assert t[..i - 1] == s[1..i];
      assert t[i..] == s[i + 1..];
      assert [s[0]] + s[1..i] == s[..i];
    }
  }

  /** Concatenation is associative. */
  lemma AppendAssoc<T>(a: seq<T>, b: seq<T>, c: seq<T>)
    ensures (a + b) + c == a + (b + c)
  {
  }

  /** Number of occurrences of `x` in `s`. */
  function Count<T(==)>(s: seq<T>, x: T): nat
  {
    multiset(s)[x]
  }

  /** The first index holding `x`, when there is one. */
  function IndexOf<T(==)>(s: seq<T>, x: T): (i: int)
    ensures -1 <= i < |s|
    ensures i >= 0 ==> s[i] == x && forall j :: 0 <= j < i ==> s[j] != x
    ensures i < 0 <==> x !in s
  {
    if s == [] then -1
    else if s[0] == x then 0
    else
      var k := IndexOf(s[1..], x);
      if k < 0 then -1 else k + 1
  }

  /**
   * An order in which a hash map may visit its keys: each key of the map
   * exactly once. The engine's unordered_map iterations take one as a parameter.
   */
  ghost predicate IsOrder<K(!new), V>(order: seq<K>, table: map<K, V>)
  {
    (forall t :: t in order <==> t in table) &&
    (forall i, j :: 0 <= i < j < |order| ==> order[i] != order[j])
  }

  /** A sequence without repeats has as many elements as it has distinct values. */
  lemma {:induction false} DistinctCount<K>(s: seq<K>)
    requires forall i, j :: 0 <= i < j < |s| ==> s[i] != s[j]
    ensures |set x | x in s| == |s|
  {
    if s != [] {
      var init := s[..|s| - 1];
      DistinctCount(init);
      assert (set x | x in s) == (set x | x in init) + {s[|s| - 1]};
    }
  }

  /** An order visits as many keys as the map has. */
  lemma OrderLength<K(!new), V>(order: seq<K>, table: map<K, V>)
    requires IsOrder(order, table)
    ensures |order| == |table|
  {
    DistinctCount(order);
    assert (set x | x in order) == table.Keys;
  }
}

=== FILE: terrain.dfy ===
/**
 * The engine's tessellated terrain: a square grid of vertices over the
 * heightmap's extent, drawn as four-corner patches, and the same grid sampled
 * on the CPU as a collision mesh.
 */
module Terrains {
  import opened Math
  import opened Gl
  import opened Wrappers
  import ObjFormat
  import Materials
  import Transforms
  import opened Seqs

  /**
   * The heightmap texture as the terrain reads it: its texture name, its size
   * in pixels, and `red(u, v)`, the red channel of GetPixel<uint16_t> at pixel
   * coordinates (u, v).
   */
  datatype Heightmap = Heightmap(id: nat, width: int, height: int, red: (real, real) -> real)

  /** Grid step in texture space: 1 / (g - 1). */
  function Spacing(g: nat): (s: real)
    requires g >= 2
    ensures 0.0 < s <= 1.0
  {
    1.0 / (g - 1) as real
  }

  /** The cells (0, z) .. (n - 1, z) of one row, in the order the inner loop visits them. */
  function Row<T>(n: nat, z: nat, cell: (nat, nat) -> T): seq<T>
  {
    if n == 0 then [] else Row(n - 1, z, cell) + [cell(n - 1, z)]
  }

  /** A row of n cells has cell (x, z) at x. */
  lemma {:induction false} RowAt<T>(n: nat, z: nat, cell: (nat, nat) -> T, x: nat)
    ensures |Row(n, z, cell)| == n
    ensures x < n ==> Row(n, z, cell)[x] == cell(x, z)
  {
    if n > 0 {
      RowAt(n - 1, z, cell, x);
    }
  }

  /** Rows 0 .. rows - 1 of a grid `g` cells wide, row after row. */
  function Rows<T>(g: nat, rows: nat, cell: (nat, nat) -> T): seq<T>
  {
    if rows == 0 then [] else Rows(g, rows - 1, cell) + Row(g, rows - 1, cell)
  }

  /** (a + 1) g = a g + g, and a g grows with a. */
  lemma MulFacts(a: nat, b: nat, g: nat)
    ensures (a + 1) * g == a * g + g
    ensures a <= b ==> a * g <= b * g
  {
  }

  /** Row-major layout: there are rows * g cells. */
  lemma {:induction false} RowsLength<T>(g: nat, rows: nat, cell: (nat, nat) -> T)
    ensures |Rows(g, rows, cell)| == rows * g
  {
    if rows > 0 {
      RowsLength(g, rows - 1, cell);
      RowAt(g, rows - 1, cell, 0);
      MulFacts(rows - 1, rows, g);
    }
  }

  /** Row-major layout: cell (x, z) sits at z * g + x. */
  lemma {:induction false} RowsAt<T>(g: nat, rows: nat, cell: (nat, nat) -> T, z: nat, x: nat)
    requires z < rows && x < g
    ensures z * g + x < |Rows(g, rows, cell)| && Rows(g, rows, cell)[z * g + x] == cell(x, z)
  {
    RowsLength(g, rows - 1, cell);
    RowAt(g, rows - 1, cell, x);
    MulFacts(rows - 1, rows, g);
    if z < rows - 1 {
      RowsAt(g, rows - 1, cell, z, x);
    }
  }

  /** The patch with top-left corner (x, z): top-left, bottom-left, top-right, bottom-right. */
  function Patch(g: nat, z: nat, x: nat): seq<nat>
  {
    var topLeft := z * g + x;
    var bottomLeft := (z + 1) * g + x;
    [topLeft, bottomLeft, topLeft + 1, bottomLeft + 1]
  }

  /** The patches of row z whose top-left corners are (0, z) .. (n - 1, z). */
  function PatchRow(g: nat, z: nat, n: nat): seq<nat>
  {
    if n == 0 then [] else PatchRow(g, z, n - 1) + Patch(g, z, n - 1)
  }

  /** The patches of rows 0 .. rows - 1, each row g - 1 patches long. */
  function PatchRows(g: nat, rows: nat): seq<nat>
    requires g >= 1
  {
    if rows == 0 then [] else PatchRows(g, rows - 1) + PatchRow(g, rows - 1, g - 1)
  }

  /** A row of n patches holds 4n indices. */
  lemma {:induction false} PatchRowLength(g: nat, z: nat, n: nat)
    ensures |PatchRow(g, z, n)| == 4 * n
  {
    if n > 0 {
      PatchRowLength(g, z, n - 1);
    }
  }

  /** Patch (x, z) of a row starts at index 4x. */
  lemma {:induction false} PatchRowAt(g: nat, z: nat, n: nat, x: nat, j: nat)
    requires x < n && j < 4
    ensures 4 * x + j < |PatchRow(g, z, n)| && PatchRow(g, z, n)[4 * x + j] == Patch(g, z, x)[j]
  {
    PatchRowLength(g, z, n - 1);
    if x < n - 1 {
      PatchRowAt(g, z, n - 1, x, j);
    }
  }

  /** The corners of a patch in row z with x + 1 < g lie in rows z and z + 1. */
  lemma PatchBound(g: nat, z: nat, x: nat, j: nat)
    requires x + 1 < g && j < 4
    ensures Patch(g, z, x)[j] < (z + 2) * g
  {
    MulFacts(z + 1, z + 1, g);
  }

  /** Every index of row z names a vertex of rows z and z + 1. */
  lemma PatchRowBound(g: nat, z: nat, n: nat, i: nat)
    requires n < g && i < |PatchRow(g, z, n)|
    ensures PatchRow(g, z, n)[i] < (z + 2) * g
  {
    PatchRowLength(g, z, n);
    PatchRowAt(g, z, n, i / 4, i % 4);
    PatchBound(g, z, i / 4, i % 4);
  }

  /** The index buffer for `rows` rows holds 4 (g - 1) indices per row. */
  lemma {:induction false} PatchRowsLength(g: nat, rows: nat)
    requires g >= 1
    ensures |PatchRows(g, rows)| == 4 * (rows * (g - 1))
  {
    if rows > 0 {
      PatchRowsLength(g, rows - 1);
      PatchRowLength(g, rows - 1, g - 1);
      MulFacts(rows - 1, rows, g - 1);
    }
  }

  /** Row z's patches come before row r's when z < r. */
  lemma RowOffset(w: nat, z: nat, r: nat, x: nat)
    requires z < r && x < w
    ensures z * w + x < r * w
  {
    MulFacts(z, z + 1, w);
    MulFacts(z + 1, r, w);
  }

  /** Patch (x, z) starts at index 4 (z (g - 1) + x) of the index buffer. */
  lemma {:induction false} PatchRowsAt(g: nat, rows: nat, z: nat, x: nat, j: nat)
    requires g >= 1 && z < rows && x < g - 1 && j < 4
    ensures 4 * (z * (g - 1) + x) + j < |PatchRows(g, rows)|
    ensures PatchRows(g, rows)[4 * (z * (g - 1) + x) + j] == Patch(g, z, x)[j]
  {
    var w := g - 1;
    var before := PatchRows(g, rows - 1);
    var i := 4 * (z * w + x) + j;
    var last := PatchRow(g, rows - 1, w);
    assert PatchRows(g, rows) == before + last;
    PatchRowsLength(g, rows - 1);
    PatchRowLength(g, rows - 1, w);
    assert |PatchRows(g, rows)| == |before| + 4 * w;
    if z < rows - 1 {
      PatchRowsAt(g, rows - 1, z, x, j);
      assert i < |before|;
    } else {
      PatchRowAt(g, z, w, x, j);
      assert z * w == (rows - 1) * w;
      assert i - |before| == 4 * x + j;
    }
  }

  /** Every index of the first `rows` rows names a vertex of rows 0 .. rows. */
  lemma {:induction false} PatchRowsBound(g: nat, rows: nat, i: nat)
    requires 1 <= g && rows < g && i < |PatchRows(g, rows)|
    ensures PatchRows(g, rows)[i] < (rows + 1) * g
  {
    var before := PatchRows(g, rows - 1);
    if i < |before| {
      PatchRowsBound(g, rows - 1, i);
      MulFacts(rows, rows + 1, g);
    } else {
      PatchRowBound(g, rows - 1, g - 1, i - |before|);
    }
  }

  /** The index buffer of a g × g grid: its (g - 1)² patches row after row. */
  function GridPatches(g: nat): seq<nat>
    requires g >= 1
  {
    PatchRows(g, g - 1)
  }

  /** The patch list of a whole grid: 4(g - 1)² indices, all below g². */
  lemma GridIndices(g: nat)
    requires g >= 2
    ensures |GridPatches(g)| == 4 * ((g - 1) * (g - 1))
    ensures forall i :: 0 <= i < |GridPatches(g)| ==> GridPatches(g)[i] < g * g
  {
    PatchRowsLength(g, g - 1);
    forall i | 0 <= i < |GridPatches(g)|
      ensures GridPatches(g)[i] < g * g
    {
      PatchRowsBound(g, g - 1, i);
    }
  }

  /** The patch with top-left corner (x, z) is at 4 (z (g - 1) + x) of the whole grid's index buffer. */
  lemma GridPatchAt(g: nat, z: nat, x: nat, j: nat)
    requires g >= 2 && z < g - 1 && x < g - 1 && j < 4
    ensures 4 * (z * (g - 1) + x) + j < |GridPatches(g)|
    ensures GridPatches(g)[4 * (z * (g - 1) + x) + j] == Patch(g, z, x)[j]
  {
    PatchRowsAt(g, g - 1, z, x, j);
  }

  /** A g × g grid of vertices has g² of them, (x, z) at z g + x. */
  lemma GridVertexAt<T>(g: nat, cell: (nat, nat) -> T, z: nat, x: nat)
    requires z < g && x < g
    ensures |Rows(g, g, cell)| == g * g
    ensures z * g + x < g * g && Rows(g, g, cell)[z * g + x] == cell(x, z)
  {
    RowsLength(g, g, cell);
    RowsAt(g, g, cell, z, x);
  }

  /**
   * The corners of patch (x, z) in a buffer that holds exactly one grid are
   * the grid points (x, z), (x, z + 1), (x + 1, z) and (x + 1, z + 1).
   */
  lemma PatchCorners<T>(g: nat, cell: (nat, nat) -> T, z: nat, x: nat)
    requires g >= 2 && z < g - 1 && x < g - 1
    ensures var vs, p := Rows(g, g, cell), Patch(g, z, x);
      p[0] < |vs| && p[1] < |vs| && p[2] < |vs| && p[3] < |vs| &&
      vs[p[0]] == cell(x, z) && vs[p[1]] == cell(x, z + 1) && vs[p[2]] == cell(x + 1, z) && vs[p[3]] == cell(x + 1, z + 1)
  {
    GridVertexAt(g, cell, z, x);
    GridVertexAt(g, cell, z + 1, x);
    GridVertexAt(g, cell, z, x + 1);
    GridVertexAt(g, cell, z + 1, x + 1);
  }

  /**
   * Regenerating into buffers that already hold a grid: the index list
   * doubles, yet every index still names one of the first g² vertices, those
   * of the old grid, so the new grid points are never drawn.
   */
  lemma StaleGrid<T>(g: nat, old_: (nat, nat) -> T, new_: (nat, nat) -> T)
    requires g >= 2
    ensures var vs, ix := Rows(g, g, old_) + Rows(g, g, new_), GridPatches(g) + GridPatches(g);
      |Rows(g, g, old_)| == g * g && |vs| == 2 * (g * g) && |ix| == 2 * |GridPatches(g)| &&
      forall i :: 0 <= i < |ix| ==> ix[i] < |Rows(g, g, old_)| && vs[ix[i]] == Rows(g, g, old_)[ix[i]]
  {
    GridIndices(g);
    RowsLength(g, g, old_);
    RowsLength(g, g, new_);
    var one, before, after := GridPatches(g), Rows(g, g, old_), Rows(g, g, new_);
    forall i | 0 <= i < |one + one|
      ensures (one + one)[i] < |before| && (before + after)[(one + one)[i]] == before[(one + one)[i]]
    {
      var k := if i < |one| then one[i] else one[i - |one|];
      assert (one + one)[i] == k;
      assert k < g * g;
    }
  }

  /** The loops that push the g × g grid points, row after row, onto `acc`. */
  method AppendGrid<T>(acc: seq<T>, g: nat, cell: (nat, nat) -> T) returns (r: seq<T>)
    ensures r == acc + Rows(g, g, cell)
  {
    r := acc;
    for z := 0 to g
      invariant r == acc + Rows(g, z, cell)
    {
      for x := 0 to g
        invariant r == acc + Rows(g, z, cell) + Row(x, z, cell)
      {
        r := r + [cell(x, z)];
      }
    }
  }

  /** The loops that push the four corners of every patch onto `acc`. */
  method AppendPatches(acc: seq<nat>, g: nat) returns (r: seq<nat>)
    requires g >= 1
    ensures r == acc + GridPatches(g)
  {
    r := acc;
    for z := 0 to g - 1
      invariant r == acc + PatchRows(g, z)
    {
      r := AppendPatchRow(r, g, z);
      assert r == acc + PatchRows(g, z + 1) by {
        AppendAssoc(acc, PatchRows(g, z), PatchRow(g, z, g - 1));
      }
    }
  }

  /** The inner loop: the g - 1 patches of row z. */
  method AppendPatchRow(acc: seq<nat>, g: nat, z: nat) returns (r: seq<nat>)
    requires g >= 1
    ensures r == acc + PatchRow(g, z, g - 1)
  {
    r := acc;
    for x := 0 to g - 1
      invariant r == acc + PatchRow(g, z, x)
    {
      var topLeft := z * g + x;
      var topRight := topLeft + 1;
      var bottomLeft := (z + 1) * g + x;
      var bottomRight := bottomLeft + 1;
      r := r + [topLeft, bottomLeft, topRight, bottomRight];
    }
  }

  /**
   * A render vertex of SetupGeometry: the grid point (x, z) spread over the
   * heightmap's width and height around the origin, at height 0, scaled by
   * the world scale, with texture coordinates (x s, 1 - z s) for spacing s.
   * The other attributes are left unset by the source; they are zero here.
   */
  function SurfaceVertex(g: nat, width: int, height: int, scale: real, x: nat, z: nat): ObjFormat.Vertex
    requires g >= 2
  {
    var s := Spacing(g);
    ObjFormat.Vertex(Vec3(width as real * (x as real * s - 0.5) * scale, 0.0 * scale, height as real * (z as real * s - 0.5) * scale),
                     Zero, Vec2(x as real * s, 1.0 - z as real * s), Zero, Zero)
  }

  /** Texture coordinates of every grid point lie in the unit square. */
  lemma SurfaceUvInUnitSquare(g: nat, width: int, height: int, scale: real, x: nat, z: nat)
    requires g >= 2 && x < g && z < g
    ensures var uv := SurfaceVertex(g, width, height, scale, x, z).texCoords;
      0.0 <= uv.x <= 1.0 && 0.0 <= uv.y <= 1.0
  {
    var s := Spacing(g);
    assert x as real * s <= 1.0 by {
      assert x as real <= (g - 1) as real;
      assert (g - 1) as real * s == 1.0;
    }
    assert z as real * s <= 1.0 by {
      assert z as real <= (g - 1) as real;
      assert (g - 1) as real * s == 1.0;
    }
  }

  /**
   * A collision vertex of GenerateCollisionMesh: the same spread over the
   * heightmap (scaled horizontally only), lifted to twice the sampled red
   * value times the height scale.
   */
  function CollisionVertex(g: nat, map_: Heightmap, heightScale: real, scale: real, x: nat, z: nat): Vec3
    requires g >= 2
  {
    var s := Spacing(g);
    var value := map_.red(x as real * s * (map_.width - 1) as real, (1.0 - z as real * s) * (map_.height - 1) as real)
                 * 2.0 * heightScale;
    Vec3(map_.width as real * (x as real * s - 0.5) * scale, value, map_.height as real * (z as real * s - 0.5) * scale)
  }

  /** The grid points SetupGeometry generates. */
  function SurfaceCells(g: nat, map_: Heightmap, scale: real): (nat, nat) -> ObjFormat.Vertex
    requires g >= 2
  {
    (x: nat, z: nat) => SurfaceVertex(g, map_.width, map_.height, scale, x, z)
  }

  /** The grid points GenerateCollisionMesh generates. */
  function CollisionCells(g: nat, map_: Heightmap, heightScale: real, scale: real): (nat, nat) -> Vec3
    requires g >= 2
  {
    (x: nat, z: nat) => CollisionVertex(g, map_, heightScale, scale, x, z)
  }

  /**
   * What Draw sends after the material's binding, its program and the model
   * matrix: the tessellation level
   * and height scale uniforms, the heightmap on texture unit 5, and one draw
   * of `count` indices as 4-vertex patches.
   */
  function DrawEvents(tessLevel: real, heightScale: real, map_: Heightmap, count: nat): seq<Event>
  {
    [SetFloat("tessLevel", tessLevel), SetFloat("heightScale", heightScale),
     BindTexture(map_.id, 5), SetInt("heightMap", 5), DrawPatches(4, count)]
  }

  /** The uniform, texture and draw calls at the end of Terrain::Draw. */
  method EmitDraw(gpu: Gpu, tessLevel: real, heightScale: real, map_: Heightmap, count: nat)
    modifies gpu`events
    ensures gpu.events == old(gpu.events) + DrawEvents(tessLevel, heightScale, map_, count)
  {
    gpu.Emit(SetFloat("tessLevel", tessLevel));
    gpu.Emit(SetFloat("heightScale", heightScale));
    gpu.Emit(BindTexture(map_.id, 5));
    gpu.Emit(SetInt("heightMap", 5));
    gpu.Emit(DrawPatches(4, count));
  }

  /**
   * The calls Draw makes before the terrain's own uniforms: the material's
   * Bind (its program, its properties and its textures on consecutive slots),
   * the program again, and the world matrix as the `model` uniform.
   */
  function BindEvents(program: Materials.ShaderId, properties: Materials.Properties, bindings: seq<Materials.Binding>, world: Mat4): seq<Event>
  {
    Materials.PropertyEvents(program, properties) + Materials.BindTrace(bindings) + [UseProgram(program), SetMat4("model", world)]
  }

  /** The grid size Terrain.h:11 gives a terrain constructed without one. */
  const DefaultGridSize: nat := 64

  class Terrain {
    /** The terrain is a graphics object, and so a Transform. */
    const transform: Transforms.Transform
    var gridSize: nat
    var worldScale: real
    var tessLevel: real
    var heightScale: real
    var dirty: bool
    var heightmap: Option<Heightmap>
    var material: Materials.Material
    var vertices: seq<ObjFormat.Vertex>
    var indices: seq<nat>

    /**
     * A new terrain: tessellation level 16, height scale 128, world scale 1,
     * no heightmap, and dirty. Terrain.h:11 gives `gridSize` the default
     * DefaultGridSize.
     */
    constructor (gridSize: nat, shader: Materials.ShaderId)
      ensures this.gridSize == gridSize && worldScale == 1.0 && tessLevel == 16.0 && heightScale == 128.0
      ensures dirty && heightmap.None? && vertices == [] && indices == []
      ensures fresh(material) && material.shader == Some(shader)
      ensures fresh(transform) && transform.worldMatrix == Identity
    {
      transform := new Transforms.Transform();
      this.gridSize := gridSize;
      worldScale := 1.0;
      tessLevel := 16.0;
      heightScale := 128.0;
      dirty := true;
      heightmap := None;
      vertices, indices := [], [];
      material := new Materials.Material.WithShader(None, Some(shader));
    }

    /** Replaces the heightmap and marks the geometry for regeneration. */
    method SetHeightmap(h: Heightmap)
      modifies this`heightmap, this`dirty
      ensures heightmap == Some(h) && dirty
    {
      heightmap := Some(h);
      dirty := true;
    }

    method SetTessellationLevel(level: real)
      modifies this`tessLevel
      ensures tessLevel == level
    {
      tessLevel := level;
    }

    method SetHeightScale(scale: real)
      modifies this`heightScale
      ensures heightScale == scale
    {
      heightScale := scale;
    }

    /** Replaces the world scale and marks the geometry for regeneration. */
    method SetWorldScale(scale: real)
      modifies this`worldScale, this`dirty
      ensures worldScale == scale && dirty
    {
      worldScale := scale;
      dirty := true;
    }

    /** Replaces the material; the geometry is not affected. */
    method SetMaterial(m: Materials.Material)
      modifies this`material
      ensures material == m
    {
      material := m;
    }

    method GetMaterial() returns (m: Materials.Material)
      ensures m == material
    {
      m := material;
    }

    /**
     * SetupGeometry as written: with a heightmap, appends the g × g grid and
     * its patches to what the buffers already hold; without one, does nothing.
     */
    method SetupGeometry()
      requires heightmap.Some? ==> gridSize >= 2
      modifies this`vertices, this`indices
      ensures heightmap.None? ==> vertices == old(vertices) && indices == old(indices)
      ensures heightmap.Some? ==> vertices == old(vertices) + Rows(gridSize, gridSize, SurfaceCells(gridSize, heightmap.value, worldScale))
      ensures heightmap.Some? ==> indices == old(indices) + GridPatches(gridSize)
    {
      if heightmap.None? {
        return;
      }
      vertices := AppendGrid(vertices, gridSize, SurfaceCells(gridSize, heightmap.value, worldScale));
      indices := AppendPatches(indices, gridSize);
    }

    /**
     * SetupGeometry as evidently intended: the buffers are emptied first, so
     * they hold exactly the grid of the current layout.
     */
    method SetupGeometryFresh()
      requires heightmap.Some? ==> gridSize >= 2
      modifies this`vertices, this`indices
      ensures heightmap.None? ==> vertices == old(vertices) && indices == old(indices)
      ensures heightmap.Some? ==> vertices == Rows(gridSize, gridSize, SurfaceCells(gridSize, heightmap.value, worldScale))
      ensures heightmap.Some? ==> indices == GridPatches(gridSize)
    {
      if heightmap.None? {
        return;
      }
      vertices := AppendGrid([], gridSize, SurfaceCells(gridSize, heightmap.value, worldScale));
      indices := AppendPatches([], gridSize);
    }

    /**
     * GenerateCollisionMesh: appends the heightmap-lifted g × g grid and its
     * patches to the caller's vectors; without a heightmap, leaves them alone.
     */
    method GenerateCollisionMesh(g: nat, vs: seq<Vec3>, ix: seq<nat>) returns (vs': seq<Vec3>, ix': seq<nat>)
      requires heightmap.Some? ==> g >= 2
      ensures heightmap.None? ==> vs' == vs && ix' == ix
      ensures heightmap.Some? ==>
        vs' == vs + Rows(g, g, CollisionCells(g, heightmap.value, heightScale, worldScale))
      ensures heightmap.Some? ==> ix' == ix + GridPatches(g)
    {
      vs', ix' := vs, ix;
      if heightmap.None? {
        return;
      }
      vs' := AppendGrid(vs, g, CollisionCells(g, heightmap.value, heightScale, worldScale));
      ix' := AppendPatches(ix, g);
    }

    /**
     * Draw: nothing without a heightmap; otherwise regenerates the geometry
     * when dirty and clears the flag, binds the material, uses its program,
     * sets the model matrix and the terrain uniforms, binds the heightmap to
     * unit 5 and draws every index as 4-vertex patches. The material's
     * textures are visited in `order`, the hash map's order.
     */
    method Draw(gpu: Gpu, order: seq<Materials.TextureType>)
      requires heightmap.Some? ==> gridSize >= 2 && material.shader.Some? && IsOrder(order, material.textures)
      modifies this`vertices, this`indices, this`dirty, gpu`events
      ensures heightmap.None? ==> vertices == old(vertices) && indices == old(indices) && dirty == old(dirty)
      ensures heightmap.None? ==> gpu.events == old(gpu.events)
      ensures heightmap.Some? && !old(dirty) ==> vertices == old(vertices) && indices == old(indices)
      ensures heightmap.Some? && old(dirty) ==> vertices == old(vertices) + Rows(gridSize, gridSize, SurfaceCells(gridSize, heightmap.value, worldScale))
      ensures heightmap.Some? && old(dirty) ==> indices == old(indices) + GridPatches(gridSize)
      ensures heightmap.Some? ==> !dirty
      ensures heightmap.Some? ==> (gpu.events == old(gpu.events) +
        BindEvents(material.shader.value, material.properties, Materials.Assign(order, material.textures), transform.worldMatrix) +
        DrawEvents(tessLevel, heightScale, heightmap.value, |indices|))
    {
      if heightmap.None? {
        return;
      }
      if dirty {
        SetupGeometry();
        dirty := false;
      }
      ghost var start := gpu.events;
      var program := material.shader.value;
      material.Bind(gpu, order);
      gpu.Emit(UseProgram(program));
      gpu.Emit(SetMat4("model", transform.worldMatrix));
      EmitDraw(gpu, tessLevel, heightScale, heightmap.value, |indices|);
      assert gpu.events == start +
        BindEvents(program, material.properties, Materials.Assign(order, material.textures), transform.worldMatrix) +
        DrawEvents(tessLevel, heightScale, heightmap.value, |indices|);
    }
  }
}

=== FILE: text.dfy ===
/**
 * The text handling the loaders get from the C++ library: words read with
 * `istream >> std::string`, character replacement, and std::filesystem path
 * arithmetic on '/'-separated paths.
 */
module Text {

  /** std::isspace in the "C" locale. */
  predicate IsSpace(c: char)
  {
    c == ' ' || c == '\t' || c == '\n' || c == '\r' || c as int == 11 || c as int == 12
  }

  /** Length of the run of non-space characters at the start of `s`. */
  function WordLength(s: string): (n: nat)
    ensures n <= |s|
    ensures forall i :: 0 <= i < n ==> !IsSpace(s[i])
    ensures n < |s| ==> IsSpace(s[n])
  {
    if s == [] || IsSpace(s[0]) then 0 else 1 + WordLength(s[1..])
  }

  /** The words successive `>> std::string` extractions read from `s`, in order. */
  function Words(s: string): (ws: seq<string>)
    ensures forall i :: 0 <= i < |ws| ==> ws[i] != [] && forall c :: c in ws[i] ==> !IsSpace(c)
    decreases |s|
  {
    if s == [] then []
    else if IsSpace(s[0]) then Words(s[1..])
    else
      var n := WordLength(s);
      assert forall c :: c in s[..n] ==> !IsSpace(c);
      [s[..n]] + Words(s[n..])
  }

  /**
   * The k-th word of `s`. An extraction that finds no word leaves its target
   * string as it was, which `unread` stands for.
   */
  function Word(s: string, k: nat, unread: string): (w: string)
    ensures k < |Words(s)| ==> w == Words(s)[k] && w != []
    ensures k >= |Words(s)| ==> w == unread
  {
    if k < |Words(s)| then Words(s)[k] else unread
  }

  /** std::replace(s.begin(), s.end(), from, to). */
  function Replace(s: string, from: char, to: char): (r: string)
    ensures |r| == |s|
    ensures forall i :: 0 <= i < |s| ==> r[i] == (if s[i] == from then to else s[i])
  {
    if s == [] then [] else [if s[0] == from then to else s[0]] + Replace(s[1..], from, to)
  }

  /** Index of the last occurrence of `c` in `s`, or -1. */
  function LastIndexOf(s: string, c: char): (i: int)
    ensures -1 <= i < |s|
    ensures i >= 0 ==> s[i] == c
    ensures forall j :: i < j < |s| ==> s[j] != c
  {
    if s == [] then -1
    else if s[|s| - 1] == c then |s| - 1
    else LastIndexOf(s[..|s| - 1], c)
  }

  /** path::filename: the text after the last '/'. */
  function FileName(p: string): (f: string)
    ensures '/' !in f
  {
    var i := LastIndexOf(p, '/');
    var f := p[i + 1..];
    assert forall j :: 0 <= j < |f| ==> f[j] != '/' by {
      forall j | 0 <= j < |f| ensures f[j] != '/' {
        assert f[j] == p[i + 1 + j];
      }
    }
    f
  }

  /**
   * path::parent_path: the text before the last '/', the root "/" itself when
   * that '/' is the first character, and "" when there is no '/'. A doubled
   * separator is not collapsed: "a//b" gives "a/" where std::filesystem
   * gives "a". The paths the loaders join never differ by it.
   */
  function ParentPath(p: string): (d: string)
    ensures |d| <= |p|
  {
    var i := LastIndexOf(p, '/');
    if i < 0 then "" else if i == 0 then "/" else p[..i]
  }

  /**
   * `dir / name`: an absolute `name` replaces `dir`; otherwise a '/' is put
   * between them unless `dir` is empty or already ends with one.
   */
  function JoinPath(dir: string, name: string): (r: string)
    ensures name != [] && name[0] == '/' ==> r == name
    ensures dir == [] ==> r == name
    ensures |r| >= |name|
  {
    if name != [] && name[0] == '/' then name
    else if dir == [] then name
    else if dir[|dir| - 1] == '/' then dir + name
    else dir + "/" + name
  }

  /**
   * path::extension: the file name from its last '.', or "" when the name has
   * no '.', starts with its only '.', or is "." or "..".
   */
  function Extension(p: string): (e: string)
    ensures e != [] ==> e[0] == '.' && '/' !in e
  {
    var f := FileName(p);
    var i := LastIndexOf(f, '.');
    if f == "." || f == ".." || i <= 0 then "" else f[i..]
  }

  function DigitChar(d: nat): char
    requires d < 10
  {
    "0123456789"[d]
  }

  /** std::to_string of a non-negative integer: its decimal digits. */
  function NatToString(n: nat): (s: string)
    ensures s != []
    ensures forall i :: 0 <= i < |s| ==> '0' <= s[i] <= '9'
  {
    if n < 10 then [DigitChar(n)] else NatToString(n / 10) + [DigitChar(n % 10)]
  }
}

=== FILE: transform.dfy ===
/**
 * The engine's quaternion-based Transform: a local pose with a lazily rebuilt
 * model-matrix cache, and a world pose that the scene graph pushes in.
 */
module Transforms {
  import opened Math

  class Transform {
    var position: Vec3
    var orientation: Quat
    var scale: Vec3
    var worldPosition: Vec3
    var worldOrientation: Quat
    var worldScale: Vec3
    /** Cache of the local model matrix; stale while `transformChanged` is set. */
    var modelMatrix: Mat4
    var worldMatrix: Mat4
    var transformChanged: bool

    /** The model matrix the local pose denotes: translation * rotation * scale. */
    function LocalMatrix(): Mat4
      reads this`position, this`orientation, this`scale
    {
      Trs(position, orientation, scale)
    }

    function LocalPose(): Pose
      reads this`position, this`orientation, this`scale
    {
      Pose(position, orientation, scale)
    }

    function WorldPose(): Pose
      reads this`worldPosition, this`worldOrientation, this`worldScale
    {
      Pose(worldPosition, worldOrientation, worldScale)
    }

    /** A clean cache holds the matrix of the current local pose. */
    ghost predicate Valid()
      reads this`modelMatrix, this`transformChanged, this`position, this`orientation, this`scale
    {
      !transformChanged ==> modelMatrix == LocalMatrix()
    }

    /** The world pose fields are the decomposition of the stored world matrix. */
    ghost predicate WorldConsistent(num: Numerics)
      reads this`worldMatrix, this`worldPosition, this`worldOrientation, this`worldScale
    {
      WorldPose() == num.decompose(worldMatrix)
    }

    constructor ()
      ensures LocalPose() == IdentityPose && WorldPose() == IdentityPose
      ensures modelMatrix == Identity && worldMatrix == Identity
      ensures transformChanged
      ensures Valid()
      ensures forall num: Numerics :: num.Valid() ==> WorldConsistent(num)
    {
      position := Zero;
      worldPosition := Zero;
      orientation := IdentityQuat;
      worldOrientation := IdentityQuat;
      scale := One;
      worldScale := One;
      modelMatrix := Identity;
      worldMatrix := Identity;
      transformChanged := true;
    }

    /** The local matrix, rebuilt from the pose only when the cache is stale. */
    method GetModelMatrix() returns (m: Mat4)
      requires Valid()
      modifies this`modelMatrix, this`transformChanged
      ensures m == LocalMatrix()
      ensures old(!transformChanged) ==> m == old(modelMatrix)
      ensures !transformChanged && modelMatrix == m
      ensures Valid()
    {
      if transformChanged {
        modelMatrix := Compose(Compose(Single(Translation(position)), Single(Rotation(orientation))), Single(Scaling(scale)));
        transformChanged := false;
      }
      m := modelMatrix;
    }

    method SetPosition(p: Vec3)
      modifies this`position, this`transformChanged
      ensures position == p && transformChanged
      ensures Valid()
    {
      position := p;
      transformChanged := true;
    }

    method Move(offset: Vec3)
      modifies this`position, this`transformChanged
      ensures position == Add(old(position), offset) && transformChanged
      ensures Valid()
    {
      position := Add(position, offset);
      transformChanged := true;
    }

    /** Sets the orientation from Euler angles in degrees. */
    method SetRotation(degrees: Vec3)
      modifies this`orientation, this`transformChanged
      ensures orientation == EulerQuat(degrees) && transformChanged
      ensures Valid()
    {
      orientation := EulerQuat(degrees);
      transformChanged := true;
    }

    /** Pre-multiplies the orientation by the rotation of the given Euler angles (degrees). */
    method Rotate(degrees: Vec3)
      modifies this`orientation, this`transformChanged
      ensures orientation == QuatProduct(EulerQuat(degrees), old(orientation)) && transformChanged
      ensures Valid()
    {
      orientation := QuatProduct(EulerQuat(degrees), orientation);
      transformChanged := true;
    }

    /** Turns the object to face `target` from its current position. */
    method LookAt(target: Vec3, up: Vec3, num: Numerics)
      modifies this`orientation, this`transformChanged
      ensures orientation == LookAtQuat(num.normalize(Sub(target, position)), up)
      ensures transformChanged && Valid()
    {
      orientation := LookAtQuat(num.normalize(Sub(target, position)), up);
      transformChanged := true;
    }

    method SetScale(s: Vec3)
      modifies this`scale, this`transformChanged
      ensures scale == s && transformChanged
      ensures Valid()
    {
      scale := s;
      transformChanged := true;
    }

    method Scale(factor: Vec3)
      modifies this`scale, this`transformChanged
      ensures scale == Mul(old(scale), factor) && transformChanged
      ensures Valid()
    {
      scale := Mul(scale, factor);
      transformChanged := true;
    }

    method SetOrientation(q: Quat)
      modifies this`orientation, this`transformChanged
      ensures orientation == Normalized(q) && transformChanged
      ensures Valid()
    {
      orientation := Normalized(q);
      transformChanged := true;
    }

    /**
     * The orientation of the frame built from `forward` and `up` as given:
     * columns forward × up, forward × right and -forward, each normalised.
     * Nothing makes the frame orthonormal or right-handed.
     */
    method SetOrientationFromAxes(forward: Vec3, up: Vec3)
      modifies this`orientation, this`transformChanged
      ensures orientation == BasisQuat(forward, up) && transformChanged
      ensures Valid()
    {
      orientation := BasisQuat(forward, up);
      transformChanged := true;
    }

    /**
     * Replaces the local pose by the decomposition of `m`, unless `m` equals the
     * cached model matrix. The comparison is made against the cache even when
     * the cache is stale.
     */
    method SetModelMatrix(m: Mat4, num: Numerics)
      modifies this`modelMatrix, this`position, this`orientation, this`scale, this`transformChanged
      ensures old(modelMatrix) == m ==> unchanged(this)
      ensures old(modelMatrix) != m ==>
        modelMatrix == m && LocalPose() == num.decompose(m) && transformChanged
      ensures old(Valid()) ==> Valid()
    {
      if modelMatrix == m {
        return;
      }
      modelMatrix := m;
      var pose := num.decompose(m);
      position, orientation, scale := pose.position, pose.orientation, pose.scale;
      transformChanged := true;
    }

    /**
     * SetModelMatrix with the early return taken only while the cache is
     * current, so that a stale cache can no longer swallow the update.
     */
    method SetModelMatrixChecked(m: Mat4, num: Numerics)
      requires Valid()
      modifies this`modelMatrix, this`position, this`orientation, this`scale, this`transformChanged
      ensures LocalMatrix() == m || LocalPose() == num.decompose(m)
      ensures Valid()
    {
      if !transformChanged && modelMatrix == m {
        return;
      }
      modelMatrix := m;
      var pose := num.decompose(m);
      position, orientation, scale := pose.position, pose.orientation, pose.scale;
      transformChanged := true;
    }

    /**
     * Stores the world matrix and its decomposition. The equality test only
     * saves work: when the world fields described the old matrix, whichever
     * branch runs they end up describing `m`.
     */
    method SetWorldMatrix(m: Mat4, num: Numerics)
      modifies this`worldMatrix, this`worldPosition, this`worldOrientation, this`worldScale
      ensures worldMatrix == m
      ensures old(worldMatrix) != m ==> WorldPose() == num.decompose(m)
      ensures old(worldMatrix) == m ==> WorldPose() == old(WorldPose())
      ensures old(WorldConsistent(num)) ==> WorldConsistent(num)
    {
      if worldMatrix == m {
        return;
      }
      worldMatrix := m;
      var pose := num.decompose(m);
      worldPosition, worldOrientation, worldScale := pose.position, pose.orientation, pose.scale;
    }

    /** World matrix = parent transforms * own model matrix. */
    method ApplyTransformations(transforms: Mat4, num: Numerics)
      requires Valid() && WorldConsistent(num)
      modifies this`modelMatrix, this`transformChanged
      modifies this`worldMatrix, this`worldPosition, this`worldOrientation, this`worldScale
      ensures worldMatrix == Compose(transforms, LocalMatrix())
      ensures WorldPose() == num.decompose(worldMatrix)
      ensures !transformChanged && Valid()
    {
      var local := GetModelMatrix();
      SetWorldMatrix(Compose(transforms, local), num);
    }

    function Forward(num: Numerics): Vec3 reads this`orientation { num.rotate(orientation, MinusZ) }
    function Right(num: Numerics): Vec3 reads this`orientation { num.rotate(orientation, UnitX) }
    function Up(num: Numerics): Vec3 reads this`orientation { num.rotate(orientation, UnitY) }
    function WorldForward(num: Numerics): Vec3 reads this`worldOrientation { num.rotate(worldOrientation, MinusZ) }
    function WorldRight(num: Numerics): Vec3 reads this`worldOrientation { num.rotate(worldOrientation, UnitX) }
    function WorldUp(num: Numerics): Vec3 reads this`worldOrientation { num.rotate(worldOrientation, UnitY) }
  }

  /**
   * A fresh transform is moved, then reset with SetModelMatrix(identity): the
   * cache still holds the identity from construction, so the reset is skipped
   * and the object keeps its offset.
   */
  method StaleCacheSwallowsReset(num: Numerics) returns (t: Transform, m: Mat4)
    requires num.Valid()
    ensures m == t.LocalMatrix() && m == Trs(UnitX, IdentityQuat, One)
    ensures !(t.LocalMatrix() == Identity || t.LocalPose() == num.decompose(Identity))
  {
    t := new Transform();
    t.SetPosition(UnitX);
    t.SetModelMatrix(Identity, num);
    m := t.GetModelMatrix();
  }

  /** The same sequence with the checked setter resets the pose. */
  method CheckedResetApplies(num: Numerics) returns (t: Transform, m: Mat4)
    requires num.Valid()
    ensures t.LocalPose() == IdentityPose
    ensures m == Trs(Zero, IdentityQuat, One)
  {
    t := new Transform();
    t.SetPosition(UnitX);
    t.SetModelMatrixChecked(Identity, num);
    m := t.GetModelMatrix();
  }
}

=== FILE: vehicle.dfy ===
/**
 * The car's physics controller: a chassis body and a ray-cast vehicle with
 * four wheels, driven by engine force, steering and brakes, and re-synced
 * from the physics world once per frame.
 *
 * The physics library is abstracted: a wheel is the record of the settings the
 * controller writes, the chassis is its pose and velocities, and the result of
 * a simulation step is a parameter of Update.
 */
module Vehicles {
  import opened Math

  /** VehicleParameters and their member initialisers. */
  datatype VehicleParameters = VehicleParameters(
    mass: real,
    wheelRadius: real,
    suspensionRestLength: real,
    suspensionStiffness: real,
    suspensionDamping: real,
    suspensionCompression: real,
    friction: real,
    rollInfluence: real)

  const DefaultParameters: VehicleParameters := VehicleParameters(1000.0, 0.5, 0.6, 20.0, 2.3, 4.4, 10.0, 0.1)

  /** The wheel tuning the physics library fills in when a wheel is added (btVehicleTuning). */
  datatype Tuning = Tuning(suspensionStiffness: real, dampingRelaxation: real, dampingCompression: real,
    frictionSlip: real, rollInfluence: real)

  /** One wheel: where it is attached, whether it is a front wheel, its tuning and the inputs written to it. */
  datatype Wheel = Wheel(
    connection: Vec3,
    direction: Vec3,
    axle: Vec3,
    restLength: real,
    radius: real,
    isFront: bool,
    tuning: Tuning,
    engineForce: real,
    brake: real,
    steering: real)

  /** The chassis body's state: world origin, rotation, velocities and whether it is awake. */
  datatype Chassis = Chassis(origin: Vec3, rotation: Quat, linearVelocity: Vec3, angularVelocity: Vec3, active: bool)

  const WheelCount: nat := 4
  /** Wheel suspension direction and axle in chassis space. */
  const WheelDirection: Vec3 := Vec3(0.0, -1.0, 0.0)
  const WheelAxle: Vec3 := Vec3(-1.0, 0.0, 0.0)
  /** The height Flip lifts the car by. */
  const FlipLift: real := 2.0

  /** Where the four wheels attach, in the order they are added: front left and right, then rear. */
  function Connection(i: nat): Vec3
    requires i < WheelCount
  {
    [Vec3(1.0, 0.0, 1.5), Vec3(-1.0, 0.0, 1.5), Vec3(1.0, 0.0, -1.5), Vec3(-1.0, 0.0, -1.5)][i]
  }

  /** The tuning the constructor's loop writes to every wheel. */
  function TuningOf(p: VehicleParameters): Tuning
  {
    Tuning(p.suspensionStiffness, p.suspensionDamping, p.suspensionCompression, p.friction, p.rollInfluence)
  }

  /** A wheel as addWheel creates it, with the library's default tuning and no inputs. */
  function NewWheel(i: nat, p: VehicleParameters, defaults: Tuning): Wheel
    requires i < WheelCount
  {
    Wheel(Connection(i), WheelDirection, WheelAxle, p.suspensionRestLength, p.wheelRadius, i < 2, defaults, 0.0, 0.0, 0.0)
  }

  /** Four wheels as the constructor leaves them: the first two front, all with the parameters' tuning. */
  ghost predicate WheelsSetUp(wheels: seq<Wheel>, p: VehicleParameters)
  {
    |wheels| == WheelCount &&
    forall i :: 0 <= i < WheelCount ==>
      wheels[i].connection == Connection(i) && wheels[i].isFront == (i < 2) &&
      wheels[i].restLength == p.suspensionRestLength && wheels[i].radius == p.wheelRadius &&
      wheels[i].tuning == TuningOf(p)
  }

  /** The first two wheels are the front ones, attached ahead of the rear pair. */
  lemma FrontWheelsFirst(wheels: seq<Wheel>, p: VehicleParameters)
    requires WheelsSetUp(wheels, p)
    ensures forall i :: 0 <= i < |wheels| ==> (wheels[i].isFront <==> i == 0 || i == 1)
    ensures wheels[0].connection.z > 0.0 && wheels[3].connection.z < 0.0
  {
  }

  class VehicleController {
    var params: VehicleParameters
    var wheels: seq<Wheel>
    var chassis: Chassis
    var position: Vec3
    var rotation: Vec3

    /**
     * The chassis at rest at `startPosition`; four wheels added in order and
     * then tuned in a loop. The glm vectors for the synced pose are not
     * initialised: `unset` stands for what they hold until the first Update.
     */
    constructor (startPosition: Vec3, p: VehicleParameters, defaults: Tuning, unset: Vec3)
      ensures params == p
      ensures chassis == Chassis(startPosition, IdentityQuat, Zero, Zero, true)
      ensures WheelsSetUp(wheels, p)
      ensures forall i :: 0 <= i < |wheels| ==> wheels[i].engineForce == 0.0 && wheels[i].brake == 0.0 && wheels[i].steering == 0.0
      ensures position == unset && rotation == unset
    {
      params := p;
      chassis := Chassis(startPosition, IdentityQuat, Zero, Zero, true);
      position, rotation := unset, unset;
      var ws := [NewWheel(0, p, defaults), NewWheel(1, p, defaults), NewWheel(2, p, defaults), NewWheel(3, p, defaults)];
      for i := 0 to |ws|
        invariant |ws| == WheelCount
        invariant forall j :: 0 <= j < WheelCount ==>
          ws[j] == NewWheel(j, p, if j < i then TuningOf(p) else defaults)
      {
        ws := ws[i := ws[i].(tuning := TuningOf(p))];
      }
      wheels := ws;
    }

    /** The same engine force on all four wheels. */
    method ApplyEngineForce(force: real)
      requires |wheels| == WheelCount
      modifies this`wheels
      ensures |wheels| == WheelCount
      ensures forall i :: 0 <= i < WheelCount ==> wheels[i] == old(wheels[i]).(engineForce := force)
    {
      for i := 0 to WheelCount
        invariant |wheels| == WheelCount
        invariant forall j :: 0 <= j < WheelCount ==>
          wheels[j] == if j < i then old(wheels[j]).(engineForce := force) else old(wheels[j])
      {
        wheels := wheels[i := wheels[i].(engineForce := force)];
      }
    }

    /** The steering angle on wheels 0 and 1; the rear wheels are untouched. */
    method Steer(angle: real)
      requires |wheels| == WheelCount
      modifies this`wheels
      ensures |wheels| == WheelCount
      ensures wheels[0] == old(wheels[0]).(steering := angle) && wheels[1] == old(wheels[1]).(steering := angle)
      ensures wheels[2] == old(wheels[2]) && wheels[3] == old(wheels[3])
    {
      wheels := wheels[0 := wheels[0].(steering := angle)];
      wheels := wheels[1 := wheels[1].(steering := angle)];
    }

    /** The same brake force on all four wheels. */
    method Brake(force: real)
      requires |wheels| == WheelCount
      modifies this`wheels
      ensures |wheels| == WheelCount
      ensures forall i :: 0 <= i < WheelCount ==> wheels[i] == old(wheels[i]).(brake := force)
    {
      for i := 0 to WheelCount
        invariant |wheels| == WheelCount
        invariant forall j :: 0 <= j < WheelCount ==>
          wheels[j] == if j < i then old(wheels[j]).(brake := force) else old(wheels[j])
      {
        wheels := wheels[i := wheels[i].(brake := force)];
      }
    }

    /**
     * After the simulation step, the synced position is the chassis origin;
     * `stepped` is the chassis after updateVehicle and `euler` the Euler angles
     * derived from its rotation.
     */
    method Update(stepped: Chassis, euler: Vec3)
      modifies this`chassis, this`position, this`rotation
      ensures chassis == stepped && position == stepped.origin && rotation == euler
    {
      chassis := stepped;
      position := Vec3(chassis.origin.x, chassis.origin.y, chassis.origin.z);
      rotation := euler;
    }

    /** The chassis velocity. */
    method GetVehicleVelocity() returns (v: Vec3)
      ensures v == chassis.linearVelocity
    {
      v := chassis.linearVelocity;
    }

    method GetPosition() returns (p: Vec3)
      ensures p == position
    {
      p := position;
    }

    method GetRotation() returns (r: Vec3)
      ensures r == rotation
    {
      r := rotation;
    }

    /**
     * Puts the car back on its wheels: FlipLift above the last synced position,
     * upright, at rest and awake. The wheels are not touched.
     */
    method Flip()
      modifies this`chassis
      ensures chassis == Chassis(Vec3(position.x, position.y + FlipLift, position.z), IdentityQuat, Zero, Zero, true)
    {
      var origin := Vec3(position.x, position.y + 2.0, position.z);
      chassis := chassis.(origin := origin, rotation := IdentityQuat);
      chassis := chassis.(linearVelocity := Zero);
      chassis := chassis.(angularVelocity := Zero);
      chassis := chassis.(active := true);
    }
  }
}

=== FILE: wrappers.dfy ===
/** Optional values and results with an error, for the engine's null returns and exceptions. */
module Wrappers {

  datatype Option<T> = None | Some(value: T)

  datatype Result<T, E> = Ok(value: T) | Failure(error: E)
}
